=== FILE: README.md ===
# Karken-KMB compiler core in Dafny

This project models the core of Karken: KMB, a Keras model builder. A scene is saved as an XML dataflow
document, and a compiler turns that document into a Python class definition that builds a Keras model.
Two compilers are modelled: the newer one in `lib/parser/pyparser.py`, and the older one in `parser/pyparser.py`.
They differ in the `Variant` parameter: `Legacy` for the older compiler, and `Current(declared)` for the
newer one, where `declared` lists the error classes the errors module defines. `AsWritten` is the newer
compiler against lib/parser/errors.py as it stands, which declares only four classes. `Repaired` is the same
compiler against a completed module that declares every class the compiler names. Everything around them is modelled as pure
functions over immutable data:

- the saver that writes documents (both versions);
- the diagnostics module;
- the auto-inspector that normalises argument values;
- the id-range parser and the type/colour table;
- the node counter;
- the pin-argument parser;
- the model I/O and reference semaphores of the editor;
- the edge rules, node removal and edge folding of the editor scene.

Layout, one module per component:

- `wrappers.dfy`: `Option` and `Result`.
- `pystr.dfy`: the Python string operations the source relies on (`split`, `join`, `strip`, `capitalize`,
  `lower`, `repr`, `in` on strings, decimal `int()`/`str()`).
- `document.dfy`: the document as a named sequence of tagged entities (`layer`, `model`, `unit`, `ph`,
  `note`). The XPath lookup by id is a first-match search. `PyValue` is what `get_node_value_in_elm`
  returns: `None`, a `str` or a `list`.
- `errors.dfy`: diagnostics, the Python runtime errors that escape the compiler, and the error classes.
- `joins.dfy`: the join registry (`PlaceHolder`, `PlaceHolderHub`).
- `pylines.dfy`: the statement builder `PyLines`.
- `compiler.dfy`: the walker and argument renderer for both variants, plus `commit`.
- `compiler_props.dfy`: properties that span several steps, and a worked three-element document.
- `assembler.dfy`: `PyHandler` for both variants.
- `saver.dfy`: `Saver` for both variants.
- `auto.dfy`, `utils.dfy`, `counter.dfy`, `pins.dfy`, `omap.dfy` + `semaphores.dfy`, `scene.dfy`: the
  editor-side helpers.

The walker threads a `Walk` record through every step. It holds:

- the statements and their `cls:var` keys;
- the join hub;
- the placeholder names;
- the source modules;
- the returned models.

Fatal diagnostics are `Fatal(...)`. A raise site looks up its class name before it evaluates anything
else, so raising a class the errors module does not declare is a `NameError` (`Errors.Raise`,
`Errors.Build`). Python exceptions the source does not catch are `Crash(...)`, for
example `IndexError` on a missing element, `TypeError` on `None` and `RecursionError`. The recursion of the
source has no cycle guard, so the model bounds it with a `depth` parameter, and running out of depth is a
`RecursionError`.

Where the documentation and the code disagree, the model follows the code:

- The newer compiler is modelled against lib/parser/errors.py as written. Four of its raise sites name
  classes that module never declares, and each of them ends in a `NameError`:
  - a `!REQ` argument (lib/parser/pyparser.py:340, `Compiler.GetArgsAsWritten`);
  - a dangling output id (lib/parser/pyparser.py:397, `Compiler.Dangling`);
  - every warning `commit` builds (lib/parser/pyparser.py:253 and 255, `Compiler.CommitAsWritten`);
  - the covered-file warning of `export` (lib/parser/pyparser.py:717, `Assembler.ExportOverExisting`).

  The `Repaired` variant runs the same code against the completed module, and the Findings table pairs
  the two.

- A model node is registered on its first arrival and checked only on later arrivals
  (lib/parser/pyparser.py:456-476). So a model whose inputs and outputs are both satisfied by a single
  arrival is never released. Against the completed module `commit` then reports it as unreleased
  (`CompilerExamples.ChainCompilesRepaired`). As written, building that warning is a `NameError`
  (`CompilerExamples.ChainCompiles`).
- A layer saved without outputs carries the literal text `null`. Following it raises the missing
  connection error, which as written is a `NameError`. It is not the end of the walk
  (`CompilerProps.NullOutputIsMissingConnection`).
- The sequence inspector's docstring says `12;2;3` gives `(12, 12)`. The code gives `(12, 12, 3)`
  (`Auto.InspectSequenceTwoCounts`). It also says `12.34` gives `(12.34,)`, but the code gives `(12.34, )`
  (`Auto.InspectSequenceSingle`).
- `cur_id in nxt_ipt` is a substring test when the input text is a single id. The model keeps this
  (`Doc.PyInSubstringQuirk`).

## Model

| member | source | states |
|---|---|---|
| Doc.Lookup | lib/parser/pyparser.py:266-275 | the lookup by id returns the first element carrying that id, and nothing exactly when no element carries it |
| Doc.FindFrom | lib/parser/pyparser.py:266-275 | searching from a position before which no element has the id finds the first element with it, and nothing exactly when none has it |
| Doc.Entrances | lib/parser/pyparser.py:231-232 | the entrances are exactly the elements marked `head`, in document order; only a layer can carry the mark in this model (see Left out) |
| Doc.ModelElements | lib/parser/pyparser.py:233 | the endpoints are exactly the `model` elements |
| Doc.LayerElements | lib/parser/pyparser.py:248 | `commit` visits exactly the `layer` elements first |
| Doc.NodeValue | lib/parser/pyparser.py:289-304 | a missing text gives `None`; a text holding `;` gives its pieces; otherwise the text itself, or `[text]` when raw |
| Doc.PyInSubstringQuirk | lib/parser/pyparser.py:418 | the id `1` is found in the single input text `12`, but not in the list `['12']` |
| Doc.Iterate | lib/parser/pyparser.py:390-391 | iterating a `str` visits its characters, iterating a list visits its items, and iterating `None` fails |
| Errors.Message | lib/parser/errors.py:20-36 | the input, model and required-argument errors print a text starting `Failure: `; the required-argument error prints `Failure: Missing required argument - ('detail',)`, the tuple of its one argument |
| Errors.RequiredArgumentText | lib/parser/errors.py:33-36 | the text starts `Failure: `, and a plain detail shows as the one-element tuple `('detail',)` |
| Errors.RaiseByName | lib/parser/pyparser.py:7 | raising a name succeeds exactly when the errors module declares a class of that name; any other name is a `NameError` |
| Errors.DeclaredNameRaises | lib/parser/errors.py:6-36 | every declared class can be raised by its name |
| Errors.RequiredArgumentEscapesAsWritten | lib/parser/pyparser.py:340-342 | the required-argument check raises a name the errors module does not declare, so the export thread's handler does not catch it |
| Errors.ConnectionEscapesAsWritten | lib/parser/pyparser.py:397 | the missing-connection error escapes the export thread's handler for the same reason |
| Errors.WarningClassesUnboundAsWritten | lib/parser/pyparser.py:253-255 | none of the three warning classes the compiler builds is declared |
| Errors.ClassOf | lib/parser/errors.py:6-36 | in the completed module every diagnostic's class derives from `PyParsingError` and is caught by the export thread; the required-argument class is caught even as written |
| Errors.WarningClassOf | lib/parser/pyparser.py:253-255 | in the completed module every warning class can be built |
| Errors.Raise | lib/parser/pyparser.py:7 | a raise site raises its diagnostic exactly when the module declares its class; otherwise the name lookup fails first with a `NameError` naming that class |
| Errors.Build | lib/parser/pyparser.py:253-255 | building a warning gives that warning exactly when its class is declared, and otherwise a `NameError` naming the class |
| Errors.RaiseResolves | lib/parser/pyparser.py:7 | whatever is raised or built has a name that resolves in the module |
| Errors.RaiseAsWritten | lib/parser/errors.py:6-36 | as written, only the input and model errors are raised; the required-argument and connection errors become `NameError`s, as name resolution confirms |
| Errors.RaiseCorrected | lib/parser/errors.py:6-36 | in the completed module every diagnostic is raised |
| Errors.BuildAsWritten | lib/parser/pyparser.py:253-255 | as written, building any warning is a `NameError` |
| Errors.BuildCorrected | lib/parser/pyparser.py:253-255 | in the completed module every warning is built as itself |
| Joins.Fresh | lib/parser/pyparser.py:69-76 | a new placeholder keeps its destination and kind and starts with empty gained lists |
| Joins.CmpCntAsWritten | lib/parser/pyparser.py:94-99 | as written, `cmp_cnt` holds exactly when the lengths agree; it fails on `None` |
| Joins.CmpCnt | lib/parser/pyparser.py:78-83 | the intended content comparison holds exactly when the lengths agree and every gained id is expected |
| Joins.CmpCntLengths | lib/parser/pyparser.py:96-99 | lists of different lengths never match, under either reading |
| Joins.CmpCntPermutation | parser/pyparser.py:47-52 | any permutation of the expected list matches, under either reading |
| Joins.CmpCntIgnoresContentAsWritten | lib/parser/pyparser.py:97-98 | as written, `['x']` matches `['y']`; the content comparison rejects it |
| Joins.CmpCntRepeatStandsIn | lib/parser/pyparser.py:94-99 | a repeated arrival can stand in for a missing one, because only content is compared |
| Joins.Gain | lib/parser/pyparser.py:85-91 | `gain` appends the source only to the gained lists whose expected list contains it; a `None` expected list fails |
| Joins.Check | lib/parser/pyparser.py:119-135 | a node is ready when its inputs match; a model is ready only when both its inputs and outputs match |
| Joins.GainKeepsWellGained | lib/parser/pyparser.py:85-91 | `gain` keeps every gained id one the placeholder expects |
| Joins.CheckAgreesWithAsWritten | lib/parser/pyparser.py:94-135 | on a well-gained placeholder, the faulty `cmp_cnt` and the content comparison make the same release decision |
| Joins.ArriveKeepsWellGained | lib/parser/pyparser.py:85-135 | an arrival keeps every placeholder in the hub well gained, and on such a hub its release decision is the one `cmp_cnt` as written makes |
| Joins.Arrive | lib/parser/pyparser.py:429-448 | a known destination gains the source and is checked; an unknown one is set up, gains the source, is stored, and is never released on that arrival; a well-gained hub stays well gained |
| Joins.FirstArrivalNeverReleases | lib/parser/pyparser.py:440-448 | the first arrival at a node only registers it |
| Joins.TwoInputJoin | lib/parser/pyparser.py:429-448 | a node expecting two distinct ids is released exactly by the second arrival |
| Statements.RenderAssigns | lib/parser/pyparser.py:195-197 | a statement with a variable opens with its assignment |
| Statements.RenderCalls | lib/parser/pyparser.py:202-203 | a statement with a call ends with it in parentheses |
| Statements.RenderOmitsFalsy | parser/pyparser.py:141-153 | falsy parts contribute nothing, and all-falsy parts give the empty statement |
| Statements.Add | lib/parser/pyparser.py:192-205 | `add` appends exactly one statement, keeps every earlier one, and records the `cls:var` key |
| Statements.AddRecords | lib/parser/pyparser.py:205-210 | the added key is found afterwards, and no recorded key is lost |
| Statements.RenderEntrance | lib/parser/pyparser.py:380-383 | an entrance renders as `x = layers.Input(shape=(4,))`, with no call part |
| Statements.RenderBareClass | lib/parser/pyparser.py:559-560 | a node without a variable still gets its class called |
| Compiler.ExtendsChain | lib/parser/pyparser.py:222-229 | growth of the walk state composes |
| Compiler.RenderChain | lib/parser/pyparser.py:478-536 | argument rendering never touches the join hub or the returned models, across any number of steps |
| Compiler.Find | lib/parser/pyparser.py:319 | `[0]` on an empty lookup is an `IndexError`; otherwise it is the first match |
| Compiler.Texts | lib/parser/pyparser.py:332 | the text list holds only non-empty texts; with every text present it is all of them in order |
| Compiler.Aligned | lib/parser/pyparser.py:331-335 | `zip` of names, classes and texts is as long as the text list and pairs the i-th text with the i-th name |
| Compiler.AlignedWhenAllTexts | lib/parser/pyparser.py:335 | when every argument has text, the zip is the arguments themselves |
| Compiler.Get | lib/parser/pyparser.py:473-474 | a dictionary lookup finds a key exactly when it is present |
| Compiler.Put | lib/parser/pyparser.py:345-346 | assignment to a new key appends it last; to an existing key it replaces the value in place; keys stay unique |
| Compiler.PutExisting | lib/parser/pyparser.py:345-346 | replacing the value of a present key keeps the keys unique and unchanged |
| Compiler.PutNew | lib/parser/pyparser.py:345-346 | appending a new key keeps the keys unique and adds it |
| Compiler.GetUnique | lib/parser/pyparser.py:494 | with unique keys, the lookup of each entry's key returns that entry |
| Compiler.Items | lib/parser/pyparser.py:345-346 | an argument's values are the `;`-pieces of its text, each tagged with its class |
| Compiler.RequiredDetail | lib/parser/pyparser.py:338-342 | the required-argument text is `cls: var - name(c)`; reading a missing class or variable fails first |
| Compiler.ArgFold | lib/parser/pyparser.py:335-346 | the newer variant fails exactly when some text is `!REQ`; otherwise the keys are exactly the argument names |
| Compiler.FirstRequiredAt | lib/parser/pyparser.py:335-337 | finds the first `!REQ` text, and finds none exactly when there is none |
| Compiler.ArgFoldFirstRequired | lib/parser/pyparser.py:337-342 | the error is what raising the first `!REQ` argument's description through the errors module gives, before anything is rendered |
| Compiler.NamesFromStep | lib/parser/pyparser.py:335 | the names of a tail are its head's name plus the names of the rest |
| Compiler.GetArgs | lib/parser/pyparser.py:328-348 | the newer variant stops on any `!REQ`, raising through the errors module the first such argument's description; the older variant (parser/pyparser.py:237-249) passes every text through; the keys are the argument names |
| Compiler.ArgFoldModules | lib/parser/pyparser.py:335-346 | when the fold succeeds under one errors module it reads the same dictionary under any other |
| Compiler.GetArgsModules | lib/parser/pyparser.py:328-348 | the errors module changes neither whether the arguments read nor what they read as |
| Compiler.GetArgsRaises | lib/parser/pyparser.py:337-342 | a `!REQ` argument is a `NameError` when the module lacks the raised class, and the required-argument diagnostic when it has it |
| Compiler.GetArgsAsWritten | lib/parser/pyparser.py:337-342 | as written, a `!REQ` argument ends in `NameError` for `PyMissingRequiredArgumentError`; against the completed module it is the required-argument diagnostic |
| Compiler.SrcHandler | lib/parser/pyparser.py:526-536 | the source module is returned and joins the source set |
| Compiler.VarValues | lib/parser/pyparser.py:318-321 | succeeds exactly when every id names an element, giving their variables in id order |
| Compiler.Bracketed | lib/parser/pyparser.py:325 | several values render as `[a, b, ...]`; joining a non-string fails |
| Compiler.VarsById | lib/parser/pyparser.py:314-325 | one id gives its variable alone; several give the bracketed list of variables in id order; `None` fails |
| Compiler.VarsByIdDeclaredOrder | lib/parser/pyparser.py:421-426 | a released multi-input node's call lists its predecessors' variables in declared order, whatever the arrival order |
| Compiler.Inline | lib/parser/pyparser.py:557-563 | without a variable an element is inlined as `src.cls(args)`; with one, a statement binding it is added and the variable is the value |
| Compiler.EntryText | lib/parser/pyparser.py:495-500 | a single value renders `k=v`; several render `k=[v1, v2]`; joining a non-string fails |
| Compiler.RenderItem | lib/parser/pyparser.py:503-524 | `str` values are quoted and other literals pass through; a `ph` id renders `self.name` and records the name; an IO/AC layer renders its variable (IO only in parser/pyparser.py:473-487); a model, a note, a layer of any other mode, or an AC layer in the older variant contributes nothing; a missing id fails |
| Compiler.Reference | lib/parser/pyparser.py:565-568 | a referenced CA layer or unit contributes exactly one value, and exhausted depth is a `RecursionError` |
| Compiler.TypeLoop | lib/parser/pyparser.py:503-524 | the rendered values of one argument keep their order, one value at most per item |
| Compiler.RenderArgs | lib/parser/pyparser.py:493-501 | the rendered entries are joined with `, ` and rendering never touches the hub |
| Compiler.GvMvCv | lib/parser/pyparser.py:542-563 | the source is recorded; with a variable its statement is added and the variable returned; without one the value is the inlined `src.cls(...)` |
| Compiler.ArgsOfElement | lib/parser/pyparser.py:478-491 | an element without arguments renders empty in the newer variant and fails in the older one (parser/pyparser.py:384-385); a `!REQ` error propagates |
| Compiler.ModelInitial | lib/parser/pyparser.py:469-474 | a model's placeholder exists exactly when it has both `inputs` and `outputs` arguments |
| Compiler.ModelHandler | lib/parser/pyparser.py:450-476 | the first arrival only registers the model; a model is returned exactly when a later arrival makes its gained lists content-match |
| Compiler.ReleaseModel | lib/parser/pyparser.py:461-467 | a released model adds its statement and appends its variable to the returned models |
| Compiler.NodeHandler | lib/parser/pyparser.py:429-448 | a multi-input arrival is a join arrival with the node's own expected lists, never releases on the first arrival, keeps a well-gained hub so, and then releases exactly as `cmp_cnt` as written would |
| Compiler.Dangling | lib/parser/pyparser.py:392-397 | a dangling output id raises the missing-connection error with the referring node's class and variable: a `NameError` as written, the diagnostic against the completed module; the older variant fails on the index (parser/pyparser.py:293) |
| Compiler.Descend | lib/parser/pyparser.py:416 | the recursive walk only grows the state, and exhausted depth is a `RecursionError` |
| Compiler.Follow | lib/parser/pyparser.py:392-404 | a missing element is a dangling connection; a `Model` goes to the model join; anything else advances |
| Compiler.Advance | lib/parser/pyparser.py:405-418 | a node's arguments and source are rendered on every arrival; an exact input match takes the single-input path, otherwise the join |
| Compiler.Single | lib/parser/pyparser.py:410-416 | a single-input node is emitted at once with the current variable as its call |
| Compiler.MultiInput | lib/parser/pyparser.py:418-427 | a node not containing the current id is left alone; a released node is emitted with its declared inputs' variables as the call |
| Compiler.ClueLoop | lib/parser/pyparser.py:391 | the output ids are followed in order, and the first failure stops the loop |
| Compiler.Clue | lib/parser/pyparser.py:386-391 | an element without outputs fails because `None` is not iterable; a single output id is followed alone |
| Compiler.LineHandler | lib/parser/pyparser.py:370-384 | walking from an entrance only grows the state; the first statement it adds is the entrance's own, `var = src.cls(args)` with no call |
| Compiler.Heads | lib/parser/pyparser.py:242-244 | every entrance is walked in document order, each adding at least one statement |
| Compiler.NodeKey | lib/parser/pyparser.py:249-250 | the warning key is `class:var`, and reading a missing class or variable fails |
| Compiler.Unused | lib/parser/pyparser.py:248-255 | the loop succeeds exactly when every element has a key and every warning it builds has a declared class; at most one warning per element; the warnings are exactly the flags of the keys never added |
| Compiler.UnusedConcat | lib/parser/pyparser.py:248-255 | over a concatenation the loop gives the first part's warnings followed by the second's, so warnings come in document order |
| Compiler.UnusedSingle | lib/parser/pyparser.py:250-255 | over one element the loop is that element's body: nothing for a used key, its one warning otherwise |
| Compiler.UnusedRepeatedKey | lib/parser/pyparser.py:248-255 | two elements sharing an unused key give two warnings, one per element |
| Compiler.UnusedAsWritten | lib/parser/pyparser.py:248-255 | as written the loop succeeds exactly when the completed loop finds nothing, and otherwise fails with the `NameError` of the first warning it would report |
| Compiler.Commit | lib/parser/pyparser.py:246-260 | unused layers come first, then unreleased models, each one flagging a key never added |
| Compiler.CommitAsWritten | lib/parser/pyparser.py:246-260 | as written `commit` succeeds exactly when the completed `commit` reports nothing, and otherwise fails with the `NameError` of its first warning |
| Compiler.Construct | lib/parser/pyparser.py:220-244 | constructing the parser: no entrance raises MissingInput even when models are missing too; otherwise no model raises MissingModel; the older variant fails first on a document without a `name` attribute (parser/pyparser.py:171); a constructed parser holds at least one statement per entrance and is the walk of its entrances |
| Compiler.Committed | lib/parser/pyparser.py:246-260 | the newer `commit()` hands over the walk's lines, placeholders, sources and returned models with `commit`'s warnings, and fails exactly when building a warning fails |
| Compiler.Compile | lib/parser/pyparser.py:231-260 | construction followed at once by `commit`: the refusals of construction, the older variant taking an empty `name` as the title and never warning, at least one statement per entrance, and the warnings `commit` gives |
| Compiler.CompileRefusals | lib/parser/pyparser.py:235-239 | both errors modules declare the input and model classes, so the refusals are the diagnostics either way |
| Compiler.CompileAsWrittenSilent | lib/parser/pyparser.py:246-260 | as written, a compilation that succeeds carries no warning |
| Compiler.HeadsKeepWellGained | lib/parser/pyparser.py:242-244 | walking every entrance from the start leaves only well-gained placeholders in the hub |
| CompilerProps.CompileCurrentOk | lib/parser/pyparser.py:231-260 | with entrances and models present, when walking every entrance and committing succeed, the newer compiler returns exactly the walked statements, placeholders, sources and returned models, and the commit's warnings |
| CompilerProps.CompileCurrentFails | lib/parser/pyparser.py:231-260 | a walk that succeeds followed by a failing `commit` makes the compilation fail with that error |
| CompilerProps.NullOutputIsMissingConnection | lib/parser/pyparser.py:390-397 | an output text `null` naming no element raises the missing connection with the layer's class and variable: a `NameError` as written, the diagnostic against the completed module |
| CompilerProps.DanglingStopsWalk | lib/parser/pyparser.py:391-397 | any dangling output id stops the walk with that error, whatever follows it |
| CompilerProps.PlainArguments | lib/parser/pyparser.py:328-348 | plain, distinctly named arguments read as one single-valued entry each, in document order |
| CompilerProps.LiteralArgs | lib/parser/pyparser.py:493-501 | single-valued literal arguments render as `k=v` (quoted for `str`), joined by `, `, with the walk untouched |
| CompilerProps.SingleLiteralArgs | lib/parser/pyparser.py:496-497 | one unquoted literal argument renders as the bare `key=value` |
| CompilerProps.LiteralEntryRenders | lib/parser/pyparser.py:507-522 | a literal entry renders as its `k=v` text |
| CompilerProps.SourceKnown | lib/parser/pyparser.py:535 | recording a source already recorded leaves the walk unchanged |
| CompilerProps.AdvanceSingleKnown | lib/parser/pyparser.py:405-416 | a single-input node whose arguments leave the walk alone and whose module is known goes straight to the emitting step |
| CompilerExamples.RequiredArgumentReported | lib/parser/pyparser.py:337-342 | against the completed module, a `units` argument left `!REQ` stops the newer compiler with `Dense: y - units(num)` |
| CompilerExamples.RequiredArgumentEscapes | lib/parser/pyparser.py:337-342 | as written, the same argument ends in a `NameError` for `PyMissingRequiredArgumentError` |
| CompilerExamples.RequiredArgumentPassedLegacy | parser/pyparser.py:237-249 | the older compiler passes `!REQ` through as the value |
| CompilerExamples.ChainSelections | lib/parser/pyparser.py:231-233 | in the worked document the Input layer is the only entrance and the Model the only endpoint |
| CompilerExamples.ChainArgs2 | lib/parser/pyparser.py:328-348 | the Dense layer's arguments read as `{units: [('32', 'num')]}` |
| CompilerExamples.ChainRenderArgs2 | lib/parser/pyparser.py:493-501 | the Dense layer's arguments render as `units=32` |
| CompilerExamples.ChainHeads | lib/parser/pyparser.py:242-244 | walking the worked document's entrances gives the two statements and registers the model |
| CompilerExamples.ChainConstructs | lib/parser/pyparser.py:220-244 | constructing the parser on the worked document succeeds under either errors module |
| CompilerExamples.ChainStatements | lib/parser/pyparser.py:192-205 | the worked document yields `x = layers.Input(shape=(4,))` then `y = layers.Dense(units=32)(x)`, recording the keys `Input:x` and `Dense:y` |
| CompilerExamples.ChainLayersUsed | lib/parser/pyparser.py:248-255 | both layers of the worked document were added, so their loop builds nothing under any errors module |
| CompilerExamples.ChainModelUnreleased | lib/parser/pyparser.py:248-255 | the model was never added: its loop gives the unreleased warning when the class is declared, and a `NameError` otherwise |
| CompilerExamples.ChainCommitModels | lib/parser/pyparser.py:246-260 | under any errors module, `commit` on the worked document comes down to its model |
| CompilerExamples.ChainCommit | lib/parser/pyparser.py:246-260 | as written, `commit` on the worked document fails building the `PyUnreleasedModelWarning` |
| CompilerExamples.ChainCommitRepaired | lib/parser/pyparser.py:246-260 | against the completed module, both layers were used, so the only warning is the unreleased model `Model:m` |
| CompilerExamples.ChainModelArrival | lib/parser/pyparser.py:468-476 | a dense layer that is a model's output only registers the model and emits nothing |
| CompilerExamples.ChainDenseStep | lib/parser/pyparser.py:410-416 | the dense layer reached from the entrance is emitted as `y = layers.Dense(units=32)(x)` |
| CompilerExamples.ChainCompiles | lib/parser/pyparser.py:231-260 | as written, compiling the Input→Dense→Model document ends in a `NameError` for `PyUnreleasedModelWarning` |
| CompilerExamples.ChainCompilesRepaired | lib/parser/pyparser.py:231-260 | against the completed module the same document compiles to two statements, returns no model, and warns that the model was never released |
| Assembler.Indent | lib/parser/pyparser.py:626-627 | `tab(w)` is exactly `4*w` spaces |
| Assembler.WordChars | lib/parser/pyparser.py:722-723 | keeps only word characters, and keeps a word-only text whole |
| Assembler.CheckTitle | lib/parser/pyparser.py:720-729 | the result is word characters of the capitalised title, prefixed `_` when it starts with a digit, `Model` when empty; it is always a valid class name |
| Assembler.CheckTitleKeepsValid | lib/parser/pyparser.py:720-729 | an already valid, capitalised class name is kept |
| Assembler.CheckTitleDropsOthers | lib/parser/pyparser.py:722-723 | `my net` becomes `Mynet` |
| Assembler.CheckTitleGuardsDigit | lib/parser/pyparser.py:725-726 | `2nd` becomes `_2nd` |
| Assembler.CheckTitleFallback | lib/parser/pyparser.py:728-729 | the title `!?`, which has no word characters, becomes `Model` |
| Assembler.NonEmptyConcat | lib/parser/pyparser.py:675-676 | dropping empty clips distributes over concatenation |
| Assembler.WrapKeepsWords | lib/parser/pyparser.py:673-688 | greedy wrapping at 80 columns keeps exactly the non-empty clips, in order |
| Assembler.Clips | lib/parser/pyparser.py:673 | the clips hold no space or line break, and the non-empty ones are the comment's words |
| Assembler.CommentBody | lib/parser/pyparser.py:670-689 | the wrapped, stripped comment keeps the comment's words and has no outer white space |
| Assembler.CommentBodyWords | lib/parser/pyparser.py:673-689 | stripping the wrapped text does not change its words |
| Assembler.MakeComment | lib/parser/pyparser.py:668-691 | an absent or empty comment adds nothing; otherwise one indented docstring line |
| Assembler.EnumeratesAll | lib/parser/pyparser.py:646 | an enumeration of a set visits exactly its members |
| Assembler.NewHandler | lib/parser/pyparser.py:603-619 | a missing author fails on `capitalize` before `commit()` runs, whatever `commit()` would do; with an author the handler fails exactly when `commit()` does, and otherwise holds its result, the checked title `CheckTitle(modelName)` (a valid class name), the capitalised author, the comment and the given time |
| Assembler.HandlerCompiles | lib/parser/pyparser.py:603-619 | with an author, the handler on a constructed parser succeeds exactly when construction followed by `commit` does, and holds the same result |
| HandlerExamples.ChainHandler | lib/parser/pyparser.py:608-618 | on the Input→Dense→Model document, as written, no author gives the `capitalize` AttributeError and an author gives the `NameError` of `commit()` |
| Assembler.MakeDeclare | lib/parser/pyparser.py:632-643 | eight `#` comment lines then a blank line; the third names the file, and the fourth names the author and the date |
| Assembler.Imports | lib/parser/pyparser.py:646-647 | one `from keras import` line per source |
| Assembler.MakeImport | lib/parser/pyparser.py:645-648 | the imports name exactly the enumerated sources, followed by two blank lines |
| Assembler.ImportsExactly | lib/parser/pyparser.py:645-648 | each source module is imported, and nothing else is |
| Assembler.AssignmentInjective | lib/parser/pyparser.py:661 | distinct placeholders give distinct `self.ph = ph` lines |
| Assembler.InitBody | lib/parser/pyparser.py:659-664 | the `__init__` body is indented and assigns exactly the placeholders, or is an indented `pass` |
| Assembler.MakeClass | lib/parser/pyparser.py:650-666 | `class Title:`, the comment, the `__init__` header, then an indented body assigning exactly the placeholders |
| Assembler.StrItems | lib/parser/pyparser.py:701 | joining the returned models fails exactly when one is not a `str` |
| Assembler.MakeBuild | lib/parser/pyparser.py:693-701 | `def build(self):`, every statement indented twice, a blank line, then `return` |
| Assembler.MakeWarnings | lib/parser/pyparser.py:703-706 | empty exactly when there are no warnings; otherwise starts with `Warning 1: ` |
| Assembler.WarningsOnePerLine | lib/parser/pyparser.py:705-706 | the warning report has one line per warning |
| Assembler.FileTextRoundTrip | lib/parser/pyparser.py:736-738 | splitting the written file on line breaks gives back its lines and a final empty piece |
| Assembler.Organize | lib/parser/pyparser.py:708-712 | the file is the declaration, imports, class and build, in that order |
| Assembler.Export | lib/parser/pyparser.py:731-740 | it fails exactly when a returned model is not a `str`, or when a file is present and the module does not declare the covered-file class, which is a `NameError`; otherwise the path is `dst/title.py`, an existing file adds one more warning, the count equals the number of warnings, and the report is empty exactly when the count is zero |
| Assembler.Covered | lib/parser/pyparser.py:714-717 | no warning when no file is present; otherwise the covered-file warning, or a `NameError` when its class is undeclared |
| Assembler.ExportOverExisting | lib/parser/pyparser.py:714-740 | as written, exporting over an existing file ends in a `NameError`; against the completed module it succeeds; with no file present the two agree |
| Assembler.ExportWritesOrganized | lib/parser/pyparser.py:735-739 | the written text holds exactly the organised lines, one per line |
| LegacyAssembler.LegacyDeclare | parser/pyparser.py:517-525 | seven `#` comment lines then a blank line; the first names the encoding, and the third names the file |
| LegacyAssembler.LegacyInitBody | parser/pyparser.py:540-545 | with placeholders, the body is the same as the newer one's; without them it is an unindented `pass` |
| LegacyAssembler.LegacyClass | parser/pyparser.py:532-547 | the title is used unchecked, and the body is indented exactly when there are placeholders |
| LegacyAssembler.PassUnindentedAsWritten | parser/pyparser.py:544-545 | with no placeholders the `__init__` body is not indented |
| LegacyAssembler.TitleUncheckedAsWritten | parser/pyparser.py:534 | a title `my net` yields `class my net:`, which is not a class name |
| LegacyAssembler.LegacyOrganize | parser/pyparser.py:565-570 | the file opens with the legacy declaration, and fails when a returned model is not a `str` |
| LegacyAssembler.LegacyExport | parser/pyparser.py:572-579 | the written text opens with the coding line |
| Saver.Seq2Str | lib/parser/saver.py:96-97 | an empty list becomes `!REQ` when repairing and `null` otherwise; a non-empty one splits back on `;` unless an item holds `;` |
| Saver.Seq2StrRoundTrip | lib/parser/saver.py:97 | a list of `;`-free strings, read back raw by lib/parser/pyparser.py:289-304, is the list itself |
| Saver.Seq2StrSentinels | lib/parser/saver.py:97 | the empty list is read back as `[!REQ]` or `[null]` |
| Saver.ArgText | lib/parser/saver.py:105-113 | model `inputs`/`outputs` always go through `seq2str`; any other value is written as a non-empty text, which is `!REQ` exactly when the value was empty or `!REQ`; a non-empty list cannot be written as text |
| Saver.ArgsWheel | lib/parser/saver.py:100-114 | one child per argument, in order, with its text and its dtype as `c` |
| Saver.ForLayer | lib/parser/saver.py:14-30 | the layer has `head` exactly when its class is `Input`, and its input and output lists go through `seq2str` |
| Saver.ForModel | lib/parser/saver.py:32-41 | a model's arguments are written with the I/O conversion |
| Saver.ForUnit | lib/parser/saver.py:45-55 | a unit keeps its type attribute, and its arguments are written unconverted |
| Saver.SavedFeeds | lib/parser/saver.py:73-86 | exactly the entries with a known tag are saved, in order |
| Saver.Save | lib/parser/saver.py:73-86 | one element per saved entry, in order, with its tag and id |
| Saver.SaveAll | lib/parser/saver.py:74-85 | every entry is dispatched to the builder for its tag |
| Saver.ForFeed | lib/parser/saver.py:74-85 | the builder for an entry keeps its tag and id |
| Saver.EmptyArgumentIsRequired | lib/parser/saver.py:108-111 | a saved layer stops the newer compiler exactly when one of its arguments was empty or `!REQ` |
| LegacySaver.LegacySeq2Str | parser/saver.py:82-83 | the old `seq2str` is the new one without repair: `null` for an empty list, never `!REQ` |
| LegacySaver.LegacyArgText | parser/saver.py:91-95 | every value is written verbatim, and an empty value leaves the element without text |
| LegacySaver.LegacyArgsWheel | parser/saver.py:86-96 | one child per argument, in order, with the verbatim text and its dtype |
| LegacySaver.LegacyForFeed | parser/saver.py:17-59 | the builder keeps tag and id, and only `Input` layers get `head` |
| LegacySaver.LegacySaveAll | parser/saver.py:61-72 | notes produce no element |
| LegacySaver.LegacySave | parser/saver.py:12-13 | the root is named `YOUR NAME`, and no element is a note |
| LegacySaver.EmptyArgumentShiftsAsWritten | parser/saver.py:94-95 | an empty first argument shifts the next argument's text onto its name when read back |
| LegacySaver.EmptyArgumentMarked | lib/parser/saver.py:108-111 | the newer saver marks the empty argument `!REQ`, so every text stays on its own name |
| Auto.AutoTypeCheck | lib/auto.py:19-27 | a type without an inspector returns the value unchanged; a String fails exactly on a blank value and holds no punctuation but `_` and no space; a Number always succeeds; a Sequence always succeeds and is bracketed |
| Auto.AutoTypeCheckGuarded | lib/auto.py:19-40 | with the guarded string inspector, a String result never starts with a digit; other types are unchanged |
| Auto.AutoTypeCheckGuardedAgrees | lib/auto.py:19-40 | the guarded and the as-written check agree on every value whose stripped text starts with a letter |
| Auto.AutoTypeCheckDigitLeads | lib/auto.py:19-39 | as written, `!1` as a String gives `1`, and the guarded check gives something else |
| Auto.InspectStringWordLike | lib/auto.py:35-40 | every character of the inspected string is word-like: no punctuation but `_`, and no space |
| Auto.InspectString | lib/auto.py:29-40 | fails exactly when the stripped value is empty (the index at line 32) |
| Auto.CleanIsWordLike | lib/auto.py:35-40 | the cleaned name holds no punctuation except `_`, and no space |
| Auto.InspectStringDigitLeads | lib/auto.py:31-39 | `!1` is not prefixed, because the digit test runs before punctuation is removed, and it becomes `1` |
| Auto.InspectStringGuarded | lib/auto.py:29-40 | with the digit test after cleaning, a non-empty result never starts with a digit |
| Auto.GuardedAgrees | lib/auto.py:29-40 | when the stripped value starts with a letter, the guarded and the as-written inspector agree |
| Auto.GuardedWordLike | lib/auto.py:35-40 | the guarded result holds no removable punctuation and no space |
| Auto.AutoStringInnerSpace | test/test_ai.py:15-18 | `te st` as a String becomes `te_st` |
| Auto.AutoStringOuterSpaces | test/test_ai.py:19-20 | ` test ` as a String becomes `test` |
| Auto.MatchStart | lib/auto.py:50 | a number match starts exactly at a digit, or at `-` followed by a digit |
| Auto.FindAllIffDigit | lib/auto.py:51-53 | some match is found exactly when the text holds a digit |
| Auto.FindAllNumbers | lib/auto.py:50-51 | every match is a number text |
| Auto.InspectNumber | lib/auto.py:42-54 | with no digit, the decimal length of the input; otherwise the concatenation of all matches |
| Auto.InspectNumberKeepsNumbers | lib/auto.py:50-54 | a text that is already a number is kept whole |
| Auto.InspectNumberDropsLetters | test/test_ai.py:26-27 | `12.34a` becomes `12.34` |
| Auto.InspectNumberJoinsPieces | test/test_ai.py:28-29 | `-12.34a45` becomes `-12.3445` |
| Auto.InspectNumberKeepsDecimal | test/test_ai.py:30-31 | `12.34` is kept |
| Auto.AutoNumberDropsLetters | test/test_ai.py:24-27 | `12.34a` as a Number becomes `12.34` |
| Auto.SemicolonRepeats | lib/auto.py:78-86 | `N;t` expands to `t` copies of `N` |
| Auto.SemicolonTwice | lib/auto.py:84-85 | `N;` expands to two copies |
| Auto.SemicolonMissing | lib/auto.py:81-82 | a text without `;` fails at `split[1]` |
| Auto.SeparateSome | lib/auto.py:101-106 | expansion succeeds exactly when every match holding `;` has a valid count |
| Auto.Items | lib/auto.py:110-115 | with nothing found, one `0` per remaining character; a single item becomes `X, `; more items stay as they are |
| Auto.InspectSequence | lib/auto.py:88-116 | square brackets exactly when the input starts with `[` or `]`, round ones otherwise |
| Auto.InspectSequenceTotal | lib/auto.py:99-106 | the pattern only yields matches whose count is a decimal, so `int(times)` never fails |
| Auto.InspectSequenceListed | lib/auto.py:97-116 | with several plain numbers, the result is the brackets around the numbers joined by `, ` |
| Auto.InspectSequenceLonely | lib/auto.py:114-115 | a single number renders as `(X, )` |
| Auto.InspectSequenceZeros | lib/auto.py:110-111 | with no digit, one `0` per remaining character |
| Auto.InspectSequenceOpenList | test/test_ai.py:35-36 | `[1,2,3,4` becomes `[1, 2, 3, 4]` |
| Auto.InspectSequenceClosedLate | test/test_ai.py:39-40 | `1,2,3,4]` becomes `(1, 2, 3, 4)` |
| Auto.InspectSequenceMixed | test/test_ai.py:47-48 | `[1,2,a,3,4,)` becomes `[1, 2, 3, 4]` |
| Auto.InspectSequenceRepeat | lib/auto.py:72 | `12;3` becomes `(12, 12, 12)` |
| Auto.InspectSequenceTwoCounts | lib/auto.py:74 | `12;2;3` becomes `(12, 12, 3)` |
| Auto.InspectSequenceSingle | lib/auto.py:70 | `12.34` becomes `(12.34, )` |
| Auto.AutoSequenceOpenList | test/test_ai.py:33-36 | `[1,2,3,4` as a Sequence becomes `[1, 2, 3, 4]` |
| Utils.Range | lib/utils.py:15 | `range(a, b)` holds `a, a+1, ..., b-1`, and is empty when `a >= b` |
| Utils.SegmentSingle | lib/utils.py:16-17 | a plain segment gives its number |
| Utils.SegmentRange | lib/utils.py:13-15 | `a-b` gives the inclusive range `a..b`, and nothing when `a > b` |
| Utils.SegmentOfPair | lib/utils.py:13-15 | any segment splitting into two decimals expands to their inclusive range |
| Utils.SpanPair | lib/utils.py:13-15 | two decimal pieces expand to the inclusive range between them |
| Utils.SegmentNoMinus | lib/utils.py:16-17 | a segment without `-` succeeds exactly when it is a decimal |
| Utils.GatherAppend | lib/utils.py:12-17 | the ids of consecutive segments are concatenated in segment order |
| Utils.SplitArgsIdJoin | lib/utils.py:11-18 | the ids of a `;`-joined string are the segments' ids in order |
| Utils.GatherSingle | lib/utils.py:12-17 | a single segment gives that segment's ids |
| Utils.SplitArgsIdExample | lib/utils.py:11-18 | `1-3;5` gives `[1, 2, 3, 5]` |
| Utils.SplitArgsIdEmpty | lib/utils.py:17 | the empty string fails at `int('')` |
| Utils.ReferenceLabel | lib/utils.py:31-37 | the label is Reference exactly for a unit reference, `layer` or `ph` |
| Utils.ValueTypesAreNotReferences | lib/utils.py:29-45 | no value type is treated as a reference |
| Utils.UnknownLabel | lib/utils.py:46-47 | the label is Unknown exactly for a type that is neither a value type nor a reference |
| Utils.ColorDeterminesLabel | lib/utils.py:29-47 | the colour decides the label |
| Utils.ValueTypeLabels | lib/utils.py:29-45 | the five value types get their fixed colours and labels |
| Utils.UnitReference | lib/utils.py:33 | any type containing `unit-c` is a Reference |
| Counter.Update | lib/counter.py:8-13 | the first update sets a key to 1, each later one adds exactly 1, and no other key changes |
| Counter.Get | lib/counter.py:15-16 | `get` is `None` exactly for a key never updated |
| Counter.Tally | lib/counter.py:8-13 | every counted key has a positive count |
| Counter.TallyCounts | lib/counter.py:8-16 | after updating with a list of names, each name's count is its number of occurrences, and an absent name gives `None` |
| Counter.UpdateTwice | lib/counter.py:9-10 | updates of another key do not disturb a key's count |
| Pins.CutAll | lib/pins.py:92-93 | each entry is split on `=` |
| Pins.PairCut | lib/pins.py:93 | `k=v` with no other `=` splits into `[k, v]` |
| Pins.ArgsSplitEncoded | lib/pins.py:90-93 | splitting an encoded pin-argument string gives back the name/value pairs |
| Pins.AssignFails | lib/pins.py:110 | the unpacking fails exactly when some entry does not have exactly two pieces |
| Pins.AssignLast | lib/pins.py:110-111 | a name takes the value of its last entry |
| Pins.AssignUntouched | lib/pins.py:109-111 | a name that no entry carries keeps its earlier value, or stays absent |
| Pins.AssignKeys | lib/pins.py:109-111 | the dictionary's names are exactly the entries' names |
| Pins.PinArgsDictFails | lib/pins.py:107-112 | `pin_args_dict` fails exactly when some entry has no `=` or more than one |
| Pins.PinArgsDictEncoded | lib/pins.py:107-112 | each name maps to the value of its last pair |
| Pins.PinArgsDictNames | lib/pins.py:107-112 | the names are exactly the pairs' names |
| Pins.PinArgsDictExample | lib/pins.py:107-112 | `a=1;b=2` gives `{a: '1', b: '2'}` |
| Pins.PinArgsDictTwo | lib/pins.py:107-112 | two distinct names map each to its own value |
| Pins.PinArgsDictSame | lib/pins.py:110-111 | a repeated name keeps the later value |
| Pins.PinArgsDictOverwrites | lib/pins.py:111 | `a=1;a=2` gives `{a: '2'}` |
| Pins.EntryTip | lib/pins.py:102 | an entry formats exactly when it has at least two pieces |
| Pins.CreateUcpTip | lib/pins.py:96-104 | the tip starts with the bold name, the source and `args:` |
| Pins.EntryTipsFail | lib/pins.py:102-103 | formatting fails exactly when some entry has fewer than two pieces |
| Pins.CreateUcpTipFails | lib/pins.py:96-104 | the tip fails exactly when some entry lacks `=` |
| Pins.PairTips | lib/pins.py:102 | each pair formats as `k = <i>v</i>` |
| Pins.EntryTipsOfPairs | lib/pins.py:102-103 | formatting the split pairs gives their tip lines |
| Pins.CreateUcpTipEncoded | lib/pins.py:96-104 | the tip is the head followed by the pairs' lines joined with `<br>`, in order |
| Pins.TipOutlivesDict | lib/pins.py:102-110 | `a=b=c` still gives a tip, `a = <i>b</i>`, while `pin_args_dict` fails on it |
| OrderedMaps.Keys | editor/component/semaphores.py:99-100 | the key sequence of an ordered dictionary lists its entries in order |
| OrderedMaps.Find | editor/component/semaphores.py:116 | a key is found exactly when it is present |
| OrderedMaps.PutSpec | editor/component/semaphores.py:106-108 | assignment maps the key to the new value; a present key keeps its place, and a new one goes last |
| OrderedMaps.RemoveSpec | editor/component/semaphores.py:117-120 | `pop` removes exactly that key, and an absent key changes nothing |
| OrderedMaps.RemovePut | editor/component/semaphores.py:106-120 | removing a freshly added key restores the dictionary |
| OrderedMaps.PopLastPut | editor/component/semaphores.py:23-31 | a new key goes last, after every earlier entry |
| OrderedMaps.RemoveKeys | editor/component/semaphores.py:117-120 | `pop` introduces no key |
| OrderedMaps.DedupSpec | editor/component/semaphores.py:126 | `fromkeys` keeps each key once, and the same keys |
| OrderedMaps.DedupIntoSpec | editor/component/semaphores.py:126 | deduplicating after already seen keys keeps the keys distinct and neither adds nor loses any |
| OrderedMaps.PickSpec | editor/component/semaphores.py:128-129 | reordering succeeds exactly when every key is present, and keeps each key's value |
| OrderedMaps.PickAll | editor/component/semaphores.py:126-130 | reordering by the current keys gives the same dictionary |
| OrderedMaps.PickAllFrom | editor/component/semaphores.py:126-130 | reordering by the keys of any consistent part gives back that part |
| OrderedMaps.FindEntries | editor/component/semaphores.py:116 | every stored entry is found under its own key |
| OrderedMaps.PickDedup | editor/component/semaphores.py:126-133 | reordering by a deduplicated key list succeeds exactly when every key is present |
| OrderedMaps.SetAll | editor/component/semaphores.py:56-65 | setting every value keeps the keys and their order |
| Semaphores.IOAdd | editor/component/semaphores.py:102-108 | `add` fails unless the sign is `i` or `o`; `i` changes only the inputs and `o` only the outputs |
| Semaphores.IOAddSpec | editor/component/semaphores.py:105-108 | adding maps the id to the item; a re-added id keeps its position |
| Semaphores.IOPopupSpec | editor/component/semaphores.py:114-121 | `popup` removes the id from the inputs if there, otherwise from the outputs; an absent id changes nothing |
| Semaphores.IOPopupAdd | editor/component/semaphores.py:102-121 | popping a freshly added id restores the semaphore |
| Semaphores.IOOrder | editor/component/semaphores.py:123-134 | the chosen side's keys become exactly the deduplicated order, and the other side is untouched |
| Semaphores.IOOrderSpec | editor/component/semaphores.py:126-133 | ordering fails exactly on a key not present, and keeps each key's value |
| Semaphores.IOOrderSame | editor/component/semaphores.py:123-134 | ordering by the current keys changes nothing |
| Semaphores.RefAdd | editor/component/semaphores.py:23-31 | only the node's item map changes, and the variable-name item is recorded only on the node's first add |
| Semaphores.RefAddSpec | editor/component/semaphores.py:27-31 | the item is stored under its id, the count grows by one for a new item, and the name read afterwards is the current text of the var-name item recorded at the node's first add |
| Semaphores.VarName | editor/component/semaphores.py:36-38 | the name is read from the recorded var-name item when asked; a node without a recorded item gives `Error` |
| Semaphores.VarNameLive | editor/component/semaphores.py:36-38 | after the node's var-name item is renamed, `get_var_name` gives the new name |
| Semaphores.RefCount | editor/component/semaphores.py:90-91 | the count exists exactly for a node holding references |
| Semaphores.RefPopup | editor/component/semaphores.py:70-88 | popping keeps the update flag |
| Semaphores.RefPopupSpec | editor/component/semaphores.py:80-88 | popping an id removes exactly that item, and drops the node once its map is empty |
| Semaphores.RefPopupLast | editor/component/semaphores.py:77-78 | popping without an id removes the most recently added item |
| Semaphores.RefPopupAdd | editor/component/semaphores.py:23-88 | popping a freshly added item, by id or as the last one, restores the semaphore |
| Semaphores.RefUpdate | editor/component/semaphores.py:53-68 | `update` always clears the flag, and keeps the nodes and names |
| Semaphores.RefUpdateKeeps | editor/component/semaphores.py:54-63 | nothing changes without the flag, and no value changes for a value starting with `@` or an empty one |
| Semaphores.RefUpdateSets | editor/component/semaphores.py:64-65 | otherwise every referencing item takes `@value` |
| Semaphores.RefDestroy | editor/component/semaphores.py:40-51 | `destroy` leaves no node with references |
| Scene.CheckEdge | editor/wrapper/wrap_scene.py:31-122 | the verdict is -1, 0 or 1, and only node flags may change |
| Scene.CheckDirect | editor/wrapper/wrap_scene.py:36-71 | a direct edge is never 0; it is accepted exactly when the node rules hold and no edge joins the pair in either direction; a rejection changes nothing; acceptance clears `as_arg` on both ends only |
| Scene.CheckWrap | editor/wrapper/wrap_scene.py:81-96 | a layer wrapped by `TimeDistributed`, or a recurrent layer by `Bidirectional`, is accepted while `as_arg` holds, and loses `as_io` |
| Scene.CheckCurve | editor/wrapper/wrap_scene.py:98-122 | other curves need a non-layer start and a layer end and must not touch `Model`; a repeated pair gives 0 |
| Scene.AddEdge | editor/wrapper/wrap_scene.py:128-130 | adding an edge leaves the nodes and the counter alone |
| Scene.RemoveEdge | editor/wrapper/wrap_scene.py:132-137 | removing an edge leaves the nodes and the counter alone |
| Scene.AddEdgeJoins | editor/wrapper/wrap_scene.py:128-129 | an added edge joins its two nodes |
| Scene.DirectRepeatRejected | editor/wrapper/wrap_scene.py:57-68 | once a direct edge is added, the same pair is rejected in either direction |
| Scene.CurveRepeatHidden | editor/wrapper/wrap_scene.py:112-117 | a repeated reference curve is accepted but not displayed again |
| Scene.IoNodeNotWrapped | editor/wrapper/wrap_scene.py:69-71 | a layer in a direct edge can no longer be wrapped |
| Scene.WrappedNodeNotIo | editor/wrapper/wrap_scene.py:43-44 | a wrapped layer can no longer join a direct edge |
| Scene.AddNode | editor/wrapper/wrap_scene.py:139-142 | the node is stored and its name's count goes up by one |
| Scene.Detach | editor/wrapper/wrap_scene.py:171-178 | the remaining edges are original ones, and none touches the node |
| Scene.DetachKeeps | editor/wrapper/wrap_scene.py:171-178 | every edge not touching the node is kept |
| Scene.DetachNone | editor/wrapper/wrap_scene.py:171-178 | when no edge touches the node, the edges are unchanged |
| Scene.RemoveNode | editor/wrapper/wrap_scene.py:144-150 | the node is gone, no remaining edge touches it, the counter is unchanged, and removing an absent node changes nothing |
| Scene.RemoveNodeSpec | editor/wrapper/wrap_scene.py:144-178 | exactly the node is removed, and exactly the edges touching it |
| Scene.RemoveNodeAdd | editor/wrapper/wrap_scene.py:139-150 | removing a freshly added node restores the scene except for its count, which is never decremented |
| Scene.Values | editor/wrapper/wrap_scene.py:209 | the edges are visited in insertion order |
| Scene.FoldEdgeSpec | editor/wrapper/wrap_scene.py:209-221 | a direct layer→layer edge appends to both the start's outputs and the end's inputs; layer→model appends only to the outputs; anything else changes nothing |
| Scene.FoldEdgesLists | editor/wrapper/wrap_scene.py:209-221 | each record's output and input lists grow by exactly its direct layer/model neighbours, in edge order |
| Scene.FoldEdgesTags | editor/wrapper/wrap_scene.py:209-221 | folding the edges keeps every record and its tag |
| Scene.FoldEdgesKeys | editor/wrapper/wrap_scene.py:209-221 | a successful fold keeps exactly the records' ids |
| Scene.FoldEdgesFails | editor/wrapper/wrap_scene.py:214-215 | folding fails exactly when some direct edge names an unknown node |
| Scene.FoldEdgesFailsAt | editor/wrapper/wrap_scene.py:214-215 | one direct edge naming an unknown node makes the whole fold fail |
| Scene.SerializeLists | editor/wrapper/wrap_scene.py:196-222 | serialising keeps every record and extends its lists by its direct neighbours |
| PyStr.Split | lib/parser/pyparser.py:301-302 | `split(c)` gives one more piece than there are separators, and no piece holds the separator |
| PyStr.JoinSplit | lib/parser/saver.py:97 | joining the pieces of a split gives back the text |
| PyStr.SplitJoin | lib/parser/pyparser.py:301-302 | splitting a join of separator-free strings gives them back |
| PyStr.SplitSeparated | lib/auto.py:81 | splitting `a;b` with `;`-free `a` gives `a` then the pieces of `b` |
| PyStr.SplitWhole | lib/utils.py:11 | a text without the separator splits into itself alone |
| PyStr.CountPositive | lib/parser/pyparser.py:301 | a separator occurs exactly when its count is positive |
| PyStr.Capitalize | lib/parser/pyparser.py:723 | `capitalize` upper-cases the first character and lower-cases the rest |
| PyStr.Lower | lib/auto.py:23 | `lower` keeps the length and lower-cases each character |
| PyStr.Strip | lib/auto.py:31 | `strip` leaves no white space at either end |
| PyStr.StripLeft | lib/auto.py:31 | the left strip removes exactly the leading white space |
| PyStr.StripRight | lib/auto.py:31 | the right strip removes exactly the trailing white space |
| PyStr.ReplaceChar | lib/parser/pyparser.py:673 | replacing line breaks with a space leaves none |
| PyStr.RemoveChars | lib/auto.py:97-98 | removing brackets leaves none |
| PyStr.DecimalRoundTrip | lib/utils.py:17 | `int(str(n)) == n` |
| PyStr.NatToDecimal | lib/auto.py:53 | `str(n)` of a natural is a non-empty run of digits, one digit exactly below 10 |
| PyStr.ParseDecimal | lib/utils.py:17 | `int()` succeeds exactly on a non-empty run of digits |
| PyStr.ReprPlain | lib/parser/errors.py:36 | the tuple text shows a plain string in single quotes |
| PyStr.Repr | lib/parser/errors.py:36 | `repr` of a string is quoted with the same quote at both ends |
| PyStr.TupleRepr | lib/parser/errors.py:36 | a tuple shows in parentheses |

## Left out

- XML parsing, XPath and file I/O: the document is an in-memory value, and `export` returns the text it
  would write. The root's `name` attribute is an `Option`, so an absent name and an empty one differ. `os.path.exists` is a parameter of `Assembler.Export`, and the date is a parameter of
  `Assembler.NewHandler`.
- Python `set` iteration order for the source modules and placeholder names: the assembler takes an
  enumeration of each set as a parameter, and no property depends on the order.
- Unicode: `\w`, `isdigit`, `lower`, `capitalize` and `strip` are modelled on ASCII only. `int()` is
  modelled on plain decimal digits, without signs, white space or underscores.
- `eval` in `auto_type_check` is modelled as a dispatch on the three inspector names. An inspector name that
  is not a valid identifier is not modelled.
- Recursion depth: the walk carries a `depth` bound, and exhausting it is a `RecursionError`. The real
  recursion limit is not modelled.
- Auto.InspectString: its contract states only when it fails. The word-like result is stated by
  `Auto.InspectStringWordLike`, and the exact text by `Auto.GuardedAgrees` and the examples.
- Doc.Entrances: the source's `//*[@head="head"]` selects any element carrying the attribute. Only
  `Layer` has a `head` field here, because both savers write `head` only on `Input` layers; a hand-edited
  document marking a model, unit or placeholder as an entrance is not modelled.
- Doc.Arg: the `c` attribute is a mandatory field. In the source `get_args_by_elm` zips separate name,
  class and text lists (lib/parser/pyparser.py:331-335), so an argument without `c` shortens the zip and
  shifts later classes onto earlier names. Both savers always write `c`, so only hand-edited documents
  are affected, and that shift is not modelled.
- Qt widgets in the reference semaphore: a var-name item is kept by identity, and the text it holds when
  `get_var_name` runs is the `text` parameter of `Semaphores.VarName`; editing that text is the editor's
  business and is not modelled.
- Compiler.SrcHandler: a `unit` without its `u` attribute reads as the empty module name, where the source
  raises IndexError (lib/parser/pyparser.py:532). Both savers always write `u`, so such a unit only comes
  from a hand-edited document.
- Semaphores.RefPopup: it returns `None` where the source raises on a node without references. Its contract
  only keeps the flag, and the behaviour is stated by `Semaphores.RefPopupSpec` and `Semaphores.RefPopupLast`.
- Semaphores.RefCount: it states when a count exists; the value is stated by `Semaphores.RefAddSpec` and
  `Semaphores.RefPopupSpec`.
- Item identity in the reference semaphore (`str(id(ref_item))`) is a caller-supplied string id.
  `setBackground`, `del ref.ref_to` and debug logging are left out.
- Scene: `clear`, `get_node_count`, `change_color_for_io`, notes and `deserialize` are left out. Nodes are
  records of the flags the edge rules read. Node serialisation (`node.serialize()`) is an input to
  `Scene.Serialize`.
- `_pin_args_split` with `equation_split=False` just returns the `;` pieces, which is `PyStr.Split`.
- The SQLite pin database, Qt widgets, threads and float geometry are outside this model.
- The newer saver's `x`/`y` coordinates are not modelled, since the compiler never reads them.
- The older `PyHandler.wrapper_lines` does nothing and is never called, so it is left out.

## Findings

| source | as written | input that shows it | evidently intended | confidence | as-written member | corrected member |
|---|---|---|---|---|---|---|
| lib/parser/pyparser.py:340 | raises `PyMissingRequiredArgumentError`, which lib/parser/errors.py does not declare (it declares `PyMissingRequiredArgument`) | any argument whose text is `!REQ` | a `PyParsingError` the export thread reports | high, not executed | Compiler.GetArgsAsWritten | Errors.RaiseCorrected |
| lib/parser/pyparser.py:397 | raises `PyMissingNecessaryConnectionError`, which is undeclared | an output id naming no element | a `PyParsingError` the export thread reports | high, not executed | Errors.RaiseAsWritten | Errors.RaiseCorrected |
| lib/parser/pyparser.py:253-255 | builds `PyUnusedLayerWarning` and `PyUnreleasedModelWarning`, which are undeclared | a document with an unused layer | warnings collected and reported | high, not executed | Compiler.CommitAsWritten | Errors.BuildCorrected |
| lib/parser/pyparser.py:717 | builds `PyExistedFileCoveredWarning`, which is undeclared | exporting to a path where a file already exists | the warning reported and the file overwritten | high, not executed | Assembler.ExportOverExisting | Errors.BuildCorrected |
| lib/parser/pyparser.py:97-98 | `all([True for c in a if c in b])` is always true, so only the lengths are compared | `cmp_cnt(['x'], ['y'])` | a content comparison; no release decision changes, since `gain` only appends expected ids | high, not executed | Joins.CmpCntIgnoresContentAsWritten | Joins.CmpCnt |
| parser/pyparser.py:545 | the `pass` of an empty `__init__` is not indented | a model without placeholders | `pass` indented like the other body lines | high, not executed | LegacyAssembler.PassUnindentedAsWritten | Assembler.InitBody |
| parser/pyparser.py:534 | the title is used as the class name unchecked | the title `my net` | a sanitised class name | medium, not executed | LegacyAssembler.TitleUncheckedAsWritten | Assembler.CheckTitle |
| parser/saver.py:95 | an empty value is written as an element without text, so reading it back shifts the next text onto its name | arguments `units=''`, `activation='relu'` | the newer saver's `!REQ` mark | medium, not executed | LegacySaver.EmptyArgumentShiftsAsWritten | LegacySaver.EmptyArgumentMarked |
| lib/auto.py:32-39 | the leading-digit test runs before punctuation is removed | `!1` becomes `1`, a name starting with a digit | test after cleaning, giving `_1` | medium, not executed | Auto.AutoTypeCheckDigitLeads | Auto.AutoTypeCheckGuarded |

=== FILE: assembler.dfy ===
/** The assembler `PyHandler` (lib/parser/pyparser.py:597-740): it turns
    what the compiler collected into the text of a Python module holding
    one Keras class. The clock, the file system and Python's `set`
    iteration order are parameters here. */
module Assembler {
  import opened Wrappers
  import opened PyStr
  import opened Errors
  import opened Doc
  import opened Compiler

  const TabWidth := 4
  const Safe := 80

  /** `tab(weight)`: four spaces per level. */
  function Indent(weight: nat): (r: string)
    ensures |r| == TabWidth * weight
    ensures forall i :: 0 <= i < |r| ==> r[i] == ' '
  {
    if weight == 0 then "" else "    " + Indent(weight - 1)
  }

  // ---------------------------------------------------------------------------
  // check_title
  // ---------------------------------------------------------------------------

  /** `''.join(re.findall(r'\w', s))`: the word characters of `s`, in order. */
  function WordChars(s: string): (r: string)
    ensures |r| <= |s|
    ensures forall i :: 0 <= i < |r| ==> IsWordChar(r[i])
    ensures (forall i :: 0 <= i < |s| ==> IsWordChar(s[i])) ==> r == s
  {
    if |s| == 0 then ""
    else
      var rest := WordChars(s[1..]);
      assert (forall i :: 0 <= i < |s| ==> IsWordChar(s[i])) ==>
        forall i :: 0 <= i < |s[1..]| ==> IsWordChar(s[1..][i]);
      if IsWordChar(s[0]) then
        assert [s[0]] + s[1..] == s;
        [s[0]] + rest
      else rest
  }

  /** A name `check_title` accepts as a class name: word characters only,
      not empty, not starting with a digit. */
  predicate ValidClassName(s: string)
  {
    |s| > 0 && !IsDigit(s[0]) && forall i :: 0 <= i < |s| ==> IsWordChar(s[i])
  }

  /** `check_title(title)`: the word characters of `title.capitalize()`,
      behind an underscore when they start with a digit, and `Model` when
      there are none. */
  function CheckTitle(title: string): (r: string)
    ensures ValidClassName(r)
    ensures WordChars(Capitalize(title)) == "" ==> r == "Model"
    ensures WordChars(Capitalize(title)) != "" ==>
      r == (if IsDigit(WordChars(Capitalize(title))[0]) then "_" else "") + WordChars(Capitalize(title))
  {
    var split := WordChars(Capitalize(title));
    if split != "" then
      if IsDigit(split[0]) then "_" + split else split
    else
      assert WordChars(Capitalize("Model")) != "";
      "Model"
  }

  /** A title already in the form `check_title` produces (a valid class
      name, capitalised) is kept as it is. */
  lemma CheckTitleKeepsValid(title: string)
    requires ValidClassName(title) && Capitalize(title) == title
    ensures CheckTitle(title) == title
  {
  }

  /** `check_title` capitalises and keeps the word characters only:
      `my net` becomes `Mynet`. */
  lemma CheckTitleDropsOthers()
    ensures CheckTitle("my net") == "Mynet"
  {
    CapitalizeMyNet();
    WordCharsMyNet();
  }

  lemma CapitalizeMyNet()
    ensures Capitalize("my net") == "My net"
  {
    assert Lower("y net") == "y net";
  }

  lemma WordCharsMyNet()
    ensures WordChars("My net") == "Mynet"
  {
    assert WordChars("net") == "net";
    assert WordChars(" net") == "net";
    assert WordChars("y net") == "ynet";
  }

  /** A digit in front is guarded by an underscore. */
  lemma CheckTitleGuardsDigit()
    ensures CheckTitle("2nd") == "_2nd"
  {
    assert Capitalize("2nd") == "2nd";
    assert WordChars("2nd") == "2nd";
  }

  /** With no word character at all the class is called `Model`. */
  lemma CheckTitleFallback()
    ensures CheckTitle("!?") == "Model"
  {
    assert WordChars("!?") == "";
  }

  // ---------------------------------------------------------------------------
  // make_comment
  // ---------------------------------------------------------------------------

  /** The non-empty strings of `xs`, in order. */
  function NonEmpty(xs: seq<string>): (r: seq<string>)
    ensures |r| <= |xs|
    ensures forall i :: 0 <= i < |r| ==> r[i] != ""
  {
    if |xs| == 0 then []
    else (if xs[0] == "" then [] else [xs[0]]) + NonEmpty(xs[1..])
  }

  lemma {:induction false} NonEmptyConcat(xs: seq<string>, ys: seq<string>)
    ensures NonEmpty(xs + ys) == NonEmpty(xs) + NonEmpty(ys)
    decreases |xs|
  {
    if |xs| == 0 {
      assert xs + ys == ys;
    } else {
      assert (xs + ys)[1..] == xs[1..] + ys;
      NonEmptyConcat(xs[1..], ys);
    }
  }

  /** The words `make_comment` iterates over: the non-empty pieces of the
      text split at spaces once line breaks are made spaces. */
  function Words(s: string): seq<string>
  {
    NonEmpty(Split(ReplaceChar(s, '\n', " "), ' '))
  }

  /** A character that separates words: a space or a line break. */
  predicate Blank(c: char) { c == ' ' || c == '\n' }

  /** White space other than a space or a line break: `strip()` removes it
      but `make_comment` does not split at it. */
  predicate OddSpace(c: char) { c in Whitespace && !Blank(c) }

  predicate NoOddSpace(s: string) { forall i :: 0 <= i < |s| ==> !OddSpace(s[i]) }

  lemma WordsEmpty()
    ensures Words("") == []
  {
    assert Split("", ' ') == [""];
  }

  /** A space or a line break separates the words on either side of it. */
  lemma WordsBreak(a: string, c: char, b: string)
    requires Blank(c)
    ensures Words(a + [c] + b) == Words(a) + Words(b)
  {
    var ra := ReplaceChar(a, '\n', " ");
    var rb := ReplaceChar(b, '\n', " ");
    ReplaceConcat(a + [c], b, '\n', " ");
    ReplaceConcat(a, [c], '\n', " ");
    assert ReplaceChar([c], '\n', " ") == " " by {
      assert [c][1..] == [];
    }
    assert ReplaceChar(a + [c] + b, '\n', " ") == ra + [' '] + rb;
    SplitConcat(ra, rb, ' ');
    NonEmptyConcat(Split(ra, ' '), Split(rb, ' '));
  }

  /** A word with no separator in it is one word. */
  lemma WordsWord(w: string)
    requires w != "" && ' ' !in w && '\n' !in w
    ensures Words(w) == [w]
  {
    ReplaceAbsent(w, '\n', " ");
    SplitWhole(w, ' ');
    assert NonEmpty([w]) == [w] by {
      assert [w][1..] == [];
    }
  }

  /** Separators in front of a text add no word. */
  lemma {:induction false} WordsLeadingBlank(p: string, x: string)
    requires forall i :: 0 <= i < |p| ==> Blank(p[i])
    ensures Words(p + x) == Words(x)
    decreases |p|
  {
    if |p| > 0 {
      assert p + x == "" + [p[0]] + (p[1..] + x);
      WordsBreak("", p[0], p[1..] + x);
      WordsEmpty();
      WordsLeadingBlank(p[1..], x);
    } else {
      assert p + x == x;
    }
  }

  /** Separators behind a text add no word. */
  lemma {:induction false} WordsTrailingBlank(x: string, q: string)
    requires forall i :: 0 <= i < |q| ==> Blank(q[i])
    ensures Words(x + q) == Words(x)
    decreases |q|
  {
    if |q| > 0 {
      var n := |q| - 1;
      assert x + q == (x + q[..n]) + [q[n]] + "";
      WordsBreak(x + q[..n], q[n], "");
      WordsEmpty();
      WordsTrailingBlank(x, q[..n]);
    } else {
      assert x + q == x;
    }
  }

  lemma StripLeftKeepsWords(x: string)
    requires NoOddSpace(x)
    ensures Words(StripLeft(x)) == Words(x) && NoOddSpace(StripLeft(x))
  {
    var sl := StripLeft(x);
    var k := |x| - |sl|;
    var p := x[..k];
    assert x == p + sl;
    forall i | 0 <= i < |p|
      ensures Blank(p[i])
    {
      assert p[i] == x[i] && x[i] in Whitespace && !OddSpace(x[i]);
    }
    WordsLeadingBlank(p, sl);
  }

  lemma StripRightKeepsWords(x: string)
    requires NoOddSpace(x)
    ensures Words(StripRight(x)) == Words(x)
  {
    var sr := StripRight(x);
    var m := |sr|;
    var q := x[m..];
    assert x == sr + q;
    forall i | 0 <= i < |q|
      ensures Blank(q[i])
    {
      assert q[i] == x[m + i] && x[m + i] in Whitespace && !OddSpace(x[m + i]);
    }
    WordsTrailingBlank(sr, q);
  }

  /** `strip()` removes only separators from a text without odd white
      space, so it keeps the words. */
  lemma StripKeepsWords(x: string)
    requires NoOddSpace(x)
    ensures Words(Strip(x)) == Words(x)
  {
    StripLeftKeepsWords(x);
    StripRightKeepsWords(StripLeft(x));
  }

  /** The running state of `make_comment`'s loop over `clips`: the text so
      far and the width `sums` of the current output line. A word opens a
      line with one tab or follows the previous one after a space; a word
      that takes the line past `SAFE` stays on it and closes it. */
  function Wrap(clips: seq<string>, sums: nat): (r: string)
  {
    if |clips| == 0 then ""
    else if clips[0] == "" then Wrap(clips[1..], sums)
    else
      var clip := if sums == 0 then Indent(1) + clips[0] else " " + clips[0];
      if sums + |clip| > Safe then clip + " \n" + Wrap(clips[1..], 0)
      else clip + Wrap(clips[1..], sums + |clip| + 1)
  }

  /** In the middle of a line the next word is behind a space. */
  lemma {:induction false} WrapContinues(clips: seq<string>, sums: nat)
    requires sums > 0
    ensures Wrap(clips, sums) == "" || Wrap(clips, sums)[0] == ' '
    decreases |clips|
  {
    if |clips| > 0 && clips[0] == "" {
      WrapContinues(clips[1..], sums);
    }
  }

  /** Wrapping adds no white space but separators. */
  lemma {:induction false} WrapNoOddSpace(clips: seq<string>, sums: nat)
    requires forall i :: 0 <= i < |clips| ==> NoOddSpace(clips[i])
    ensures NoOddSpace(Wrap(clips, sums))
    decreases |clips|
  {
    if |clips| > 0 {
      var sums' := if clips[0] == "" then sums
        else if sums + |if sums == 0 then Indent(1) + clips[0] else " " + clips[0]| > Safe then 0
        else sums + |if sums == 0 then Indent(1) + clips[0] else " " + clips[0]| + 1;
      WrapNoOddSpace(clips[1..], sums');
      assert NoOddSpace(clips[0]);
    }
  }

  /** A space in front of a text adds no word. */
  lemma WordsSpaceLed(tail: string)
    ensures Words([' '] + tail) == Words(tail)
  {
    assert [' '] + tail == "" + [' '] + tail;
    WordsBreak("", ' ', tail);
    WordsEmpty();
  }

  /** A word followed by nothing or by a space-led text. */
  lemma WordsWordRest(w: string, rest: string)
    requires w != "" && ' ' !in w && '\n' !in w
    requires rest == "" || rest[0] == ' '
    ensures Words(w + rest) == [w] + Words(rest)
  {
    WordsWord(w);
    if rest == "" {
      WordsEmpty();
      assert w + rest == w;
    } else {
      var tail := rest[1..];
      assert w + rest == w + [' '] + tail;
      assert rest == [' '] + tail;
      WordsBreak(w, ' ', tail);
      WordsSpaceLed(tail);
    }
  }

  /** The words of a word behind a line's opening or a space. */
  lemma WordsOpening(prefix: string, w: string, rest: string)
    requires forall i :: 0 <= i < |prefix| ==> Blank(prefix[i])
    requires w != "" && ' ' !in w && '\n' !in w
    requires rest == "" || rest[0] == ' '
    ensures Words(prefix + w + rest) == [w] + Words(rest)
  {
    var wr := w + rest;
    assert prefix + w + rest == prefix + wr;
    WordsLeadingBlank(prefix, wr);
    WordsWordRest(w, rest);
  }

  /** Wrapping keeps the words: however the lines are broken, reading the
      wrapped text at spaces and line breaks gives back the non-empty clips
      in order. */
  lemma {:induction false} WrapKeepsWords(clips: seq<string>, sums: nat)
    requires forall i :: 0 <= i < |clips| ==> ' ' !in clips[i] && '\n' !in clips[i]
    ensures Words(Wrap(clips, sums)) == NonEmpty(clips)
    decreases |clips|
  {
    if |clips| == 0 {
      WordsEmpty();
    } else if clips[0] == "" {
      WrapKeepsWords(clips[1..], sums);
    } else {
      var prefix := if sums == 0 then Indent(1) else " ";
      if sums + |prefix + clips[0]| > Safe {
        WrapKeepsWords(clips[1..], 0);
        WrapClosingStep(clips, sums);
      } else {
        WrapKeepsWords(clips[1..], sums + |prefix + clips[0]| + 1);
        WrapOpeningStep(clips, sums);
      }
    }
  }

  /** The step of `WrapKeepsWords` for a word that closes its line. */
  lemma WrapClosingStep(clips: seq<string>, sums: nat)
    requires |clips| > 0 && clips[0] != "" && ' ' !in clips[0] && '\n' !in clips[0]
    requires var prefix := if sums == 0 then Indent(1) else " ";
      sums + |prefix + clips[0]| > Safe
    requires Words(Wrap(clips[1..], 0)) == NonEmpty(clips[1..])
    ensures Words(Wrap(clips, sums)) == NonEmpty(clips)
  {
    var w := clips[0];
    var prefix := if sums == 0 then Indent(1) else " ";
    assert forall i :: 0 <= i < |prefix| ==> Blank(prefix[i]);
    var rest := Wrap(clips[1..], 0);
    assert Wrap(clips, sums) == prefix + w + " \n" + rest;
    WordsClosing(prefix, w, rest);
    assert NonEmpty(clips) == [w] + NonEmpty(clips[1..]);
  }

  /** One word that stays on its line, unfolded. */
  lemma WrapOpens(clips: seq<string>, sums: nat)
    requires |clips| > 0 && clips[0] != ""
    requires var prefix := if sums == 0 then Indent(1) else " ";
      sums + |prefix + clips[0]| <= Safe
    ensures var prefix := if sums == 0 then Indent(1) else " ";
      Wrap(clips, sums) == prefix + clips[0] + Wrap(clips[1..], sums + |prefix + clips[0]| + 1)
  {
  }

  /** The step of `WrapKeepsWords` for a word that stays on its line. */
  lemma WrapOpeningStep(clips: seq<string>, sums: nat)
    requires |clips| > 0 && clips[0] != "" && ' ' !in clips[0] && '\n' !in clips[0]
    requires var prefix := if sums == 0 then Indent(1) else " ";
      sums + |prefix + clips[0]| <= Safe &&
      Words(Wrap(clips[1..], sums + |prefix + clips[0]| + 1)) == NonEmpty(clips[1..])
    ensures Words(Wrap(clips, sums)) == NonEmpty(clips)
  {
    var prefix := if sums == 0 then Indent(1) else " ";
    assert forall i :: 0 <= i < |prefix| ==> Blank(prefix[i]);
    WrapOpens(clips, sums);
    WrapContinues(clips[1..], sums + |prefix + clips[0]| + 1);
    WordsOpening(prefix, clips[0], Wrap(clips[1..], sums + |prefix + clips[0]| + 1));
    assert NonEmpty(clips) == [clips[0]] + NonEmpty(clips[1..]);
  }

  /** The words of a word that closes its line. */
  lemma WordsClosing(prefix: string, w: string, rest: string)
    requires forall i :: 0 <= i < |prefix| ==> Blank(prefix[i])
    requires w != "" && ' ' !in w && '\n' !in w
    ensures Words(prefix + w + " \n" + rest) == [w] + Words(rest)
  {
    assert prefix + w + " \n" + rest == prefix + w + (" \n" + rest);
    WordsOpening(prefix, w, " \n" + rest);
    assert forall i :: 0 <= i < |" \n"| ==> Blank(" \n"[i]);
    WordsLeadingBlank(" \n", rest);
  }

  /** The clips `make_comment` loops over: the comment split at spaces once
      line breaks are made spaces, empty pieces included. */
  function Clips(comment: string): (r: seq<string>)
    ensures forall i :: 0 <= i < |r| ==> ' ' !in r[i] && '\n' !in r[i]
    ensures NonEmpty(r) == Words(comment)
  {
    var r := Split(ReplaceChar(comment, '\n', " "), ' ');
    ClipsSeparated(comment, r);
    r
  }

  lemma ClipsSeparated(comment: string, clips: seq<string>)
    requires clips == Split(ReplaceChar(comment, '\n', " "), ' ')
    ensures forall i :: 0 <= i < |clips| ==> ' ' !in clips[i] && '\n' !in clips[i]
  {
    forall i | 0 <= i < |clips|
      ensures '\n' !in clips[i]
    {
      if '\n' in clips[i] {
        SplitChars(ReplaceChar(comment, '\n', " "), ' ', i, '\n');
      }
    }
  }

  /** A comment without odd white space gives clips without it. */
  lemma ClipsNoOddSpace(comment: string)
    requires NoOddSpace(comment)
    ensures forall i :: 0 <= i < |Clips(comment)| ==> NoOddSpace(Clips(comment)[i])
  {
    var clips := Clips(comment);
    forall i | 0 <= i < |clips|
      ensures NoOddSpace(clips[i])
    {
      forall j | 0 <= j < |clips[i]|
        ensures !OddSpace(clips[i][j])
      {
        var x := clips[i][j];
        SplitChars(ReplaceChar(comment, '\n', " "), ' ', i, x);
        ReplaceChars(comment, '\n', " ", x);
      }
    }
  }

  /** The text between the triple quotes `make_comment` writes: it holds
      the comment's words in order, and nothing else but separators, when
      the comment has no odd white space. */
  function CommentBody(comment: string): (r: string)
    ensures NoOddSpace(comment) ==> Words(r) == Words(comment)
    ensures r == "" || (r[0] !in Whitespace && r[|r| - 1] !in Whitespace)
  {
    var clips := Clips(comment);
    WrapKeepsWords(clips, 0);
    CommentBodyWords(comment);
    Strip(Wrap(clips, 0))
  }

  lemma CommentBodyWords(comment: string)
    ensures NoOddSpace(comment) ==> Words(Strip(Wrap(Clips(comment), 0))) == Words(comment)
  {
    if NoOddSpace(comment) {
      ClipsNoOddSpace(comment);
      WrapNoOddSpace(Clips(comment), 0);
      WrapKeepsWords(Clips(comment), 0);
      StripKeepsWords(Wrap(Clips(comment), 0));
    }
  }

  /** `make_comment()`: no line for a missing or empty comment, otherwise
      one line holding the wrapped words stripped and triple-quoted. */
  function MakeComment(comment: Option<string>): (r: seq<string>)
    ensures comment.None? || comment == Some("") ==> r == []
    ensures comment.Some? && comment.value != "" ==>
      |r| == 1 && Indent(1) + "\"\"\"" <= r[0] && EndsWith(r[0], "\"\"\"")
  {
    if comment.None? || comment.value == "" then []
    else
      var body := CommentBody(comment.value);
      var line := Indent(1) + "\"\"\"" + body + "\"\"\"";
      PrefixOfConcat(Indent(1) + "\"\"\"", body + "\"\"\"");
      assert line == (Indent(1) + "\"\"\"") + (body + "\"\"\"");
      SuffixOfConcat(Indent(1) + "\"\"\"" + body, "\"\"\"");
      [line]
  }

  // ---------------------------------------------------------------------------
  // Lines built from a fixed prefix
  // ---------------------------------------------------------------------------

  /** `order` lists the members of `s`, each once: an iteration order of a
      Python `set`. */
  predicate Enumerates(order: seq<string>, s: set<string>)
  {
    |order| == |s| && (forall i :: 0 <= i < |order| ==> order[i] in s) &&
    forall i, j :: 0 <= i < j < |order| ==> order[i] != order[j]
  }

  /** Every string of `s` is listed in an enumeration of `s`. */
  lemma EnumeratesAll(order: seq<string>, s: set<string>)
    requires Enumerates(order, s)
    ensures forall x :: x in s <==> x in order
  {
    var listed := set i | 0 <= i < |order| :: order[i];
    assert listed <= s;
    DistinctCard(order);
    assert |listed| == |order|;
    if listed != s {
      var x :| x in s && x !in listed;
      assert listed <= s - {x};
      assert |s - {x}| == |s| - 1;
      SubsetCard(listed, s - {x});
      assert false;
    }
    forall x | x in s
      ensures x in order
    {
      assert x in listed;
      var i :| 0 <= i < |order| && order[i] == x;
    }
  }

  lemma {:induction false} SubsetCard(a: set<string>, b: set<string>)
    requires a <= b
    ensures |a| <= |b|
    decreases |b|
  {
    if a != {} {
      var x :| x in a;
      SubsetCard(a - {x}, b - {x});
    }
  }

  lemma {:induction false} DistinctCard(order: seq<string>)
    requires forall i, j :: 0 <= i < j < |order| ==> order[i] != order[j]
    ensures |set i | 0 <= i < |order| :: order[i]| == |order|
    decreases |order|
  {
    if |order| > 0 {
      var n := |order| - 1;
      var front := order[..n];
      DistinctCard(front);
      var a := set i | 0 <= i < |front| :: front[i];
      var b := set i | 0 <= i < |order| :: order[i];
      assert b == a + {order[n]};
      assert order[n] !in a;
    }
  }

  /** Prepending a fixed text keeps strings apart. */
  lemma PrefixInjective(p: string, a: string, b: string)
    requires p + a == p + b
    ensures a == b
  {
    assert a == (p + a)[|p|..];
    assert b == (p + b)[|p|..];
  }

  // ---------------------------------------------------------------------------
  // The handler
  // ---------------------------------------------------------------------------

  /** `PyHandler.__init__`: what `commit` handed over, the checked title,
      the capitalised author, the comment and the date (`%y/%m/%d`). */
  datatype Handler = Handler(
    compiled: Compiled,
    title: string,
    author: string,
    comment: Option<string>,
    time: string)

  /** `PyHandler(parser, model_name, author, comment)` on a constructed
      parser: the title goes through `check_title`, a missing author fails
      on `capitalize`, and only then is `commit()` called, whose failure is
      the handler's. */
  function NewHandler(declared: seq<ErrorClass>, doc: Document, w: Walk, modelName: string,
                      author: Option<string>, comment: Option<string>, time: string): (r: Result<Handler, Failure>)
    ensures author.None? ==> r == Err(Crash(AttributeError("'NoneType' object has no attribute 'capitalize'")))
    ensures author.Some? ==> (r.Ok? <==> Committed(declared, doc, w).Ok?)
    ensures author.Some? && r.Err? ==> r.error == Committed(declared, doc, w).error
    ensures r.Ok? ==> r.value.title == CheckTitle(modelName) && ValidClassName(r.value.title)
    ensures r.Ok? ==> r.value.author == Capitalize(author.value) && r.value.time == time
    ensures r.Ok? ==> r.value.compiled == Committed(declared, doc, w).value && r.value.comment == comment
  {
    var title := CheckTitle(modelName);
    match author
    case None => Err(Crash(AttributeError("'NoneType' object has no attribute 'capitalize'")))
    case Some(a) =>
      var c :- Committed(declared, doc, w);
      Ok(Handler(c, title, Capitalize(a), comment, time))
  }

  /** With an author, the handler on a constructed parser holds exactly
      what construction followed by `commit` gives, and fails exactly
      when that does. */
  lemma HandlerCompiles(v: Variant, depth: nat, doc: Document, modelName: string, author: Option<string>,
                        comment: Option<string>, time: string)
    requires v.Current? && Construct(v, depth, doc).Ok? && author.Some?
    ensures NewHandler(v.declared, doc, Construct(v, depth, doc).value, modelName, author, comment, time).Ok?
      <==> Compile(v, depth, doc).Ok?
    ensures Compile(v, depth, doc).Ok? ==>
      NewHandler(v.declared, doc, Construct(v, depth, doc).value, modelName, author, comment, time).value.compiled
        == Compile(v, depth, doc).value
  {
  }

  /** The file `export` writes: the lower-cased title with `.py`. */
  function FileName(title: string): string
  {
    Lower(title) + ".py"
  }

  /** `make_declare()`: a comment block naming the file, the author and
      the date, then a blank line. */
  function MakeDeclare(title: string, author: string, time: string): (r: seq<string>)
    ensures |r| == 9 && r[|r| - 1] == ""
    ensures forall i :: 0 <= i < |r| - 1 ==> "#" <= r[i]
    ensures r[2] == "# " + FileName(title)
    ensures IsSubstring(author, r[3]) && IsSubstring(time, r[3])
  {
    var byline := "# Created by " + author + " on " + time;
    assert IsSubstring(author, byline) by {
      HeadSubstring(author, " on " + time);
      SkipSub("# Created by ", author, author + " on " + time);
      assert byline == "# Created by " + (author + " on " + time);
    }
    assert IsSubstring(time, byline) by {
      SubstringAtEnd("# Created by " + author + " on ", time);
    }
    ["# -*- coding: utf-8 -*-",
     "# ",
     "# " + Lower(title) + ".py",
     byline,
     "# ",
     "# " + title + " was built with Karken: KMB",
     "# A Keras Model Builder Tool.",
     "# ",
     ""]
  }

  /** A string occurs in itself followed by anything. */
  lemma HeadSubstring(a: string, b: string)
    ensures IsSubstring(a, a + b)
  {
    PrefixOfConcat(a, b);
  }

  /** A string that occurs in `s` occurs behind any text put before `s`. */
  lemma {:induction false} SkipSub(p: string, x: string, s: string)
    requires IsSubstring(x, s)
    ensures IsSubstring(x, p + s)
    decreases |p|
  {
    if |p| > 0 {
      assert (p + s)[1..] == p[1..] + s;
      SkipSub(p[1..], x, s);
    } else {
      assert p + s == s;
    }
  }

  lemma SubstringAtEnd(p: string, s: string)
    ensures IsSubstring(s, p + s)
  {
    SubstringOfSelf(s);
    SkipSub(p, s, s);
  }

  const ImportPrefix := "from keras import "

  /** The import lines of `make_import()`, one per package in iteration
      order. */
  function Imports(order: seq<string>): (r: seq<string>)
    ensures |r| == |order|
    ensures forall i :: 0 <= i < |r| ==> ImportPrefix <= r[i]
  {
    seq(|order|, i requires 0 <= i < |order| => ImportPrefix + order[i])
  }

  /** `make_import()`: one `from keras import` line per package the
      statements use, then two blank lines. With `order` an iteration order
      of the packages, exactly the packages used are imported. */
  function MakeImport(order: seq<string>): (r: seq<string>)
    ensures |r| == |order| + 2 && r[|r| - 2..] == ["", ""]
    ensures forall x :: ImportPrefix + x in r <==> x in order
  {
    var r := Imports(order) + ["", ""];
    forall x | ImportPrefix + x in r
      ensures x in order
    {
      var k :| 0 <= k < |r| && r[k] == ImportPrefix + x;
      assert k < |order|;
      PrefixInjective(ImportPrefix, x, order[k]);
    }
    forall x | x in order
      ensures ImportPrefix + x in r
    {
      var k :| 0 <= k < |order| && order[k] == x;
      assert r[k] == ImportPrefix + x;
    }
    r
  }

  /** Every package of the set is imported, and nothing else. */
  lemma ImportsExactly(order: seq<string>, src: set<string>)
    requires Enumerates(order, src)
    ensures forall x :: ImportPrefix + x in MakeImport(order) <==> x in src
  {
    EnumeratesAll(order, src);
  }

  /** An assignment `self.ph = ph` of `__init__`. */
  function Assignment(ph: string): string
  {
    Indent(2) + "self." + ph + " = " + ph
  }

  lemma AssignmentInjective(a: string, b: string)
    requires Assignment(a) == Assignment(b)
    ensures a == b
  {
    var p := Indent(2) + "self.";
    assert Assignment(a) == p + (a + " = " + a);
    assert Assignment(b) == p + (b + " = " + b);
    PrefixInjective(p, a + " = " + a, b + " = " + b);
    assert |a| == |b|;
    assert a == (a + " = " + a)[..|a|];
    assert b == (b + " = " + b)[..|b|];
  }

  /** A block the interpreter accepts after `def ...:`: not empty, and
      every line indented deeper than the `def`. */
  predicate IndentedBlock(block: seq<string>)
  {
    |block| > 0 && forall i :: 0 <= i < |block| ==> Indent(2) <= block[i]
  }

  /** The body of `__init__`: one assignment per placeholder, or `pass`.
      It is an indented block that assigns exactly the placeholders. */
  function InitBody(phs: seq<string>): (r: seq<string>)
    ensures IndentedBlock(r)
    ensures forall ph :: Assignment(ph) in r <==> ph in phs
  {
    if |phs| > 0 then
      var r := seq(|phs|, i requires 0 <= i < |phs| => Assignment(phs[i]));
      forall ph | Assignment(ph) in r
        ensures ph in phs
      {
        var k :| 0 <= k < |r| && r[k] == Assignment(ph);
        AssignmentInjective(ph, phs[k]);
      }
      forall ph | ph in phs
        ensures Assignment(ph) in r
      {
        var k :| 0 <= k < |phs| && phs[k] == ph;
        assert r[k] == Assignment(ph);
      }
      forall k | 0 <= k < |r|
        ensures Indent(2) <= r[k]
      {
        PrefixOfConcat(Indent(2), "self." + phs[k] + " = " + phs[k]);
        assert r[k] == Indent(2) + ("self." + phs[k] + " = " + phs[k]);
      }
      r
    else
      var pass := Indent(2) + "pass";
      PrefixOfConcat(Indent(2), "pass");
      forall ph
        ensures Assignment(ph) != pass
      {
        assert |Assignment(ph)| > |pass|;
      }
      [pass]
  }

  /** The `def __init__` line: every placeholder becomes a parameter. */
  function InitHeader(phs: seq<string>): string
  {
    Indent(1) + "def __init__(self, " + Join(phs, ", ") + "):"
  }

  /** `make_class()` of either variant, given the `__init__` body it
      writes and the docstring lines. */
  function ClassLines(title: string, doc: seq<string>, phs: seq<string>, body: seq<string>): seq<string>
  {
    ["class " + title + ":"] + doc + [""] + [InitHeader(phs)] + body + [""]
  }

  /** `make_class()`: the class line, the docstring, the constructor
      taking and storing every placeholder, and a blank line. */
  function MakeClass(title: string, comment: Option<string>, phs: seq<string>): (r: seq<string>)
    ensures |r| >= 4 && r[0] == "class " + title + ":" && r[|r| - 1] == ""
    ensures var k := |MakeComment(comment)| + 2;
      k < |r| - 1 && r[k] == InitHeader(phs) && IndentedBlock(r[k + 1..|r| - 1])
    ensures var k := |MakeComment(comment)| + 2;
      k < |r| - 1 && forall ph :: Assignment(ph) in r[k + 1..|r| - 1] <==> ph in phs
  {
    var doc := MakeComment(comment);
    var body := InitBody(phs);
    var r := ClassLines(title, doc, phs, body);
    assert r[|doc| + 3..|r| - 1] == body;
    r
  }

  // ---------------------------------------------------------------------------
  // make_build
  // ---------------------------------------------------------------------------

  /** The items `', '.join` accepts: all of them must be `str`, otherwise
      the join fails on the first one that is not. */
  function StrItems(vs: seq<PyValue>): (r: Result<seq<string>, Fault>)
    ensures r.Ok? <==> forall i :: 0 <= i < |vs| ==> vs[i].Str?
    ensures r.Err? ==> r.error.TypeError?
    ensures r.Ok? ==> |r.value| == |vs| && forall i :: 0 <= i < |vs| ==> r.value[i] == vs[i].s
  {
    if |vs| == 0 then Ok([])
    else if !vs[0].Str? then Err(TypeError("sequence item: expected str instance"))
    else
      match StrItems(vs[1..])
      case Err(e) => Err(e)
      case Ok(rest) => Ok([vs[0].s] + rest)
  }

  /** `lines` with `weight` levels of indentation removed. */
  function Dedent(lines: seq<string>, weight: nat): seq<string>
  {
    seq(|lines|, i requires 0 <= i < |lines| =>
      if |lines[i]| >= TabWidth * weight then lines[i][TabWidth * weight..] else lines[i])
  }

  /** `make_build()`: the `build` method holds the compiled statements one
      level deeper, a blank line, and returns the released models; a
      returned value that is not a `str` makes the join fail. */
  function MakeBuild(lines: seq<string>, rtn: seq<PyValue>): (r: Result<seq<string>, Fault>)
    ensures r.Err? <==> exists i :: 0 <= i < |rtn| && !rtn[i].Str?
    ensures r.Ok? ==> |r.value| == |lines| + 3 && r.value[0] == Indent(1) + "def build(self):"
    ensures r.Ok? ==> Dedent(r.value[1..|lines| + 1], 2) == lines
    ensures r.Ok? ==> r.value[|lines| + 1] == "" &&
                      Indent(2) + "return " <= r.value[|lines| + 2]
  {
    var names :- StrItems(rtn);
    var body := seq(|lines|, i requires 0 <= i < |lines| => Indent(2) + lines[i]);
    var ret := Indent(2) + "return " + Join(names, ", ");
    PrefixOfConcat(Indent(2) + "return ", Join(names, ", "));
    var r := [Indent(1) + "def build(self):"] + body + [""] + [ret];
    assert r[1..|lines| + 1] == body;
    forall i | 0 <= i < |lines|
      ensures Dedent(body, 2)[i] == lines[i]
    {
      assert body[i] == Indent(2) + lines[i];
      assert body[i][8..] == lines[i];
    }
    Ok(r)
  }

  // ---------------------------------------------------------------------------
  // make_warnings
  // ---------------------------------------------------------------------------

  /** `f'Warning {i}: {str(err)}'` for the warnings numbered from `first`. */
  function WarningLines(ws: seq<Warning>, first: nat): (r: seq<string>)
    ensures |r| == |ws|
  {
    seq(|ws|, i requires 0 <= i < |ws| =>
      "Warning " + NatToDecimal(first + i) + ": " + WarningText(ws[i]))
  }

  /** `make_warnings()`: the numbered warnings joined with `;` and a line
      break. */
  function MakeWarnings(ws: seq<Warning>): (r: string)
    ensures r == "" <==> ws == []
    ensures |ws| > 0 ==> "Warning 1: " <= r
  {
    var xs := WarningLines(ws, 1);
    if |ws| > 0 then
      assert NatToDecimal(1) == "1";
      assert xs[0] == "Warning 1: " + WarningText(ws[0]);
      PrefixOfConcat("Warning 1: ", WarningText(ws[0]));
      if |ws| == 1 then Join(xs, ";\n")
      else
        JoinCons(xs[0], xs[1..], ";\n");
        assert [xs[0]] + xs[1..] == xs;
        PrefixOfConcat(xs[0], ";\n" + Join(xs[1..], ";\n"));
        assert Join(xs, ";\n") == xs[0] + (";\n" + Join(xs[1..], ";\n"));
        Join(xs, ";\n")
    else Join(xs, ";\n")
  }

  lemma {:induction false} CountAbsent(s: string, c: char)
    requires c !in s
    ensures Count(s, c) == 0
    decreases |s|
  {
    if |s| > 0 {
      assert s == [s[0]] + s[1..];
      CountConcat([s[0]], s[1..], c);
      assert [s[0]][1..] == [];
      CountAbsent(s[1..], c);
    }
  }

  lemma {:induction false} JoinCountsBreaks(xs: seq<string>)
    requires |xs| > 0
    requires forall i :: 0 <= i < |xs| ==> '\n' !in xs[i]
    ensures Count(Join(xs, ";\n"), '\n') == |xs| - 1
    decreases |xs|
  {
    CountAbsent(xs[0], '\n');
    if |xs| > 1 {
      JoinCountsBreaks(xs[1..]);
      JoinCons(xs[0], xs[1..], ";\n");
      assert [xs[0]] + xs[1..] == xs;
      CountConcat(xs[0] + ";\n", Join(xs[1..], ";\n"), '\n');
      CountConcat(xs[0], ";\n", '\n');
      assert Count(";\n", '\n') == 1;
    }
  }

  /** One warning per line: when no warning text holds a line break, the
      report has exactly one line per warning. */
  lemma WarningsOnePerLine(ws: seq<Warning>)
    requires |ws| > 0
    requires forall i :: 0 <= i < |ws| ==> '\n' !in WarningText(ws[i])
    ensures Count(MakeWarnings(ws), '\n') == |ws| - 1
  {
    var xs := WarningLines(ws, 1);
    forall i | 0 <= i < |xs|
      ensures '\n' !in xs[i]
    {
      var d := NatToDecimal(1 + i);
      assert forall j :: 0 <= j < |d| ==> IsDigit(d[j]);
    }
    JoinCountsBreaks(xs);
  }

  // ---------------------------------------------------------------------------
  // organize / export
  // ---------------------------------------------------------------------------

  /** The file contents `export` writes: every line followed by a line
      break. */
  function FileText(lines: seq<string>): (r: string)
    ensures |r| >= |lines|
  {
    if |lines| == 0 then "" else lines[0] + "\n" + FileText(lines[1..])
  }

  /** Reading the file back at line breaks gives the lines written, and an
      empty piece after the last break. */
  lemma {:induction false} FileTextRoundTrip(lines: seq<string>)
    requires forall i :: 0 <= i < |lines| ==> '\n' !in lines[i]
    ensures Split(FileText(lines), '\n') == lines + [""]
    decreases |lines|
  {
    if |lines| == 0 {
      assert Split("", '\n') == [""];
    } else {
      FileTextRoundTrip(lines[1..]);
      assert FileText(lines) == lines[0] + ['\n'] + FileText(lines[1..]);
      SplitSeparated(lines[0], FileText(lines[1..]), '\n');
      assert [lines[0]] + (lines[1..] + [""]) == lines + [""];
    }
  }

  /** `organize()`: declaration, imports, class and build method, in this
      order; only the build method can fail. */
  function Organize(h: Handler, srcOrder: seq<string>, phsOrder: seq<string>): (r: Result<seq<string>, Fault>)
    ensures r.Err? <==> MakeBuild(h.compiled.lines, h.compiled.rtn).Err?
    ensures r.Ok? ==>
      var head := MakeDeclare(h.title, h.author, h.time) + MakeImport(srcOrder) +
                  MakeClass(h.title, h.comment, phsOrder);
      head <= r.value && r.value[|head|..] == MakeBuild(h.compiled.lines, h.compiled.rtn).value
  {
    var build :- MakeBuild(h.compiled.lines, h.compiled.rtn);
    var head := MakeDeclare(h.title, h.author, h.time) + MakeImport(srcOrder) +
                MakeClass(h.title, h.comment, phsOrder);
    assert (head + build)[|head|..] == build;
    Ok(head + build)
  }

  /** What `export` leaves behind: the file written, its contents, and
      the returned report with the number of warnings. */
  datatype Exported = Exported(path: string, text: string, warnings: seq<Warning>, report: string, count: nat)

  /** The distinct placeholder names. */
  function PlaceholderSet(phs: seq<string>): set<string>
  {
    set x | x in phs
  }

  /** `export(dst)`: the file is `dst/<title lower-cased>.py`; a file
      already there builds one more warning before the report is made.
      `present` says whether that file exists; `srcOrder` and `phsOrder`
      are the iteration orders of the two sets the compiler handed over;
      `declared` is the error module the warning's class is looked up in.
      The warning is built after `organize`, so an unbound warning class
      escapes before the file is opened. */
  function Export(declared: seq<ErrorClass>, h: Handler, srcOrder: seq<string>, phsOrder: seq<string>,
                  dst: string, present: bool)
    : (r: Result<Exported, Fault>)
    requires Enumerates(srcOrder, h.compiled.src) && Enumerates(phsOrder, PlaceholderSet(h.compiled.phs))
    ensures r.Err? <==> (exists i :: 0 <= i < |h.compiled.rtn| && !h.compiled.rtn[i].Str?) ||
                        (present && ExistedFileCoveredWarningClass !in declared)
    ensures (forall i :: 0 <= i < |h.compiled.rtn| ==> h.compiled.rtn[i].Str?) &&
            present && ExistedFileCoveredWarningClass !in declared ==>
              r == Err(NameError(WarningName(ExistedFileCovered(dst + "/" + FileName(h.title)))))
    ensures r.Ok? ==> r.value.path == dst + "/" + FileName(h.title)
    ensures r.Ok? ==> r.value.count == |r.value.warnings| == |h.compiled.warnings| + (if present then 1 else 0)
    ensures r.Ok? ==> r.value.warnings[..|h.compiled.warnings|] == h.compiled.warnings
    ensures r.Ok? && present ==> r.value.warnings[|r.value.warnings| - 1] == ExistedFileCovered(r.value.path)
    ensures r.Ok? ==> (r.value.report == "" <==> r.value.count == 0)
  {
    var path := dst + "/" + Lower(h.title) + ".py";
    assert path == dst + "/" + FileName(h.title);
    var contents :- Organize(h, srcOrder, phsOrder);
    var extra :- Covered(declared, path, present);
    var ws := h.compiled.warnings + extra;
    assert ws[..|h.compiled.warnings|] == h.compiled.warnings;
    Ok(Written(path, contents, ws))
  }

  /** The file written with `contents` and the report made of `ws`. */
  function Written(path: string, contents: seq<string>, ws: seq<Warning>): (x: Exported)
    ensures x.path == path && x.warnings == ws && x.count == |ws|
    ensures x.report == "" <==> x.count == 0
  {
    Exported(path, FileText(contents), ws, MakeWarnings(ws), |ws|)
  }

  /** `check_path(path)`: nothing when no file is there, otherwise the
      built covered-file warning. */
  function Covered(declared: seq<ErrorClass>, path: string, present: bool): (r: Result<seq<Warning>, Fault>)
    ensures r.Err? <==> present && ExistedFileCoveredWarningClass !in declared
    ensures r.Err? ==> r.error == NameError(WarningName(ExistedFileCovered(path)))
    ensures r.Ok? ==> r.value == if present then [ExistedFileCovered(path)] else []
  {
    if present then
      var w :- Build(declared, ExistedFileCovered(path));
      Ok([w])
    else Ok([])
  }

  /** Against lib/parser/errors.py as written, exporting over an existing
      file ends in a `NameError`; against the corrected module it reports
      the covered file as the last warning. */
  lemma ExportOverExisting(h: Handler, srcOrder: seq<string>, phsOrder: seq<string>, dst: string)
    requires Enumerates(srcOrder, h.compiled.src) && Enumerates(phsOrder, PlaceholderSet(h.compiled.phs))
    requires forall i :: 0 <= i < |h.compiled.rtn| ==> h.compiled.rtn[i].Str?
    ensures Export(Declared, h, srcOrder, phsOrder, dst, true) == Err(NameError("PyExistedFileCoveredWarning"))
    ensures Export(CorrectedDeclared, h, srcOrder, phsOrder, dst, true).Ok?
    ensures Export(Declared, h, srcOrder, phsOrder, dst, false) == Export(CorrectedDeclared, h, srcOrder, phsOrder, dst, false)
  {
    assert ExistedFileCoveredWarningClass !in Declared;
    assert ExistedFileCoveredWarningClass in CorrectedDeclared;
    CoveredName(dst + "/" + FileName(h.title));
  }

  lemma CoveredName(path: string)
    ensures WarningName(ExistedFileCovered(path)) == "PyExistedFileCoveredWarning"
  {
  }

  /** The file holds the organised lines: read back at line breaks, it
      gives the declaration, imports, class and build method in order. */
  lemma ExportWritesOrganized(declared: seq<ErrorClass>, h: Handler, srcOrder: seq<string>, phsOrder: seq<string>,
                              dst: string, present: bool)
    requires Enumerates(srcOrder, h.compiled.src) && Enumerates(phsOrder, PlaceholderSet(h.compiled.phs))
    requires Export(declared, h, srcOrder, phsOrder, dst, present).Ok?
    requires forall i :: 0 <= i < |Organize(h, srcOrder, phsOrder).value| ==>
      '\n' !in Organize(h, srcOrder, phsOrder).value[i]
    ensures Split(Export(declared, h, srcOrder, phsOrder, dst, present).value.text, '\n') ==
      Organize(h, srcOrder, phsOrder).value + [""]
  {
    FileTextRoundTrip(Organize(h, srcOrder, phsOrder).value);
  }
}

/** The older assembler `PyHandler` (parser/pyparser.py:490-579): no author,
    date, docstring, title check or warnings; the title is the document's
    name and the placeholders come as a list in insertion order. */
/** The handler on the worked Input -> Dense -> Model document. */
module HandlerExamples {
  import opened Wrappers
  import opened Errors
  import opened Compiler
  import opened CompilerExamples
  import opened Assembler

  /** The handler on the chain, against lib/parser/errors.py as written:
      without an author it fails on `capitalize` before `commit()` runs;
      with one, it fails as `commit()` does, building the unreleased model
      warning. */
  lemma ChainHandler(author: Option<string>, time: string)
    ensures author.None? ==> (NewHandler(Declared, Chain, AfterChain, "m", author, None, time)
      == Err(Crash(AttributeError("'NoneType' object has no attribute 'capitalize'"))))
    ensures author.Some? ==> (NewHandler(Declared, Chain, AfterChain, "m", author, None, time)
      == Err(Crash(NameError("PyUnreleasedModelWarning"))))
  {
    if author.Some? {
      ChainCommit();
    }
  }
}

module LegacyAssembler {
  import opened Wrappers
  import opened PyStr
  import opened Errors
  import opened Doc
  import opened Compiler
  import opened Assembler

  /** `make_declare()`: a comment block naming the encoding and the file,
      then a blank line. */
  function LegacyDeclare(title: string, encoding: string): (r: seq<string>)
    ensures |r| == 8 && r[|r| - 1] == ""
    ensures forall i :: 0 <= i < |r| - 1 ==> "#" <= r[i]
    ensures r[2] == "# " + FileName(title)
    ensures IsSubstring(encoding, r[0])
  {
    var coding := "# -*- coding:" + encoding + " -*-";
    assert IsSubstring(encoding, coding) by {
      HeadSubstring(encoding, " -*-");
      SkipSub("# -*- coding:", encoding, encoding + " -*-");
      assert coding == "# -*- coding:" + (encoding + " -*-");
    }
    [coding,
     "# ",
     "# " + Lower(title) + ".py",
     "# ",
     "# Model " + title + " is built with Karken:",
     "# A Keras Model Builder Tool. (aka. KMB)",
     "# ",
     ""]
  }

  /** The body of `__init__` as the older `make_class` writes it: the
      assignments, or a `pass` at the start of the line. */
  function LegacyInitBody(phs: seq<string>): (r: seq<string>)
    ensures |phs| > 0 ==> r == InitBody(phs)
    ensures |phs| == 0 ==> |r| == 1 && r[0] == "pass"
  {
    if |phs| > 0 then InitBody(phs) else ["pass"]
  }

  /** The older `make_class()`: no docstring. */
  function LegacyClass(title: string, phs: seq<string>): (r: seq<string>)
    ensures |r| >= 4 && r[0] == "class " + title + ":" && r[2] == InitHeader(phs) && r[|r| - 1] == ""
    ensures IndentedBlock(r[3..|r| - 1]) <==> |phs| > 0
  {
    var body := LegacyInitBody(phs);
    var r := ClassLines(title, [], phs, body);
    assert r[3..|r| - 1] == body;
    assert |phs| == 0 ==> !(Indent(2) <= "pass");
    r
  }

  /** Without placeholders the older class has a constructor whose body is
      not indented, which the interpreter rejects; the newer `make_class`
      indents its `pass`. */
  lemma PassUnindentedAsWritten()
    ensures !IndentedBlock(LegacyClass("Net", [])[3..|LegacyClass("Net", [])| - 1])
    ensures IndentedBlock(InitBody([]))
  {
  }

  /** The older assembler takes the document's name as the class name
      unchecked: a name with a space gives a class line the interpreter
      rejects, where `check_title` gives a valid name. */
  lemma TitleUncheckedAsWritten()
    ensures LegacyClass("my net", ["a"])[0] == "class my net:"
    ensures !ValidClassName("my net") && ValidClassName(CheckTitle("my net"))
  {
    assert !IsWordChar("my net"[2]);
  }

  /** The older `organize()`. */
  function LegacyOrganize(c: Compiled, encoding: string, srcOrder: seq<string>): (r: Result<seq<string>, Fault>)
    ensures r.Err? <==> exists i :: 0 <= i < |c.rtn| && !c.rtn[i].Str?
    ensures r.Ok? ==> |r.value| >= 8 && r.value[..8] == LegacyDeclare(c.title, encoding)
  {
    var build :- MakeBuild(c.lines, c.rtn);
    var head := LegacyDeclare(c.title, encoding) + MakeImport(srcOrder) + LegacyClass(c.title, c.phs);
    assert (head + build)[..8] == LegacyDeclare(c.title, encoding);
    Ok(head + build)
  }

  /** The older `export(dst)`: the text written to `dst` itself. */
  function LegacyExport(c: Compiled, encoding: string, srcOrder: seq<string>): (r: Result<string, Fault>)
    requires Enumerates(srcOrder, c.src)
    ensures r.Err? <==> exists i :: 0 <= i < |c.rtn| && !c.rtn[i].Str?
    ensures r.Ok? ==> "# -*- coding:" + encoding + " -*-\n" <= r.value
  {
    var contents :- LegacyOrganize(c, encoding, srcOrder);
    var first := "# -*- coding:" + encoding + " -*-";
    assert contents[0] == first;
    assert FileText(contents) == first + "\n" + FileText(contents[1..]);
    PrefixOfConcat(first + "\n", FileText(contents[1..]));
    Ok(FileText(contents))
  }
}

=== FILE: auto.dfy ===
/** The argument-value normaliser `AutoInspector` (lib/auto.py): strings
    become identifier-like names, numbers are extracted from free text, and
    sequences get brackets and expanded repetitions. The regular expressions
    are written out as scanners over ASCII. */
module Auto {
  import opened Wrappers
  import opened PyStr

  // ---------------------------------------------------------------------------
  // The scanner for `-?\d+\.?\d*` and `-?\d+\.?\d*;?\d*`
  // ---------------------------------------------------------------------------

  /** The length of the run of digits starting at `i`. */
  function DigitRun(s: string, i: nat): (n: nat)
    requires i <= |s|
    ensures i + n <= |s|
    decreases |s| - i
  {
    if i < |s| && IsDigit(s[i]) then 1 + DigitRun(s, i + 1) else 0
  }

  /** A digit run consists of digits. */
  lemma {:induction false} DigitRunDigits(s: string, i: nat)
    requires i <= |s|
    ensures forall k :: i <= k < i + DigitRun(s, i) ==> IsDigit(s[k])
    decreases |s| - i
  {
    if i < |s| && IsDigit(s[i]) {
      DigitRunDigits(s, i + 1);
    }
  }

  /** A digit run stops at the end of the text or at a non-digit. */
  lemma {:induction false} DigitRunStops(s: string, i: nat)
    requires i <= |s|
    ensures i + DigitRun(s, i) == |s| || !IsDigit(s[i + DigitRun(s, i)])
    decreases |s| - i
  {
    if i < |s| && IsDigit(s[i]) {
      DigitRunStops(s, i + 1);
    }
  }

  /** 1 when a minus followed by a digit starts at `i`, else 0. */
  function Sign(s: string, i: nat): (n: nat)
    requires i <= |s|
    ensures n <= 1 && i + n <= |s|
  {
    if i + 1 < |s| && s[i] == '-' && IsDigit(s[i + 1]) then 1 else 0
  }

  /** Where `\.?\d*` stops when started at `j`. */
  function FracEnd(s: string, j: nat): (e: nat)
    requires j <= |s|
    ensures j <= e <= |s|
  {
    if j < |s| && s[j] == '.' then j + 1 + DigitRun(s, j + 1) else j
  }

  /** Where `;?\d*` stops when started at `k`; without `semi` it matches
      nothing. */
  function SemiEnd(s: string, k: nat, semi: bool): (e: nat)
    requires k <= |s|
    ensures k <= e <= |s|
  {
    if semi && k < |s| && s[k] == ';' then k + 1 + DigitRun(s, k + 1) else k
  }

  /** The length of the leftmost-longest match at `i`, 0 for none. With
      `semi` the pattern goes on with `;?\d*`. */
  function MatchAt(s: string, i: nat, semi: bool): (n: nat)
    requires i <= |s|
    ensures i + n <= |s|
  {
    var a := i + Sign(s, i);
    var d := DigitRun(s, a);
    if d == 0 then 0 else SemiEnd(s, FracEnd(s, a + d), semi) - i
  }

  /** A match starts exactly at a digit, or at a minus before a digit. */
  lemma MatchStart(s: string, i: nat, semi: bool)
    requires i <= |s|
    ensures MatchAt(s, i, semi) > 0 <==>
      i < |s| && (IsDigit(s[i]) || (s[i] == '-' && i + 1 < |s| && IsDigit(s[i + 1])))
  {
  }

  /** `pattern.findall(s[i..])`: the matches from left to right, each search
      resuming behind the previous match. */
  function FindAll(s: string, i: nat, semi: bool): (r: seq<string>)
    requires i <= |s|
    ensures forall k :: 0 <= k < |r| ==> |r[k]| > 0
    decreases |s| - i
  {
    if i == |s| then []
    else
      var n := MatchAt(s, i, semi);
      if n == 0 then FindAll(s, i + 1, semi)
      else [s[i..i + n]] + FindAll(s, i + n, semi)
  }

  /** A failed match moves the scan on by one character. */
  lemma FindAllSkip(s: string, i: nat, semi: bool)
    requires i < |s| && MatchAt(s, i, semi) == 0
    ensures FindAll(s, i, semi) == FindAll(s, i + 1, semi)
  {
  }

  /** A successful match is emitted and the scan resumes behind it. */
  lemma FindAllEmit(s: string, i: nat, semi: bool)
    requires i < |s| && MatchAt(s, i, semi) > 0
    ensures FindAll(s, i, semi) == [s[i..i + MatchAt(s, i, semi)]] + FindAll(s, i + MatchAt(s, i, semi), semi)
  {
  }

  /** Some match is found exactly when a digit is left to scan. */
  lemma {:induction false} FindAllIffDigit(s: string, i: nat, semi: bool)
    requires i <= |s|
    ensures FindAll(s, i, semi) != [] <==> exists k :: i <= k < |s| && IsDigit(s[k])
    decreases |s| - i
  {
    if i < |s| {
      var n := MatchAt(s, i, semi);
      if n == 0 {
        FindAllIffDigit(s, i + 1, semi);
        assert !IsDigit(s[i]);
        if exists k :: i <= k < |s| && IsDigit(s[k]) {
          var k :| i <= k < |s| && IsDigit(s[k]);
          assert k > i;
        }
      } else if IsDigit(s[i]) {
      } else {
        assert IsDigit(s[i + 1]);
      }
    }
  }

  /** A run of digits is determined by where it ends. */
  lemma {:induction false} DigitRunUnique(s: string, i: nat, n: nat)
    requires i + n <= |s|
    requires forall k :: i <= k < i + n ==> IsDigit(s[k])
    requires i + n == |s| || !IsDigit(s[i + n])
    ensures DigitRun(s, i) == n
    decreases n
  {
    if n > 0 {
      DigitRunUnique(s, i + 1, n - 1);
    }
  }

  /** 1 when the text starts with a minus, else 0. */
  function SignWidth(t: string): (w: nat)
    ensures w <= 1 && w <= |t|
  {
    if |t| > 0 && t[0] == '-' then 1 else 0
  }

  /** A number as the first pattern writes it: an optional minus, at least
      one digit, then optionally a dot followed by digits only. */
  predicate NumberText(t: string)
  {
    var a := SignWidth(t);
    var d := DigitRun(t, a);
    d > 0 && (a + d == |t| || (t[a + d] == '.' && forall k :: a + d < k < |t| ==> IsDigit(t[k])))
  }

  /** A number text is matched whole. */
  lemma MatchNumberText(t: string)
    requires NumberText(t)
    ensures MatchAt(t, 0, false) == |t|
  {
    var a := SignWidth(t);
    var d := DigitRun(t, a);
    assert IsDigit(t[a]);
    assert Sign(t, 0) == a;
    if a + d < |t| {
      DigitRunUnique(t, a + d + 1, |t| - a - d - 1);
    }
  }

  /** A match of the first pattern, split at its sign and its dot. */
  lemma MatchShape(s: string, i: nat)
    requires i <= |s| && MatchAt(s, i, false) > 0
    ensures var a := i + Sign(s, i);
      var d := DigitRun(s, a);
      d > 0 && IsDigit(s[a]) && MatchAt(s, i, false) == FracEnd(s, a + d) - i
  {
  }

  /** Every match of the first pattern is a number text. */
  lemma MatchIsNumberText(s: string, i: nat)
    requires i <= |s| && MatchAt(s, i, false) > 0
    ensures NumberText(s[i..i + MatchAt(s, i, false)])
  {
    var m := MatchAt(s, i, false);
    var t := s[i..i + m];
    var sg := Sign(s, i);
    var d := DigitRun(s, i + sg);
    var j := i + sg + d;
    MatchShape(s, i);
    assert t[sg] == s[i + sg];
    assert SignWidth(t) == sg;
    DigitRunDigits(s, i + sg);
    forall k | sg <= k < sg + d
      ensures IsDigit(t[k])
    {
      assert t[k] == s[i + k];
    }
    DigitRunStops(s, i + sg);
    if j < |s| && s[j] == '.' {
      var e := DigitRun(s, j + 1);
      assert m == sg + d + 1 + e;
      assert t[sg + d] == s[j];
      DigitRunUnique(t, sg, d);
      DigitRunDigits(s, j + 1);
      forall k | sg + d < k < |t|
        ensures IsDigit(t[k])
      {
        assert t[k] == s[i + k];
      }
    } else {
      assert m == sg + d;
      DigitRunUnique(t, sg, d);
    }
  }

  // ---------------------------------------------------------------------------
  // _inspect_number
  // ---------------------------------------------------------------------------

  /** The concatenation of a list of strings, `''.join(xs)`. */
  function Concat(xs: seq<string>): string
  {
    Join(xs, "")
  }

  /** `_inspect_number()`: every number in the text, concatenated; with no
      number at all, the length of the text in decimal. */
  function InspectNumber(value: string): (r: string)
    ensures (forall k :: 0 <= k < |value| ==> !IsDigit(value[k])) ==> r == NatToDecimal(|value|)
    ensures (exists k :: 0 <= k < |value| && IsDigit(value[k])) ==> r == Concat(FindAll(value, 0, false))
  {
    FindAllIffDigit(value, 0, false);
    var res := FindAll(value, 0, false);
    if |res| == 0 then NatToDecimal(|value|) else Concat(res)
  }

  /** A well-formed number is left as it is. */
  lemma InspectNumberKeepsNumbers(t: string)
    requires NumberText(t)
    ensures InspectNumber(t) == t
  {
    MatchNumberText(t);
    assert t[0..|t|] == t;
    assert FindAll(t, 0, false) == [t];
  }

  /** Every piece of a list is a number text. */
  predicate AllNumbers(xs: seq<string>)
  {
    |xs| == 0 || (NumberText(xs[0]) && AllNumbers(xs[1..]))
  }

  /** Prepending a number text keeps a list of number texts. */
  lemma AllNumbersCons(x: string, xs: seq<string>, ys: seq<string>)
    requires ys == [x] + xs
    requires NumberText(x) && AllNumbers(xs)
    ensures AllNumbers(ys)
  {
    assert ys[1..] == xs;
  }

  /** The recursive definition says the same as an index-wise one. */
  lemma {:induction false} AllNumbersAt(xs: seq<string>, k: nat)
    requires AllNumbers(xs) && k < |xs|
    ensures NumberText(xs[k])
  {
    if k > 0 {
      AllNumbersAt(xs[1..], k - 1);
    }
  }

  /** Every match the number scan returns is a number text. */
  lemma {:induction false} FindAllNumbers(s: string, i: nat)
    requires i <= |s|
    ensures AllNumbers(FindAll(s, i, false))
    decreases |s| - i, 1
  {
    if i < |s| {
      if MatchAt(s, i, false) == 0 {
        FindAllSkip(s, i, false);
        FindAllNumbers(s, i + 1);
      } else {
        EmitNumbers(s, i);
      }
    }
  }

  /** The step of `FindAllNumbers` where a match is emitted. */
  lemma {:induction false} EmitNumbers(s: string, i: nat)
    requires i < |s| && MatchAt(s, i, false) > 0
    ensures AllNumbers(FindAll(s, i, false))
    decreases |s| - i, 0
  {
    FindAllEmit(s, i, false);
    MatchIsNumberText(s, i);
    FindAllNumbers(s, i + MatchAt(s, i, false));
    AllNumbersCons(s[i..i + MatchAt(s, i, false)], FindAll(s, i + MatchAt(s, i, false), false), FindAll(s, i, false));
  }

  /** `'12.34a'` gives `'12.34'`. */
  lemma InspectNumberDropsLetters()
    ensures InspectNumber("12.34a") == "12.34"
  {
    var s := "12.34a";
    assert DigitRun(s, 5) == 0;
    assert DigitRun(s, 3) == 2;
    assert DigitRun(s, 0) == 2;
    assert MatchAt(s, 0, false) == 5;
    assert MatchAt(s, 5, false) == 0;
    assert FindAll(s, 5, false) == [];
    assert s[0..5] == "12.34";
    assert FindAll(s, 0, false) == ["12.34"];
    assert IsDigit(s[0]);
  }

  /** `'-12.34a45'` gives `'-12.3445'`: the letter splits the digits into
      two numbers, which are concatenated. */
  lemma InspectNumberJoinsPieces()
    ensures InspectNumber("-12.34a45") == "-12.3445"
  {
    var s := "-12.34a45";
    assert DigitRun(s, 9) == 0;
    assert DigitRun(s, 8) == 1;
    assert DigitRun(s, 7) == 2;
    assert DigitRun(s, 6) == 0;
    assert DigitRun(s, 4) == 2;
    assert DigitRun(s, 1) == 2;
    assert MatchAt(s, 0, false) == 6;
    assert MatchAt(s, 6, false) == 0;
    assert MatchAt(s, 7, false) == 2;
    assert FindAll(s, 9, false) == [];
    assert s[7..9] == "45";
    assert FindAll(s, 7, false) == ["45"];
    assert FindAll(s, 6, false) == ["45"];
    assert s[0..6] == "-12.34";
    assert FindAll(s, 0, false) == ["-12.34", "45"];
    assert Join(["45"], "") == "45";
    assert IsDigit(s[1]);
  }

  /** `'12.34'` is kept. */
  lemma InspectNumberKeepsDecimal()
    ensures InspectNumber("12.34") == "12.34"
  {
    var u := "12.34";
    DigitRunUnique(u, 0, 2);
    assert NumberText(u);
    InspectNumberKeepsNumbers("12.34");
  }

  // ---------------------------------------------------------------------------
  // _inspect_sequence
  // ---------------------------------------------------------------------------

  /** `semicolon_split(value)`: the text before the first `;` repeated as
      often as the text after it says, twice when that text is empty. `None`
      where Python raises: without a `;` the second piece is missing
      (IndexError), and a count that is not decimal fails `int` (ValueError). */
  function SemicolonSplit(value: string): (r: Option<seq<string>>)
  {
    if |Split(value, ';')| < 2 then None
    else if Split(value, ';')[1] == "" then Some([Split(value, ';')[0], Split(value, ';')[0]])
    else match ParseDecimal(Split(value, ';')[1])
      case None => None
      case Some(n) => Some(seq(n, _ => Split(value, ';')[0]))
  }

  /** `N;t` is `N` repeated `t` times. */
  lemma SemicolonRepeats(nbr: string, t: nat)
    requires ';' !in nbr
    ensures SemicolonSplit(nbr + ";" + NatToDecimal(t)) == Some(seq(t, _ => nbr))
  {
    SplitSeparated(nbr, NatToDecimal(t), ';');
    SplitWhole(NatToDecimal(t), ';');
    DecimalRoundTrip(t);
  }

  /** `N;` is `N` twice. */
  lemma SemicolonTwice(nbr: string)
    requires ';' !in nbr
    ensures SemicolonSplit(nbr + ";") == Some([nbr, nbr])
  {
    SplitSeparated(nbr, "", ';');
    assert nbr + [';'] + "" == nbr + ";";
  }

  /** Without a `;` there is no second piece to read. */
  lemma SemicolonMissing(value: string)
    requires ';' !in value
    ensures SemicolonSplit(value) == None
  {
    SplitWhole(value, ';');
  }

  /** What one match contributes to `separated`: its expansion when it holds
      a `;`, else the match itself. */
  function Pieces(res: string): Option<seq<string>>
  {
    if ';' in res then SemicolonSplit(res) else Some([res])
  }

  /** The list `separated` built from all the matches, in order. */
  function Separate(ms: seq<string>): Option<seq<string>>
  {
    if |ms| == 0 then Some([])
    else
      var head :- Pieces(ms[0]);
      var tail :- Separate(ms[1..]);
      Some(head + tail)
  }

  /** The expansion succeeds exactly when every match expands. */
  lemma {:induction false} SeparateSome(ms: seq<string>)
    ensures Separate(ms).Some? <==> forall k :: 0 <= k < |ms| ==> Pieces(ms[k]).Some?
  {
    if |ms| > 0 {
      SeparateSome(ms[1..]);
      assert forall k :: 1 <= k < |ms| ==> ms[k] == ms[1..][k - 1];
    }
  }

  /** The characters `_inspect_sequence` strips before scanning. */
  const BracketChars: set<char> := {'(', ')', '[', ']'}

  /** Whether the value asks for a list: it starts with `[` or `]`. */
  predicate SquareBrackets(value: string)
  {
    StartsWith(value, "[") || StartsWith(value, "]")
  }

  /** The items between the brackets: the expanded numbers; one `0` per
      character when there are none; a single item followed by `, `. */
  function Items(separated: seq<string>, width: nat): (r: seq<string>)
    ensures |separated| == 0 && width != 1 ==> r == seq(width, _ => "0")
    ensures |separated| == 0 && width == 1 ==> r == ["0, "]
    ensures |separated| == 1 ==> r == [separated[0] + ", "]
    ensures |separated| >= 2 ==> r == separated
  {
    var filled := if |separated| == 0 then seq(width, _ => "0") else separated;
    assert |separated| == 0 && width == 1 ==> filled[0] == "0" && "0" + ", " == "0, ";
    if |filled| == 1 then [filled[0] + ", "] else filled
  }

  /** `_inspect_sequence()`: the value with its brackets removed, its numbers
      (and `N;t` repetitions) listed with `, ` between brackets chosen by the
      value's first character. `None` where a repetition count does not
      parse, which the scanner never lets happen (`InspectSequenceTotal`). */
  function InspectSequence(value: string): (r: Option<string>)
    ensures r.Some? ==> |r.value| >= 2
    ensures r.Some? ==> (r.value[0] == '[' <==> SquareBrackets(value))
    ensures r.Some? ==> (r.value[|r.value| - 1] == ']' <==> SquareBrackets(value))
    ensures r.Some? ==> r.value[0] in {'[', '('} && r.value[|r.value| - 1] in {']', ')'}
  {
    var open := if SquareBrackets(value) then "[" else "(";
    var close := if SquareBrackets(value) then "]" else ")";
    var separated :- Separate(FindAll(RemoveChars(value, BracketChars), 0, true));
    Some(open + Join(Items(separated, |RemoveChars(value, BracketChars)|), ", ") + close)
  }

  /** Up to the optional `;`, a match holds a sign, digits and a dot only. */
  lemma NumberPartNoSemicolon(s: string, i: nat)
    requires i <= |s| && MatchAt(s, i, true) > 0
    ensures forall k :: i <= k < FracEnd(s, i + Sign(s, i) + DigitRun(s, i + Sign(s, i))) ==> s[k] != ';'
  {
    DigitRunDigits(s, i + Sign(s, i));
    if i + Sign(s, i) + DigitRun(s, i + Sign(s, i)) < |s| && s[i + Sign(s, i) + DigitRun(s, i + Sign(s, i))] == '.' {
      DigitRunDigits(s, i + Sign(s, i) + DigitRun(s, i + Sign(s, i)) + 1);
    }
  }

  /** The repetition count a match carries after its `;` is a run of
      digits. */
  lemma CountDigits(s: string, f: nat)
    requires f < |s| && s[f] == ';'
    ensures AllDigits(s[f + 1..f + 1 + DigitRun(s, f + 1)])
    ensures ';' !in s[f + 1..f + 1 + DigitRun(s, f + 1)]
  {
    DigitRunDigits(s, f + 1);
  }

  /** Every match of the second pattern expands without raising. */
  lemma MatchPieces(s: string, i: nat)
    requires i <= |s| && MatchAt(s, i, true) > 0
    ensures Pieces(s[i..i + MatchAt(s, i, true)]).Some?
  {
    NumberPartNoSemicolon(s, i);
    NumberPartPlain(s, i, FracEnd(s, i + Sign(s, i) + DigitRun(s, i + Sign(s, i))));
    if FracEnd(s, i + Sign(s, i) + DigitRun(s, i + Sign(s, i))) < |s|
       && s[FracEnd(s, i + Sign(s, i) + DigitRun(s, i + Sign(s, i)))] == ';' {
      CountedPieces(s, i, FracEnd(s, i + Sign(s, i) + DigitRun(s, i + Sign(s, i))), i + MatchAt(s, i, true));
    }
  }

  /** The number part of a match holds no `;`. */
  lemma NumberPartPlain(s: string, i: nat, f: nat)
    requires i <= f <= |s|
    requires forall k :: i <= k < f ==> s[k] != ';'
    ensures ';' !in s[i..f]
  {
    assert forall k :: 0 <= k < f - i ==> s[i..f][k] == s[i + k];
  }

  /** A match `N;t` splits into `N` and the digits `t`. */
  lemma CountedPieces(s: string, i: nat, f: nat, e: nat)
    requires i <= f < |s| && s[f] == ';' && ';' !in s[i..f]
    requires e == f + 1 + DigitRun(s, f + 1)
    ensures Pieces(s[i..e]).Some?
  {
    var a, b := s[i..f], s[f + 1..e];
    CountDigits(s, f);
    assert ';' !in b && AllDigits(b);
    SliceAround(s, i, f, e);
    assert s[i..e] == a + [';'] + b;
    PairPieces(s[i..e], a, b);
  }

  lemma SliceAround(s: string, i: nat, f: nat, e: nat)
    requires i <= f < e <= |s|
    ensures s[i..e] == s[i..f] + [s[f]] + s[f + 1..e]
  {
  }

  /** A text `N;t` with `t` a run of digits expands. */
  lemma PairPieces(t: string, a: string, b: string)
    requires t == a + [';'] + b && ';' !in a && ';' !in b && AllDigits(b)
    ensures Pieces(t).Some?
  {
    SplitSeparated(a, b, ';');
    SplitWhole(b, ';');
    assert t[|a|] == ';';
  }

  /** The scan with the second pattern never yields a match whose
      expansion raises. */
  lemma {:induction false} FindAllPieces(s: string, i: nat)
    requires i <= |s|
    ensures Separate(FindAll(s, i, true)).Some?
    decreases |s| - i, 1
  {
    if i < |s| {
      if MatchAt(s, i, true) == 0 {
        FindAllSkip(s, i, true);
        FindAllPieces(s, i + 1);
      } else {
        EmitPieces(s, i);
      }
    }
  }

  /** The step of `FindAllPieces` where a match is emitted. */
  lemma {:induction false} EmitPieces(s: string, i: nat)
    requires i < |s| && MatchAt(s, i, true) > 0
    ensures Separate(FindAll(s, i, true)).Some?
    decreases |s| - i, 0
  {
    var e := i + MatchAt(s, i, true);
    FindAllEmit(s, i, true);
    MatchPieces(s, i);
    FindAllPieces(s, e);
    SeparateCons(s[i..e], FindAll(s, e, true), FindAll(s, i, true));
  }

  /** A list whose head and tail both expand, expands. */
  lemma SeparateCons(x: string, xs: seq<string>, ys: seq<string>)
    requires ys == [x] + xs
    requires Pieces(x).Some? && Separate(xs).Some?
    ensures Separate(ys).Some?
  {
    assert ys[1..] == xs;
  }

  /** `_inspect_sequence` returns for every input. */
  lemma InspectSequenceTotal(value: string)
    ensures InspectSequence(value).Some?
  {
    FindAllPieces(RemoveChars(value, BracketChars), 0);
  }

  /** Matches without a `;` are listed as they are. */
  lemma {:induction false} SeparatePlain(ms: seq<string>)
    requires forall k :: 0 <= k < |ms| ==> ';' !in ms[k]
    ensures Separate(ms) == Some(ms)
  {
    if |ms| > 0 {
      SeparatePlain(ms[1..]);
      assert [ms[0]] + ms[1..] == ms;
    }
  }

  /** `1,2,3,4` scans as four numbers. */
  lemma ScanOneToFour(s: string)
    requires s == "1,2,3,4"
    ensures FindAll(s, 0, true) == ["1", "2", "3", "4"]
  {
    ScanThreeToFour(s);
    ScanDigitAt(s, 2);
    ScanSkipAt(s, 1);
    ScanDigitAt(s, 0);
  }

  lemma ScanThreeToFour(s: string)
    requires s == "1,2,3,4"
    ensures FindAll(s, 3, true) == ["3", "4"]
  {
    ScanDigitAt(s, 6);
    ScanSkipAt(s, 5);
    ScanDigitAt(s, 4);
    ScanSkipAt(s, 3);
  }

  /** A lone digit is a match of its own. */
  lemma ScanDigitAt(s: string, i: nat)
    requires i < |s| && IsDigit(s[i])
    requires i + 1 == |s| || s[i + 1] == ','
    ensures FindAll(s, i, true) == [[s[i]]] + FindAll(s, i + 1, true)
  {
    assert DigitRun(s, i) == 1;
    assert MatchAt(s, i, true) == 1;
    FindAllEmit(s, i, true);
    assert s[i..i + 1] == [s[i]];
  }

  /** A character that cannot start a number is skipped. */
  lemma ScanSkipAt(s: string, i: nat)
    requires i < |s| && !IsDigit(s[i]) && s[i] != '-'
    ensures FindAll(s, i, true) == FindAll(s, i + 1, true)
  {
    FindAllSkip(s, i, true);
  }

  lemma JoinOneToFour(xs: seq<string>)
    requires xs == ["1", "2", "3", "4"]
    ensures Join(xs, ", ") == "1, 2, 3, 4"
  {
    assert Join(xs[3..], ", ") == "4";
    JoinCons(xs[2], xs[3..], ", ");
    assert xs[2..] == [xs[2]] + xs[3..];
    JoinCons(xs[1], xs[2..], ", ");
    assert xs[1..] == [xs[1]] + xs[2..];
    JoinCons(xs[0], xs[1..], ", ");
    assert xs == [xs[0]] + xs[1..];
  }

  /** `_inspect_sequence` on a value whose cleaned text scans as at least
      two numbers without `;`: they are listed between the brackets. */
  lemma InspectSequenceListed(value: string)
    requires |FindAll(RemoveChars(value, BracketChars), 0, true)| >= 2
    requires forall k :: 0 <= k < |FindAll(RemoveChars(value, BracketChars), 0, true)| ==>
      ';' !in FindAll(RemoveChars(value, BracketChars), 0, true)[k]
    ensures InspectSequence(value) == Some((if SquareBrackets(value) then "[" else "(")
      + Join(FindAll(RemoveChars(value, BracketChars), 0, true), ", ")
      + (if SquareBrackets(value) then "]" else ")"))
  {
    SeparatePlain(FindAll(RemoveChars(value, BracketChars), 0, true));
  }

  /** Stripping the brackets from `[1,2,3,4`. */
  lemma CleanOpenList(v: string)
    requires v == "[1,2,3,4"
    ensures RemoveChars(v, BracketChars) == "1,2,3,4"
    ensures SquareBrackets(v)
  {
    assert v == [v[0]] + v[1..];
    RemoveCharsConcat([v[0]], v[1..], BracketChars);
    RemoveCharsAbsent(v[1..], BracketChars);
    assert RemoveChars([v[0]], BracketChars) == "";
    assert v[..1] == "[";
  }

  /** `'[1,2,3,4'` gives `'[1, 2, 3, 4]'`: a leading `[` asks for a list
      and the missing bracket is added. */
  lemma InspectSequenceOpenList(v: string)
    requires v == "[1,2,3,4"
    ensures InspectSequence(v) == Some("[1, 2, 3, 4]")
  {
    CleanOpenList(v);
    ScanOneToFour(RemoveChars(v, BracketChars));
    InspectSequenceListed(v);
    JoinOneToFour(FindAll(RemoveChars(v, BracketChars), 0, true));
    EnclosedListOneToFour("1, 2, 3, 4", "[1, 2, 3, 4]");
  }

  /** `'1,2,3,4]'` gives `'(1, 2, 3, 4)'`: only a leading bracket chooses
      the kind, so a closing `]` at the end still gives a tuple. */
  lemma InspectSequenceClosedLate(v: string)
    requires v == "1,2,3,4]"
    ensures InspectSequence(v) == Some("(1, 2, 3, 4)")
  {
    CleanClosedLate(v);
    ScanOneToFour(RemoveChars(v, BracketChars));
    InspectSequenceListed(v);
    JoinOneToFour(FindAll(RemoveChars(v, BracketChars), 0, true));
    EnclosedTupleOneToFour("1, 2, 3, 4", "(1, 2, 3, 4)");
  }

  /** Stripping the brackets from `1,2,3,4]`. */
  lemma CleanClosedLate(v: string)
    requires v == "1,2,3,4]"
    ensures RemoveChars(v, BracketChars) == "1,2,3,4"
    ensures !SquareBrackets(v)
  {
    assert v == v[..7] + [v[7]];
    RemoveCharsConcat(v[..7], [v[7]], BracketChars);
    RemoveCharsAbsent(v[..7], BracketChars);
    assert RemoveChars([v[7]], BracketChars) == "";
    assert v[..1] == "1";
  }

  /** `1,2,a,3,4,` scans as four numbers: the letter is skipped. */
  lemma ScanWithLetter(s: string)
    requires s == "1,2,a,3,4,"
    ensures FindAll(s, 0, true) == ["1", "2", "3", "4"]
  {
    ScanLetterTail(s);
    ScanSkipAt(s, 3);
    ScanDigitAt(s, 2);
    ScanSkipAt(s, 1);
    ScanDigitAt(s, 0);
  }

  lemma ScanLetterTail(s: string)
    requires s == "1,2,a,3,4,"
    ensures FindAll(s, 4, true) == ["3", "4"]
  {
    assert FindAll(s, 10, true) == [];
    ScanSkipAt(s, 9);
    ScanDigitAt(s, 8);
    ScanSkipAt(s, 7);
    ScanDigitAt(s, 6);
    ScanSkipAt(s, 5);
    ScanSkipAt(s, 4);
  }

  /** Stripping the brackets from `[1,2,a,3,4,)`. */
  lemma CleanMixed(v: string)
    requires v == "[1,2,a,3,4,)"
    ensures RemoveChars(v, BracketChars) == "1,2,a,3,4,"
    ensures SquareBrackets(v)
  {
    assert v == [v[0]] + v[1..11] + [v[11]];
    RemoveCharsConcat([v[0]] + v[1..11], [v[11]], BracketChars);
    RemoveCharsConcat([v[0]], v[1..11], BracketChars);
    RemoveCharsAbsent(v[1..11], BracketChars);
    assert RemoveChars([v[0]], BracketChars) == "";
    assert RemoveChars([v[11]], BracketChars) == "";
    assert v[..1] == "[";
  }

  /** `'[1,2,a,3,4,)'` gives `'[1, 2, 3, 4]'`: the letter is dropped and
      the first bracket decides the kind. */
  lemma InspectSequenceMixed(v: string)
    requires v == "[1,2,a,3,4,)"
    ensures InspectSequence(v) == Some("[1, 2, 3, 4]")
  {
    CleanMixed(v);
    ScanWithLetter(RemoveChars(v, BracketChars));
    InspectSequenceListed(v);
    JoinOneToFour(FindAll(RemoveChars(v, BracketChars), 0, true));
    EnclosedListOneToFour("1, 2, 3, 4", "[1, 2, 3, 4]");
  }

  /** A single number is followed by `, ` inside the brackets, as Python
      writes a one-element tuple. */
  lemma InspectSequenceLonely(value: string)
    requires |FindAll(RemoveChars(value, BracketChars), 0, true)| == 1
    requires ';' !in FindAll(RemoveChars(value, BracketChars), 0, true)[0]
    ensures InspectSequence(value) == Some((if SquareBrackets(value) then "[" else "(")
      + (FindAll(RemoveChars(value, BracketChars), 0, true)[0] + ", ")
      + (if SquareBrackets(value) then "]" else ")"))
  {
    SeparatePlain(FindAll(RemoveChars(value, BracketChars), 0, true));
    assert Join([FindAll(RemoveChars(value, BracketChars), 0, true)[0] + ", "], ", ")
      == FindAll(RemoveChars(value, BracketChars), 0, true)[0] + ", ";
  }

  /** Without any digit the value becomes one `0` per character left after
      the brackets are stripped. */
  lemma InspectSequenceZeros(value: string)
    requires forall k :: 0 <= k < |RemoveChars(value, BracketChars)| ==> !IsDigit(RemoveChars(value, BracketChars)[k])
    ensures |RemoveChars(value, BracketChars)| != 1 ==>
      InspectSequence(value) == Some((if SquareBrackets(value) then "[" else "(")
        + Join(seq(|RemoveChars(value, BracketChars)|, _ => "0"), ", ")
        + (if SquareBrackets(value) then "]" else ")"))
    ensures |RemoveChars(value, BracketChars)| == 1 ==>
      InspectSequence(value) == Some((if SquareBrackets(value) then "[" else "(") + "0, "
        + (if SquareBrackets(value) then "]" else ")"))
  {
    FindAllIffDigit(RemoveChars(value, BracketChars), 0, true);
    assert FindAll(RemoveChars(value, BracketChars), 0, true) == [];
    assert Separate([]) == Some([]);
  }

  /** `12;3` is one match of the second pattern. */
  lemma ScanCounted(s: string)
    requires s == "12;3"
    ensures FindAll(s, 0, true) == [s]
  {
    assert DigitRun(s, 3) == 1;
    assert DigitRun(s, 2) == 0;
    assert DigitRun(s, 1) == 1;
    assert DigitRun(s, 0) == 2;
    assert MatchAt(s, 0, true) == 4;
    FindAllEmit(s, 0, true);
    assert s[0..4] == s;
  }

  /** `12;3` expands to three copies of `12`. */
  lemma RepeatThree(t: string)
    requires t == "12;3"
    ensures Separate([t]) == Some(["12", "12", "12"])
  {
    assert t == t[..2] + ";" + NatToDecimal(3);
    SemicolonRepeats(t[..2], 3);
    assert t[..2] == "12";
    assert seq(3, _ => t[..2]) == ["12", "12", "12"];
    assert t[2] == ';';
    assert Pieces(t) == Some(["12", "12", "12"]);
    assert [t][1..] == [];
    assert Separate([t][1..]) == Some([]);
    assert ["12", "12", "12"] + [] == ["12", "12", "12"];
  }

  /** `'12;3'` gives `'(12, 12, 12)'`: `N;t` stands for `t` copies of `N`. */
  lemma InspectSequenceRepeat(v: string)
    requires v == "12;3"
    ensures InspectSequence(v) == Some("(12, 12, 12)")
  {
    RemoveCharsAbsent(v, BracketChars);
    ScanCounted(v);
    RepeatThree(v);
    assert v[..1] == "1";
    EnclosedTwelves("12, 12, 12", "(12, 12, 12)");
    JoinThree(Items(["12", "12", "12"], |v|), "12", "12", "12", "12, 12, 12");
    RoundSequence(v, ["12", "12", "12"], "12, 12, 12", "(12, 12, 12)");
  }

  /** A bracket-free text not led by `[` or `]` renders its expanded items
      in round brackets. */
  lemma RoundSequence(value: string, xs: seq<string>, j: string, out: string)
    requires RemoveChars(value, BracketChars) == value && !SquareBrackets(value)
    requires Separate(FindAll(value, 0, true)) == Some(xs)
    requires Join(Items(xs, |value|), ", ") == j
    requires out == "(" + j + ")"
    ensures InspectSequence(value) == Some(out)
  {
  }

  // Each of the rendered examples below, as its brackets around its items;
  // kept apart because comparing literal texts is costly in context.

  lemma EnclosedTwelves(j: string, out: string)
    requires j == "12, 12, 12" && out == "(12, 12, 12)"
    ensures out == "(" + j + ")" && j == "12" + ", " + "12" + ", " + "12"
  {
  }

  lemma EnclosedTwelvesThree(j: string, out: string)
    requires j == "12, 12, 3" && out == "(12, 12, 3)"
    ensures out == "(" + j + ")" && j == "12" + ", " + "12" + ", " + "3"
  {
  }

  lemma EnclosedListOneToFour(j: string, out: string)
    requires j == "1, 2, 3, 4" && out == "[1, 2, 3, 4]"
    ensures out == "[" + j + "]"
  {
  }

  lemma EnclosedTupleOneToFour(j: string, out: string)
    requires j == "1, 2, 3, 4" && out == "(1, 2, 3, 4)"
    ensures out == "(" + j + ")"
  {
  }

  lemma EnclosedLonelyTuple(x: string, out: string)
    requires x == "12.34" && out == "(12.34, )"
    ensures out == "(" + (x + ", ") + ")"
  {
  }

  /** Three items joined by `, `. */
  lemma JoinThree(xs: seq<string>, a: string, b: string, c: string, j: string)
    requires xs == [a, b, c] && j == a + ", " + b + ", " + c
    ensures Join(xs, ", ") == j
  {
    assert Join(xs[2..], ", ") == c;
    JoinCons(xs[1], xs[2..], ", ");
    assert xs[1..] == [xs[1]] + xs[2..];
    JoinCons(xs[0], xs[1..], ", ");
    assert xs == [xs[0]] + xs[1..];
  }

  /** `12;2;3` scans as `12;2` and `3`: a second `;` starts no new match. */
  lemma ScanTwoCounts(s: string)
    requires s == "12;2;3"
    ensures FindAll(s, 0, true) == [s[0..4], s[5..6]]
  {
    assert FindAll(s, 6, true) == [];
    ScanDigitAt(s, 5);
    ScanSkipAt(s, 4);
    assert DigitRun(s, 4) == 0;
    assert DigitRun(s, 3) == 1;
    assert DigitRun(s, 2) == 0;
    assert DigitRun(s, 1) == 1;
    assert DigitRun(s, 0) == 2;
    assert MatchAt(s, 0, true) == 4;
    FindAllEmit(s, 0, true);
  }

  /** `12;2` and `3` expand to `12`, `12`, `3`. */
  lemma RepeatTwiceThenThree(t: string, u: string)
    requires t == "12;2" && u == "3"
    ensures Separate([t, u]) == Some(["12", "12", "3"])
  {
    assert t == t[..2] + ";" + NatToDecimal(2);
    SemicolonRepeats(t[..2], 2);
    assert t[..2] == "12";
    assert seq(2, _ => t[..2]) == ["12", "12"];
    assert t[2] == ';';
    assert Pieces(t) == Some(["12", "12"]);
    assert [t, u][1..] == [u];
    SeparatePlain([u]);
    assert ["12", "12"] + ["3"] == ["12", "12", "3"];
  }

  /** `'12;2;3'` gives `'(12, 12, 3)'`: the count after the first `;` is
      used and the text after the second `;` is read as a further number. */
  lemma InspectSequenceTwoCounts(v: string)
    requires v == "12;2;3"
    ensures InspectSequence(v) == Some("(12, 12, 3)")
  {
    RemoveCharsAbsent(v, BracketChars);
    ScanTwoCounts(v);
    RepeatTwiceThenThree(v[0..4], v[5..6]);
    assert v[..1] == "1";
    EnclosedTwelvesThree("12, 12, 3", "(12, 12, 3)");
    JoinThree(Items(["12", "12", "3"], |v|), "12", "12", "3", "12, 12, 3");
    RoundSequence(v, ["12", "12", "3"], "12, 12, 3", "(12, 12, 3)");
  }

  /** `'12.34'` gives `'(12.34, )'`: a single number gets `, ` after it. */
  lemma InspectSequenceSingle(v: string)
    requires v == "12.34"
    ensures InspectSequence(v) == Some("(12.34, )")
  {
    RemoveCharsAbsent(v, BracketChars);
    assert DigitRun(v, 5) == 0;
    assert DigitRun(v, 4) == 1;
    assert DigitRun(v, 3) == 2;
    assert DigitRun(v, 2) == 0;
    assert DigitRun(v, 1) == 1;
    assert DigitRun(v, 0) == 2;
    assert MatchAt(v, 0, true) == 5;
    FindAllEmit(v, 0, true);
    assert FindAll(v, 5, true) == [];
    assert v[0..5] == v;
    InspectSequenceLonely(v);
    assert v[..1] == "1";
    EnclosedLonelyTuple("12.34", "(12.34, )");
  }

  // ---------------------------------------------------------------------------
  // _inspect_string
  // ---------------------------------------------------------------------------

  /** The punctuation `_inspect_string` removes: all of it but `_`. */
  const Dropped: set<char> := Punctuation - {'_'}

  /** Removing punctuation and turning spaces into `_`. */
  function Clean(name: string): string
  {
    ReplaceChar(RemoveChars(name, Dropped), ' ', "_")
  }

  /** `_inspect_string()` as written: strip and lower-case the value, prefix
      `_` when it now starts with a digit, then drop punctuation and turn
      spaces into `_`. `None` for a blank value, where `name[0]` raises
      IndexError. */
  function InspectString(value: string): (r: Option<string>)
    ensures r.None? <==> Strip(value) == ""
  {
    if |Lower(Strip(value))| == 0 then None
    else if IsDigit(Lower(Strip(value))[0]) then Some(Clean("_" + Lower(Strip(value))))
    else Some(Clean(Lower(Strip(value))))
  }

  /** What is left after cleaning holds no punctuation but `_` and no
      space. */
  lemma CleanIsWordLike(name: string, x: char)
    requires x in Clean(name)
    ensures x !in Dropped && x != ' '
  {
    ReplaceChars(RemoveChars(name, Dropped), ' ', "_", x);
    if x in RemoveChars(name, Dropped) {
      var k :| 0 <= k < |RemoveChars(name, Dropped)| && RemoveChars(name, Dropped)[k] == x;
    }
  }

  /** The digit test runs before the punctuation is removed, so a value
      such as `!1` comes out starting with a digit. */
  lemma InspectStringDigitLeads(v: string)
    requires v == "!1"
    ensures InspectString(v) == Some("1")
  {
    NormalBangOne(v);
    CleanBangOne(v);
  }

  lemma CleanBangOne(v: string)
    requires v == "!1"
    ensures Clean(v) == "1"
  {
    assert v == [v[0]] + v[1..];
    RemoveCharsConcat([v[0]], v[1..], Dropped);
    RemoveCharsAbsent(v[1..], Dropped);
    assert RemoveChars([v[0]], Dropped) == "";
    ReplaceAbsent(v[1..], ' ', "_");
  }

  lemma NormalBangOne(v: string)
    requires v == "!1"
    ensures Lower(Strip(v)) == v
  {
    assert BlankEnd(v, 0) == 0;
    assert BlankStart(v, 2) == 2;
    assert Strip(v) == v;
    assert Lower(v[1..]) == "1";
  }

  /** `_inspect_string()` with the digit test made after cleaning, so the
      `_` prefix does what it is for. */
  function InspectStringGuarded(value: string): (r: Option<string>)
    ensures r.None? <==> Strip(value) == ""
    ensures r.Some? && |r.value| > 0 ==> !IsDigit(r.value[0])
  {
    if |Lower(Strip(value))| == 0 then None
    else if |Clean(Lower(Strip(value)))| > 0 && IsDigit(Clean(Lower(Strip(value)))[0])
    then Some("_" + Clean(Lower(Strip(value))))
    else Some(Clean(Lower(Strip(value))))
  }

  /** The guarded version agrees with the one as written whenever the
      stripped value starts with a letter. */
  lemma GuardedAgrees(value: string)
    requires |Strip(value)| > 0 && IsLower(LowerChar(Strip(value)[0]))
    ensures InspectStringGuarded(value) == InspectString(value)
  {
    var n := Lower(Strip(value));
    assert n == [n[0]] + n[1..];
    RemoveCharsConcat([n[0]], n[1..], Dropped);
    assert RemoveChars([n[0]], Dropped) == [n[0]];
    ReplaceConcat([n[0]], RemoveChars(n[1..], Dropped), ' ', "_");
    assert Clean(n)[0] == n[0];
  }

  // ---------------------------------------------------------------------------
  // auto_type_check
  // ---------------------------------------------------------------------------

  /** `auto_type_check(value, dtype)`: the inspector named by the lower-cased
      type, or the value unchanged for a type without one. `None` when the
      string inspector raises. */
  function AutoTypeCheck(value: string, dtype: string): (r: Option<string>)
    ensures Lower(dtype) !in {"string", "number", "sequence"} ==> r == Some(value)
    ensures Lower(dtype) == "string" ==> (r.None? <==> Strip(value) == "")
    ensures Lower(dtype) == "string" && r.Some? ==>
      forall k :: 0 <= k < |r.value| ==> r.value[k] !in Dropped && r.value[k] != ' '
    ensures Lower(dtype) == "number" || Lower(dtype) == "sequence" ==> r.Some?
    ensures Lower(dtype) == "sequence" ==> r.Some? && |r.value| >= 2 && r.value[0] in {'[', '('} && r.value[|r.value| - 1] in {']', ')'}
  {
    if Lower(dtype) == "string" then InspectStringWordLike(value); InspectString(value)
    else if Lower(dtype) == "number" then Some(InspectNumber(value))
    else if Lower(dtype) == "sequence" then InspectSequenceTotal(value); InspectSequence(value)
    else Some(value)
  }

  /** `auto_type_check` with the guarded string inspector: a string result
      never starts with a digit. */
  function AutoTypeCheckGuarded(value: string, dtype: string): (r: Option<string>)
    ensures Lower(dtype) != "string" ==> r == AutoTypeCheck(value, dtype)
    ensures Lower(dtype) == "string" ==> (r.None? <==> Strip(value) == "")
    ensures Lower(dtype) == "string" && r.Some? && |r.value| > 0 ==> !IsDigit(r.value[0])
  {
    if Lower(dtype) == "string" then InspectStringGuarded(value)
    else AutoTypeCheck(value, dtype)
  }

  /** The two agree on every value whose stripped text starts with a letter;
      `!1` as a `String` is where they part. */
  lemma AutoTypeCheckGuardedAgrees(value: string, dtype: string)
    requires |Strip(value)| > 0 && IsLower(LowerChar(Strip(value)[0]))
    ensures AutoTypeCheckGuarded(value, dtype) == AutoTypeCheck(value, dtype)
  {
    GuardedAgrees(value);
  }

  /** As written, `!1` as a `String` is the digit-led `1`; guarded, it is `_1`. */
  lemma AutoTypeCheckDigitLeads(v: string, t: string)
    requires v == "!1" && t == "String"
    ensures AutoTypeCheck(v, t) == Some("1")
    ensures AutoTypeCheckGuarded(v, t).Some? && AutoTypeCheckGuarded(v, t) != AutoTypeCheck(v, t)
  {
    LowerString(t);
    InspectStringDigitLeads(v);
  }

  /** Every character `_inspect_string()` returns is word-like: no
      punctuation but `_`, no space. */
  lemma InspectStringWordLike(value: string)
    ensures InspectString(value).Some? ==>
      forall k :: 0 <= k < |InspectString(value).value| ==>
        InspectString(value).value[k] !in Dropped && InspectString(value).value[k] != ' '
  {
    if InspectString(value).Some? {
      var n := Lower(Strip(value));
      var name := if IsDigit(n[0]) then "_" + n else n;
      assert InspectString(value).value == Clean(name);
      forall k | 0 <= k < |Clean(name)|
        ensures Clean(name)[k] !in Dropped && Clean(name)[k] != ' '
      {
        CleanIsWordLike(name, Clean(name)[k]);
      }
    }
  }

  /** The cleaned, guarded name holds no punctuation but `_` and no space. */
  lemma GuardedWordLike(value: string, k: nat)
    requires InspectStringGuarded(value).Some? && k < |InspectStringGuarded(value).value|
    ensures InspectStringGuarded(value).value[k] !in Dropped
    ensures InspectStringGuarded(value).value[k] != ' '
  {
    if InspectStringGuarded(value).value == Clean(Lower(Strip(value))) {
      CleanIsWordLike(Lower(Strip(value)), InspectStringGuarded(value).value[k]);
    } else if k > 0 {
      assert InspectStringGuarded(value).value[k] == Clean(Lower(Strip(value)))[k - 1];
      CleanIsWordLike(Lower(Strip(value)), InspectStringGuarded(value).value[k]);
    }
  }

  lemma LowerString(t: string)
    requires t == "String"
    ensures Lower(t) == "string"
  {
    assert Lower(t[5..]) == "g";
    assert Lower(t[4..]) == "ng";
    assert Lower(t[3..]) == "ing";
    assert Lower(t[2..]) == "ring";
    assert Lower(t[1..]) == "tring";
  }

  lemma NormalTeSt(v: string)
    requires v == "te st"
    ensures Lower(Strip(v)) == v
  {
    assert BlankEnd(v, 0) == 0;
    assert BlankStart(v, 5) == 5;
    assert Strip(v) == v;
    assert Lower(v[4..]) == "t";
    assert Lower(v[3..]) == "st";
    assert Lower(v[2..]) == " st";
    assert Lower(v[1..]) == "e st";
  }

  lemma CleanTeSt(v: string)
    requires v == "te st"
    ensures Clean(v) == "te_st"
  {
    RemoveCharsAbsent(v, Dropped);
    assert v == v[..2] + v[2..];
    ReplaceConcat(v[..2], v[2..], ' ', "_");
    ReplaceAbsent(v[..2], ' ', "_");
    assert v[2..] == [v[2]] + v[3..];
    ReplaceConcat([v[2]], v[3..], ' ', "_");
    ReplaceAbsent(v[3..], ' ', "_");
  }

  /** `'te st'` as a `String` gives `'te_st'`. */
  lemma AutoStringInnerSpace(v: string, t: string)
    requires v == "te st" && t == "String"
    ensures AutoTypeCheck(v, t) == Some("te_st")
  {
    LowerString(t);
    NormalTeSt(v);
    CleanTeSt(v);
  }

  /** `' test '` as a `String` gives `'test'`: the spaces at the ends are
      stripped, not turned into `_`. */
  lemma AutoStringOuterSpaces(v: string, t: string)
    requires v == " test " && t == "String"
    ensures AutoTypeCheck(v, t) == Some("test")
  {
    LowerString(t);
    StripTest(v);
    CleanTest(Lower(Strip(v)));
  }

  lemma StripTest(v: string)
    requires v == " test "
    ensures Lower(Strip(v)) == "test"
  {
    assert BlankEnd(v, 1) == 1;
    assert BlankEnd(v, 0) == 1;
    assert StripLeft(v) == v[1..];
    assert BlankStart(v[1..], 4) == 4;
    assert BlankStart(v[1..], 5) == 4;
    assert Strip(v) == "test";
    assert Lower("t") == "t";
    assert Lower("st") == "st";
    assert Lower("est") == "est";
  }

  lemma CleanTest(v: string)
    requires v == "test"
    ensures Clean(v) == "test"
  {
    RemoveCharsAbsent(v, Dropped);
    ReplaceAbsent(v, ' ', "_");
  }

  lemma LowerNumber(t: string)
    requires t == "Number"
    ensures Lower(t) == "number"
  {
    assert Lower(t[5..]) == "r";
    assert Lower(t[4..]) == "er";
    assert Lower(t[3..]) == "ber";
    assert Lower(t[2..]) == "mber";
    assert Lower(t[1..]) == "umber";
  }

  lemma LowerSequence(t: string)
    requires t == "Sequence"
    ensures Lower(t) == "sequence"
  {
    assert Lower(t[7..]) == "e";
    assert Lower(t[6..]) == "ce";
    assert Lower(t[5..]) == "nce";
    assert Lower(t[4..]) == "ence";
    assert Lower(t[3..]) == "uence";
    assert Lower(t[2..]) == "quence";
    assert Lower(t[1..]) == "equence";
  }

  /** `'12.34a'` as a `Number` gives `'12.34'`. */
  lemma AutoNumberDropsLetters(v: string, t: string)
    requires v == "12.34a" && t == "Number"
    ensures AutoTypeCheck(v, t) == Some("12.34")
  {
    LowerNumber(t);
    InspectNumberDropsLetters();
  }

  /** `'[1,2,3,4'` as a `Sequence` gives `'[1, 2, 3, 4]'`. */
  lemma AutoSequenceOpenList(v: string, t: string)
    requires v == "[1,2,3,4" && t == "Sequence"
    ensures AutoTypeCheck(v, t) == Some("[1, 2, 3, 4]")
  {
    LowerSequence(t);
    InspectSequenceOpenList(v);
  }
}

=== FILE: compiler.dfy ===
/** The compiler proper, `PyParser` (lib/parser/pyparser.py:217-594) and its
    older variant (parser/pyparser.py:160-487): a depth-first walk from every
    entrance of the document that appends one statement per released node,
    renders argument lists, and collects the placeholder names, the source
    modules and the returned models on the way.

    The walk is a family of pure functions threading a `Walk` record. Python's
    recursion has no cycle guard; here every nested walk into another element
    spends one unit of `depth`, and running out is Python's `RecursionError`. */
module Compiler {
  import opened Wrappers
  import opened PyStr
  import opened Errors
  import opened Doc
  import opened Joins
  import opened Statements

  /** `lib/parser/pyparser.py`, run against the errors module `declared`,
      or the older `parser/pyparser.py`, which raises no diagnostics. The
      newer compiler binds its exception names through
      `from lib.parser.errors import *` (line 7), so which raise sites work
      depends on the classes that module declares. */
  datatype Variant = Current(declared: seq<ErrorClass>) | Legacy

  /** The newer compiler against lib/parser/errors.py as written. */
  const AsWritten := Current(Declared)

  /** The newer compiler against the errors module it evidently expects. */
  const Repaired := Current(CorrectedDeclared)

  const RequiredMark := "!REQ"
  const ModelClass := "Model"

  /** One value of an argument: a piece of its text and its type class. */
  datatype ArgItem = ArgItem(v: string, c: string)

  /** One `attrs[n.tag]` entry. */
  datatype ArgEntry = ArgEntry(key: string, items: seq<ArgItem>)

  /** A Python `dict` of arguments: insertion-ordered, one entry per key. An
      empty dictionary is what the source returns as `''`. */
  type ArgDict = seq<ArgEntry>

  /** Everything the walk accumulates: statements and their keys, the join
      registry, the placeholder names (a list; the newer variant reads it as
      a set), the source modules and the returned model variables. */
  datatype Walk = Walk(py: PyLines, hub: Hub, phs: seq<string>, src: set<string>, rtn: seq<PyValue>)

  const Start := Walk(Statements.Empty, map[], [], {}, [])

  /** A value produced together with the walk after producing it. */
  datatype Step<T> = Step(out: T, walk: Walk)

  /** The walk only ever grows: statements, keys and returned models are
      appended, registry keys, names and sources are only added; and a
      registry whose placeholders are all well gained stays so. */
  predicate Extends(a: Walk, b: Walk)
  {
    a.py.lines <= b.py.lines && a.py.counts <= b.py.counts && a.hub.Keys <= b.hub.Keys &&
    a.phs <= b.phs && a.src <= b.src && a.rtn <= b.rtn &&
    (HubWellGained(a.hub) ==> HubWellGained(b.hub))
  }

  lemma ExtendsChain(a: Walk, b: Walk, c: Walk)
    requires Extends(a, b) && Extends(b, c)
    ensures Extends(a, c)
  {
  }

  /** What rendering arguments may do to the walk: grow it, but never touch
      the join registry or the returned models. */
  predicate RenderOnly(a: Walk, b: Walk)
  {
    Extends(a, b) && a.hub == b.hub && a.rtn == b.rtn
  }

  lemma RenderChain(a: Walk, b: Walk, c: Walk)
    requires RenderOnly(a, b) && RenderOnly(b, c)
    ensures RenderOnly(a, c)
  {
  }

  function Lift<T>(r: Result<T, Fault>): (o: Result<T, Failure>)
    ensures r.Ok? ==> o == Ok(r.value)
    ensures r.Err? ==> o == Err(Crash(r.error))
  {
    match r
    case Ok(x) => Ok(x)
    case Err(f) => Err(Crash(f))
  }

  const OutOfRange := IndexError("list index out of range")

  /** The lookup by id attribute followed by `[0]`. */
  function Find(doc: Document, id: string): (r: Result<Entity, Failure>)
    ensures Lookup(doc, id).None? <==> r == Err(Crash(OutOfRange))
    ensures Lookup(doc, id).Some? ==> r == Ok(Lookup(doc, id).value)
  {
    match Lookup(doc, id)
    case None => Err(Crash(OutOfRange))
    case Some(e) => Ok(e)
  }

  // ---------------------------------------------------------------------------
  // Reading arguments: get_args_by_elm
  // ---------------------------------------------------------------------------

  /** The three lists `get_args_by_elm` zips: every argument's name and
      class, but only the texts that exist. */
  datatype Triple = Triple(name: string, c: string, text: string)

  function Texts(args: seq<Arg>): (r: seq<string>)
    ensures |r| <= |args|
    ensures forall i :: 0 <= i < |r| ==> r[i] != ""
    ensures (forall i :: 0 <= i < |args| ==> args[i].text != "") ==>
      r == seq(|args|, i requires 0 <= i < |args| => args[i].text)
  {
    if |args| == 0 then []
    else (if args[0].text == "" then [] else [args[0].text]) + Texts(args[1..])
  }

  /** `zip(attrs_n, attrs_c, attrs_v)`: as long as the shortest list. An
      argument without text shifts every later text onto the previous name. */
  function Aligned(e: Entity): (r: seq<Triple>)
    ensures |r| == |Texts(ArgsOf(e))|
    ensures forall i :: 0 <= i < |r| ==>
      r[i] == Triple(ArgsOf(e)[i].name, ArgsOf(e)[i].c, Texts(ArgsOf(e))[i])
  {
    var args := ArgsOf(e);
    var ts := Texts(args);
    seq(|ts|, i requires 0 <= i < |ts| => Triple(args[i].name, args[i].c, ts[i]))
  }

  /** When every argument has text the zip is the arguments themselves. */
  lemma AlignedWhenAllTexts(e: Entity)
    requires forall i :: 0 <= i < |ArgsOf(e)| ==> ArgsOf(e)[i].text != ""
    ensures |Aligned(e)| == |ArgsOf(e)|
    ensures forall i :: 0 <= i < |ArgsOf(e)| ==>
      Aligned(e)[i] == Triple(ArgsOf(e)[i].name, ArgsOf(e)[i].c, ArgsOf(e)[i].text)
  {
  }

  function Keys(d: ArgDict): set<string>
  {
    set i | 0 <= i < |d| :: d[i].key
  }

  predicate UniqueKeys(d: ArgDict)
  {
    forall i, j :: 0 <= i < j < |d| ==> d[i].key != d[j].key
  }

  /** `d[k]`. */
  function Get(d: ArgDict, k: string): (r: Option<seq<ArgItem>>)
    ensures r.Some? <==> k in Keys(d)
    ensures r.Some? ==> exists i :: 0 <= i < |d| && d[i] == ArgEntry(k, r.value)
  {
    if |d| == 0 then None
    else if d[0].key == k then Some(d[0].items)
    else
      var r := Get(d[1..], k);
      assert Keys(d) == {d[0].key} + Keys(d[1..]) by {
        forall x | x in Keys(d) ensures x in {d[0].key} + Keys(d[1..]) {
          var i :| 0 <= i < |d| && d[i].key == x;
          if i > 0 { assert d[1..][i - 1].key == x; }
        }
      }
      r
  }

  /** `d[k] = items`: a new key goes last, an existing key keeps its place
      and takes the new value. */
  function Put(d: ArgDict, k: string, items: seq<ArgItem>): (r: ArgDict)
    requires UniqueKeys(d)
    ensures UniqueKeys(r)
    ensures Keys(r) == Keys(d) + {k}
    ensures Get(r, k) == Some(items)
    ensures k !in Keys(d) ==> r == d + [ArgEntry(k, items)]
    ensures k in Keys(d) ==> |r| == |d|
    ensures k in Keys(d) ==>
      forall i :: 0 <= i < |d| ==> r[i] == (if d[i].key == k then ArgEntry(k, items) else d[i])
  {
    if k in Keys(d) then
      PutExisting(d, k, items);
      Replaced(d, k, items)
    else
      PutNew(d, k, items);
      d + [ArgEntry(k, items)]
  }

  /** Every entry under `k` takes the new items. */
  function Replaced(d: ArgDict, k: string, items: seq<ArgItem>): (r: ArgDict)
    ensures |r| == |d|
    ensures forall i :: 0 <= i < |d| ==> r[i].key == d[i].key
  {
    seq(|d|, i requires 0 <= i < |d| => if d[i].key == k then ArgEntry(k, items) else d[i])
  }

  /** Replacing the items of a present key keeps the keys and their order. */
  lemma PutExisting(d: ArgDict, k: string, items: seq<ArgItem>)
    requires UniqueKeys(d) && k in Keys(d)
    ensures UniqueKeys(Replaced(d, k, items))
    ensures Keys(Replaced(d, k, items)) == Keys(d) + {k}
    ensures Get(Replaced(d, k, items), k) == Some(items)
  {
    var r := Replaced(d, k, items);
    forall x | x in Keys(d) ensures x in Keys(r) {
      var i :| 0 <= i < |d| && d[i].key == x;
      assert r[i].key == x;
    }
    forall x | x in Keys(r) ensures x in Keys(d) {
      var i :| 0 <= i < |r| && r[i].key == x;
      assert d[i].key == x;
    }
    var i :| 0 <= i < |d| && d[i].key == k;
    assert r[i] == ArgEntry(k, items);
    GetUnique(r, i);
  }

  /** Appending a new key adds it last. */
  lemma PutNew(d: ArgDict, k: string, items: seq<ArgItem>)
    requires UniqueKeys(d) && k !in Keys(d)
    ensures UniqueKeys(d + [ArgEntry(k, items)])
    ensures Keys(d + [ArgEntry(k, items)]) == Keys(d) + {k}
    ensures Get(d + [ArgEntry(k, items)], k) == Some(items)
  {
    var r := d + [ArgEntry(k, items)];
    assert r[|d|].key == k;
    forall i | 0 <= i < |d| ensures d[i].key != k {
      assert d[i].key in Keys(d);
    }
    forall x | x in Keys(d) ensures x in Keys(r) {
      var i :| 0 <= i < |d| && d[i].key == x;
      assert r[i].key == x;
    }
    forall x | x in Keys(r) ensures x in Keys(d) + {k} {
      var i :| 0 <= i < |r| && r[i].key == x;
      if i < |d| { assert d[i].key == x; }
    }
    GetUnique(r, |d|);
  }

  /** In a dictionary with unique keys, `Get` finds the entry holding the
      key. */
  lemma GetUnique(d: ArgDict, i: nat)
    requires UniqueKeys(d) && i < |d|
    ensures Get(d, d[i].key) == Some(d[i].items)
    decreases i
  {
    if i > 0 {
      assert d[0].key != d[i].key;
      assert d[1..][i - 1] == d[i];
      GetUnique(d[1..], i - 1);
    }
  }

  /** `[ArgItem(item, c) for item in v.split(';')]`. */
  function Items(t: Triple): (r: seq<ArgItem>)
    ensures |r| == |Split(t.text, ';')| && |r| >= 1
    ensures forall i :: 0 <= i < |r| ==> r[i] == ArgItem(Split(t.text, ';')[i], t.c)
  {
    var ps := Split(t.text, ';');
    seq(|ps|, i requires 0 <= i < |ps| => ArgItem(ps[i], t.c))
  }

  /** The text of the required-argument error: `{cls}: {var} - {name}({c})`.
      Reading the class or var of an element without one fails first. */
  function RequiredDetail(e: Entity, t: Triple): (r: Result<string, Failure>)
    ensures r.Err? <==> ClassText(e) == "" || VarText(e) == ""
    ensures r.Ok? ==> r.value == ClassText(e) + ": " + VarText(e) + " - " + t.name + "(" + t.c + ")"
  {
    if ClassText(e) == "" || VarText(e) == "" then Err(Crash(OutOfRange))
    else Ok(ClassText(e) + ": " + VarText(e) + " - " + t.name + "(" + t.c + ")")
  }

  function ArgFold(v: Variant, e: Entity, ts: seq<Triple>, i: nat, d: ArgDict): (r: Result<ArgDict, Failure>)
    requires i <= |ts| && UniqueKeys(d)
    ensures r.Err? <==> v.Current? && exists j :: i <= j < |ts| && ts[j].text == RequiredMark
    ensures r.Ok? ==> UniqueKeys(r.value)
    ensures r.Ok? ==> Keys(r.value) == Keys(d) + NamesFrom(ts, i)
    decreases |ts| - i
  {
    if i == |ts| then Ok(d)
    else if v.Current? && ts[i].text == RequiredMark then
      var detail :- RequiredDetail(e, ts[i]);
      Err(Raise(v.declared, MissingRequiredArgument(detail)))
    else
      var r := ArgFold(v, e, ts, i + 1, Put(d, ts[i].name, Items(ts[i])));
      NamesFromStep(ts, i);
      r
  }

  /** The first `!REQ` text of `ts[i..]` is at `j`. */
  predicate FirstRequired(ts: seq<Triple>, i: int, j: int)
  {
    0 <= i <= j < |ts| && ts[j].text == RequiredMark &&
    forall k :: i <= k < j ==> ts[k].text != RequiredMark
  }

  /** The position of the first `!REQ` text of `ts[i..]`, if any. */
  function FirstRequiredAt(ts: seq<Triple>, i: nat): (r: Option<nat>)
    requires i <= |ts|
    ensures r.Some? ==> FirstRequired(ts, i, r.value)
    ensures r.None? <==> forall k :: i <= k < |ts| ==> ts[k].text != RequiredMark
    decreases |ts| - i
  {
    if i == |ts| then None
    else if ts[i].text == RequiredMark then Some(i)
    else FirstRequiredAt(ts, i + 1)
  }

  /** The error `ArgFold` stops with names the first `!REQ` argument. */
  lemma {:induction false} ArgFoldFirstRequired(v: Variant, e: Entity, ts: seq<Triple>, i: nat, d: ArgDict)
    requires i <= |ts| && UniqueKeys(d)
    requires ArgFold(v, e, ts, i, d).Err? && ClassText(e) != "" && VarText(e) != ""
    ensures FirstRequiredAt(ts, i).Some?
    ensures ArgFold(v, e, ts, i, d).error ==
      Raise(v.declared, MissingRequiredArgument(RequiredDetail(e, ts[FirstRequiredAt(ts, i).value]).value))
    decreases |ts| - i
  {
    if !(v.Current? && ts[i].text == RequiredMark) {
      ArgFoldFirstRequired(v, e, ts, i + 1, Put(d, ts[i].name, Items(ts[i])));
    }
  }

  /** The names of `ts[i..]`. */
  function NamesFrom(ts: seq<Triple>, i: nat): set<string>
    requires i <= |ts|
  {
    set j | i <= j < |ts| :: ts[j].name
  }

  lemma NamesFromStep(ts: seq<Triple>, i: nat)
    requires i < |ts|
    ensures NamesFrom(ts, i) == {ts[i].name} + NamesFrom(ts, i + 1)
  {
    forall x | x in NamesFrom(ts, i) ensures x in {ts[i].name} + NamesFrom(ts, i + 1) {
      var j :| i <= j < |ts| && ts[j].name == x;
      if j > i { assert x in NamesFrom(ts, i + 1); }
    }
    forall x | x in NamesFrom(ts, i + 1) ensures x in NamesFrom(ts, i) {
      var j :| i + 1 <= j < |ts| && ts[j].name == x;
      assert i <= j;
    }
  }

  /** `get_args_by_elm(element)`: the arguments in document order, a later
      argument of the same name replacing an earlier one. In the newer
      variant any `!REQ` text stops the compiler with the required-argument
      error of the first such argument before anything is rendered; the older
      variant passes every text through. */
  function GetArgs(v: Variant, e: Entity): (r: Result<ArgDict, Failure>)
    ensures r.Err? <==> v.Current? && exists j :: 0 <= j < |Aligned(e)| && Aligned(e)[j].text == RequiredMark
    ensures r.Err? && ClassText(e) != "" && VarText(e) != "" ==>
      FirstRequiredAt(Aligned(e), 0).Some? &&
      r.error == Raise(v.declared, MissingRequiredArgument(RequiredDetail(e, Aligned(e)[FirstRequiredAt(Aligned(e), 0).value]).value))
    ensures r.Ok? ==> UniqueKeys(r.value)
    ensures r.Ok? ==> Keys(r.value) == NamesFrom(Aligned(e), 0)
  {
    var r := ArgFold(v, e, Aligned(e), 0, []);
    if r.Err? && ClassText(e) != "" && VarText(e) != "" then
      ArgFoldFirstRequired(v, e, Aligned(e), 0, []);
      r
    else r
  }

  /** The errors module only decides what the `!REQ` check raises: under any
      two modules the fold reads the same dictionary. */
  lemma {:induction false} ArgFoldModules(a: seq<ErrorClass>, b: seq<ErrorClass>, e: Entity, ts: seq<Triple>,
                                          i: nat, d: ArgDict)
    requires i <= |ts| && UniqueKeys(d)
    requires ArgFold(Current(a), e, ts, i, d).Ok?
    ensures ArgFold(Current(b), e, ts, i, d) == ArgFold(Current(a), e, ts, i, d)
    decreases |ts| - i
  {
    if i < |ts| {
      var d1 := Put(d, ts[i].name, Items(ts[i]));
      assert ts[i].text != RequiredMark;
      assert ArgFold(Current(a), e, ts, i, d) == ArgFold(Current(a), e, ts, i + 1, d1);
      assert ArgFold(Current(b), e, ts, i, d) == ArgFold(Current(b), e, ts, i + 1, d1);
      ArgFoldModules(a, b, e, ts, i + 1, d1);
    }
  }

  /** Without a `!REQ` text the errors module makes no difference: the
      newer compiler reads the same dictionary against lib/parser/errors.py
      as written and against the corrected module. */
  lemma GetArgsModules(a: seq<ErrorClass>, b: seq<ErrorClass>, e: Entity)
    ensures GetArgs(Current(a), e).Ok? <==> GetArgs(Current(b), e).Ok?
    ensures GetArgs(Current(a), e).Ok? ==> GetArgs(Current(a), e) == GetArgs(Current(b), e)
  {
    if GetArgs(Current(a), e).Ok? {
      ArgFoldModules(a, b, e, Aligned(e), 0, []);
    }
  }

  /** Against lib/parser/errors.py as written, a `!REQ` argument of a node
      with a class and a variable ends in a `NameError` for
      `PyMissingRequiredArgumentError`, which the export thread does not
      catch; against the corrected module it is the required-argument
      diagnostic. */
  lemma GetArgsAsWritten(e: Entity)
    requires ClassText(e) != "" && VarText(e) != ""
    requires exists j :: 0 <= j < |Aligned(e)| && Aligned(e)[j].text == RequiredMark
    ensures GetArgs(AsWritten, e) == Err(Crash(NameError("PyMissingRequiredArgumentError")))
    ensures GetArgs(Repaired, e).Err? && GetArgs(Repaired, e).error.Fatal? &&
      GetArgs(Repaired, e).error.diagnostic.MissingRequiredArgument?
  {
    AliasDeclaredOnlyWhenCorrected();
    GetArgsRaises(Declared, e);
    GetArgsRaises(CorrectedDeclared, e);
    RequiredArgumentRaisedName();
  }

  lemma AliasDeclaredOnlyWhenCorrected()
    ensures RequiredArgumentAliasClass !in Declared
    ensures RequiredArgumentAliasClass in CorrectedDeclared
  {
  }

  lemma RequiredArgumentRaisedName()
    ensures RaisedName(MissingRequiredArgument("")) == "PyMissingRequiredArgumentError"
  {
  }

  /** The required-argument check raises through the errors module. */
  lemma GetArgsRaises(declared: seq<ErrorClass>, e: Entity)
    requires ClassText(e) != "" && VarText(e) != ""
    requires exists j :: 0 <= j < |Aligned(e)| && Aligned(e)[j].text == RequiredMark
    ensures RequiredArgumentAliasClass !in declared ==>
      GetArgs(Current(declared), e) == Err(Crash(NameError(RaisedName(MissingRequiredArgument("")))))
    ensures RequiredArgumentAliasClass in declared ==>
      GetArgs(Current(declared), e).Err? && GetArgs(Current(declared), e).error.Fatal? &&
      GetArgs(Current(declared), e).error.diagnostic.MissingRequiredArgument?
  {
    var t := Aligned(e)[FirstRequiredAt(Aligned(e), 0).value];
    var d := MissingRequiredArgument(RequiredDetail(e, t).value);
    assert GetArgs(Current(declared), e) == Err(Raise(declared, d));
    assert RaisedClass(d) == RequiredArgumentAliasClass;
    assert RaisedName(d) == RaisedName(MissingRequiredArgument(""));
  }

  // ---------------------------------------------------------------------------
  // Sources, values by id, and the inline form of a referenced element
  // ---------------------------------------------------------------------------

  /** The module an element's class comes from. */
  function SrcName(e: Entity): string
  {
    match e
    case Model(_, _, _, _) => "models"
    case Unit(_, source, _, _, _) => source
    case _ => "layers"
  }

  /** `src_handler`: the module name, which joins the source set. */
  function SrcHandler(e: Entity, w: Walk): (r: Step<string>)
    ensures r.out == SrcName(e)
    ensures r.walk == w.(src := w.src + {SrcName(e)})
  {
    Step(SrcName(e), w.(src := w.src + {SrcName(e)}))
  }

  function VarValues(doc: Document, ids: seq<string>): (r: Result<seq<PyValue>, Fault>)
    ensures r.Ok? <==> forall i :: 0 <= i < |ids| ==> Lookup(doc, ids[i]).Some?
    ensures r.Ok? ==> |r.value| == |ids|
    ensures r.Ok? ==>
      forall i :: 0 <= i < |ids| ==> r.value[i] == NodeValue(VarText(Lookup(doc, ids[i]).value), false)
  {
    if |ids| == 0 then Ok([])
    else if Lookup(doc, ids[0]).None? then Err(OutOfRange)
    else
      var rest :- VarValues(doc, ids[1..]);
      Ok([NodeValue(VarText(Lookup(doc, ids[0]).value), false)] + rest)
  }

  predicate AllStr(vs: seq<PyValue>)
  {
    forall i :: 0 <= i < |vs| ==> vs[i].Str?
  }

  function Strs(vs: seq<PyValue>): (r: seq<string>)
    requires AllStr(vs)
    ensures |r| == |vs| && forall i :: 0 <= i < |vs| ==> r[i] == vs[i].s
  {
    if |vs| == 0 then [] else [vs[0].s] + Strs(vs[1..])
  }

  /** `"[" + ", ".join(vs) + "]"`; joining anything but strings fails. */
  function Bracketed(vs: seq<PyValue>): (r: Result<string, Fault>)
    ensures r.Ok? <==> AllStr(vs)
    ensures r.Ok? ==> r.value == "[" + Join(Strs(vs), ", ") + "]"
  {
    if AllStr(vs) then Ok("[" + Join(Strs(vs), ", ") + "]")
    else Err(TypeError("sequence item: expected str instance"))
  }

  /** `get_node_value_by_id(ids, 'var')`: the variables of the elements
      named by `ids`, in the order `ids` lists them. One id gives its value
      alone; several give the bracketed list of their variables. A `str` of
      ids is walked character by character. */
  function VarsById(doc: Document, ids: PyValue): (r: Result<PyValue, Fault>)
    ensures ids.NoneValue? ==> r.Err?
    ensures ids.List? && |ids.items| == 1 && Lookup(doc, ids.items[0]).Some? ==>
      r == Ok(NodeValue(VarText(Lookup(doc, ids.items[0]).value), false))
    ensures ids.List? && |ids.items| != 1 && r.Ok? ==>
      VarValues(doc, ids.items).Ok? && AllStr(VarValues(doc, ids.items).value) &&
      r.value == Str("[" + Join(Strs(VarValues(doc, ids.items).value), ", ") + "]")
  {
    var xs :- Iterate(ids);
    var vs :- VarValues(doc, xs);
    if |vs| == 1 then Ok(vs[0])
    else
      var t :- Bracketed(vs);
      Ok(Str(t))
  }

  /** The bracketed list of several released predecessors names their
      variables in the order the node declares them. */
  lemma VarsByIdDeclaredOrder(doc: Document, ids: seq<string>)
    requires |ids| != 1 && VarsById(doc, List(ids)).Ok?
    ensures forall i :: 0 <= i < |ids| ==> Lookup(doc, ids[i]).Some?
    ensures forall i :: 0 <= i < |ids| ==>
      Strs(VarValues(doc, ids).value)[i] == NodeValue(VarText(Lookup(doc, ids[i]).value), false).s
  {
  }

  /** The value a CA layer or unit contributes once its arguments are
      rendered as `args`: without a variable it is inlined as
      `src.cls(args)`; with one, a statement binding it is emitted and the
      variable is the value. */
  function Inline(e: Entity, args: string, w: Walk): (r: Step<PyValue>)
    ensures VarText(e) == "" ==>
      r == Step(Str(SrcName(e) + "." + Show(NodeValue(ClassText(e), false)) + "(" + args + ")"), w)
    ensures VarText(e) != "" ==>
      r.out == NodeValue(VarText(e), false) && Truthy(r.out) &&
      r.walk == w.(py := Add(w.py, r.out, SrcName(e), NodeValue(ClassText(e), false), args, NoneValue))
  {
    var varNm := NodeValue(VarText(e), false);
    var cls := NodeValue(ClassText(e), false);
    if varNm.NoneValue? then Step(Str(SrcName(e) + "." + Show(cls) + "(" + args + ")"), w)
    else Step(varNm, w.(py := Add(w.py, varNm, SrcName(e), cls, args, NoneValue)))
  }

  /** One `k=v` or `k=[v1, v2]` entry of a rendered argument list. */
  function EntryText(key: string, vals: seq<PyValue>): (r: Result<string, Failure>)
    ensures |vals| == 1 ==> r == Ok(key + "=" + Show(vals[0]))
    ensures |vals| != 1 ==> (r.Ok? <==> AllStr(vals))
    ensures |vals| != 1 && r.Ok? ==> r.value == key + "=[" + Join(Strs(vals), ", ") + "]"
  {
    if |vals| == 1 then Ok(key + "=" + Show(vals[0]))
    else
      var t :- Lift(Bracketed(vals));
      Ok(key + "=" + t)
  }

  /** Whether a referenced layer contributes its variable: IO mode, and in
      the newer variant AC mode too. */
  predicate ByVariable(v: Variant, mode: PyValue)
  {
    mode == Str("IO") || (v.Current? && mode == Str("AC"))
  }

  // ---------------------------------------------------------------------------
  // The argument renderer and the walk (mutually recursive)
  // ---------------------------------------------------------------------------

  /** `type_handler` for one argument value: a `str` is double-quoted; an
      `id` is resolved (a placeholder renders `self.name` and records the
      name, an IO layer renders its variable, a CA layer or a unit is inlined
      or bound, anything else contributes nothing); any other class passes
      through. */
  function RenderItem(v: Variant, depth: nat, doc: Document, item: ArgItem, w: Walk)
    : (r: Result<Step<seq<PyValue>>, Failure>)
    ensures r.Ok? ==> RenderOnly(w, r.value.walk) && |r.value.out| <= 1
    ensures item.c == "str" ==> r == Ok(Step([Str("\"" + item.v + "\"")], w))
    ensures item.c != "str" && item.c != "id" ==> r == Ok(Step([Str(item.v)], w))
    ensures item.c == "id" && Lookup(doc, item.v).None? ==> r == Err(Crash(OutOfRange))
    ensures item.c == "id" && Lookup(doc, item.v).Some? && Lookup(doc, item.v).value.Ph? ==>
      var name := Lookup(doc, item.v).value.name;
      if name == "" then r == Err(Crash(OutOfRange))
      else r == Ok(Step([Str("self." + name)], w.(phs := w.phs + [name])))
    ensures item.c == "id" && Lookup(doc, item.v).Some? && Lookup(doc, item.v).value.Layer? &&
            ByVariable(v, NodeValue(Lookup(doc, item.v).value.mode, false)) ==>
      r == Ok(Step([Str(Show(NodeValue(Lookup(doc, item.v).value.varName, false)))], w))
    ensures item.c == "id" && Lookup(doc, item.v).Some? &&
            (Lookup(doc, item.v).value.Model? || Lookup(doc, item.v).value.Note?) ==>
      r == Ok(Step([], w))
    ensures item.c == "id" && Lookup(doc, item.v).Some? && Lookup(doc, item.v).value.Layer? &&
            NodeValue(Lookup(doc, item.v).value.mode, false) !in {Str("IO"), Str("AC"), Str("CA")} ==>
      r == Ok(Step([], w))
    ensures v.Legacy? && item.c == "id" && Lookup(doc, item.v).Some? &&
            Lookup(doc, item.v).value.Layer? && Lookup(doc, item.v).value.mode == "AC" ==>
      r == Ok(Step([], w))
    decreases depth, 2, 0, 0
  {
    if item.c == "str" then Ok(Step([Str("\"" + item.v + "\"")], w))
    else if item.c == "id" then
      var target :- Find(doc, item.v);
      match target
      case Ph(_, name) =>
        if name == "" then Err(Crash(OutOfRange))
        else Ok(Step([Str("self." + name)], w.(phs := w.phs + [name])))
      case Layer(_, _, varName, _, _, mode, _, _) =>
        var m := NodeValue(mode, false);
        if ByVariable(v, m) then Ok(Step([Str(Show(NodeValue(varName, false)))], w))
        else if m == Str("CA") then Reference(v, depth, doc, target, w)
        else Ok(Step([], w))
      case Unit(_, _, _, _, _) => Reference(v, depth, doc, target, w)
      case _ => Ok(Step([], w))
    else Ok(Step([Str(item.v)], w))
  }

  /** A CA layer or unit referenced from an argument: one level deeper. */
  function Reference(v: Variant, depth: nat, doc: Document, target: Entity, w: Walk)
    : (r: Result<Step<seq<PyValue>>, Failure>)
    ensures r.Ok? ==> RenderOnly(w, r.value.walk) && |r.value.out| == 1
    ensures depth == 0 ==> r == Err(Crash(RecursionError))
    decreases depth, 1, 0, 0
  {
    if depth == 0 then Err(Crash(RecursionError))
    else
      var s :- GvMvCv(v, depth - 1, doc, target, w);
      Ok(Step([s.out], s.walk))
  }

  /** `type_handler` over the values of one argument, in order. */
  function TypeLoop(v: Variant, depth: nat, doc: Document, items: seq<ArgItem>, j: nat,
                    acc: seq<PyValue>, w: Walk)
    : (r: Result<Step<seq<PyValue>>, Failure>)
    requires j <= |items|
    ensures r.Ok? ==> RenderOnly(w, r.value.walk)
    ensures r.Ok? ==> acc <= r.value.out && |r.value.out| <= |acc| + |items| - j
    decreases depth, 3, |items| - j, 0
  {
    if j == |items| then Ok(Step(acc, w))
    else
      var s :- RenderItem(v, depth, doc, items[j], w);
      var r := TypeLoop(v, depth, doc, items, j + 1, acc + s.out, s.walk);
      if r.Ok? then
        RenderChain(w, s.walk, r.value.walk);
        r
      else r
  }

  /** `args_handler` on a dictionary: every entry rendered in order and
      the entries joined with `, `. */
  function RenderArgs(v: Variant, depth: nat, doc: Document, d: ArgDict, k: nat,
                      acc: seq<string>, w: Walk)
    : (r: Result<Step<string>, Failure>)
    requires k <= |d|
    ensures r.Ok? ==> RenderOnly(w, r.value.walk)
    ensures k == |d| ==> r == Ok(Step(Join(acc, ", "), w))
    decreases depth, 4, |d| - k, 0
  {
    if k == |d| then Ok(Step(Join(acc, ", "), w))
    else
      var s :- TypeLoop(v, depth, doc, d[k].items, 0, [], w);
      var line :- EntryText(d[k].key, s.out);
      var r := RenderArgs(v, depth, doc, d, k + 1, acc + [line], s.walk);
      if r.Ok? then
        RenderChain(w, s.walk, r.value.walk);
        r
      else r
  }

  /** `gv_mv_cv`: read the element's arguments, record its source, render
      the arguments if there are any, then inline or bind it. */
  function GvMvCv(v: Variant, depth: nat, doc: Document, e: Entity, w: Walk)
    : (r: Result<Step<PyValue>, Failure>)
    ensures r.Ok? ==> RenderOnly(w, r.value.walk)
    ensures GetArgs(v, e).Err? ==> r == Err(GetArgs(v, e).error)
    ensures r.Ok? ==> SrcName(e) in r.value.walk.src
    ensures r.Ok? && VarText(e) != "" ==>
      r.value.out == NodeValue(VarText(e), false) &&
      Contains(r.value.walk.py, Key(NodeValue(ClassText(e), false), NodeValue(VarText(e), false)))
    ensures r.Ok? && VarText(e) == "" ==>
      r.value.out.Str? &&
      SrcName(e) + "." + Show(NodeValue(ClassText(e), false)) + "(" <= r.value.out.s
    decreases depth, 5, 0, 0
  {
    var d :- GetArgs(v, e);
    var s0 := SrcHandler(e, w);
    var s :- if |d| > 0 then RenderArgs(v, depth, doc, d, 0, [], s0.walk) else Ok(Step("", s0.walk));
    RenderChain(w, s0.walk, s.walk);
    var r := Inline(e, s.out, s.walk);
    PrefixOfConcat(SrcName(e) + "." + Show(NodeValue(ClassText(e), false)) + "(", s.out + ")");
    assert SrcName(e) + "." + Show(NodeValue(ClassText(e), false)) + "(" + s.out + ")"
        == (SrcName(e) + "." + Show(NodeValue(ClassText(e), false)) + "(") + (s.out + ")");
    Ok(r)
  }

  /** `args_handler(element)`: the element's arguments rendered. An element
      without arguments renders as the empty text in the newer variant; the
      older one calls `.items()` on the empty string. */
  function ArgsOfElement(v: Variant, depth: nat, doc: Document, e: Entity, w: Walk)
    : (r: Result<Step<string>, Failure>)
    ensures r.Ok? ==> RenderOnly(w, r.value.walk)
    ensures GetArgs(v, e).Err? ==> r == Err(GetArgs(v, e).error)
    ensures GetArgs(v, e) == Ok([]) ==>
      r == (if v.Current? then Ok(Step("", w)) else Err(Crash(AttributeError("'str' object has no attribute 'items'"))))
    decreases depth, 6, 0, 0
  {
    var d :- GetArgs(v, e);
    if |d| == 0 then
      if v.Current? then Ok(Step("", w))
      else Err(Crash(AttributeError("'str' object has no attribute 'items'")))
    else RenderArgs(v, depth, doc, d, 0, [], w)
  }

  /** The placeholder a model's first arrival registers: its expected lists
      are the pieces of its `inputs` and `outputs` arguments. */
  function ModelInitial(dstId: string, e: Entity, d: ArgDict): (r: Result<PlaceHolder, Fault>)
    ensures r.Ok? ==> r.value.dstId == dstId && r.value.kind == ModelJoin
    ensures r.Ok? <==> Get(d, "inputs").Some? && Get(d, "outputs").Some?
    ensures r.Ok? ==> r.value.epIpt.List? && r.value.epOpt.List?
    ensures r.Ok? ==> WellGained(r.value)
  {
    if |d| == 0 then Err(TypeError("string indices must be integers"))
    else
      var ins :- (match Get(d, "inputs") case None => Err(KeyError("inputs")) case Some(x) => Ok(x));
      var outs :- (match Get(d, "outputs") case None => Err(KeyError("outputs")) case Some(x) => Ok(x));
      Ok(Fresh(ModelJoin, dstId, NodeValue(VarText(e), false), NodeValue(ClassText(e), false),
               List(seq(|ins|, i requires 0 <= i < |ins| => ins[i].v)),
               List(seq(|outs|, i requires 0 <= i < |outs| => outs[i].v))))
  }

  /** `model_handler(src, dst)`: the model's arguments are read (and checked
      for `!REQ`) on every arrival. The first arrival only registers the
      model; a later one that completes both its inputs and its outputs
      releases it. */
  function ModelHandler(v: Variant, depth: nat, doc: Document, srcId: string, dstId: string, w: Walk)
    : (r: Result<Walk, Failure>)
    ensures r.Ok? ==> Extends(w, r.value)
    ensures Lookup(doc, dstId).Some? && GetArgs(v, Lookup(doc, dstId).value).Err? ==>
      r == Err(GetArgs(v, Lookup(doc, dstId).value).error)
    ensures r.Ok? && dstId !in w.hub ==>
      r.value.py == w.py && r.value.rtn == w.rtn && r.value.hub.Keys == w.hub.Keys + {dstId}
    ensures r.Ok? && r.value.rtn != w.rtn ==>
      dstId in w.hub && Gain(w.hub[dstId], srcId).Ok? &&
      Check(Gain(w.hub[dstId], srcId).value) == Ok(true) &&
      r.value.rtn == w.rtn + [w.hub[dstId].varNm] &&
      |r.value.py.lines| > |w.py.lines|
    ensures r.Ok? && dstId in w.hub && Gain(w.hub[dstId], srcId).Ok? &&
            Check(Gain(w.hub[dstId], srcId).value) == Ok(true) ==>
      r.value.rtn == w.rtn + [w.hub[dstId].varNm]
    decreases depth, 13, 0, 0
  {
    var elem :- Find(doc, dstId);
    var d :- GetArgs(v, elem);
    var j :- Lift(Arrive(w.hub, dstId, srcId, ModelInitial(dstId, elem, d)));
    var w1 := w.(hub := j.hub);
    if !j.released then Ok(w1)
    else
      assert dstId in w.hub && j.holder == Gain(w.hub[dstId], srcId).value;
      var r := ReleaseModel(v, depth, doc, elem, d, j.holder, w1);
      if r.Ok? then ExtendsChain(w, w1, r.value); r else r
  }

  /** A released model: its statement (its arguments rendered, no call)
      and its variable appended to the returned models. */
  function ReleaseModel(v: Variant, depth: nat, doc: Document, elem: Entity, d: ArgDict,
                        p: PlaceHolder, w: Walk)
    : (r: Result<Walk, Failure>)
    ensures r.Ok? ==> Extends(w, r.value)
    ensures r.Ok? ==> r.value.rtn == w.rtn + [p.varNm]
    ensures r.Ok? ==> |r.value.py.lines| > |w.py.lines|
    ensures r.Ok? ==> Contains(r.value.py, Key(p.clsNm, p.varNm))
    decreases depth, 12, 0, 0
  {
    var s0 := SrcHandler(elem, w);
    var s :- if |d| == 0 then Err(Crash(AttributeError("'str' object has no attribute 'xpath'")))
             else RenderArgs(v, depth, doc, d, 0, [], s0.walk);
    ExtendsChain(w, s0.walk, s.walk);
    var py := Add(s.walk.py, p.varNm, s0.out, p.clsNm, s.out, NoneValue);
    Ok(s.walk.(py := py, rtn := s.walk.rtn + [p.varNm]))
  }

  /** `node_handler(src, dst)`: an arrival at a multi-input node. */
  function NodeHandler(doc: Document, srcId: string, dstId: string, hub: Hub): (r: Result<Arrival, Fault>)
    ensures Lookup(doc, dstId).Some? ==>
      var e := Lookup(doc, dstId).value;
      r == Arrive(hub, dstId, srcId, Ok(Fresh(NodeJoin, dstId, NodeValue(VarText(e), false),
                                              NodeValue(ClassText(e), false),
                                              NodeValue(InputText(e), false),
                                              NodeValue(OutputText(e), false))))
    ensures r.Ok? && dstId !in hub ==> !r.value.released && r.value.hub.Keys == hub.Keys + {dstId}
    ensures r.Ok? && HubWellGained(hub) ==> HubWellGained(r.value.hub)
    ensures r.Ok? && HubWellGained(hub) && dstId in hub ==>
      (r.value.released <==> CheckAsWritten(r.value.holder) == Ok(true))
  {
    match Lookup(doc, dstId)
    case None => Err(OutOfRange)
    case Some(e) =>
      var p := Fresh(NodeJoin, dstId, NodeValue(VarText(e), false),
                     NodeValue(ClassText(e), false),
                     NodeValue(InputText(e), false),
                     NodeValue(OutputText(e), false));
      var r := Arrive(hub, dstId, srcId, Ok(p));
      if r.Ok? && HubWellGained(hub) then ArriveKeepsWellGained(hub, dstId, srcId, Ok(p)); r else r
  }

  /** Following an output id that names no element. The newer variant
      reads the referring node's class and variable and raises the
      connection error with them; the older one fails on the index. */
  function Dangling(v: Variant, e: Entity): (r: Result<Walk, Failure>)
    ensures r.Err?
    ensures v.Legacy? ==> r == Err(Crash(OutOfRange))
    ensures v.Current? && ClassText(e) != "" && VarText(e) != "" ==>
      r == Err(Raise(v.declared, MissingNecessaryConnection(ClassText(e), VarText(e))))
    ensures v == AsWritten && ClassText(e) != "" && VarText(e) != "" ==>
      r == Err(Crash(NameError("PyMissingNecessaryConnectionError")))
    ensures v == Repaired && ClassText(e) != "" && VarText(e) != "" ==>
      r == Err(Fatal(MissingNecessaryConnection(ClassText(e), VarText(e))))
  {
    if v.Legacy? || ClassText(e) == "" || VarText(e) == "" then Err(Crash(OutOfRange))
    else
      RaiseAsWritten(MissingNecessaryConnection(ClassText(e), VarText(e)));
      RaiseCorrected(MissingNecessaryConnection(ClassText(e), VarText(e)));
      Err(Raise(v.declared, MissingNecessaryConnection(ClassText(e), VarText(e))))
  }

  /** The recursive `clue_handler` call on a released node. */
  function Descend(v: Variant, depth: nat, doc: Document, nxt: Entity, nxtVar: PyValue, outId: string, w: Walk)
    : (r: Result<Walk, Failure>)
    ensures r.Ok? ==> Extends(w, r.value)
    ensures depth == 0 ==> r == Err(Crash(RecursionError))
    decreases depth, 13, 0, 0
  {
    if depth == 0 then Err(Crash(RecursionError))
    else Clue(v, depth - 1, doc, nxt, nxtVar, outId, w)
  }

  /** Whether the node `nxt` reached from `curId` takes it as its only input
      (an exact match of its `<input>` text). */
  predicate SingleInput(nxt: Entity, curId: string)
  {
    NodeValue(InputText(nxt), false) == Str(curId)
  }

  /** One iteration of `clue_handler`'s loop: follow `outId` from `e`. A
      missing element is a dangling connection; an element of class `Model`
      goes to the model join; anything else advances the walk. */
  function Follow(v: Variant, depth: nat, doc: Document, e: Entity, varNm: PyValue, curId: string,
                  outId: string, w: Walk)
    : (r: Result<Walk, Failure>)
    ensures r.Ok? ==> Extends(w, r.value)
    ensures Lookup(doc, outId).None? ==> r == Dangling(v, e)
    ensures Lookup(doc, outId).Some? && NodeValue(ClassText(Lookup(doc, outId).value), false) == Str(ModelClass) ==>
      r == ModelHandler(v, depth, doc, curId, outId, w)
    ensures Lookup(doc, outId).Some? && NodeValue(ClassText(Lookup(doc, outId).value), false) != Str(ModelClass) ==>
      r == Advance(v, depth, doc, Lookup(doc, outId).value, varNm, curId, outId, w)
    decreases depth, 16, 0, 0
  {
    match Lookup(doc, outId)
    case None => Dangling(v, e)
    case Some(nxt) =>
      if NodeValue(ClassText(nxt), false) == Str(ModelClass) then ModelHandler(v, depth, doc, curId, outId, w)
      else Advance(v, depth, doc, nxt, varNm, curId, outId, w)
  }

  /** A node that is not a model: its arguments are rendered and its source
      recorded on every arrival. A node whose input is exactly the current id
      is emitted at once; a node whose input merely contains it goes through
      the join. */
  function Advance(v: Variant, depth: nat, doc: Document, nxt: Entity, varNm: PyValue, curId: string,
                   outId: string, w: Walk)
    : (r: Result<Walk, Failure>)
    requires Lookup(doc, outId) == Some(nxt)
    ensures r.Ok? ==> Extends(w, r.value)
    ensures ArgsOfElement(v, depth, doc, nxt, w).Err? ==> r == Err(ArgsOfElement(v, depth, doc, nxt, w).error)
    ensures ArgsOfElement(v, depth, doc, nxt, w).Ok? && SingleInput(nxt, curId) ==>
      var a := ArgsOfElement(v, depth, doc, nxt, w).value;
      r == Single(v, depth, doc, nxt, varNm, outId, a.out, SrcHandler(nxt, a.walk).walk)
    ensures ArgsOfElement(v, depth, doc, nxt, w).Ok? && !SingleInput(nxt, curId) ==>
      var a := ArgsOfElement(v, depth, doc, nxt, w).value;
      r == MultiInput(v, depth, doc, nxt, curId, outId, a.out, SrcHandler(nxt, a.walk).walk)
    decreases depth, 15, 0, 0
  {
    var a :- ArgsOfElement(v, depth, doc, nxt, w);
    var s := SrcHandler(nxt, a.walk);
    ExtendsChain(w, a.walk, s.walk);
    var r := if SingleInput(nxt, curId) then Single(v, depth, doc, nxt, varNm, outId, a.out, s.walk)
             else MultiInput(v, depth, doc, nxt, curId, outId, a.out, s.walk);
    if r.Ok? then ExtendsChain(w, s.walk, r.value); r else r
  }

  /** A node taking the current node as its only input: emitted with the
      current variable as its call, then walked on. */
  function Single(v: Variant, depth: nat, doc: Document, nxt: Entity, varNm: PyValue, outId: string,
                  args: string, w: Walk)
    : (r: Result<Walk, Failure>)
    ensures r.Ok? ==> Extends(w, r.value)
    ensures r.Ok? ==> |r.value.py.lines| > |w.py.lines|
    ensures r.Ok? ==>
      r.value.py.lines[|w.py.lines|] ==
        Render(NodeValue(VarText(nxt), false), SrcName(nxt), NodeValue(ClassText(nxt), false), args, varNm)
    decreases depth, 14, 0, 0
  {
    var nxtVar := NodeValue(VarText(nxt), false);
    var w1 := w.(py := Add(w.py, nxtVar, SrcName(nxt), NodeValue(ClassText(nxt), false), args, varNm));
    var r := Descend(v, depth, doc, nxt, nxtVar, outId, w1);
    if r.Ok? then ExtendsChain(w, w1, r.value); r else r
  }

  /** A node whose input list holds the current id (or whose input text
      contains it as a substring). The first arrival only registers the
      node; a later arrival that completes its inputs emits it with the
      variables of its declared inputs as the call, and walks on. */
  function MultiInput(v: Variant, depth: nat, doc: Document, nxt: Entity, curId: string, outId: string,
                      args: string, w: Walk)
    : (r: Result<Walk, Failure>)
    requires Lookup(doc, outId) == Some(nxt)
    ensures r.Ok? ==> Extends(w, r.value)
    ensures NodeValue(InputText(nxt), false).NoneValue? ==> r.Err?
    ensures PyIn(curId, NodeValue(InputText(nxt), false)) == Ok(false) ==> r == Ok(w)
    ensures r.Ok? && outId !in w.hub ==>
      r.value.py == w.py && r.value.rtn == w.rtn && r.value.hub.Keys <= w.hub.Keys + {outId}
    ensures r.Ok? && PyIn(curId, NodeValue(InputText(nxt), false)) == Ok(true) ==>
      var j := NodeHandler(doc, curId, outId, w.hub);
      j.Ok? &&
      (j.value.released && Truthy(j.value.holder.epIpt) ==>
        VarsById(doc, j.value.holder.epIpt).Ok? &&
        |r.value.py.lines| > |w.py.lines| &&
        r.value.py.lines[|w.py.lines|] ==
          Render(NodeValue(VarText(nxt), false), SrcName(nxt), NodeValue(ClassText(nxt), false), args,
                 VarsById(doc, j.value.holder.epIpt).value))
    decreases depth, 14, 0, 0
  {
    var isIn :- Lift(PyIn(curId, NodeValue(InputText(nxt), false)));
    if !isIn then Ok(w)
    else
      var j :- Lift(NodeHandler(doc, curId, outId, w.hub));
      var w1 := w.(hub := j.hub);
      if !j.released || !Truthy(j.holder.epIpt) then Ok(w1)
      else
        var call :- Lift(VarsById(doc, j.holder.epIpt));
        var nxtVar := NodeValue(VarText(nxt), false);
        var w2 := w1.(py := Add(w1.py, nxtVar, SrcName(nxt), NodeValue(ClassText(nxt), false), args, call));
        ExtendsChain(w, w1, w2);
        var r := Descend(v, depth, doc, nxt, nxtVar, outId, w2);
        if r.Ok? then ExtendsChain(w, w2, r.value); r else r
  }

  /** `clue_handler`'s loop over the output ids, in order. */
  function ClueLoop(v: Variant, depth: nat, doc: Document, e: Entity, varNm: PyValue, curId: string,
                    outs: seq<string>, i: nat, w: Walk)
    : (r: Result<Walk, Failure>)
    requires i <= |outs|
    ensures r.Ok? ==> Extends(w, r.value)
    ensures i < |outs| && Follow(v, depth, doc, e, varNm, curId, outs[i], w).Err? ==>
      r == Follow(v, depth, doc, e, varNm, curId, outs[i], w)
    decreases depth, 17, |outs| - i, 0
  {
    if i == |outs| then Ok(w)
    else
      var w1 :- Follow(v, depth, doc, e, varNm, curId, outs[i], w);
      var r := ClueLoop(v, depth, doc, e, varNm, curId, outs, i + 1, w1);
      if r.Ok? then ExtendsChain(w, w1, r.value); r else r
  }

  /** `clue_handler(element, var, id)`: follow every output id of the
      element in order. An element without outputs fails: `None` is not
      iterable. */
  function Clue(v: Variant, depth: nat, doc: Document, e: Entity, varNm: PyValue, curId: string, w: Walk)
    : (r: Result<Walk, Failure>)
    ensures r.Ok? ==> Extends(w, r.value)
    ensures OutputText(e) == "" ==> r.Err?
    ensures OutputText(e) != "" && ';' !in OutputText(e) ==>
      r == ClueLoop(v, depth, doc, e, varNm, curId, [OutputText(e)], 0, w)
    decreases depth, 18, 0, 0
  {
    var outs :- Lift(Iterate(NodeValue(OutputText(e), true)));
    ClueLoop(v, depth, doc, e, varNm, curId, outs, 0, w)
  }

  /** `line_handler` for one entrance: its statement first, then its clue. */
  function LineHandler(v: Variant, depth: nat, doc: Document, head: Entity, w: Walk)
    : (r: Result<Walk, Failure>)
    ensures r.Ok? ==> Extends(w, r.value)
    ensures r.Ok? ==> |r.value.py.lines| > |w.py.lines|
    ensures ArgsOfElement(v, depth, doc, head, w).Err? ==> r == Err(ArgsOfElement(v, depth, doc, head, w).error)
    ensures r.Ok? ==>
      var a := ArgsOfElement(v, depth, doc, head, w).value;
      |r.value.py.lines| > |a.walk.py.lines| &&
      r.value.py.lines[|a.walk.py.lines|] ==
        Render(NodeValue(VarText(head), false), SrcName(head), NodeValue(ClassText(head), false), a.out, NoneValue)
    decreases depth, 19, 0, 0
  {
    var varNm := NodeValue(VarText(head), false);
    var clsNm := NodeValue(ClassText(head), false);
    var a :- ArgsOfElement(v, depth, doc, head, w);
    var s := SrcHandler(head, a.walk);
    var w1 := s.walk.(py := Add(s.walk.py, varNm, s.out, clsNm, a.out, NoneValue));
    ExtendsChain(w, a.walk, s.walk);
    ExtendsChain(w, s.walk, w1);
    var r := Clue(v, depth, doc, head, varNm, head.id, w1);
    if r.Ok? then ExtendsChain(w, w1, r.value); r else r
  }

  /** The loop over the entrances, in document order. */
  function Heads(v: Variant, depth: nat, doc: Document, hs: seq<Entity>, i: nat, w: Walk)
    : (r: Result<Walk, Failure>)
    requires i <= |hs|
    ensures r.Ok? ==> Extends(w, r.value)
    ensures r.Ok? ==> |r.value.py.lines| >= |w.py.lines| + |hs| - i
    decreases depth, 20, |hs| - i, 0
  {
    if i == |hs| then Ok(w)
    else
      var w1 :- LineHandler(v, depth, doc, hs[i], w);
      var r := Heads(v, depth, doc, hs, i + 1, w1);
      if r.Ok? then ExtendsChain(w, w1, r.value); r else r
  }

  // ---------------------------------------------------------------------------
  // commit and the whole compilation
  // ---------------------------------------------------------------------------

  /** The registry a walk from the start builds only holds well gained
      placeholders, so every release it decided agrees with `cmp_cnt` as
      written. */
  lemma HeadsKeepWellGained(v: Variant, depth: nat, doc: Document)
    requires Heads(v, depth, doc, Entrances(doc), 0, Start).Ok?
    ensures HubWellGained(Heads(v, depth, doc, Entrances(doc), 0, Start).value.hub)
  {
    assert HubWellGained(Start.hub);
  }

  /** `'{}:{}'.format(class[0], var[0])` of a layer or model. */
  function NodeKey(e: Entity): (r: Result<string, Fault>)
    ensures r.Ok? <==> ClassText(e) != "" && VarText(e) != ""
    ensures r.Ok? ==> r.value == ClassText(e) + ":" + VarText(e)
  {
    if ClassText(e) == "" || VarText(e) == "" then Err(OutOfRange)
    else Ok(ClassText(e) + ":" + VarText(e))
  }

  function Flag(layer: bool, key: string): Warning
  {
    if layer then UnusedLayer(key) else UnreleasedModel(key)
  }

  /** The body of `commit`'s loop for one element: read its key, and build
      its warning when the key was never added. */
  function Flagged(declared: seq<ErrorClass>, e: Entity, pl: PyLines, layer: bool): (r: Result<seq<Warning>, Fault>)
    ensures r.Ok? ==> |r.value| <= 1
  {
    var k :- NodeKey(e);
    if Contains(pl, k) then Ok([])
    else
      var x :- Build(declared, Flag(layer, k));
      Ok([x])
  }

  /** `commit`'s loop over one tag: the elements in document order, each
      contributing its warning, the first failure stopping the loop. */
  function Unused(declared: seq<ErrorClass>, es: seq<Entity>, pl: PyLines, layer: bool)
    : (r: Result<seq<Warning>, Fault>)
    ensures r.Ok? <==> forall i :: 0 <= i < |es| ==> (NodeKey(es[i]).Ok? &&
      (!Contains(pl, NodeKey(es[i]).value) ==> Build(declared, Flag(layer, NodeKey(es[i]).value)).Ok?))
    ensures r.Ok? ==> |r.value| <= |es|
    ensures r.Ok? ==> forall x :: x in r.value <==>
      exists i :: 0 <= i < |es| && NodeKey(es[i]).Ok? && !Contains(pl, NodeKey(es[i]).value) &&
                  x == Flag(layer, NodeKey(es[i]).value)
  {
    if |es| == 0 then Ok([])
    else
      var f :- Flagged(declared, es[0], pl, layer);
      var rest :- Unused(declared, es[1..], pl, layer);
      assert forall i :: 1 <= i < |es| ==> es[1..][i - 1] == es[i];
      Ok(f + rest)
  }

  /** Sequencing two fallible lists: the first failure, or both lists in
      order. */
  function Then(a: Result<seq<Warning>, Fault>, b: Result<seq<Warning>, Fault>): Result<seq<Warning>, Fault>
  {
    match a
    case Err(f) => Err(f)
    case Ok(x) => (match b case Err(g) => Err(g) case Ok(y) => Ok(x + y))
  }

  /** The loop is one warning per element in document order: over a
      concatenation it is the first part's warnings followed by the
      second's, and over one element it is that element's loop body. */
  lemma {:induction false} UnusedConcat(declared: seq<ErrorClass>, a: seq<Entity>, b: seq<Entity>, pl: PyLines, layer: bool)
    ensures Unused(declared, a + b, pl, layer) == Then(Unused(declared, a, pl, layer), Unused(declared, b, pl, layer))
  {
    if |a| == 0 {
      assert a + b == b;
      var rb := Unused(declared, b, pl, layer);
      if rb.Ok? { assert [] + rb.value == rb.value; }
    } else {
      assert (a + b)[1..] == a[1..] + b;
      assert (a + b)[0] == a[0];
      UnusedCons(declared, a + b, pl, layer);
      UnusedCons(declared, a, pl, layer);
      UnusedConcat(declared, a[1..], b, pl, layer);
      ThenAssoc(Flagged(declared, a[0], pl, layer), Unused(declared, a[1..], pl, layer), Unused(declared, b, pl, layer));
    }
  }

  /** One turn of the loop: the first element's body, then the rest. */
  lemma UnusedCons(declared: seq<ErrorClass>, es: seq<Entity>, pl: PyLines, layer: bool)
    requires |es| > 0
    ensures Unused(declared, es, pl, layer) == Then(Flagged(declared, es[0], pl, layer), Unused(declared, es[1..], pl, layer))
  {
  }

  lemma ThenAssoc(x: Result<seq<Warning>, Fault>, y: Result<seq<Warning>, Fault>, z: Result<seq<Warning>, Fault>)
    ensures Then(x, Then(y, z)) == Then(Then(x, y), z)
  {
    if x.Ok? && y.Ok? && z.Ok? {
      assert x.value + (y.value + z.value) == (x.value + y.value) + z.value;
    }
  }

  lemma UnusedSingle(declared: seq<ErrorClass>, e: Entity, pl: PyLines, layer: bool)
    ensures Unused(declared, [e], pl, layer) == Then(Flagged(declared, e, pl, layer), Ok([]))
  {
    assert [e][1..] == [];
  }

  /** Two elements with the same unused key give two warnings, one each, in
      their order. */
  lemma UnusedRepeatedKey(declared: seq<ErrorClass>, e: Entity, f: Entity, pl: PyLines, layer: bool)
    requires NodeKey(e).Ok? && NodeKey(f) == NodeKey(e) && !Contains(pl, NodeKey(e).value)
    requires WarningClassOf(Flag(layer, NodeKey(e).value)) in declared
    ensures Unused(declared, [e, f], pl, layer) == Ok([Flag(layer, NodeKey(e).value), Flag(layer, NodeKey(e).value)])
  {
    var x := Flag(layer, NodeKey(e).value);
    assert [e, f] == [e] + [f];
    UnusedConcat(declared, [e], [f], pl, layer);
    UnusedSingle(declared, e, pl, layer);
    UnusedSingle(declared, f, pl, layer);
    assert Flagged(declared, e, pl, layer) == Ok([x]);
    assert Flagged(declared, f, pl, layer) == Ok([x]);
    assert [x] + [] == [x];
    assert [x] + [x] == [x, x];
  }

  /** Against the module as written no warning can be built: the loop
      succeeds exactly when the corrected loop finds nothing, and otherwise
      fails with the `NameError` of the first warning the corrected loop
      would report. */
  lemma {:induction false} UnusedAsWritten(es: seq<Entity>, pl: PyLines, layer: bool)
    ensures Unused(Declared, es, pl, layer).Ok? <==> Unused(CorrectedDeclared, es, pl, layer) == Ok([])
    ensures Unused(Declared, es, pl, layer).Ok? ==> Unused(Declared, es, pl, layer).value == []
    ensures Unused(CorrectedDeclared, es, pl, layer).Ok? && Unused(CorrectedDeclared, es, pl, layer).value != [] ==>
      Unused(Declared, es, pl, layer) == Err(NameError(WarningName(Unused(CorrectedDeclared, es, pl, layer).value[0])))
  {
    if |es| > 0 {
      UnusedAsWritten(es[1..], pl, layer);
      var ra := Unused(Declared, es[1..], pl, layer);
      var rc := Unused(CorrectedDeclared, es[1..], pl, layer);
      if NodeKey(es[0]).Ok? {
        var k := NodeKey(es[0]).value;
        if Contains(pl, k) {
          assert Flagged(Declared, es[0], pl, layer) == Ok([]);
          assert Flagged(CorrectedDeclared, es[0], pl, layer) == Ok([]);
          assert Unused(Declared, es, pl, layer) == Then(Ok([]), ra);
          assert Unused(CorrectedDeclared, es, pl, layer) == Then(Ok([]), rc);
          if rc.Ok? { assert [] + rc.value == rc.value; }
          if ra.Ok? { assert [] + ra.value == ra.value; }
        } else {
          BuildAsWritten(Flag(layer, k));
          BuildCorrected(Flag(layer, k));
          assert Flagged(Declared, es[0], pl, layer) == Err(NameError(WarningName(Flag(layer, k))));
          assert Flagged(CorrectedDeclared, es[0], pl, layer) == Ok([Flag(layer, k)]);
          assert Unused(Declared, es, pl, layer) == Err(NameError(WarningName(Flag(layer, k))));
          assert Unused(CorrectedDeclared, es, pl, layer) == Then(Ok([Flag(layer, k)]), rc);
        }
      }
    }
  }

  /** `commit`'s check: unused layers first, in document order, then
      unreleased models. */
  function Commit(declared: seq<ErrorClass>, doc: Document, pl: PyLines): (r: Result<seq<Warning>, Fault>)
    ensures r == Then(Unused(declared, LayerElements(doc), pl, true), Unused(declared, ModelElements(doc), pl, false))
    ensures r.Ok? ==> forall x :: x in r.value ==>
      (x.UnusedLayer? && !Contains(pl, x.elm)) || (x.UnreleasedModel? && !Contains(pl, x.elm))
  {
    var ul :- Unused(declared, LayerElements(doc), pl, true);
    var um :- Unused(declared, ModelElements(doc), pl, false);
    Ok(ul + um)
  }

  /** Against the module as written `commit` succeeds exactly when the
      corrected `commit` reports nothing, and otherwise ends in the
      `NameError` of the first warning it would report. */
  lemma CommitAsWritten(doc: Document, pl: PyLines)
    ensures Commit(Declared, doc, pl).Ok? <==> Commit(CorrectedDeclared, doc, pl) == Ok([])
    ensures Commit(Declared, doc, pl).Ok? ==> Commit(Declared, doc, pl).value == []
    ensures Commit(CorrectedDeclared, doc, pl).Ok? && Commit(CorrectedDeclared, doc, pl).value != [] ==>
      Commit(Declared, doc, pl) == Err(NameError(WarningName(Commit(CorrectedDeclared, doc, pl).value[0])))
  {
    UnusedAsWritten(LayerElements(doc), pl, true);
    UnusedAsWritten(ModelElements(doc), pl, false);
    if Commit(Declared, doc, pl).Ok? {
      assert Commit(Declared, doc, pl).value == [] + [];
      assert Commit(CorrectedDeclared, doc, pl).value == [] + [];
    }
    var c := Commit(CorrectedDeclared, doc, pl);
    if c.Ok? {
      var ul := Unused(CorrectedDeclared, LayerElements(doc), pl, true).value;
      var um := Unused(CorrectedDeclared, ModelElements(doc), pl, false).value;
      assert c.value == ul + um;
      if ul != [] { assert c.value[0] == ul[0]; }
      else if um != [] { assert c.value == um; }
    }
  }

  /** What `commit` hands to the assembler; the older variant also hands
      the document title and no warnings. */
  datatype Compiled = Compiled(
    title: string,
    lines: seq<string>,
    phs: seq<string>,
    src: set<string>,
    rtn: seq<PyValue>,
    warnings: seq<Warning>)

  /** `PyParser(...)`, the construction: the newer variant refuses a
      document without an entrance, then one without a model, before
      walking anything; the older one reads the title first. Then every
      entrance is walked. */
  function Construct(v: Variant, depth: nat, doc: Document): (r: Result<Walk, Failure>)
    ensures v.Current? && |Entrances(doc)| == 0 ==> r == Err(Raise(v.declared, MissingInput))
    ensures v.Current? && |Entrances(doc)| > 0 && |ModelElements(doc)| == 0 ==>
      r == Err(Raise(v.declared, MissingModel))
    ensures v.Legacy? && doc.name.None? ==> r == Err(Crash(OutOfRange))
    ensures r.Ok? ==> |r.value.py.lines| >= |Entrances(doc)| && Extends(Start, r.value)
    ensures r.Ok? ==> (v.Legacy? ==> doc.name.Some?) && Heads(v, depth, doc, Entrances(doc), 0, Start) == r
  {
    if v.Current? && |Entrances(doc)| == 0 then Err(Raise(v.declared, MissingInput))
    else if v.Current? && |ModelElements(doc)| == 0 then Err(Raise(v.declared, MissingModel))
    else if v.Legacy? && doc.name.None? then Err(Crash(OutOfRange))
    else Heads(v, depth, doc, Entrances(doc), 0, Start)
  }

  /** The newer `commit()` on a constructed parser: the collected lines,
      placeholders, sources and returned models, with the warnings, or the
      failure of building the first of them. */
  function Committed(declared: seq<ErrorClass>, doc: Document, w: Walk): (r: Result<Compiled, Failure>)
    ensures r.Ok? <==> Commit(declared, doc, w.py).Ok?
    ensures r.Err? ==> r.error == Crash(Commit(declared, doc, w.py).error)
    ensures r.Ok? ==> r.value.warnings == Commit(declared, doc, w.py).value
    ensures r.Ok? ==> r.value.lines == w.py.lines && r.value.phs == w.phs
    ensures r.Ok? ==> r.value.src == w.src && r.value.rtn == w.rtn && r.value.title == ""
  {
    var ws :- Lift(Commit(declared, doc, w.py));
    Ok(Compiled("", w.py.lines, w.phs, w.src, w.rtn, ws))
  }

  /** Construction followed at once by `commit`. The older handler does
      exactly this; the newer one checks the title and the author in
      between (`Assembler.NewHandler`). */
  function Compile(v: Variant, depth: nat, doc: Document): (r: Result<Compiled, Failure>)
    ensures v.Current? && |Entrances(doc)| == 0 ==> r == Err(Raise(v.declared, MissingInput))
    ensures v.Current? && |Entrances(doc)| > 0 && |ModelElements(doc)| == 0 ==>
      r == Err(Raise(v.declared, MissingModel))
    ensures v.Legacy? && doc.name.None? ==> r == Err(Crash(OutOfRange))
    ensures r.Ok? ==> |r.value.lines| >= |Entrances(doc)|
    ensures r.Ok? && v.Legacy? ==> r.value.warnings == [] && doc.name == Some(r.value.title)
    ensures r.Ok? && v.Current? ==>
      Heads(v, depth, doc, Entrances(doc), 0, Start).Ok? &&
      Commit(v.declared, doc, Heads(v, depth, doc, Entrances(doc), 0, Start).value.py) == Ok(r.value.warnings)
  {
    var w :- Construct(v, depth, doc);
    if v.Legacy? then Ok(Compiled(doc.name.value, w.py.lines, w.phs, w.src, w.rtn, []))
    else Committed(v.declared, doc, w)
  }

  /** Both errors modules declare the input and model classes, so a
      document without an entrance or without a model is refused with its
      diagnostic either way. */
  lemma CompileRefusals(v: Variant, depth: nat, doc: Document)
    requires v == AsWritten || v == Repaired
    ensures |Entrances(doc)| == 0 ==> Compile(v, depth, doc) == Err(Fatal(MissingInput))
    ensures |Entrances(doc)| > 0 && |ModelElements(doc)| == 0 ==> Compile(v, depth, doc) == Err(Fatal(MissingModel))
  {
    RaiseAsWritten(MissingInput);
    RaiseCorrected(MissingInput);
    RaiseAsWritten(MissingModel);
    RaiseCorrected(MissingModel);
  }

  /** Against the module as written, a compilation that succeeds carries no
      warning: the first one `commit` would report is a `NameError` instead. */
  lemma CompileAsWrittenSilent(v: Variant, depth: nat, doc: Document)
    requires v.Current? && v.declared == Declared
    requires Compile(v, depth, doc).Ok?
    ensures Compile(v, depth, doc).value.warnings == []
  {
    var w := Heads(v, depth, doc, Entrances(doc), 0, Start).value;
    assert Commit(Declared, doc, w.py) == Ok(Compile(v, depth, doc).value.warnings);
    CommitAsWritten(doc, w.py);
  }
}

=== FILE: compiler_props.dfy ===
/** Properties of the compiler that relate several of its steps: dangling
    connections, the fate of a model reached once, and small worked
    documents. */
module CompilerProps {
  import opened Wrappers
  import opened PyStr
  import opened Errors
  import opened Doc
  import opened Joins
  import opened Statements
  import opened Compiler

  /** A layer saved without outputs carries the literal `null`; when no
      element has that id, following it raises the missing-connection error
      with the layer's class and variable. Against lib/parser/errors.py as
      written that raise is a `NameError`; the older variant fails on the
      index instead. */
  lemma {:induction false} NullOutputIsMissingConnection(v: Variant, depth: nat, doc: Document, e: Entity,
                                                         varNm: PyValue, curId: string, w: Walk)
    requires e.Layer? && e.output == "null" && e.cls != "" && e.varName != ""
    requires Lookup(doc, "null").None?
    ensures v.Current? ==>
      Clue(v, depth, doc, e, varNm, curId, w) == Err(Raise(v.declared, MissingNecessaryConnection(e.cls, e.varName)))
    ensures v == AsWritten ==>
      Clue(v, depth, doc, e, varNm, curId, w) == Err(Crash(NameError("PyMissingNecessaryConnectionError")))
    ensures v == Repaired ==>
      Clue(v, depth, doc, e, varNm, curId, w) == Err(Fatal(MissingNecessaryConnection(e.cls, e.varName)))
    ensures v == Legacy ==> Clue(v, depth, doc, e, varNm, curId, w) == Err(Crash(OutOfRange))
  {
    assert OutputText(e) == "null";
    assert ';' !in OutputText(e);
    var outs := [OutputText(e)];
    assert Follow(v, depth, doc, e, varNm, curId, outs[0], w) == Dangling(v, e);
    assert Clue(v, depth, doc, e, varNm, curId, w) == ClueLoop(v, depth, doc, e, varNm, curId, outs, 0, w);
  }

  /** Any output id naming no element stops the walk at the first such id,
      whatever follows it. */
  lemma {:induction false} DanglingStopsWalk(v: Variant, depth: nat, doc: Document, e: Entity,
                                             varNm: PyValue, curId: string, outs: seq<string>, w: Walk)
    requires |outs| > 0 && Lookup(doc, outs[0]).None?
    ensures ClueLoop(v, depth, doc, e, varNm, curId, outs, 0, w) == Dangling(v, e)
    ensures ClueLoop(v, depth, doc, e, varNm, curId, outs, 0, w).Err?
  {
    assert Follow(v, depth, doc, e, varNm, curId, outs[0], w) == Dangling(v, e);
  }

  /** An argument whose text is one value that needs no checking. */
  predicate PlainArg(a: Arg)
  {
    a.text != "" && a.text != RequiredMark && ';' !in a.text
  }

  /** The dictionary a list of plain, distinctly named arguments reads as. */
  function PlainEntries(ts: seq<Triple>): (d: ArgDict)
    ensures |d| == |ts|
  {
    seq(|ts|, j requires 0 <= j < |ts| => ArgEntry(ts[j].name, [ArgItem(ts[j].text, ts[j].c)]))
  }

  lemma {:induction false} PlainFold(v: Variant, e: Entity, ts: seq<Triple>, i: nat)
    requires i <= |ts|
    requires forall j :: 0 <= j < |ts| ==> ts[j].text != RequiredMark && ';' !in ts[j].text
    requires forall j, k :: 0 <= j < k < |ts| ==> ts[j].name != ts[k].name
    requires UniqueKeys(PlainEntries(ts[..i]))
    ensures ArgFold(v, e, ts, i, PlainEntries(ts[..i])) == Ok(PlainEntries(ts))
    decreases |ts| - i
  {
    var d := PlainEntries(ts[..i]);
    if i == |ts| {
      assert ts[..i] == ts;
    } else {
      SplitWhole(ts[i].text, ';');
      assert Items(ts[i]) == [ArgItem(ts[i].text, ts[i].c)];
      assert ts[i].name !in Keys(d);
      var d1 := Put(d, ts[i].name, Items(ts[i]));
      assert d1 == d + [ArgEntry(ts[i].name, Items(ts[i]))];
      assert d1 == PlainEntries(ts[..i + 1]);
      PlainFold(v, e, ts, i + 1);
    }
  }

  /** `get_args_by_elm` on arguments that all have a plain text and distinct
      names: the dictionary holds every argument, in document order, with
      its text as its single value. */
  lemma PlainArguments(v: Variant, e: Entity)
    requires forall j :: 0 <= j < |ArgsOf(e)| ==> PlainArg(ArgsOf(e)[j])
    requires forall j, k :: 0 <= j < k < |ArgsOf(e)| ==> ArgsOf(e)[j].name != ArgsOf(e)[k].name
    ensures GetArgs(v, e) == Ok(PlainEntries(Aligned(e)))
    ensures |GetArgs(v, e).value| == |ArgsOf(e)|
    ensures forall j :: 0 <= j < |ArgsOf(e)| ==>
      GetArgs(v, e).value[j] == ArgEntry(ArgsOf(e)[j].name, [ArgItem(ArgsOf(e)[j].text, ArgsOf(e)[j].c)])
  {
    AlignedWhenAllTexts(e);
    var ts := Aligned(e);
    assert ts[..0] == [];
    PlainFold(v, e, ts, 0);
  }

  /** The text a literal value renders as: a `str` double-quoted, anything
      else verbatim. */
  function LiteralText(a: ArgItem): string
  {
    if a.c == "str" then "\"" + a.v + "\"" else a.v
  }

  /** An entry holding one value that is not a reference. */
  predicate LiteralEntry(e: ArgEntry)
  {
    |e.items| == 1 && e.items[0].c != "id"
  }

  /** The `k=v` text of a literal entry. */
  function EntryLine(e: ArgEntry): string
  {
    if |e.items| == 0 then "" else e.key + "=" + LiteralText(e.items[0])
  }

  /** The `k=v` texts of `d[k..]`. */
  function EntryTexts(d: ArgDict, k: nat): (r: seq<string>)
    requires k <= |d|
    ensures |r| == |d| - k
  {
    seq(|d| - k, j requires 0 <= j < |d| - k => EntryLine(d[k + j]))
  }

  /** `args_handler` on single-valued literal arguments: each renders as
      `k=v` (quoted for `str`), in dictionary order, joined by `, `; the
      walk is left as it was. */
  lemma {:induction false} LiteralArgs(v: Variant, depth: nat, doc: Document, d: ArgDict, k: nat,
                                       acc: seq<string>, w: Walk)
    requires k <= |d|
    requires forall j :: 0 <= j < |d| ==> LiteralEntry(d[j])
    ensures RenderArgs(v, depth, doc, d, k, acc, w) == Ok(Step(Join(acc + EntryTexts(d, k), ", "), w))
    decreases |d| - k
  {
    if k == |d| {
      assert acc + EntryTexts(d, k) == acc;
    } else {
      LiteralArgStep(v, depth, doc, d, k, acc, w);
      LiteralArgs(v, depth, doc, d, k + 1, acc + [EntryLine(d[k])], w);
      EntryTextsCons(d, k, acc);
    }
  }

  /** Rendering a literal entry appends its `k=v` text and moves on. */
  lemma LiteralArgStep(v: Variant, depth: nat, doc: Document, d: ArgDict, k: nat,
                       acc: seq<string>, w: Walk)
    requires k < |d|
    requires LiteralEntry(d[k])
    ensures RenderArgs(v, depth, doc, d, k, acc, w) == RenderArgs(v, depth, doc, d, k + 1, acc + [EntryLine(d[k])], w)
  {
    LiteralEntryRenders(v, depth, doc, d[k], w);
  }

  /** An element whose only argument is one literal of a non-string type
      renders as the bare `key=value`. */
  lemma SingleLiteralArgs(v: Variant, depth: nat, doc: Document, e: Entity, d: ArgDict, w: Walk)
    requires GetArgs(v, e) == Ok(d)
    requires |d| == 1 && LiteralEntry(d[0]) && d[0].items[0].c != "str"
    ensures ArgsOfElement(v, depth, doc, e, w) == Ok(Step(d[0].key + "=" + d[0].items[0].v, w))
  {
    LiteralArgs(v, depth, doc, d, 0, [], w);
    assert [] + EntryTexts(d, 0) == [EntryLine(d[0])];
    JoinSingle(EntryLine(d[0]), ", ");
  }

  /** Once the walk over the entrances and `commit` both succeed, the newer
      variant's compilation is exactly the walk's output and the warnings. */
  lemma CompileCurrentOk(v: Variant, depth: nat, doc: Document, w: Walk, ws: seq<Warning>)
    requires v.Current?
    requires |Entrances(doc)| > 0 && |ModelElements(doc)| > 0
    requires Heads(v, depth, doc, Entrances(doc), 0, Start) == Ok(w)
    requires Commit(v.declared, doc, w.py) == Ok(ws)
    ensures Compile(v, depth, doc) == Ok(Compiled("", w.py.lines, w.phs, w.src, w.rtn, ws))
  {
  }

  /** A walk that succeeds followed by a `commit` that fails: the failure
      escapes as the compilation's crash. */
  lemma CompileCurrentFails(v: Variant, depth: nat, doc: Document, w: Walk, f: Fault)
    requires v.Current?
    requires |Entrances(doc)| > 0 && |ModelElements(doc)| > 0
    requires Heads(v, depth, doc, Entrances(doc), 0, Start) == Ok(w)
    requires Commit(v.declared, doc, w.py) == Err(f)
    ensures Compile(v, depth, doc) == Err(Crash(f))
  {
  }

  lemma JoinSingle(x: string, sep: string)
    ensures Join([x], sep) == x
  {
  }

  lemma EntryTextsCons(d: ArgDict, k: nat, acc: seq<string>)
    requires k < |d|
    ensures acc + [EntryLine(d[k])] + EntryTexts(d, k + 1) == acc + EntryTexts(d, k)
  {
  }

  /** One literal entry renders as its `k=v` text and leaves the walk as
      it was. */
  lemma LiteralEntryRenders(v: Variant, depth: nat, doc: Document, e: ArgEntry, w: Walk)
    requires LiteralEntry(e)
    ensures TypeLoop(v, depth, doc, e.items, 0, [], w) == Ok(Step([Str(LiteralText(e.items[0]))], w))
    ensures EntryText(e.key, [Str(LiteralText(e.items[0]))]) == Ok(EntryLine(e))
  {
    assert RenderItem(v, depth, doc, e.items[0], w) == Ok(Step([Str(LiteralText(e.items[0]))], w));
    assert TypeLoop(v, depth, doc, e.items, 1, [Str(LiteralText(e.items[0]))], w)
      == Ok(Step([Str(LiteralText(e.items[0]))], w));
    assert [] + [Str(LiteralText(e.items[0]))] == [Str(LiteralText(e.items[0]))];
  }

  /** Recording a source already recorded leaves the walk as it was. */
  lemma SourceKnown(e: Entity, w: Walk)
    requires SrcName(e) in w.src
    ensures SrcHandler(e, w).walk == w
  {
    assert w.src + {SrcName(e)} == w.src;
  }

  /** A single-input step whose arguments leave the walk alone and whose
      source is already imported goes straight to the emitting step. */
  lemma AdvanceSingleKnown(v: Variant, depth: nat, doc: Document, nxt: Entity, varNm: PyValue,
                           curId: string, outId: string, w: Walk, args: string)
    requires Lookup(doc, outId) == Some(nxt)
    requires ArgsOfElement(v, depth, doc, nxt, w) == Ok(Step(args, w))
    requires SingleInput(nxt, curId) && SrcName(nxt) in w.src
    ensures Advance(v, depth, doc, nxt, varNm, curId, outId, w) == Single(v, depth, doc, nxt, varNm, outId, args, w)
  {
    SourceKnown(nxt, w);
  }
}

module CompilerExamples {
  import opened Wrappers
  import opened PyStr
  import opened Errors
  import opened Doc
  import opened Joins
  import opened Statements
  import opened Compiler
  import opened CompilerProps

  /** An entrance feeding a dense layer that is both the model's input's
      successor and the model's output. */
  const Chain := Document(Some("net"), [
    Layer("1", true, "x", "Input", [Arg("shape", "(4,)", "seq")], "IO", "null", "2"),
    Layer("2", false, "y", "Dense", [Arg("units", "32", "num")], "IO", "1", "3"),
    Model("3", "m", "Model", [Arg("inputs", "1", "id"), Arg("outputs", "2", "id")])])

  const E1 := Chain.elements[0]
  const E2 := Chain.elements[1]
  const M3 := Chain.elements[2]

  lemma ChainLookups()
    ensures Lookup(Chain, "1") == Some(E1)
    ensures Lookup(Chain, "2") == Some(E2)
    ensures Lookup(Chain, "3") == Some(M3)
  {
  }

  lemma ChainSelections()
    ensures Entrances(Chain) == [E1]
    ensures ModelElements(Chain) == [M3]
    ensures LayerElements(Chain) == [E1, E2]
  {
  }

  lemma ChainArgs1(v: Variant)
    requires v.Current?
    ensures GetArgs(v, E1) == Ok([ArgEntry("shape", [ArgItem("(4,)", "seq")])])
  {
    assert ArgsOf(E1) == [Arg("shape", "(4,)", "seq")];
    PlainArguments(v, E1);
    var d := GetArgs(v, E1).value;
    assert |d| == 1 && d[0] == ArgEntry("shape", [ArgItem("(4,)", "seq")]);
    assert d == [d[0]];
    assert GetArgs(v, E1) == Ok(d);
  }

  lemma ChainArgs2(v: Variant)
    requires v.Current?
    ensures GetArgs(v, E2) == Ok([ArgEntry("units", [ArgItem("32", "num")])])
  {
    assert ArgsOf(E2) == [Arg("units", "32", "num")];
    PlainArguments(v, E2);
    var d := GetArgs(v, E2).value;
    assert |d| == 1 && d[0] == ArgEntry("units", [ArgItem("32", "num")]);
    assert d == [d[0]];
    assert GetArgs(v, E2) == Ok(d);
  }

  lemma ChainArgs3(v: Variant)
    requires v.Current?
    ensures GetArgs(v, M3) == Ok([ArgEntry("inputs", [ArgItem("1", "id")]), ArgEntry("outputs", [ArgItem("2", "id")])])
  {
    assert ArgsOf(M3) == [Arg("inputs", "1", "id"), Arg("outputs", "2", "id")];
    PlainArguments(v, M3);
    var d := GetArgs(v, M3).value;
    assert |d| == 2 && d[0] == ArgEntry("inputs", [ArgItem("1", "id")]) && d[1] == ArgEntry("outputs", [ArgItem("2", "id")]);
    assert d == [d[0], d[1]];
    assert GetArgs(v, M3) == Ok(d);
  }

  /** The walk after the entrance's statement. */
  const W1 := Walk(PyLines(["x = layers.Input(shape=(4,))"], {"Input:x"}), map[], [], {"layers"}, [])

  lemma ShapeText()
    ensures "shape" + "=" + "(4,)" == "shape=(4,)"
  {
  }

  lemma UnitsText()
    ensures "units" + "=" + "32" == "units=32"
  {
  }

  lemma ChainRenderArgs1(v: Variant, w: Walk)
    requires v.Current?
    ensures ArgsOfElement(v, 5, Chain, E1, w) == Ok(Step("shape=(4,)", w))
  {
    ChainArgs1(v);
    SingleLiteralArgs(v, 5, Chain, E1, [ArgEntry("shape", [ArgItem("(4,)", "seq")])], w);
    ShapeText();
  }

  lemma ChainRenderArgs2(v: Variant, w: Walk)
    requires v.Current?
    ensures ArgsOfElement(v, 5, Chain, E2, w) == Ok(Step("units=32", w))
  {
    ChainArgs2(v);
    SingleLiteralArgs(v, 5, Chain, E2, [ArgEntry("units", [ArgItem("32", "num")])], w);
    UnitsText();
  }

  /** The model's placeholder after the dense layer reached it. */
  const P3 := PlaceHolder(ModelJoin, "3", Str("m"), Str("Model"), List(["1"]), List(["2"]), [], ["2"])

  const D3 := [ArgEntry("inputs", [ArgItem("1", "id")]), ArgEntry("outputs", [ArgItem("2", "id")])]

  const Init3 := Fresh(ModelJoin, "3", Str("m"), Str("Model"), List(["1"]), List(["2"]))

  lemma ChainModelInitial()
    ensures ModelInitial("3", M3, D3) == Ok(Init3)
  {
    assert Get(D3, "inputs") == Some([ArgItem("1", "id")]);
    assert Get(D3, "outputs") == Some([ArgItem("2", "id")]);
    var ins := [ArgItem("1", "id")];
    assert seq(|ins|, i requires 0 <= i < |ins| => ins[i].v) == ["1"];
    var outs := [ArgItem("2", "id")];
    assert seq(|outs|, i requires 0 <= i < |outs| => outs[i].v) == ["2"];
    assert NodeValue(VarText(M3), false) == Str("m");
    assert NodeValue(ClassText(M3), false) == Str("Model");
  }

  lemma ChainModelGain(hub: Hub)
    requires "3" !in hub
    ensures Arrive(hub, "3", "2", Ok(Init3)) == Ok(Arrival(hub["3" := P3], false, P3))
  {
    assert PyIn("2", List(["1"])) == Ok(false);
    assert PyIn("2", List(["2"])) == Ok(true);
    assert Init3 == PlaceHolder(ModelJoin, "3", Str("m"), Str("Model"), List(["1"]), List(["2"]), [], []);
    var empty: seq<string> := [];
    assert empty + [] == empty && empty + ["2"] == ["2"];
    assert Gain(Init3, "2") == Ok(P3);
  }

  /** The dense layer is the model's output, not its input: the model is
      registered with one gained output and nothing is emitted. */
  lemma ChainModelArrival(v: Variant, depth: nat, w: Walk)
    requires v.Current?
    requires "3" !in w.hub
    ensures ModelHandler(v, depth, Chain, "2", "3", w) == Ok(w.(hub := w.hub["3" := P3]))
  {
    ChainLookups();
    ChainArgs3(v);
    ChainModelInitial();
    ChainModelGain(w.hub);
    assert Find(Chain, "3") == Ok(M3);
  }

  /** The dense layer's only output is the model. */
  lemma ChainDenseTarget()
    ensures OutputText(E2) == "3"
    ensures NodeValue(ClassText(M3), false) == Str(ModelClass)
  {
  }

  /** From the dense layer the walk reaches the model and stops. */
  lemma ChainDenseClue(v: Variant, depth: nat, varNm: PyValue, w: Walk)
    requires v.Current?
    requires "3" !in w.hub
    ensures Clue(v, depth, Chain, E2, varNm, "2", w) == Ok(w.(hub := w.hub["3" := P3]))
  {
    ChainLookups();
    ChainModelArrival(v, depth, w);
    ChainDenseTarget();
    var outs := [OutputText(E2)];
    var w1 := w.(hub := w.hub["3" := P3]);
    assert Follow(v, depth, Chain, E2, varNm, "2", "3", w) == ModelHandler(v, depth, Chain, "2", "3", w);
    assert ClueLoop(v, depth, Chain, E2, varNm, "2", outs, 1, w1) == Ok(w1);
    assert ClueLoop(v, depth, Chain, E2, varNm, "2", outs, 0, w) == Ok(w1);
  }

  /** The dense layer's statement, then its clue. */
  lemma ChainDenseSingle(v: Variant, w: Walk)
    requires v.Current?
    requires "3" !in w.hub
    ensures Single(v, 5, Chain, E2, Str("x"), "2", "units=32", w) ==
      Ok(w.(py := Add(w.py, Str("y"), "layers", Str("Dense"), "units=32", Str("x")),
            hub := w.hub["3" := P3]))
  {
    var w1 := w.(py := Add(w.py, Str("y"), "layers", Str("Dense"), "units=32", Str("x")));
    assert SrcName(E2) == "layers";
    assert NodeValue(VarText(E2), false) == Str("y");
    assert NodeValue(ClassText(E2), false) == Str("Dense");
    ChainDenseClue(v, 4, Str("y"), w1);
    assert Descend(v, 5, Chain, E2, Str("y"), "2", w1) == Ok(w1.(hub := w.hub["3" := P3]));
  }

  lemma ChainDenseShape()
    ensures SingleInput(E2, "1") && SrcName(E2) == "layers"
  {
  }

  lemma ChainDenseAdvance(v: Variant, w: Walk)
    requires v.Current?
    requires "layers" in w.src
    ensures Advance(v, 5, Chain, E2, Str("x"), "1", "2", w) ==
      Single(v, 5, Chain, E2, Str("x"), "2", "units=32", w)
  {
    ChainLookups();
    ChainRenderArgs2(v, w);
    ChainDenseShape();
    AdvanceSingleKnown(v, 5, Chain, E2, Str("x"), "1", "2", w, "units=32");
  }

  /** The dense layer, reached from the entrance, takes it as its only
      input: it is emitted at once with `x` as its call. */
  lemma ChainDenseStep(v: Variant, w: Walk)
    requires v.Current?
    requires "3" !in w.hub && "layers" in w.src
    ensures Follow(v, 5, Chain, E1, Str("x"), "1", "2", w) ==
      Ok(w.(py := Add(w.py, Str("y"), "layers", Str("Dense"), "units=32", Str("x")),
            hub := w.hub["3" := P3]))
  {
    ChainLookups();
    assert NodeValue(ClassText(E2), false) == Str("Dense");
    assert Follow(v, 5, Chain, E1, Str("x"), "1", "2", w) == Advance(v, 5, Chain, E2, Str("x"), "1", "2", w);
    ChainDenseAdvance(v, w);
    ChainDenseSingle(v, w);
  }

  /** The walk after the entrance's statement. */
  const AfterInput := Walk(Add(Statements.Empty, Str("x"), "layers", Str("Input"), "shape=(4,)", NoneValue),
                           map[], [], {"layers"}, [])

  /** The walk at the end: two statements, the model registered, nothing
      returned. */
  const AfterChain := AfterInput.(py := Add(AfterInput.py, Str("y"), "layers", Str("Dense"), "units=32", Str("x")),
                                  hub := map["3" := P3])

  lemma ChainEntranceClue(v: Variant)
    requires v.Current?
    ensures Clue(v, 5, Chain, E1, Str("x"), "1", AfterInput) == Ok(AfterChain)
  {
    assert OutputText(E1) == "2";
    var outs := [OutputText(E1)];
    ChainDenseStep(v, AfterInput);
    assert map[]["3" := P3] == map["3" := P3];
    assert Follow(v, 5, Chain, E1, Str("x"), "1", outs[0], AfterInput) == Ok(AfterChain);
    assert ClueLoop(v, 5, Chain, E1, Str("x"), "1", outs, 1, AfterChain) == Ok(AfterChain);
  }

  lemma ChainEntrance(v: Variant)
    requires v.Current?
    ensures LineHandler(v, 5, Chain, E1, Start) == Ok(AfterChain)
  {
    ChainRenderArgs1(v, Start);
    assert NodeValue(VarText(E1), false) == Str("x");
    assert NodeValue(ClassText(E1), false) == Str("Input");
    assert SrcName(E1) == "layers";
    assert SrcHandler(E1, Start) == Step("layers", Start.(src := {"layers"}));
    ChainEntranceClue(v);
  }

  /** Two statements added to an empty builder, in order, with their keys. */
  lemma AddToEmptyTwice(v1: PyValue, s1: string, c1: PyValue, a1: string, k1: PyValue,
                        v2: PyValue, s2: string, c2: PyValue, a2: string, k2: PyValue)
    ensures Add(Add(Statements.Empty, v1, s1, c1, a1, k1), v2, s2, c2, a2, k2).lines
         == [Render(v1, s1, c1, a1, k1), Render(v2, s2, c2, a2, k2)]
    ensures Add(Add(Statements.Empty, v1, s1, c1, a1, k1), v2, s2, c2, a2, k2).counts
         == {Key(c1, v1), Key(c2, v2)}
  {
  }

  lemma RenderDense()
    ensures Render(Str("y"), "layers", Str("Dense"), "units=32", Str("x")) == "y = layers.Dense(units=32)(x)"
  {
  }

  lemma ChainKeys()
    ensures Key(Str("Input"), Str("x")) == "Input:x"
    ensures Key(Str("Dense"), Str("y")) == "Dense:y"
  {
  }

  lemma ChainStatements()
    ensures AfterChain.py.lines == ["x = layers.Input(shape=(4,))", "y = layers.Dense(units=32)(x)"]
    ensures AfterChain.py.counts == {"Input:x", "Dense:y"}
  {
    AddToEmptyTwice(Str("x"), "layers", Str("Input"), "shape=(4,)", NoneValue,
                    Str("y"), "layers", Str("Dense"), "units=32", Str("x"));
    RenderEntrance();
    RenderDense();
    ChainKeys();
  }

  lemma ChainLayersUsed(declared: seq<ErrorClass>)
    ensures Unused(declared, [E1, E2], AfterChain.py, true) == Ok([])
  {
    ChainStatements();
    assert ClassText(E1) == "Input" && VarText(E1) == "x";
    assert "Input" + ":" + "x" == "Input:x";
    assert NodeKey(E1) == Ok("Input:x");
    assert ClassText(E2) == "Dense" && VarText(E2) == "y";
    assert "Dense" + ":" + "y" == "Dense:y";
    assert NodeKey(E2) == Ok("Dense:y");
    assert Flagged(declared, E1, AfterChain.py, true) == Ok([]);
    assert Flagged(declared, E2, AfterChain.py, true) == Ok([]);
    assert [E1, E2][1..] == [E2];
    assert [E2][1..] == [];
    assert Unused(declared, [E2], AfterChain.py, true) == Ok([]);
  }

  lemma ChainModelKey()
    ensures NodeKey(M3) == Ok("Model:m")
    ensures !Contains(AfterChain.py, "Model:m")
  {
    ChainStatements();
    assert ClassText(M3) == "Model" && VarText(M3) == "m";
    assert "Model" + ":" + "m" == "Model:m";
    assert "Model:m" != "Input:x" && "Model:m" != "Dense:y";
  }

  /** The model was never added, so its loop body builds the unreleased
      model warning: a `NameError` unless the module declares its class. */
  lemma ChainModelUnreleased(declared: seq<ErrorClass>)
    ensures UnreleasedModelWarningClass in declared ==>
      Unused(declared, [M3], AfterChain.py, false) == Ok([UnreleasedModel("Model:m")])
    ensures UnreleasedModelWarningClass !in declared ==>
      Unused(declared, [M3], AfterChain.py, false) == Err(NameError(WarningName(UnreleasedModel("Model:m"))))
  {
    ChainModelKey();
    UnusedSingle(declared, M3, AfterChain.py, false);
    var flagged := [UnreleasedModel("Model:m")];
    assert flagged + [] == flagged;
  }

  lemma UnreleasedName()
    ensures WarningName(UnreleasedModel("Model:m")) == "PyUnreleasedModelWarning"
    ensures UnreleasedModelWarningClass !in Declared
    ensures UnreleasedModelWarningClass in CorrectedDeclared
  {
  }

  /** `commit` on the chain: the layers were both added, the model was
      not. Against lib/parser/errors.py as written, building the unreleased
      model warning is a `NameError`. */
  lemma ChainCommit()
    ensures Commit(Declared, Chain, AfterChain.py) == Err(NameError("PyUnreleasedModelWarning"))
  {
    ChainCommitModels(Declared);
    UnreleasedName();
    ChainModelUnreleased(Declared);
  }

  /** Against the corrected module the same `commit` is one unreleased
      model warning. */
  lemma ChainCommitRepaired()
    ensures Commit(CorrectedDeclared, Chain, AfterChain.py) == Ok([UnreleasedModel("Model:m")])
  {
    ChainCommitModels(CorrectedDeclared);
    UnreleasedName();
    ChainModelUnreleased(CorrectedDeclared);
    assert [] + [UnreleasedModel("Model:m")] == [UnreleasedModel("Model:m")];
  }

  /** Whatever the module, `commit` on the chain comes down to its model. */
  lemma ChainCommitModels(declared: seq<ErrorClass>)
    ensures Commit(declared, Chain, AfterChain.py) == Then(Ok([]), Unused(declared, [M3], AfterChain.py, false))
  {
    ChainSelections();
    ChainLayersUsed(declared);
  }

  /** The whole compilation of the chain as the source runs it: the two
      statements are built, the model's first and only arrival registered
      it without releasing it, and `commit` then fails building the
      unreleased model warning, a `NameError` the export thread does not
      catch. */
  lemma ChainCompiles()
    ensures Compile(AsWritten, 5, Chain) == Err(Crash(NameError("PyUnreleasedModelWarning")))
  {
    ChainSelections();
    ChainHeads(AsWritten);
    ChainCommit();
    CompileCurrentFails(AsWritten, 5, Chain, AfterChain, NameError("PyUnreleasedModelWarning"));
  }

  /** Against the corrected errors module the same document compiles to
      its two statements, with no model returned and the model reported
      unreleased. */
  lemma ChainCompilesRepaired()
    ensures Compile(Repaired, 5, Chain) ==
      Ok(Compiled("", ["x = layers.Input(shape=(4,))", "y = layers.Dense(units=32)(x)"],
                  [], {"layers"}, [], [UnreleasedModel("Model:m")]))
  {
    ChainSelections();
    ChainHeads(Repaired);
    ChainCommitRepaired();
    ChainStatements();
    CompileCurrentOk(Repaired, 5, Chain, AfterChain, [UnreleasedModel("Model:m")]);
    assert AfterChain.phs == [] && AfterChain.src == {"layers"} && AfterChain.rtn == [];
  }

  /** Constructing the parser on the chain succeeds under either module:
      the walk raises nothing. */
  lemma ChainConstructs(v: Variant)
    requires v.Current?
    ensures Construct(v, 5, Chain) == Ok(AfterChain)
  {
    ChainSelections();
    ChainHeads(v);
  }

  lemma ChainHeads(v: Variant)
    requires v.Current?
    ensures Heads(v, 5, Chain, Entrances(Chain), 0, Start) == Ok(AfterChain)
  {
    ChainSelections();
    ChainEntrance(v);
    assert Heads(v, 5, Chain, [E1], 1, AfterChain) == Ok(AfterChain);
  }

  /** A dense layer whose `units` was left required. */
  const Unset := Layer("2", false, "y", "Dense", [Arg("units", "!REQ", "num")], "IO", "1", "3")

  lemma UnsetAligned()
    ensures Aligned(Unset) == [Triple("units", "num", "!REQ")]
    ensures ClassText(Unset) == "Dense" && VarText(Unset) == "y"
  {
    assert Texts(ArgsOf(Unset)) == ["!REQ"];
  }

  /** Against the corrected errors module the newer variant stops with the
      argument's description. */
  lemma RequiredArgumentReported()
    ensures GetArgs(Repaired, Unset) == Err(Fatal(MissingRequiredArgument("Dense: y - units(num)")))
  {
    var t := Triple("units", "num", "!REQ");
    UnsetAligned();
    assert "Dense" + ": " + "y" + " - " + "units" + "(" + "num" + ")" == "Dense: y - units(num)";
    assert RequiredDetail(Unset, t) == Ok("Dense: y - units(num)");
    RaiseCorrected(MissingRequiredArgument("Dense: y - units(num)"));
  }

  /** Against lib/parser/errors.py as written the same argument ends in a
      `NameError`, and the description is never built. */
  lemma RequiredArgumentEscapes()
    ensures GetArgs(AsWritten, Unset) == Err(Crash(NameError("PyMissingRequiredArgumentError")))
  {
    UnsetAligned();
    assert Aligned(Unset)[0].text == RequiredMark;
    GetArgsAsWritten(Unset);
  }

  /** The older variant passes the mark through as the value. */
  lemma RequiredArgumentPassedLegacy()
    ensures GetArgs(Legacy, Unset) == Ok([ArgEntry("units", [ArgItem("!REQ", "num")])])
  {
    var t := Triple("units", "num", "!REQ");
    assert Texts(ArgsOf(Unset)) == ["!REQ"];
    assert Aligned(Unset) == [t];
    SplitWhole("!REQ", ';');
    assert Items(t) == [ArgItem("!REQ", "num")];
    assert Put([], "units", Items(t)) == [ArgEntry("units", Items(t))];
    assert ArgFold(Legacy, Unset, [t], 1, [ArgEntry("units", Items(t))]) == Ok([ArgEntry("units", Items(t))]);
  }
}

=== FILE: counter.dfy ===
/** lib/counter.py: the scene's per-name node counter. */
module Counter {
  import opened Wrappers

  /** `Counter._count`: how many times each name was updated. */
  type Counts = map<string, nat>

  /** Every stored count is at least one: a name only enters the map through
      `update`, which starts counting from 1. */
  ghost predicate Positive(c: Counts)
  {
    forall k :: k in c ==> c[k] >= 1
  }

  /** `Counter.update(obj)`. */
  function Update(c: Counts, obj: string): (r: Counts)
    ensures obj in r
    ensures obj !in c ==> r[obj] == 1
    ensures obj in c ==> r[obj] == c[obj] + 1
    ensures forall k :: k != obj ==> (k in r <==> k in c)
    ensures forall k :: k != obj && k in c ==> r[k] == c[k]
    ensures Positive(c) ==> Positive(r)
  {
    if obj in c then c[obj := c[obj] + 1] else c[obj := 1]
  }

  /** `Counter.get(obj)`: `None` for a name never updated. */
  function Get(c: Counts, obj: string): (r: Option<nat>)
    ensures r.None? <==> obj !in c
    ensures r.Some? ==> r.value == c[obj]
  {
    if obj in c then Some(c[obj]) else None
  }

  /** A fresh counter after updating with each name in turn. */
  function Tally(names: seq<string>): (r: Counts)
    ensures Positive(r)
  {
    if |names| == 0 then map[]
    else Update(Tally(names[..|names| - 1]), names[|names| - 1])
  }

  /** After a run of updates, `get` reports how often the name occurred,
      and `None` for a name that never did. */
  lemma {:induction false} TallyCounts(names: seq<string>, obj: string)
    ensures Get(Tally(names), obj) == if multiset(names)[obj] == 0 then None else Some(multiset(names)[obj])
  {
    if |names| > 0 {
      var n := |names| - 1;
      assert names == names[..n] + [names[n]];
      assert multiset(names) == multiset(names[..n]) + multiset{names[n]};
      TallyCounts(names[..n], obj);
    }
  }

  /** Two updates with the same name add two, whatever else is updated in
      between. */
  lemma UpdateTwice(c: Counts, obj: string, other: string)
    requires obj in c && other != obj
    ensures Get(Update(Update(Update(c, obj), other), obj), obj) == Some(c[obj] + 2)
  {
  }
}

=== FILE: document.dfy ===
/** The saved dataflow document the compiler reads: a named root holding the
    tagged entities in document order. Text that lxml would not return (an
    empty element, a missing child) is the empty string here. */
module Doc {
  import opened Wrappers
  import opened PyStr
  import opened Errors

  type Id = string

  /** One child of `<args>`: its tag (the argument name), its text and its
      `c` attribute (the type class: `str`, `num`, `seq`, `bool` or `id`). */
  datatype Arg = Arg(name: string, text: string, c: string)

  /** One top-level element of the document, by tag. */
  datatype Entity =
    | Layer(id: Id, head: bool, varName: string, cls: string, args: seq<Arg>,
            mode: string, input: string, output: string)
    | Model(id: Id, varName: string, cls: string, args: seq<Arg>)
    | Unit(id: Id, source: string, varName: string, cls: string, args: seq<Arg>)
    | Ph(id: Id, name: string)
    | Note(id: Id, content: string)

  /** The root's `name` attribute, when it has one, and its children. */
  datatype Document = Document(name: Option<string>, elements: seq<Entity>)

  function TagName(e: Entity): string
  {
    match e
    case Layer(_, _, _, _, _, _, _, _) => "layer"
    case Model(_, _, _, _) => "model"
    case Unit(_, _, _, _, _) => "unit"
    case Ph(_, _) => "ph"
    case Note(_, _) => "note"
  }

  /** Text of the `<var>` child; "" for tags that have none. */
  function VarText(e: Entity): string
  {
    if e.Layer? || e.Model? || e.Unit? then e.varName else ""
  }

  /** Text of the `<class>` child. */
  function ClassText(e: Entity): string
  {
    if e.Layer? || e.Model? || e.Unit? then e.cls else ""
  }

  function ArgsOf(e: Entity): seq<Arg>
  {
    if e.Layer? || e.Model? || e.Unit? then e.args else []
  }

  function ModeText(e: Entity): string { if e.Layer? then e.mode else "" }

  function InputText(e: Entity): string { if e.Layer? then e.input else "" }

  function OutputText(e: Entity): string { if e.Layer? then e.output else "" }

  /** The XPath lookup by id attribute, first match: the first element whose id is `id`. */
  function Lookup(doc: Document, id: Id): (r: Option<Entity>)
    ensures r.Some? ==> r.value in doc.elements && r.value.id == id
    ensures r.Some? ==> exists k :: 0 <= k < |doc.elements| && doc.elements[k] == r.value &&
                                    forall j :: 0 <= j < k ==> doc.elements[j].id != id
    ensures r.None? <==> forall k :: 0 <= k < |doc.elements| ==> doc.elements[k].id != id
  {
    FindFrom(doc.elements, id, 0)
  }

  function FindFrom(es: seq<Entity>, id: Id, k: nat): (r: Option<Entity>)
    requires k <= |es|
    requires forall j :: 0 <= j < k ==> es[j].id != id
    ensures r.Some? ==> r.value in es && r.value.id == id
    ensures r.Some? ==> exists m :: k <= m < |es| && es[m] == r.value &&
                                    forall j :: 0 <= j < m ==> es[j].id != id
    ensures r.None? <==> forall m :: 0 <= m < |es| ==> es[m].id != id
    decreases |es| - k
  {
    if k == |es| then None
    else if es[k].id == id then Some(es[k])
    else FindFrom(es, id, k + 1)
  }

  /** The elements carrying `head="head"`, in document order. */
  function Entrances(doc: Document): (r: seq<Entity>)
    ensures forall e :: e in r <==> e in doc.elements && e.Layer? && e.head
  {
    Entries(doc.elements, (e: Entity) => e.Layer? && e.head)
  }

  /** The `<model>` children of the root, in document order. */
  function ModelElements(doc: Document): (r: seq<Entity>)
    ensures forall e :: e in r <==> e in doc.elements && e.Model?
  {
    Entries(doc.elements, (e: Entity) => e.Model?)
  }

  /** The `<layer>` children of the root, in document order. */
  function LayerElements(doc: Document): (r: seq<Entity>)
    ensures forall e :: e in r <==> e in doc.elements && e.Layer?
  {
    Entries(doc.elements, (e: Entity) => e.Layer?)
  }

  function Entries(es: seq<Entity>, keep: Entity -> bool): (r: seq<Entity>)
    ensures forall e :: e in r <==> e in es && keep(e)
    ensures |r| <= |es|
  {
    if |es| == 0 then []
    else (if keep(es[0]) then [es[0]] else []) + Entries(es[1..], keep)
  }

  // ---------------------------------------------------------------------------
  // Python values read out of the document
  // ---------------------------------------------------------------------------

  /** What `get_node_value_in_elm` hands back: `None`, a `str` or a `list`
      of `str`. */
  datatype PyValue = NoneValue | Str(s: string) | List(items: seq<string>)

  lemma NoSeparatorOneChunk(text: string)
    ensures ';' !in text <==> Count(text, ';') == 0
  {
    if |text| > 0 {
      NoSeparatorOneChunk(text[1..]);
      assert text == [text[0]] + text[1..];
    }
  }

  /** `get_node_value_in_elm(element, node, raw)` applied to the child's text:
      no text gives `None`, text holding `;` gives its pieces, anything else
      gives the text itself (wrapped in a list when `raw`). */
  function NodeValue(text: string, raw: bool): (v: PyValue)
    ensures text == "" <==> v.NoneValue?
    ensures ';' in text ==> v == List(Split(text, ';'))
    ensures text != "" && ';' !in text ==> v == (if raw then List([text]) else Str(text))
  {
    NoSeparatorOneChunk(text);
    if text == "" then NoneValue
    else
      var parts := Split(text, ';');
      if |parts| != 1 then List(parts)
      else if raw then List([text])
      else Str(text)
  }

  /** `str(v)` as an f-string renders it. */
  function Show(v: PyValue): string
  {
    match v
    case NoneValue => "None"
    case Str(s) => s
    case List(items) => ListRepr(items)
  }

  /** Python truthiness. */
  predicate Truthy(v: PyValue)
  {
    match v
    case NoneValue => false
    case Str(s) => s != ""
    case List(items) => |items| > 0
  }

  /** `x in v`: a substring test on a `str`, membership on a `list`, and a
      `TypeError` on `None`. */
  function PyIn(x: string, v: PyValue): (r: Result<bool, Fault>)
    ensures r.Err? <==> v.NoneValue?
    ensures v.List? ==> r == Ok(x in v.items)
    ensures v.Str? ==> r == Ok(IsSubstring(x, v.s))
  {
    match v
    case NoneValue => Err(TypeError("argument of type 'NoneType' is not iterable"))
    case Str(s) => Ok(IsSubstring(x, s))
    case List(items) => Ok(x in items)
  }

  /** An id found inside a longer id counts as present in a `str`, but not
      in a list: `'1' in '12'` holds, `'1' in ['12']` does not. */
  lemma PyInSubstringQuirk()
    ensures PyIn("1", Str("12")) == Ok(true)
    ensures PyIn("1", List(["12"])) == Ok(false)
  {
    var x: string := "1";
    var s: string := "12";
    assert x <= s by { assert s[..1] == x; }
    assert x != s;
  }

  /** `len(v)`. */
  function PyLen(v: PyValue): Result<nat, Fault>
  {
    match v
    case NoneValue => Err(TypeError("object of type 'NoneType' has no len()"))
    case Str(s) => Ok(|s|)
    case List(items) => Ok(|items|)
  }

  /** The items `for x in v` visits: the characters of a `str`, the elements
      of a `list`. */
  function Iterate(v: PyValue): (r: Result<seq<string>, Fault>)
    ensures v.List? ==> r == Ok(v.items)
    ensures v.Str? ==> r.Ok? && |r.value| == |v.s| &&
                       forall i :: 0 <= i < |v.s| ==> r.value[i] == [v.s[i]]
    ensures v.NoneValue? ==> r.Err?
  {
    match v
    case NoneValue => Err(TypeError("'NoneType' object is not iterable"))
    case Str(s) => Ok(Chars(s))
    case List(items) => Ok(items)
  }

  function Chars(s: string): (r: seq<string>)
    ensures |r| == |s| && forall i :: 0 <= i < |s| ==> r[i] == [s[i]]
  {
    if |s| == 0 then [] else [[s[0]]] + Chars(s[1..])
  }
}

=== FILE: errors.dfy ===
/** The compiler's diagnostics (lib/parser/errors.py and the names
    lib/parser/pyparser.py raises), and the Python runtime errors that escape
    the compiler uncaught. */
module Errors {
  import opened Wrappers
  import opened PyStr

  /** A Python runtime error the compiler does not catch. `site` says which
      operation failed. */
  datatype Fault =
    | IndexError(site: string)
    | KeyError(key: string)
    | TypeError(site: string)
    | AttributeError(site: string)
    | ValueError(site: string)
    | AssertionError(site: string)
    | RecursionError
    | NameError(name: string)

  /** The fatal diagnostics: compilation stops and nothing is emitted. */
  datatype Diagnostic =
    | MissingInput
    | MissingModel
    | MissingRequiredArgument(detail: string)
    | MissingNecessaryConnection(cls: string, varName: string)

  /** Either a declared diagnostic or a runtime crash. */
  datatype Failure = Fatal(diagnostic: Diagnostic) | Crash(fault: Fault)

  /** The non-fatal diagnostics collected after a walk. The payload is the
      `class:var` key of the node, or the export path. */
  datatype Warning =
    | UnusedLayer(elm: string)
    | UnreleasedModel(elm: string)
    | ExistedFileCovered(path: string)

  /** `str(err)` of a fatal diagnostic. Input and model errors have fixed
      texts; the required-argument error shows its argument tuple; the
      connection error, which declares no `__str__`, shows the tuple of its two
      arguments as Python's default exception text does. */
  function Message(d: Diagnostic): (m: string)
    ensures d.MissingRequiredArgument? && Plain(d.detail) ==>
      m == "Failure: Missing required argument - ('" + d.detail + "',)"
    ensures d.MissingInput? || d.MissingModel? || d.MissingRequiredArgument? ==> "Failure: " <= m
  {
    match d
    case MissingInput => "Failure: This model doesn't have any Input node."
    case MissingModel => "Failure: This model doesn't have any Model node."
    case MissingRequiredArgument(detail) =>
      RequiredArgumentText(detail)
    case MissingNecessaryConnection(cls, v) => TupleRepr([cls, v])
  }

  function RequiredArgumentText(detail: string): (m: string)
    ensures "Failure: " <= m
    ensures Plain(detail) ==> m == "Failure: Missing required argument - ('" + detail + "',)"
  {
    var head := "Failure: Missing required argument - ";
    var t := TupleRepr([detail]);
    assert "Failure: " <= head;
    if Plain(detail) then
      ReprPlain(detail);
      assert t == "(" + ("'" + detail + "'") + ",)";
      assert head + t == "Failure: Missing required argument - ('" + detail + "',)";
      head + t
    else head + t
  }

  /** `str(warning)`: a one-argument exception shows its argument. */
  function WarningText(w: Warning): string
  {
    match w
    case UnusedLayer(elm) => elm
    case UnreleasedModel(elm) => elm
    case ExistedFileCovered(path) => path
  }

  // ---------------------------------------------------------------------------
  // The exception classes and the names the compiler raises
  // ---------------------------------------------------------------------------

  /** The classes a complete errors module provides: the four lib/parser/errors.py
      declares, followed by the ones the compiler raises but the file lacks. */
  datatype ErrorClass =
    | ParsingErrorClass
    | MissingInputClass
    | MissingModelClass
    | MissingRequiredArgumentClass
    | RequiredArgumentAliasClass
    | MissingNecessaryConnectionClass
    | UnusedLayerWarningClass
    | UnreleasedModelWarningClass
    | ExistedFileCoveredWarningClass

  function ClassName(c: ErrorClass): string
  {
    match c
    case ParsingErrorClass => "PyParsingError"
    case MissingInputClass => "PyMissingInputError"
    case MissingModelClass => "PyMissingModelError"
    case MissingRequiredArgumentClass => "PyMissingRequiredArgument"
    case RequiredArgumentAliasClass => "PyMissingRequiredArgumentError"
    case MissingNecessaryConnectionClass => "PyMissingNecessaryConnectionError"
    case UnusedLayerWarningClass => "PyUnusedLayerWarning"
    case UnreleasedModelWarningClass => "PyUnreleasedModelWarning"
    case ExistedFileCoveredWarningClass => "PyExistedFileCoveredWarning"
  }

  /** The classes lib/parser/errors.py actually declares; each but the root
      derives from `PyParsingError`. */
  const Declared: seq<ErrorClass> :=
    [ParsingErrorClass, MissingInputClass, MissingModelClass, MissingRequiredArgumentClass]

  /** The module the compiler evidently expects: every class it raises,
      declared under `PyParsingError`, with the name the required-argument
      check raises bound to the declared required-argument class. */
  const CorrectedDeclared: seq<ErrorClass> :=
    Declared + [RequiredArgumentAliasClass, MissingNecessaryConnectionClass, UnusedLayerWarningClass,
                UnreleasedModelWarningClass, ExistedFileCoveredWarningClass]

  /** What evaluating `raise <name>(...)` produces: the exception, or a
      `NameError` when `from lib.parser.errors import *` bound no such name. */
  datatype Raised = Raises(cls: ErrorClass) | NameErrorRaised(name: string)

  function RaiseByName(declared: seq<ErrorClass>, name: string): (r: Raised)
    ensures r.Raises? <==> exists i :: 0 <= i < |declared| && ClassName(declared[i]) == name
    ensures r.Raises? ==> r.cls in declared && ClassName(r.cls) == name
    ensures r.NameErrorRaised? ==> r.name == name
  {
    if |declared| == 0 then NameErrorRaised(name)
    else if ClassName(declared[0]) == name then Raises(declared[0])
    else
      var r := RaiseByName(declared[1..], name);
      assert forall i :: 1 <= i < |declared| ==> declared[i] == declared[1..][i - 1];
      r
  }

  lemma DeclaredNameRaises(declared: seq<ErrorClass>, c: ErrorClass)
    requires c in declared
    ensures RaiseByName(declared, ClassName(c)).Raises?
  {
    var i :| 0 <= i < |declared| && declared[i] == c;
    assert ClassName(declared[i]) == ClassName(c);
  }

  /** The export thread catches `PyParsingError` and every declared subclass
      (editor/component/pthreads.py:56); a `NameError` escapes it. */
  predicate CaughtByExportThread(declared: seq<ErrorClass>, r: Raised)
  {
    r.Raises? && r.cls in declared
  }

  /** As written, the required-argument check raises a name the errors module
      does not bind (it binds `PyMissingRequiredArgument`), so a `!REQ`
      argument surfaces as an uncaught `NameError`. */
  lemma RequiredArgumentEscapesAsWritten()
    ensures RaiseByName(Declared, "PyMissingRequiredArgumentError").NameErrorRaised?
    ensures !CaughtByExportThread(Declared, RaiseByName(Declared, "PyMissingRequiredArgumentError"))
  {
  }

  /** As written, a dangling output id raises an unbound name too. */
  lemma ConnectionEscapesAsWritten()
    ensures !CaughtByExportThread(Declared, RaiseByName(Declared, "PyMissingNecessaryConnectionError"))
  {
  }

  /** As written, `commit` builds warnings from unbound names, so any unused
      layer or unreleased model turns the whole commit into a `NameError`. */
  lemma WarningClassesUnboundAsWritten()
    ensures RaiseByName(Declared, "PyUnusedLayerWarning").NameErrorRaised?
    ensures RaiseByName(Declared, "PyUnreleasedModelWarning").NameErrorRaised?
    ensures RaiseByName(Declared, "PyExistedFileCoveredWarning").NameErrorRaised?
  {
  }

  /** The class each fatal diagnostic is raised as in the corrected module.
      Every one reaches the export thread's handler; the required-argument
      class is even bound by the module as written, so renaming the raise
      site alone repairs that case. */
  function ClassOf(d: Diagnostic): (c: ErrorClass)
    ensures c != ParsingErrorClass
    ensures CaughtByExportThread(CorrectedDeclared, RaiseByName(CorrectedDeclared, ClassName(c)))
    ensures d.MissingRequiredArgument? ==>
      CaughtByExportThread(Declared, RaiseByName(Declared, ClassName(c)))
  {
    var c := match d
      case MissingInput => MissingInputClass
      case MissingModel => MissingModelClass
      case MissingRequiredArgument(_) => MissingRequiredArgumentClass
      case MissingNecessaryConnection(_, _) => MissingNecessaryConnectionClass;
    assert c in CorrectedDeclared;
    DeclaredNameRaises(CorrectedDeclared, c);
    if d.MissingRequiredArgument? then
      DeclaredNameRaises(Declared, c);
      c
    else c
  }

  /** The class each warning is built from in the corrected module; building
      one never fails. */
  function WarningClassOf(w: Warning): (c: ErrorClass)
    ensures RaiseByName(CorrectedDeclared, ClassName(c)).Raises?
  {
    var c := match w
      case UnusedLayer(_) => UnusedLayerWarningClass
      case UnreleasedModel(_) => UnreleasedModelWarningClass
      case ExistedFileCovered(_) => ExistedFileCoveredWarningClass;
    assert c in CorrectedDeclared;
    DeclaredNameRaises(CorrectedDeclared, c);
    c
  }

  // ---------------------------------------------------------------------------
  // The raise sites of the newer compiler
  // ---------------------------------------------------------------------------

  /** The class whose name each raise site of lib/parser/pyparser.py writes
      for a diagnostic (lines 236, 239, 340 and 397). */
  function RaisedClass(d: Diagnostic): ErrorClass
  {
    match d
    case MissingInput => MissingInputClass
    case MissingModel => MissingModelClass
    case MissingRequiredArgument(_) => RequiredArgumentAliasClass
    case MissingNecessaryConnection(_, _) => MissingNecessaryConnectionClass
  }

  function RaisedName(d: Diagnostic): string
  {
    ClassName(RaisedClass(d))
  }

  function WarningName(w: Warning): string
  {
    ClassName(WarningClassOf(w))
  }

  /** `raise <name>(...)` for `d` against the errors module `declared`: the
      name is looked up before anything else, so the diagnostic is raised
      when the module declares that class and a `NameError` otherwise. */
  function Raise(declared: seq<ErrorClass>, d: Diagnostic): (f: Failure)
    ensures f == Fatal(d) <==> RaisedClass(d) in declared
    ensures f != Fatal(d) ==> f == Crash(NameError(RaisedName(d)))
  {
    if RaisedClass(d) in declared then Fatal(d) else Crash(NameError(RaisedName(d)))
  }

  /** `PyXWarning(arg)` (lib/parser/pyparser.py:253, 255 and 717) against
      the errors module `declared`: the warning, or a `NameError` when its
      class is not declared there. */
  function Build(declared: seq<ErrorClass>, w: Warning): (r: Result<Warning, Fault>)
    ensures r.Ok? <==> WarningClassOf(w) in declared
    ensures r.Ok? ==> r.value == w
    ensures r.Err? ==> r.error == NameError(WarningName(w))
  {
    if WarningClassOf(w) in declared then Ok(w) else Err(NameError(WarningName(w)))
  }

  /** A declared class is found by its name, so `Raise` and `Build` agree
      with name resolution whenever they succeed. */
  lemma RaiseResolves(declared: seq<ErrorClass>, d: Diagnostic, w: Warning)
    ensures Raise(declared, d) == Fatal(d) ==> RaiseByName(declared, RaisedName(d)).Raises?
    ensures Build(declared, w).Ok? ==> RaiseByName(declared, WarningName(w)).Raises?
  {
    if RaisedClass(d) in declared {
      DeclaredNameRaises(declared, RaisedClass(d));
    }
    if WarningClassOf(w) in declared {
      DeclaredNameRaises(declared, WarningClassOf(w));
    }
  }

  /** In the module as written, only the input and model checks raise their
      diagnostic; the other two raise sites end in a `NameError`, as name
      resolution confirms. */
  lemma RaiseAsWritten(d: Diagnostic)
    ensures Raise(Declared, d) == Fatal(d) <==> d.MissingInput? || d.MissingModel?
    ensures !(d.MissingInput? || d.MissingModel?) ==> Raise(Declared, d) == Crash(NameError(RaisedName(d)))
    ensures !(d.MissingInput? || d.MissingModel?) ==> RaiseByName(Declared, RaisedName(d)).NameErrorRaised?
  {
    if d.MissingRequiredArgument? {
      RequiredArgumentEscapesAsWritten();
    } else if d.MissingNecessaryConnection? {
      ConnectionEscapesAsWritten();
    }
  }

  /** In the corrected module every raise site raises its diagnostic. */
  lemma RaiseCorrected(d: Diagnostic)
    ensures Raise(CorrectedDeclared, d) == Fatal(d)
  {
  }

  /** In the module as written no warning can be built. */
  lemma BuildAsWritten(w: Warning)
    ensures Build(Declared, w) == Err(NameError(WarningName(w)))
  {
  }

  /** In the corrected module every warning is built as itself. */
  lemma BuildCorrected(w: Warning)
    ensures Build(CorrectedDeclared, w) == Ok(w)
  {
  }
}

=== FILE: joins.dfy ===
/** The join registry of the compiler (lib/parser/pyparser.py:59-151, the same
    helpers at parser/pyparser.py:12-104): a map from destination id to the ids
    the destination expects and the ids that have reached it so far. */
module Joins {
  import opened Wrappers
  import opened PyStr
  import opened Errors
  import opened Doc

  /** `NodePlaceHolder` waits for its inputs; `ModelPlaceHolder` waits for
      both its inputs and its outputs. */
  datatype JoinKind = NodeJoin | ModelJoin

  /** One placeholder. The expected lists are whatever the document holds
      (a node's `<input>` may be a bare string); the gained lists are real
      lists of the ids that arrived. */
  datatype PlaceHolder = PlaceHolder(
    kind: JoinKind,
    dstId: string,
    varNm: PyValue,
    clsNm: PyValue,
    epIpt: PyValue,
    epOpt: PyValue,
    gtIpt: seq<string>,
    gtOpt: seq<string>)

  /** `PlaceHolderHub.repo`. */
  type Hub = map<string, PlaceHolder>

  /** A placeholder as `__init__` leaves it before anything arrives. */
  function Fresh(kind: JoinKind, dstId: string, varNm: PyValue, clsNm: PyValue,
                 epIpt: PyValue, epOpt: PyValue): (p: PlaceHolder)
    ensures p.dstId == dstId && p.kind == kind
    ensures p.gtIpt == [] && p.gtOpt == []
    ensures WellGained(p)
  {
    PlaceHolder(kind, dstId, varNm, clsNm, epIpt, epOpt, [], [])
  }

  // ---------------------------------------------------------------------------
  // cmp_cnt
  // ---------------------------------------------------------------------------

  /** `cmp_cnt(a, b)` as written. The comprehension keeps a `True` only for the
      members of `a` found in `b`, so `all` of it never fails: equal lengths
      decide alone. `len(None)` is a `TypeError`. */
  function CmpCntAsWritten(a: seq<string>, b: PyValue): (r: Result<bool, Fault>)
    ensures r.Err? <==> b.NoneValue?
    ensures r.Ok? ==> (r.value <==> PyLen(b) == Ok(|a|))
  {
    var n :- PyLen(b);
    Ok(|a| == n)
  }

  /** Every member of `a` is found in `b` (a substring when `b` is a `str`). */
  predicate AllFoundIn(a: seq<string>, b: PyValue)
  {
    forall i :: 0 <= i < |a| ==> PyIn(a[i], b) == Ok(true)
  }

  /** The content comparison the comment above `check` describes: equal
      lengths and every gained id expected. */
  function CmpCnt(a: seq<string>, b: PyValue): (r: Result<bool, Fault>)
    ensures r.Err? <==> b.NoneValue?
    ensures r.Ok? ==> (r.value <==> PyLen(b) == Ok(|a|) && AllFoundIn(a, b))
  {
    var n :- PyLen(b);
    Ok(|a| == n && AllFoundIn(a, b))
  }

  /** Lists of different lengths never match, under either reading. */
  lemma CmpCntLengths(a: seq<string>, b: seq<string>)
    requires |a| != |b|
    ensures CmpCnt(a, List(b)) == Ok(false)
    ensures CmpCntAsWritten(a, List(b)) == Ok(false)
  {
  }

  /** Any permutation of the expected list matches, under either reading. */
  lemma CmpCntPermutation(a: seq<string>, b: seq<string>)
    requires multiset(a) == multiset(b)
    ensures CmpCnt(a, List(b)) == Ok(true)
    ensures CmpCntAsWritten(a, List(b)) == Ok(true)
  {
    assert |a| == |multiset(a)| == |multiset(b)| == |b|;
    forall i | 0 <= i < |a|
      ensures a[i] in b
    {
      assert a[i] in multiset(a);
    }
  }

  /** As written, `cmp_cnt(['x'], ['y'])` holds although the contents differ. */
  lemma CmpCntIgnoresContentAsWritten()
    ensures CmpCntAsWritten(["x"], List(["y"])) == Ok(true)
    ensures CmpCnt(["x"], List(["y"])) == Ok(false)
  {
    var a: seq<string> := ["x"];
    assert PyIn(a[0], List(["y"])) == Ok(false);
    assert !AllFoundIn(a, List(["y"]));
  }

  /** Content alone is not counted: a repeated arrival can stand in for a
      missing one, under either reading. */
  lemma CmpCntRepeatStandsIn()
    ensures CmpCnt(["x", "x"], List(["x", "y"])) == Ok(true)
  {
    assert PyIn("x", List(["x", "y"])) == Ok(true);
  }

  // ---------------------------------------------------------------------------
  // gain and check
  // ---------------------------------------------------------------------------

  /** `gain(src_id)`: append `src` to each gained list whose expected list
      holds it. A `None` expected list makes the `in` test a `TypeError`. */
  function Gain(p: PlaceHolder, src: string): (r: Result<PlaceHolder, Fault>)
    ensures r.Err? <==> p.epIpt.NoneValue? || p.epOpt.NoneValue?
    ensures r.Ok? ==>
      r.value == p.(gtIpt := p.gtIpt + (if PyIn(src, p.epIpt) == Ok(true) then [src] else []),
                    gtOpt := p.gtOpt + (if PyIn(src, p.epOpt) == Ok(true) then [src] else []))
  {
    var inIpt :- PyIn(src, p.epIpt);
    var p1 := if inIpt then p.(gtIpt := p.gtIpt + [src]) else p;
    var inOpt :- PyIn(src, p.epOpt);
    Ok(if inOpt then p1.(gtOpt := p1.gtOpt + [src]) else p1)
  }

  /** `check()`: a node is ready when its inputs match, a model when its
      inputs match and then its outputs do. */
  function Check(p: PlaceHolder): (r: Result<bool, Fault>)
    ensures p.kind == NodeJoin ==> r == CmpCnt(p.gtIpt, p.epIpt)
    ensures p.kind == ModelJoin && r == Ok(true) ==>
      CmpCnt(p.gtIpt, p.epIpt) == Ok(true) && CmpCnt(p.gtOpt, p.epOpt) == Ok(true)
    ensures p.kind == ModelJoin && CmpCnt(p.gtIpt, p.epIpt) == Ok(false) ==> r == Ok(false)
  {
    match p.kind
    case NodeJoin => CmpCnt(p.gtIpt, p.epIpt)
    case ModelJoin =>
      var a :- CmpCnt(p.gtIpt, p.epIpt);
      if !a then Ok(false) else CmpCnt(p.gtOpt, p.epOpt)
  }

  /** The check with `cmp_cnt` as written. */
  function CheckAsWritten(p: PlaceHolder): Result<bool, Fault>
  {
    match p.kind
    case NodeJoin => CmpCntAsWritten(p.gtIpt, p.epIpt)
    case ModelJoin =>
      var a :- CmpCntAsWritten(p.gtIpt, p.epIpt);
      if !a then Ok(false) else CmpCntAsWritten(p.gtOpt, p.epOpt)
  }

  /** Every gained id was found in the matching expected list. */
  predicate WellGained(p: PlaceHolder)
  {
    AllFoundIn(p.gtIpt, p.epIpt) && AllFoundIn(p.gtOpt, p.epOpt)
  }

  /** `gain` only ever appends ids it found, so every placeholder the hub
      holds is well gained. */
  lemma GainKeepsWellGained(p: PlaceHolder, src: string)
    requires WellGained(p)
    requires Gain(p, src).Ok?
    ensures WellGained(Gain(p, src).value)
  {
    var q := Gain(p, src).value;
    forall i | 0 <= i < |q.gtIpt|
      ensures PyIn(q.gtIpt[i], q.epIpt) == Ok(true)
    {
      if i < |p.gtIpt| { assert q.gtIpt[i] == p.gtIpt[i]; }
    }
    forall i | 0 <= i < |q.gtOpt|
      ensures PyIn(q.gtOpt[i], q.epOpt) == Ok(true)
    {
      if i < |p.gtOpt| { assert q.gtOpt[i] == p.gtOpt[i]; }
    }
  }

  /** On the placeholders the hub can hold, the content comparison and the
      comparison as written agree: the faulty `cmp_cnt` never changes a
      release decision. */
  lemma CheckAgreesWithAsWritten(p: PlaceHolder)
    requires WellGained(p)
    ensures Check(p) == CheckAsWritten(p)
  {
  }

  // ---------------------------------------------------------------------------
  // arrivals
  // ---------------------------------------------------------------------------

  /** What one arrival at a join produces: the new hub, whether the
      destination was released, and its placeholder. */
  datatype Arrival = Arrival(hub: Hub, released: bool, holder: PlaceHolder)

  /** An arrival of `src` at `dst` (`node_handler` and the hub part of
      `model_handler`). A registered destination gains `src` and is checked;
      an unregistered one is set up from `initial`, gains `src` and is stored,
      and is never checked on that arrival. `initial` is only consulted, and its
      failure only surfaces, on the first arrival. */
  function Arrive(hub: Hub, dst: string, src: string, initial: Result<PlaceHolder, Fault>)
    : (r: Result<Arrival, Fault>)
    requires initial.Ok? ==> initial.value.dstId == dst
    ensures r.Ok? ==> r.value.hub == hub[dst := r.value.holder]
    ensures r.Ok? ==> r.value.holder.dstId == (if dst in hub then hub[dst].dstId else dst)
    ensures dst !in hub && r.Ok? ==> !r.value.released
    ensures dst !in hub && initial.Err? ==> r == Err(initial.error)
    ensures dst !in hub && initial.Ok? ==> r.Ok? == Gain(initial.value, src).Ok?
    ensures dst in hub ==>
      (r.Ok? <==> Gain(hub[dst], src).Ok? && Check(Gain(hub[dst], src).value).Ok?)
    ensures dst in hub && r.Ok? ==>
      r.value.holder == Gain(hub[dst], src).value &&
      (r.value.released <==> Check(r.value.holder) == Ok(true))
    ensures r.Ok? && HubWellGained(hub) && (initial.Ok? ==> WellGained(initial.value)) ==>
      HubWellGained(r.value.hub)
  {
    if dst in hub then
      var p :- Gain(hub[dst], src);
      var ok :- Check(p);
      if HubWellGained(hub) then GainKeepsWellGained(hub[dst], src); Ok(Arrival(hub[dst := p], ok, p))
      else Ok(Arrival(hub[dst := p], ok, p))
    else
      var p0 :- initial;
      var p :- Gain(p0, src);
      if WellGained(p0) then GainKeepsWellGained(p0, src); Ok(Arrival(hub[dst := p], false, p))
      else Ok(Arrival(hub[dst := p], false, p))
  }

  /** Every placeholder the hub holds is well gained. */
  predicate HubWellGained(hub: Hub)
  {
    forall d :: d in hub ==> WellGained(hub[d])
  }

  /** An arrival keeps every placeholder of the hub well gained, provided
      the placeholder it would register is; so on the hubs a walk builds
      from the empty one, the release decision `Arrive` takes is the one
      `cmp_cnt` as written takes. */
  lemma ArriveKeepsWellGained(hub: Hub, dst: string, src: string, initial: Result<PlaceHolder, Fault>)
    requires initial.Ok? ==> initial.value.dstId == dst
    requires HubWellGained(hub)
    requires initial.Ok? ==> WellGained(initial.value)
    requires Arrive(hub, dst, src, initial).Ok?
    ensures HubWellGained(Arrive(hub, dst, src, initial).value.hub)
    ensures WellGained(Arrive(hub, dst, src, initial).value.holder)
    ensures dst in hub ==>
      (Arrive(hub, dst, src, initial).value.released <==>
       CheckAsWritten(Arrive(hub, dst, src, initial).value.holder) == Ok(true))
  {
    var a := Arrive(hub, dst, src, initial).value;
    if dst in hub {
      GainKeepsWellGained(hub[dst], src);
    } else {
      GainKeepsWellGained(initial.value, src);
    }
    CheckAgreesWithAsWritten(a.holder);
  }

  /** However many ids a node expects, its first arrival never releases it. */
  lemma FirstArrivalNeverReleases(hub: Hub, dst: string, src: string, p: PlaceHolder)
    requires dst !in hub && p.dstId == dst
    requires Arrive(hub, dst, src, Ok(p)).Ok?
    ensures !Arrive(hub, dst, src, Ok(p)).value.released
    ensures Arrive(hub, dst, src, Ok(p)).value.hub.Keys == hub.Keys + {dst}
  {
  }

  /** A node expecting two distinct ids is released exactly by the arrival
      of the second, whichever comes first. */
  lemma {:induction false} TwoInputJoin(hub: Hub, dst: string, x: string, y: string, p: PlaceHolder)
    requires dst !in hub && x != y
    requires p == Fresh(NodeJoin, dst, p.varNm, p.clsNm, List([x, y]), List([]))
    ensures Arrive(hub, dst, x, Ok(p)).Ok?
    ensures !Arrive(hub, dst, x, Ok(p)).value.released
    ensures var h := Arrive(hub, dst, x, Ok(p)).value.hub;
            Arrive(h, dst, y, Ok(p)).Ok? && Arrive(h, dst, y, Ok(p)).value.released
  {
    var a1 := Arrive(hub, dst, x, Ok(p));
    assert PyIn(x, List([x, y])) == Ok(true);
    assert PyIn(x, List([])) == Ok(false);
    var q := Gain(p, x).value;
    assert q.gtIpt == [x];
    assert a1 == Ok(Arrival(hub[dst := q], false, q));
    var h := a1.value.hub;
    assert dst in h && h[dst] == q;
    assert PyIn(y, List([x, y])) == Ok(true);
    assert PyIn(y, List([])) == Ok(false);
    var q2 := Gain(q, y).value;
    assert q2.gtIpt == [x, y];
    assert PyIn(x, List([x, y])) == Ok(true) && PyIn(y, List([x, y])) == Ok(true);
    assert AllFoundIn(q2.gtIpt, q2.epIpt);
    assert Check(q2) == Ok(true);
  }
}

=== FILE: omap.dfy ===
/** Python's insertion-ordered dictionaries (`OrderedDict`, and `dict`
    from Python 3.7 on) with string keys: a sequence of key/value pairs in
    insertion order. Assigning to a present key keeps its position;
    assigning to a new key appends it. */
module OrderedMaps {
  import opened Wrappers

  type OMap<V> = seq<(string, V)>

  /** `list(d.keys())`. */
  function Keys<V>(m: OMap<V>): (r: seq<string>)
    ensures |r| == |m|
    ensures forall i :: 0 <= i < |m| ==> r[i] == m[i].0
  {
    if |m| == 0 then [] else [m[0].0] + Keys(m[1..])
  }

  /** No key occurs twice. */
  predicate Distinct(ks: seq<string>)
  {
    forall i, j :: 0 <= i < j < |ks| ==> ks[i] != ks[j]
  }

  /** A dictionary: its keys are distinct. */
  predicate Valid<V>(m: OMap<V>)
  {
    Distinct(Keys(m))
  }

  /** `d.get(k)`. */
  function Find<V>(m: OMap<V>, k: string): (r: Option<V>)
    ensures r.Some? <==> k in Keys(m)
  {
    if |m| == 0 then None
    else if m[0].0 == k then Some(m[0].1)
    else
      assert Keys(m) == [m[0].0] + Keys(m[1..]);
      Find(m[1..], k)
  }

  /** `d[k] = v`. */
  function Put<V>(m: OMap<V>, k: string, v: V): (r: OMap<V>)
  {
    if |m| == 0 then [(k, v)]
    else if m[0].0 == k then [(k, v)] + m[1..]
    else [m[0]] + Put(m[1..], k, v)
  }

  /** `d.pop(k)` for a present key; nothing for an absent one. */
  function Remove<V>(m: OMap<V>, k: string): (r: OMap<V>)
  {
    if |m| == 0 then []
    else if m[0].0 == k then m[1..]
    else [m[0]] + Remove(m[1..], k)
  }

  /** The tail of a dictionary is one. */
  lemma ValidTail<V>(m: OMap<V>)
    requires |m| > 0 && Valid(m)
    ensures Valid(m[1..])
    ensures m[0].0 !in Keys(m[1..])
  {
    assert Keys(m) == [m[0].0] + Keys(m[1..]);
    assert forall j :: 0 <= j < |Keys(m[1..])| ==> Keys(m[1..])[j] == Keys(m)[j + 1];
  }

  /** Consing a new key onto a dictionary gives a dictionary. */
  lemma ValidCons<V>(e: (string, V), m: OMap<V>)
    requires Valid(m) && e.0 !in Keys(m)
    ensures Valid([e] + m)
  {
    assert ([e] + m)[1..] == m;
    assert Keys([e] + m) == [e.0] + Keys(m);
  }

  /** Assigning stores `v` under `k` and leaves every other key's value;
      the key keeps its place when present and is appended otherwise. */
  lemma {:induction false} PutSpec<V>(m: OMap<V>, k: string, v: V, x: string)
    requires Valid(m)
    ensures Valid(Put(m, k, v))
    ensures Find(Put(m, k, v), x) == if x == k then Some(v) else Find(m, x)
    ensures Keys(Put(m, k, v)) == if k in Keys(m) then Keys(m) else Keys(m) + [k]
    decreases |m|
  {
    if |m| > 0 {
      ValidTail(m);
      assert Keys(m) == [m[0].0] + Keys(m[1..]);
      if m[0].0 == k {
        assert Keys([(k, v)] + m[1..]) == [k] + Keys(m[1..]);
        ValidCons((k, v), m[1..]);
        assert ([(k, v)] + m[1..])[1..] == m[1..];
      } else {
        PutSpec(m[1..], k, v, x);
        assert Keys([m[0]] + Put(m[1..], k, v)) == [m[0].0] + Keys(Put(m[1..], k, v));
        ValidCons(m[0], Put(m[1..], k, v));
        assert ([m[0]] + Put(m[1..], k, v))[1..] == Put(m[1..], k, v);
      }
    }
  }

  /** Removing drops `k` and nothing else, keeping the other keys' order. */
  lemma {:induction false} RemoveSpec<V>(m: OMap<V>, k: string, x: string)
    requires Valid(m)
    ensures Valid(Remove(m, k))
    ensures Find(Remove(m, k), x) == if x == k then None else Find(m, x)
    ensures k !in Keys(m) ==> Remove(m, k) == m
    ensures |Remove(m, k)| == if k in Keys(m) then |m| - 1 else |m|
    decreases |m|
  {
    if |m| > 0 {
      ValidTail(m);
      assert Keys(m) == [m[0].0] + Keys(m[1..]);
      if m[0].0 != k {
        RemoveSpec(m[1..], k, x);
        RemoveKeys(m[1..], k);
        assert Keys([m[0]] + Remove(m[1..], k)) == [m[0].0] + Keys(Remove(m[1..], k));
        ValidCons(m[0], Remove(m[1..], k));
        assert ([m[0]] + Remove(m[1..], k))[1..] == Remove(m[1..], k);
        assert [m[0]] + m[1..] == m;
      }
    }
  }

  /** Removing leaves no key that was not there. */
  lemma {:induction false} RemoveKeys<V>(m: OMap<V>, k: string)
    ensures forall y :: y in Keys(Remove(m, k)) ==> y in Keys(m)
    decreases |m|
  {
    if |m| > 0 {
      assert Keys(m) == [m[0].0] + Keys(m[1..]);
      if m[0].0 != k {
        RemoveKeys(m[1..], k);
        assert Keys([m[0]] + Remove(m[1..], k)) == [m[0].0] + Keys(Remove(m[1..], k));
      }
    }
  }

  /** Adding a new key and popping it again gives back the dictionary. */
  lemma {:induction false} RemovePut<V>(m: OMap<V>, k: string, v: V)
    requires k !in Keys(m)
    ensures Put(m, k, v) == m + [(k, v)]
    ensures Remove(Put(m, k, v), k) == m
    decreases |m|
  {
    if |m| > 0 {
      assert Keys(m) == [m[0].0] + Keys(m[1..]);
      RemovePut(m[1..], k, v);
      assert [m[0]] + (m[1..] + [(k, v)]) == m + [(k, v)];
    }
  }

  /** A new key appended last is the one `popitem` takes. */
  lemma PopLastPut<V>(m: OMap<V>, k: string, v: V)
    requires k !in Keys(m)
    ensures |Put(m, k, v)| > 0
    ensures Put(m, k, v)[..|Put(m, k, v)| - 1] == m
    ensures Put(m, k, v)[|Put(m, k, v)| - 1] == (k, v)
  {
    RemovePut(m, k, v);
  }

  /** `OrderedDict.fromkeys(keys)`: each key once, at its first occurrence. */
  function Dedup(ks: seq<string>): (r: seq<string>)
  {
    DedupInto([], ks)
  }

  function DedupInto(seen: seq<string>, ks: seq<string>): seq<string>
    decreases |ks|
  {
    if |ks| == 0 then seen
    else DedupInto(if ks[0] in seen then seen else seen + [ks[0]], ks[1..])
  }

  /** Deduplicating keeps exactly the keys given, once each. */
  lemma {:induction false} DedupIntoSpec(seen: seq<string>, ks: seq<string>, x: string)
    requires Distinct(seen)
    ensures Distinct(DedupInto(seen, ks))
    ensures x in DedupInto(seen, ks) <==> x in seen || x in ks
    decreases |ks|
  {
    if |ks| > 0 {
      var next := if ks[0] in seen then seen else seen + [ks[0]];
      assert Distinct(next);
      DedupIntoSpec(next, ks[1..], x);
      assert ks == [ks[0]] + ks[1..];
    }
  }

  /** A sequence of distinct keys is its own deduplication. */
  lemma {:induction false} DedupIntoDistinct(seen: seq<string>, ks: seq<string>)
    requires Distinct(seen + ks)
    ensures DedupInto(seen, ks) == seen + ks
    decreases |ks|
  {
    if |ks| > 0 {
      assert (seen + ks)[|seen|] == ks[0];
      assert ks[0] !in seen by {
        forall i | 0 <= i < |seen|
          ensures seen[i] != ks[0]
        {
          assert (seen + ks)[i] == seen[i];
        }
      }
      assert (seen + [ks[0]]) + ks[1..] == seen + ks;
      DedupIntoDistinct(seen + [ks[0]], ks[1..]);
    }
  }

  /** `OrderedDict.fromkeys(keys)` holds each key once, and no other. */
  lemma DedupSpec(ks: seq<string>)
    ensures Distinct(Dedup(ks))
    ensures forall y :: y in Dedup(ks) <==> y in ks
  {
    forall y
      ensures y in Dedup(ks) <==> y in ks
    {
      DedupIntoSpec([], ks, y);
    }
    DedupIntoSpec([], ks, "");
  }

  /** The entries of `m` under `ks`, in that order; `None` when a key is
      missing (Python raises KeyError). */
  function Pick<V>(m: OMap<V>, ks: seq<string>): (r: Option<OMap<V>>)
    ensures r.Some? ==> Keys(r.value) == ks
  {
    if |ks| == 0 then Some([])
    else
      var v :- Find(m, ks[0]);
      var rest :- Pick(m, ks[1..]);
      assert Keys([(ks[0], v)] + rest) == [ks[0]] + Keys(rest);
      Some([(ks[0], v)] + rest)
  }

  /** Picking succeeds exactly when every key is present, and keeps each
      key's value. */
  lemma {:induction false} PickSpec<V>(m: OMap<V>, ks: seq<string>, x: string)
    ensures Pick(m, ks).Some? <==> forall i :: 0 <= i < |ks| ==> ks[i] in Keys(m)
    ensures Pick(m, ks).Some? && x in ks ==> Find(Pick(m, ks).value, x) == Find(m, x)
    decreases |ks|
  {
    if |ks| > 0 {
      PickSpec(m, ks[1..], x);
      assert forall i :: 1 <= i < |ks| ==> ks[i] == ks[1..][i - 1];
      if Find(m, ks[0]).Some? && Pick(m, ks[1..]).Some? {
        var rest := Pick(m, ks[1..]).value;
        assert ([(ks[0], Find(m, ks[0]).value)] + rest)[1..] == rest;
        assert x in ks ==> x == ks[0] || x in ks[1..];
      }
    }
  }

  /** Picking a dictionary's own keys gives it back. */
  lemma {:induction false} PickAll<V>(m: OMap<V>)
    requires Valid(m)
    ensures Pick(m, Keys(m)) == Some(m)
  {
    FindEntries(m);
    PickAllFrom(m, m);
  }

  lemma {:induction false} PickAllFrom<V>(m: OMap<V>, part: OMap<V>)
    requires Valid(m)
    requires forall i :: 0 <= i < |part| ==> Find(m, part[i].0) == Some(part[i].1)
    ensures Pick(m, Keys(part)) == Some(part)
    decreases |part|
  {
    if |part| > 0 {
      assert Keys(part)[1..] == Keys(part[1..]);
      assert forall i :: 0 <= i < |part[1..]| ==> part[1..][i] == part[i + 1];
      PickAllFrom(m, part[1..]);
      assert [(part[0].0, part[0].1)] + part[1..] == part;
    }
  }

  /** A dictionary's entries are what it finds. */
  lemma {:induction false} FindEntries<V>(m: OMap<V>)
    requires Valid(m)
    ensures forall i :: 0 <= i < |m| ==> Find(m, m[i].0) == Some(m[i].1)
    decreases |m|
  {
    if |m| > 0 {
      ValidTail(m);
      FindEntries(m[1..]);
      forall i | 0 <= i < |m|
        ensures Find(m, m[i].0) == Some(m[i].1)
      {
        if i > 0 {
          assert m[i] == m[1..][i - 1];
          assert m[i].0 in Keys(m[1..]);
        }
      }
    }
  }

  /** Every value replaced by `v`, keys in place. */
  function SetAll<V>(m: OMap<V>, v: V): (r: OMap<V>)
    ensures Keys(r) == Keys(m)
    ensures forall i :: 0 <= i < |r| ==> r[i].1 == v
  {
    if |m| == 0 then [] else [(m[0].0, v)] + SetAll(m[1..], v)
  }

  /** Picking the deduplicated keys succeeds exactly when every key is
      present, and keeps each key's value. */
  lemma PickDedup<V>(m: OMap<V>, ks: seq<string>, x: string)
    ensures Pick(m, Dedup(ks)).Some? <==> forall i :: 0 <= i < |ks| ==> ks[i] in Keys(m)
    ensures Pick(m, Dedup(ks)).Some? && x in ks ==> Find(Pick(m, Dedup(ks)).value, x) == Find(m, x)
  {
    DedupSpec(ks);
    PickSpec(m, Dedup(ks), x);
    assert forall i :: 0 <= i < |Dedup(ks)| ==> Dedup(ks)[i] in ks;
    assert forall i :: 0 <= i < |ks| ==> ks[i] in Dedup(ks);
  }
}

=== FILE: pins.dfy ===
/** The pure part of lib/pins.py: a user custom pin stores its arguments as
    one text `name=value;name=value;...`, which is read back into a
    dictionary and rendered as a tooltip. The SQLite table itself is not
    modelled. */
module Pins {
  import opened Wrappers
  import opened PyStr

  /** One row of the UCP table: ID, PIN_NAME, PIN_ARGS, CATEGORY, ORG_NAME. */
  datatype Pin = Pin(id: int, name: string, args: string, category: string, orgName: string)

  // ---------------------------------------------------------------------------
  // _pin_args_split
  // ---------------------------------------------------------------------------

  /** Each entry cut at every `=`. */
  function CutAll(entries: seq<string>): (r: seq<seq<string>>)
    ensures |r| == |entries|
    ensures forall i :: 0 <= i < |r| ==> r[i] == Split(entries[i], '=')
  {
    if |entries| == 0 then [] else [Split(entries[0], '=')] + CutAll(entries[1..])
  }

  /** `_pin_args_split(pin_args)`: the `;`-separated entries, each cut at
      `=`. With `equation_split=False` the generator yields the entries
      themselves, which is `Split(pinArgs, ';')`. */
  function ArgsSplit(pinArgs: string): seq<seq<string>>
  {
    CutAll(Split(pinArgs, ';'))
  }

  // ---------------------------------------------------------------------------
  // Writing arguments: the text a pin's argument pairs are stored as
  // ---------------------------------------------------------------------------

  /** Names and values that survive the round trip: neither holds a
      separator. */
  predicate Storable(pairs: seq<(string, string)>)
  {
    forall i :: 0 <= i < |pairs| ==>
      '=' !in pairs[i].0 && ';' !in pairs[i].0 && '=' !in pairs[i].1 && ';' !in pairs[i].1
  }

  /** `name=value` for each pair. */
  function PairTexts(pairs: seq<(string, string)>): (r: seq<string>)
    ensures |r| == |pairs|
    ensures forall i :: 0 <= i < |r| ==> r[i] == pairs[i].0 + "=" + pairs[i].1
  {
    if |pairs| == 0 then [] else [pairs[0].0 + "=" + pairs[0].1] + PairTexts(pairs[1..])
  }

  /** The stored argument text: the `name=value` entries joined by `;`. */
  function Encode(pairs: seq<(string, string)>): string
  {
    Join(PairTexts(pairs), ";")
  }

  /** `[name, value]` for each pair: what the splitter should give back. */
  function PairLists(pairs: seq<(string, string)>): (r: seq<seq<string>>)
    ensures |r| == |pairs|
    ensures forall i :: 0 <= i < |r| ==> r[i] == [pairs[i].0, pairs[i].1]
  {
    if |pairs| == 0 then [] else [[pairs[0].0, pairs[0].1]] + PairLists(pairs[1..])
  }

  /** A `name=value` text cuts back into its name and value. */
  lemma PairCut(k: string, v: string)
    requires '=' !in k && '=' !in v
    ensures Split(k + "=" + v, '=') == [k, v]
    ensures ';' !in k && ';' !in v ==> ';' !in k + "=" + v
  {
    SplitSeparated(k, v, '=');
    SplitWhole(v, '=');
  }

  /** Splitting stored arguments gives back every pair, in order. */
  lemma ArgsSplitEncoded(pairs: seq<(string, string)>)
    requires |pairs| >= 1 && Storable(pairs)
    ensures ArgsSplit(Encode(pairs)) == PairLists(pairs)
  {
    forall i | 0 <= i < |pairs|
      ensures Split(PairTexts(pairs)[i], '=') == [pairs[i].0, pairs[i].1]
      ensures ';' !in PairTexts(pairs)[i]
    {
      PairCut(pairs[i].0, pairs[i].1);
    }
    SplitJoin(PairTexts(pairs), ';');
  }

  // ---------------------------------------------------------------------------
  // pin_args_dict
  // ---------------------------------------------------------------------------

  /** The loop of `pin_args_dict`: each entry is unpacked into a name and a
      value and assigned, so a later name overwrites an earlier one. An
      entry that does not cut into exactly two pieces fails to unpack
      (`None`: Python raises ValueError). */
  function Assign(d: map<string, string>, parts: seq<seq<string>>): Option<map<string, string>>
    decreases |parts|
  {
    if |parts| == 0 then Some(d)
    else if |parts[0]| != 2 then None
    else Assign(d[parts[0][0] := parts[0][1]], parts[1..])
  }

  /** `pin_args_dict(pin_args)`. */
  function PinArgsDict(pinArgs: string): Option<map<string, string>>
  {
    Assign(map[], ArgsSplit(pinArgs))
  }

  /** Every entry unpacks into a name and a value. */
  predicate Unpackable(parts: seq<seq<string>>)
  {
    forall j :: 0 <= j < |parts| ==> |parts[j]| == 2
  }

  /** The loop fails exactly when some entry does not unpack. */
  lemma {:induction false} AssignFails(d: map<string, string>, parts: seq<seq<string>>)
    ensures Assign(d, parts).None? <==> !Unpackable(parts)
    decreases |parts|
  {
    if |parts| > 0 && |parts[0]| == 2 {
      AssignFails(d[parts[0][0] := parts[0][1]], parts[1..]);
      if !Unpackable(parts[1..]) {
        var j :| 0 <= j < |parts[1..]| && |parts[1..][j]| != 2;
        assert |parts[j + 1]| != 2;
      }
    }
  }

  /** A name no entry assigns keeps its value from before the loop. */
  lemma {:induction false} AssignUntouched(d: map<string, string>, parts: seq<seq<string>>, k: string)
    requires Unpackable(parts)
    requires forall j :: 0 <= j < |parts| ==> parts[j][0] != k
    ensures Assign(d, parts).Some?
    ensures k in Assign(d, parts).value <==> k in d
    ensures k in d ==> Assign(d, parts).value[k] == d[k]
    decreases |parts|
  {
    if |parts| > 0 {
      AssignUntouched(d[parts[0][0] := parts[0][1]], parts[1..], k);
    }
  }

  /** The last entry naming a key decides its value. */
  lemma {:induction false} AssignLast(d: map<string, string>, parts: seq<seq<string>>, i: nat)
    requires Unpackable(parts)
    requires i < |parts|
    requires forall j :: i < j < |parts| ==> parts[j][0] != parts[i][0]
    ensures Assign(d, parts).Some?
    ensures parts[i][0] in Assign(d, parts).value
    ensures Assign(d, parts).value[parts[i][0]] == parts[i][1]
    decreases |parts|
  {
    if i == 0 {
      AssignUntouched(d[parts[0][0] := parts[0][1]], parts[1..], parts[0][0]);
    } else {
      AssignLast(d[parts[0][0] := parts[0][1]], parts[1..], i - 1);
    }
  }

  /** The dictionary's names are the names of the entries, added to what
      was there before. */
  lemma {:induction false} AssignKeys(d: map<string, string>, parts: seq<seq<string>>, k: string)
    requires Unpackable(parts)
    ensures Assign(d, parts).Some?
    ensures k in Assign(d, parts).value <==> k in d || exists j :: 0 <= j < |parts| && parts[j][0] == k
    decreases |parts|
  {
    if |parts| > 0 {
      AssignKeys(d[parts[0][0] := parts[0][1]], parts[1..], k);
      if exists j :: 0 <= j < |parts[1..]| && parts[1..][j][0] == k {
        var j :| 0 <= j < |parts[1..]| && parts[1..][j][0] == k;
        assert parts[j + 1][0] == k;
      }
      if exists j :: 0 <= j < |parts| && parts[j][0] == k {
        var j :| 0 <= j < |parts| && parts[j][0] == k;
        if j > 0 {
          assert parts[1..][j - 1][0] == k;
        }
      }
    }
  }

  /** `pin_args_dict` fails exactly when some entry of the text does not
      hold exactly one `=`. */
  lemma PinArgsDictFails(pinArgs: string)
    ensures PinArgsDict(pinArgs).None? <==>
      exists i :: 0 <= i < |Split(pinArgs, ';')| && Count(Split(pinArgs, ';')[i], '=') != 1
  {
    AssignFails(map[], ArgsSplit(pinArgs));
    if !Unpackable(ArgsSplit(pinArgs)) {
      var j :| 0 <= j < |ArgsSplit(pinArgs)| && |ArgsSplit(pinArgs)[j]| != 2;
      assert Count(Split(pinArgs, ';')[j], '=') != 1;
    }
  }

  /** Reading stored pairs back: every stored name is present, with the
      value of the last pair that names it. */
  lemma PinArgsDictEncoded(pairs: seq<(string, string)>, i: nat)
    requires |pairs| >= 1 && Storable(pairs)
    requires i < |pairs|
    requires forall j :: i < j < |pairs| ==> pairs[j].0 != pairs[i].0
    ensures PinArgsDict(Encode(pairs)).Some?
    ensures pairs[i].0 in PinArgsDict(Encode(pairs)).value
    ensures PinArgsDict(Encode(pairs)).value[pairs[i].0] == pairs[i].1
  {
    ArgsSplitEncoded(pairs);
    AssignLast(map[], PairLists(pairs), i);
  }

  /** Reading stored pairs back gives no name that no pair holds. */
  lemma PinArgsDictNames(pairs: seq<(string, string)>, k: string)
    requires |pairs| >= 1 && Storable(pairs)
    ensures PinArgsDict(Encode(pairs)).Some?
    ensures k in PinArgsDict(Encode(pairs)).value <==> exists j :: 0 <= j < |pairs| && pairs[j].0 == k
  {
    ArgsSplitEncoded(pairs);
    AssignKeys(map[], PairLists(pairs), k);
    if exists j :: 0 <= j < |pairs| && pairs[j].0 == k {
      var j :| 0 <= j < |pairs| && pairs[j].0 == k;
      assert PairLists(pairs)[j][0] == k;
    }
  }

  /** Two stored pairs. */
  lemma EncodeTwo(k1: string, v1: string, k2: string, v2: string)
    ensures Encode([(k1, v1), (k2, v2)]) == k1 + "=" + v1 + ";" + k2 + "=" + v2
  {
    assert PairTexts([(k1, v1), (k2, v2)]) == [k1 + "=" + v1, k2 + "=" + v2];
    JoinCons(k1 + "=" + v1, [k2 + "=" + v2], ";");
  }

  /** The dictionary read from two stored pairs with different names. */
  lemma PinArgsDictTwo(k1: string, v1: string, k2: string, v2: string)
    requires Storable([(k1, v1), (k2, v2)]) && k1 != k2
    ensures PinArgsDict(k1 + "=" + v1 + ";" + k2 + "=" + v2) == Some(map[k1 := v1, k2 := v2])
  {
    EncodeTwo(k1, v1, k2, v2);
    PinArgsDictEncoded([(k1, v1), (k2, v2)], 0);
    PinArgsDictEncoded([(k1, v1), (k2, v2)], 1);
    forall k | true
      ensures k in PinArgsDict(Encode([(k1, v1), (k2, v2)])).value <==> k == k1 || k == k2
    {
      PinArgsDictNames([(k1, v1), (k2, v2)], k);
      if k == k2 {
        assert [(k1, v1), (k2, v2)][1].0 == k;
      }
    }
    var m := PinArgsDict(Encode([(k1, v1), (k2, v2)])).value;
    assert m.Keys == map[k1 := v1, k2 := v2].Keys;
    assert m[k1] == v1 && m[k2] == v2;
    assert m == map[k1 := v1, k2 := v2];
    assert PinArgsDict(Encode([(k1, v1), (k2, v2)])) == Some(map[k1 := v1, k2 := v2]);
  }

  /** The dictionary read from two stored pairs with the same name: the
      later value wins. */
  lemma PinArgsDictSame(k: string, v1: string, v2: string)
    requires Storable([(k, v1), (k, v2)])
    ensures PinArgsDict(k + "=" + v1 + ";" + k + "=" + v2) == Some(map[k := v2])
  {
    EncodeTwo(k, v1, k, v2);
    PinArgsDictEncoded([(k, v1), (k, v2)], 1);
    forall x | true
      ensures x in PinArgsDict(Encode([(k, v1), (k, v2)])).value <==> x == k
    {
      PinArgsDictNames([(k, v1), (k, v2)], x);
    }
    var m := PinArgsDict(Encode([(k, v1), (k, v2)])).value;
    assert m.Keys == map[k := v2].Keys;
    assert m == map[k := v2];
    assert PinArgsDict(Encode([(k, v1), (k, v2)])) == Some(map[k := v2]);
  }

  /** `pin_args_dict("a=1;b=2")` is `{a: '1', b: '2'}`. */
  lemma PinArgsDictExample(s: string)
    requires s == "a=1;b=2"
    ensures PinArgsDict(s) == Some(map["a" := "1", "b" := "2"])
  {
    assert s == s[..1] + "=" + s[2..3] + ";" + s[4..5] + "=" + s[6..];
    assert s[..1] == "a" && s[2..3] == "1" && s[4..5] == "b" && s[6..] == "2";
    PinArgsDictTwo(s[..1], s[2..3], s[4..5], s[6..]);
  }

  /** `pin_args_dict("a=1;a=2")` keeps the later value. */
  lemma PinArgsDictOverwrites(s: string)
    requires s == "a=1;a=2"
    ensures PinArgsDict(s) == Some(map["a" := "2"])
  {
    assert s == s[..1] + "=" + s[2..3] + ";" + s[4..5] + "=" + s[6..];
    assert s[4..5] == s[..1];
    assert s[..1] == "a" && s[2..3] == "1" && s[6..] == "2";
    PinArgsDictSame(s[..1], s[2..3], s[6..]);
  }

  // ---------------------------------------------------------------------------
  // create_ucp_tip
  // ---------------------------------------------------------------------------

  /** The tooltip's heading: the pin's name in bold, then its origin. */
  function TipHead(pin: Pin): string
  {
    "<b>" + pin.name + "</b><br>" + "src: [<i>" + pin.orgName + "</i>]<br>" + "args:<br>"
  }

  /** `"{} = <i>{}</i>".format(*arg)`: pieces after the second are ignored,
      and fewer than two fail (`None`: Python raises IndexError). */
  function EntryTip(parts: seq<string>): (r: Option<string>)
    ensures r.Some? <==> |parts| >= 2
  {
    if |parts| < 2 then None else Some(parts[0] + " = <i>" + parts[1] + "</i>")
  }

  /** The tooltip line of every entry, in order. */
  function EntryTips(parts: seq<seq<string>>): (r: Option<seq<string>>)
    ensures r.Some? ==> |r.value| == |parts|
  {
    if |parts| == 0 then Some([])
    else
      var head :- EntryTip(parts[0]);
      var tail :- EntryTips(parts[1..]);
      Some([head] + tail)
  }

  /** `create_ucp_tip(pin)`. */
  function CreateUcpTip(pin: Pin): (r: Option<string>)
    ensures r.Some? ==> StartsWith(r.value, TipHead(pin))
  {
    var tips :- EntryTips(ArgsSplit(pin.args));
    Some(TipHead(pin) + Join(tips, "<br>"))
  }

  /** The tips exist exactly when every entry has at least two pieces. */
  lemma {:induction false} EntryTipsFail(parts: seq<seq<string>>)
    ensures EntryTips(parts).None? <==> exists j :: 0 <= j < |parts| && |parts[j]| < 2
    decreases |parts|
  {
    if |parts| > 0 && |parts[0]| < 2 {
      assert |parts[0]| < 2;
    } else if |parts| > 0 {
      EntryTipsFail(parts[1..]);
      if exists j :: 0 <= j < |parts[1..]| && |parts[1..][j]| < 2 {
        var j :| 0 <= j < |parts[1..]| && |parts[1..][j]| < 2;
        assert |parts[j + 1]| < 2;
      }
      if exists j :: 0 <= j < |parts| && |parts[j]| < 2 {
        var j :| 0 <= j < |parts| && |parts[j]| < 2;
        assert |parts[1..][j - 1]| < 2;
      }
    }
  }

  /** The tooltip fails exactly when some entry holds no `=`: an empty
      argument text fails too, since it is one empty entry. */
  lemma CreateUcpTipFails(pin: Pin)
    ensures CreateUcpTip(pin).None? <==>
      exists i :: 0 <= i < |Split(pin.args, ';')| && '=' !in Split(pin.args, ';')[i]
  {
    EntryTipsFail(ArgsSplit(pin.args));
    forall i | 0 <= i < |Split(pin.args, ';')|
      ensures |ArgsSplit(pin.args)[i]| < 2 <==> '=' !in Split(pin.args, ';')[i]
    {
      CountPositive(Split(pin.args, ';')[i], '=');
    }
  }

  /** `k = <i>v</i>` for each pair. */
  function PairTips(pairs: seq<(string, string)>): (r: seq<string>)
    ensures |r| == |pairs|
    ensures forall i :: 0 <= i < |r| ==> r[i] == pairs[i].0 + " = <i>" + pairs[i].1 + "</i>"
  {
    if |pairs| == 0 then [] else [pairs[0].0 + " = <i>" + pairs[0].1 + "</i>"] + PairTips(pairs[1..])
  }

  /** Each pair as a name/value list renders as that pair's tip. */
  lemma {:induction false} EntryTipsOfPairs(pairs: seq<(string, string)>)
    ensures EntryTips(PairLists(pairs)) == Some(PairTips(pairs))
    decreases |pairs|
  {
    if |pairs| > 0 {
      EntryTipsOfPairs(pairs[1..]);
      assert PairLists(pairs)[1..] == PairLists(pairs[1..]);
    }
  }

  /** For stored pairs the tooltip is the heading followed by one
      `k = <i>v</i>` line per pair, in the stored order, joined by `<br>`. */
  lemma CreateUcpTipEncoded(pin: Pin, pairs: seq<(string, string)>)
    requires |pairs| >= 1 && Storable(pairs)
    requires pin.args == Encode(pairs)
    ensures CreateUcpTip(pin) == Some(TipHead(pin) + Join(PairTips(pairs), "<br>"))
  {
    ArgsSplitEncoded(pairs);
    EntryTipsOfPairs(pairs);
  }

  /** An entry with two `=` is rendered by the tooltip, which ignores the
      rest, but fails to unpack in `pin_args_dict`. */
  lemma TipOutlivesDict(pin: Pin)
    requires pin.args == "a=b=c"
    ensures CreateUcpTip(pin) == Some(TipHead(pin) + "a = <i>b</i>")
    ensures PinArgsDict(pin.args).None?
  {
    assert pin.args == pin.args[..1] + "=" + pin.args[2..3] + "=" + pin.args[4..];
    assert pin.args[..1] == "a" && pin.args[2..3] == "b" && pin.args[4..] == "c";
    ThreePieces(pin.args[..1], pin.args[2..3], pin.args[4..]);
    TipOfThree(pin, pin.args[..1], pin.args[2..3], pin.args[4..]);
    assert pin.args[..1] + " = <i>" + pin.args[2..3] + "</i>" == "a = <i>b</i>";
  }

  /** `x=y=z` is one entry of three pieces. */
  lemma ThreePieces(x: string, y: string, z: string)
    requires '=' !in x && '=' !in y && '=' !in z
    requires ';' !in x && ';' !in y && ';' !in z
    ensures ArgsSplit(x + "=" + y + "=" + z) == [[x, y, z]]
  {
    assert x + "=" + y + "=" + z == x + "=" + (y + "=" + z);
    SplitSeparated(x, y + "=" + z, '=');
    SplitSeparated(y, z, '=');
    SplitWhole(z, '=');
    assert Split(x + "=" + y + "=" + z, '=') == [x, y, z];
    assert ';' !in x + "=" + y + "=" + z;
    SplitWhole(x + "=" + y + "=" + z, ';');
    assert CutAll([x + "=" + y + "=" + z]) == [Split(x + "=" + y + "=" + z, '=')];
  }

  /** One entry of three pieces: the tooltip shows the first two, the
      dictionary fails. */
  lemma TipOfThree(pin: Pin, x: string, y: string, z: string)
    requires ArgsSplit(pin.args) == [[x, y, z]]
    ensures CreateUcpTip(pin) == Some(TipHead(pin) + (x + " = <i>" + y + "</i>"))
    ensures PinArgsDict(pin.args).None?
  {
    assert [[x, y, z]][1..] == [];
    assert EntryTip([x, y, z]) == Some(x + " = <i>" + y + "</i>");
    assert EntryTips([[x, y, z]][1..]) == Some([]);
    assert [x + " = <i>" + y + "</i>"] + [] == [x + " = <i>" + y + "</i>"];
    assert EntryTips([[x, y, z]]) == Some([x + " = <i>" + y + "</i>"]);
  }
}

=== FILE: pylines.dfy ===
/** The statement builder `PyLines` (lib/parser/pyparser.py:176-214; the older
    one at parser/pyparser.py:129-157 has no key set): statements of the form
    `var = src.cls(args)(call)`, each part left out when it is falsy. */
module Statements {
  import opened PyStr
  import opened Doc

  /** The statements so far, and the `cls:var` keys of every `add`. */
  datatype PyLines = PyLines(lines: seq<string>, counts: set<string>)

  const Empty := PyLines([], {})

  /** The `var = ` part. */
  function VarPart(v: PyValue): (r: string)
    ensures Truthy(v) ==> r == Show(v) + " = "
    ensures !Truthy(v) ==> r == ""
  {
    if Truthy(v) then Show(v) + " = " else ""
  }

  /** The `src.` part. */
  function SrcPart(src: string): (r: string)
    ensures src != "" ==> r == src + "."
    ensures src == "" ==> r == ""
  {
    if src != "" then src + "." else ""
  }

  /** The `cls(args)` part: the arguments appear only with a class. */
  function ClassPart(cls: PyValue, args: string): (r: string)
    ensures Truthy(cls) ==> r == Show(cls) + "(" + args + ")"
    ensures !Truthy(cls) ==> r == ""
  {
    if Truthy(cls) then Show(cls) + "(" + args + ")" else ""
  }

  /** The `(call)` part. */
  function CallPart(call: PyValue): (r: string)
    ensures Truthy(call) ==> r == "(" + Show(call) + ")"
    ensures !Truthy(call) ==> r == ""
  {
    if Truthy(call) then "(" + Show(call) + ")" else ""
  }

  /** The text `add` builds: the four parts in order, each one present
      exactly when its value is truthy. */
  function Render(v: PyValue, src: string, cls: PyValue, args: string, call: PyValue): (r: string)
  {
    VarPart(v) + (SrcPart(src) + (ClassPart(cls, args) + CallPart(call)))
  }

  /** A truthy variable opens the statement with its assignment. */
  lemma RenderAssigns(v: PyValue, src: string, cls: PyValue, args: string, call: PyValue)
    requires Truthy(v)
    ensures Show(v) + " = " <= Render(v, src, cls, args, call)
  {
    PrefixOfConcat(Show(v) + " = ", SrcPart(src) + (ClassPart(cls, args) + CallPart(call)));
  }

  /** A truthy call closes the statement with its parenthesised value. */
  lemma RenderCalls(v: PyValue, src: string, cls: PyValue, args: string, call: PyValue)
    requires Truthy(call)
    ensures EndsWith(Render(v, src, cls, args, call), "(" + Show(call) + ")")
  {
    SuffixOfConcat(ClassPart(cls, args), CallPart(call));
    EndsWithExtend(SrcPart(src), ClassPart(cls, args) + CallPart(call), CallPart(call));
    EndsWithExtend(VarPart(v), SrcPart(src) + (ClassPart(cls, args) + CallPart(call)), CallPart(call));
  }

  /** Nothing falsy contributes text: with every part falsy the statement is
      empty, and its length is the sum of the present parts. */
  lemma RenderOmitsFalsy(v: PyValue, src: string, cls: PyValue, args: string, call: PyValue)
    ensures !Truthy(v) && src == "" && !Truthy(cls) && !Truthy(call) ==>
      Render(v, src, cls, args, call) == ""
    ensures !Truthy(cls) ==> Render(v, src, cls, args, call) == VarPart(v) + (SrcPart(src) + CallPart(call))
  {
  }

  /** The key `add` records: `f'{cls}:{var}'`. */
  function Key(cls: PyValue, v: PyValue): string
  {
    Show(cls) + ":" + Show(v)
  }

  /** `PyLines.add`: exactly one statement is appended, nothing before it
      changes, and the node's key becomes known. */
  function Add(pl: PyLines, v: PyValue, src: string, cls: PyValue, args: string, call: PyValue)
    : (r: PyLines)
    ensures |r.lines| == |pl.lines| + 1
    ensures r.lines[..|pl.lines|] == pl.lines
    ensures r.lines[|pl.lines|] == Render(v, src, cls, args, call)
    ensures r.counts == pl.counts + {Key(cls, v)}
  {
    PyLines(pl.lines + [Render(v, src, cls, args, call)], pl.counts + {Key(cls, v)})
  }

  /** `PyLines.contains`. */
  function Contains(pl: PyLines, elm: string): bool
  {
    elm in pl.counts
  }

  /** An entrance statement: no call part. */
  lemma RenderEntrance()
    ensures Render(Str("x"), "layers", Str("Input"), "shape=(4,)", NoneValue)
         == "x = layers.Input(shape=(4,))"
  {
  }

  /** A node without a variable, arguments or call still gets its class
      called. */
  lemma RenderBareClass()
    ensures Render(NoneValue, "layers", Str("Flatten"), "", NoneValue) == "layers.Flatten()"
  {
  }

  /** A key once recorded stays recorded, and the key of each added node is
      found afterwards. */
  lemma AddRecords(pl: PyLines, v: PyValue, src: string, cls: PyValue, args: string, call: PyValue, k: string)
    ensures Contains(Add(pl, v, src, cls, args, call), Key(cls, v))
    ensures Contains(pl, k) ==> Contains(Add(pl, v, src, cls, args, call), k)
  {
  }
}

=== FILE: pystr.dfy ===
/** The slice of Python's `str` behaviour the compiler and its helpers rely on:
    `sep.join`, `str.split` on one character, substring `in`, `repr`, `strip`,
    ASCII case mapping and decimal conversion. Characters outside ASCII are
    treated as ordinary printable, non-space, non-word characters. */
module PyStr {
  import opened Wrappers

  // ---------------------------------------------------------------------------
  // join / split
  // ---------------------------------------------------------------------------

  /** `sep.join(xs)`. */
  function Join(xs: seq<string>, sep: string): string
  {
    if |xs| == 0 then ""
    else if |xs| == 1 then xs[0]
    else xs[0] + sep + Join(xs[1..], sep)
  }

  lemma JoinCons(a: string, xs: seq<string>, sep: string)
    requires |xs| >= 1
    ensures Join([a] + xs, sep) == a + sep + Join(xs, sep)
  {
    assert ([a] + xs)[1..] == xs;
  }

  lemma JoinAppend(xs: seq<string>, ys: seq<string>, sep: string)
    requires |xs| >= 1 && |ys| >= 1
    ensures Join(xs + ys, sep) == Join(xs, sep) + sep + Join(ys, sep)
  {
    if |xs| == 1 {
      JoinCons(xs[0], ys, sep);
      assert xs + ys == [xs[0]] + ys;
    } else {
      assert (xs + ys)[1..] == xs[1..] + ys;
      JoinAppend(xs[1..], ys, sep);
    }
  }

  /** `s.split(c)`: the pieces between occurrences of `c`. Python returns one
      piece more than there are separators, so the result is never empty. */
  function Split(s: string, c: char): (r: seq<string>)
    ensures |r| == Count(s, c) + 1
    ensures forall i :: 0 <= i < |r| ==> c !in r[i]
    decreases |s|
  {
    if |s| == 0 then [""]
    else
      var rest := Split(s[1..], c);
      if s[0] == c then [""] + rest
      else [[s[0]] + rest[0]] + rest[1..]
  }

  /** Joining the pieces with the separator gives back the string. */
  lemma {:induction false} JoinSplit(s: string, c: char)
    ensures Join(Split(s, c), [c]) == s
    decreases |s|
  {
    if |s| > 0 {
      var rest := Split(s[1..], c);
      JoinSplit(s[1..], c);
      if s[0] == c {
        JoinCons("", rest, [c]);
      } else {
        PrependToHead(s[0], rest, [c]);
      }
      assert [s[0]] + s[1..] == s;
    }
  }

  /** Every character of a piece occurs in the string split. */
  lemma {:induction false} SplitChars(s: string, c: char, i: nat, x: char)
    requires i < |Split(s, c)| && x in Split(s, c)[i]
    ensures x in s
    decreases |s|
  {
    if |s| > 0 {
      var rest := Split(s[1..], c);
      if s[0] == c {
        SplitChars(s[1..], c, i - 1, x);
      } else if i == 0 {
        if x != s[0] {
          assert x in rest[0];
          SplitChars(s[1..], c, 0, x);
        }
      } else {
        SplitChars(s[1..], c, i, x);
      }
    }
  }

  lemma {:induction false} CountConcat(a: string, b: string, c: char)
    ensures Count(a + b, c) == Count(a, c) + Count(b, c)
    decreases |a|
  {
    if |a| > 0 {
      assert (a + b)[1..] == a[1..] + b;
      CountConcat(a[1..], b, c);
    } else {
      assert a + b == b;
    }
  }

  /** Number of occurrences of `c` in `s`. */
  function Count(s: string, c: char): nat
  {
    if |s| == 0 then 0 else (if s[0] == c then 1 else 0) + Count(s[1..], c)
  }

  /** `c` occurs in `s` exactly when it is counted there. */
  lemma {:induction false} CountPositive(s: string, c: char)
    ensures Count(s, c) > 0 <==> c in s
    decreases |s|
  {
    if |s| > 0 {
      CountPositive(s[1..], c);
      assert s == [s[0]] + s[1..];
    }
  }

  lemma PrependToHead(ch: char, xs: seq<string>, sep: string)
    requires |xs| >= 1
    ensures Join([[ch] + xs[0]] + xs[1..], sep) == [ch] + Join(xs, sep)
  {
    if |xs| > 1 {
      JoinCons([ch] + xs[0], xs[1..], sep);
      JoinCons(xs[0], xs[1..], sep);
      assert xs == [xs[0]] + xs[1..];
    }
  }

  lemma {:induction false} SplitSeparated(a: string, b: string, c: char)
    requires c !in a
    ensures Split(a + [c] + b, c) == [a] + Split(b, c)
    decreases |a|
  {
    if |a| == 0 {
      assert a + [c] + b == [c] + b;
      assert ([c] + b)[1..] == b;
    } else {
      assert (a + [c] + b)[1..] == a[1..] + [c] + b;
      SplitSeparated(a[1..], b, c);
      assert [a[0]] + a[1..] == a;
    }
  }

  lemma {:induction false} SplitWhole(a: string, c: char)
    requires c !in a
    ensures Split(a, c) == [a]
    decreases |a|
  {
    if |a| > 0 {
      SplitWhole(a[1..], c);
      assert [a[0]] + a[1..] == a;
    }
  }

  /** Splitting a `c`-join gives back the pieces, provided none contains `c`:
      `Split` and `Join` are inverse on such lists. */
  lemma {:induction false} SplitJoin(xs: seq<string>, c: char)
    requires |xs| >= 1
    requires forall i :: 0 <= i < |xs| ==> c !in xs[i]
    ensures Split(Join(xs, [c]), c) == xs
    decreases |xs|
  {
    if |xs| == 1 {
      SplitWhole(xs[0], c);
    } else {
      SplitJoin(xs[1..], c);
      SplitSeparated(xs[0], Join(xs[1..], [c]), c);
      assert [xs[0]] + xs[1..] == xs;
    }
  }

  /** Extending the head of a list commutes with appending to the list. */
  lemma ExtendHeadAppend(x: char, ra: seq<string>, rb: seq<string>)
    requires |ra| > 0
    ensures [[x] + (ra + rb)[0]] + (ra + rb)[1..] == ([[x] + ra[0]] + ra[1..]) + rb
  {
    assert (ra + rb)[1..] == ra[1..] + rb;
  }

  /** Splitting distributes over a separator placed between two strings. */
  lemma {:induction false} SplitConcat(a: string, b: string, c: char)
    ensures Split(a + [c] + b, c) == Split(a, c) + Split(b, c)
    decreases |a|
  {
    var rb := Split(b, c);
    var t := a + [c] + b;
    if |a| == 0 {
      assert t[1..] == b;
    } else {
      assert t[0] == a[0];
      assert t[1..] == a[1..] + [c] + b;
      SplitConcat(a[1..], b, c);
      var ra := Split(a[1..], c);
      assert Split(t[1..], c) == ra + rb;
      if a[0] == c {
        assert Split(t, c) == [""] + (ra + rb);
        assert Split(a, c) == [""] + ra;
      } else {
        assert Split(t, c) == [[a[0]] + (ra + rb)[0]] + (ra + rb)[1..];
        assert Split(a, c) == [[a[0]] + ra[0]] + ra[1..];
        ExtendHeadAppend(a[0], ra, rb);
      }
    }
  }

  // ---------------------------------------------------------------------------
  // substrings, prefixes, replacing
  // ---------------------------------------------------------------------------

  /** Python's `sub in s` for two strings. */
  predicate IsSubstring(sub: string, s: string)
    decreases |s|
  {
    sub <= s || (|s| > 0 && IsSubstring(sub, s[1..]))
  }

  lemma SubstringOfSelf(s: string)
    ensures IsSubstring(s, s)
  {
  }

  function StartsWith(s: string, p: string): bool { p <= s }

  function EndsWith(s: string, p: string): bool
  {
    |p| <= |s| && s[|s| - |p|..] == p
  }

  lemma PrefixOfConcat(a: string, b: string)
    ensures a <= a + b
  {
    assert (a + b)[..|a|] == a;
  }

  lemma SuffixOfConcat(a: string, b: string)
    ensures EndsWith(a + b, b)
  {
    assert (a + b)[|a|..] == b;
  }

  lemma EndsWithExtend(a: string, s: string, p: string)
    requires EndsWith(s, p)
    ensures EndsWith(a + s, p)
  {
    assert (a + s)[|a + s| - |p|..] == s[|s| - |p|..];
  }

  /** `s.replace(c, by)` for a one-character pattern. */
  function ReplaceChar(s: string, c: char, rep: string): (r: string)
    ensures c !in rep ==> c !in r
    ensures |rep| == 1 ==> |r| == |s|
  {
    if |s| == 0 then ""
    else (if s[0] == c then rep else [s[0]]) + ReplaceChar(s[1..], c, rep)
  }

  lemma {:induction false} ReplaceConcat(a: string, b: string, c: char, rep: string)
    ensures ReplaceChar(a + b, c, rep) == ReplaceChar(a, c, rep) + ReplaceChar(b, c, rep)
    decreases |a|
  {
    if |a| > 0 {
      assert (a + b)[1..] == a[1..] + b;
      ReplaceConcat(a[1..], b, c, rep);
    } else {
      assert a + b == b;
    }
  }

  /** Replacing a character that does not occur changes nothing. */
  lemma {:induction false} ReplaceAbsent(s: string, c: char, rep: string)
    requires c !in s
    ensures ReplaceChar(s, c, rep) == s
    decreases |s|
  {
    if |s| > 0 {
      ReplaceAbsent(s[1..], c, rep);
      assert [s[0]] + s[1..] == s;
    }
  }

  /** Every character of the result came from `s` or from `rep`. */
  lemma {:induction false} ReplaceChars(s: string, c: char, rep: string, x: char)
    requires x in ReplaceChar(s, c, rep)
    ensures x in s || x in rep
    decreases |s|
  {
    if |s| > 0 {
      var head := if s[0] == c then rep else [s[0]];
      if x !in head {
        assert x in ReplaceChar(s[1..], c, rep);
        ReplaceChars(s[1..], c, rep, x);
      }
    }
  }

  /** `s` with every character of `drop` removed. */
  function RemoveChars(s: string, drop: set<char>): (r: string)
    ensures forall i :: 0 <= i < |r| ==> r[i] !in drop
    ensures |r| <= |s|
  {
    if |s| == 0 then ""
    else (if s[0] in drop then "" else [s[0]]) + RemoveChars(s[1..], drop)
  }

  /** Removing characters distributes over concatenation. */
  lemma {:induction false} RemoveCharsConcat(a: string, b: string, drop: set<char>)
    ensures RemoveChars(a + b, drop) == RemoveChars(a, drop) + RemoveChars(b, drop)
    decreases |a|
  {
    if |a| > 0 {
      assert (a + b)[1..] == a[1..] + b;
      RemoveCharsConcat(a[1..], b, drop);
    } else {
      assert a + b == b;
    }
  }

  /** A string with none of the dropped characters is left as it is. */
  lemma {:induction false} RemoveCharsAbsent(s: string, drop: set<char>)
    requires forall i :: 0 <= i < |s| ==> s[i] !in drop
    ensures RemoveChars(s, drop) == s
    decreases |s|
  {
    if |s| > 0 {
      RemoveCharsAbsent(s[1..], drop);
      assert [s[0]] + s[1..] == s;
    }
  }

  /** Every character that is not dropped survives. */
  lemma {:induction false} RemoveCharsKeeps(s: string, drop: set<char>, x: char)
    requires x in s && x !in drop
    ensures x in RemoveChars(s, drop)
    decreases |s|
  {
    if s[0] != x {
      assert x in s[1..];
      RemoveCharsKeeps(s[1..], drop, x);
    }
  }

  // ---------------------------------------------------------------------------
  // character classes and case
  // ---------------------------------------------------------------------------

  predicate IsDigit(c: char) { '0' <= c <= '9' }

  predicate IsUpper(c: char) { 'A' <= c <= 'Z' }

  predicate IsLower(c: char) { 'a' <= c <= 'z' }

  /** Python's `\w` restricted to ASCII. */
  predicate IsWordChar(c: char) { IsDigit(c) || IsUpper(c) || IsLower(c) || c == '_' }

  /** Characters `str.strip()` removes (the ASCII ones). */
  const Whitespace: set<char> :=
    {' ', '\t', '\n', '\r', '\U{b}', '\U{c}', '\U{1c}', '\U{1d}', '\U{1e}', '\U{1f}'}

  /** `string.punctuation`. */
  const Punctuation: set<char> :=
    {'!', '"', '#', '$', '%', '&', '\'', '(', ')', '*', '+', ',', '-', '.', '/',
     ':', ';', '<', '=', '>', '?', '@', '[', '\\', ']', '^', '_', '`', '{', '|', '}', '~'}

  function LowerChar(c: char): (r: char)
    ensures !IsUpper(r)
  {
    if IsUpper(c) then (c as int + 32) as char else c
  }

  function UpperChar(c: char): (r: char)
    ensures !IsLower(r)
  {
    if IsLower(c) then (c as int - 32) as char else c
  }

  /** `s.lower()`. */
  function Lower(s: string): (r: string)
    ensures |r| == |s|
    ensures forall i :: 0 <= i < |r| ==> r[i] == LowerChar(s[i])
  {
    if |s| == 0 then "" else [LowerChar(s[0])] + Lower(s[1..])
  }

  /** `s.capitalize()`: first character upper case, the rest lower case. */
  function Capitalize(s: string): (r: string)
    ensures |r| == |s|
    ensures |s| > 0 ==> r[0] == UpperChar(s[0])
    ensures forall i :: 1 <= i < |r| ==> r[i] == LowerChar(s[i])
  {
    if |s| == 0 then "" else [UpperChar(s[0])] + Lower(s[1..])
  }

  /** The first index from `i` on that does not hold white space. */
  function BlankEnd(s: string, i: nat): (k: nat)
    requires i <= |s|
    ensures i <= k <= |s|
    ensures k < |s| ==> s[k] !in Whitespace
    ensures forall j :: i <= j < k ==> s[j] in Whitespace
    decreases |s| - i
  {
    if i < |s| && s[i] in Whitespace then BlankEnd(s, i + 1) else i
  }

  /** The last index up to `j` behind which there is only white space. */
  function BlankStart(s: string, j: nat): (k: nat)
    requires j <= |s|
    ensures k <= j
    ensures k > 0 ==> s[k - 1] !in Whitespace
    ensures forall i :: k <= i < j ==> s[i] in Whitespace
  {
    if j > 0 && s[j - 1] in Whitespace then BlankStart(s, j - 1) else j
  }

  /** `s.lstrip()`. */
  function StripLeft(s: string): (r: string)
    ensures |r| <= |s| && r == s[|s| - |r|..]
    ensures |r| > 0 ==> r[0] !in Whitespace
    ensures forall i :: 0 <= i < |s| - |r| ==> s[i] in Whitespace
  {
    s[BlankEnd(s, 0)..]
  }

  /** `s.rstrip()`. */
  function StripRight(s: string): (r: string)
    ensures |r| <= |s| && r == s[..|r|]
    ensures |r| > 0 ==> r[|r| - 1] !in Whitespace
    ensures forall i :: |r| <= i < |s| ==> s[i] in Whitespace
  {
    s[..BlankStart(s, |s|)]
  }

  /** `s.strip()`. */
  function Strip(s: string): (r: string)
    ensures |r| <= |s|
    ensures |r| > 0 ==> r[0] !in Whitespace && r[|r| - 1] !in Whitespace
  {
    StripRight(StripLeft(s))
  }

  // ---------------------------------------------------------------------------
  // decimal numbers
  // ---------------------------------------------------------------------------

  function DigitChar(d: nat): char
    requires d < 10
  {
    ('0' as int + d) as char
  }

  function DigitValue(c: char): nat
    requires IsDigit(c)
  {
    c as int - '0' as int
  }

  predicate AllDigits(s: string)
  {
    forall i :: 0 <= i < |s| ==> IsDigit(s[i])
  }

  /** `str(n)` for a natural number. */
  function NatToDecimal(n: nat): (r: string)
    ensures |r| >= 1 && AllDigits(r)
    ensures n < 10 <==> |r| == 1
  {
    if n < 10 then [DigitChar(n)] else NatToDecimal(n / 10) + [DigitChar(n % 10)]
  }

  /** `int(s)` for a non-empty string of ASCII digits; `None` otherwise. */
  function ParseDecimal(s: string): (r: Option<nat>)
    ensures r.Some? <==> |s| > 0 && AllDigits(s)
  {
    if |s| == 0 || !IsDigit(s[|s| - 1]) then None
    else if |s| == 1 then Some(DigitValue(s[0]))
    else match ParseDecimal(s[..|s| - 1])
      case None => None
      case Some(p) => Some(p * 10 + DigitValue(s[|s| - 1]))
  }

  /** `int(str(n)) == n`. */
  lemma {:induction false} DecimalRoundTrip(n: nat)
    ensures ParseDecimal(NatToDecimal(n)) == Some(n)
  {
    if n >= 10 {
      DecimalRoundTrip(n / 10);
      var s := NatToDecimal(n);
      assert s[..|s| - 1] == NatToDecimal(n / 10);
    }
  }

  // ---------------------------------------------------------------------------
  // repr
  // ---------------------------------------------------------------------------

  function HexDigit(d: nat): char
    requires d < 16
  {
    if d < 10 then DigitChar(d) else ('a' as int + d - 10) as char
  }

  /** The escape `repr` writes for one character inside quotes `q`. */
  function EscapeChar(c: char, q: char): string
  {
    if c == '\\' then "\\\\"
    else if c == q then ['\\', q]
    else if c == '\t' then "\\t"
    else if c == '\n' then "\\n"
    else if c == '\r' then "\\r"
    else if c < ' ' || c == '\U{7f}' then ['\\', 'x', HexDigit(c as int / 16), HexDigit(c as int % 16)]
    else [c]
  }

  function EscapeAll(s: string, q: char): string
  {
    if |s| == 0 then "" else EscapeChar(s[0], q) + EscapeAll(s[1..], q)
  }

  /** `repr(s)`: double quotes only when `s` holds a single quote and no double quote. */
  function Repr(s: string): (r: string)
    ensures |r| >= 2
    ensures r[0] == r[|r| - 1] && r[0] in {'\'', '"'}
  {
    var q := if '\'' in s && '"' !in s then '"' else '\'';
    [q] + EscapeAll(s, q) + [q]
  }

  predicate Plain(s: string)
  {
    forall i :: 0 <= i < |s| ==> ' ' <= s[i] && s[i] != '\U{7f}' && s[i] != '\\' && s[i] != '\''
  }

  lemma {:induction false} EscapePlain(s: string, q: char)
    requires Plain(s) && q == '\''
    ensures EscapeAll(s, q) == s
    decreases |s|
  {
    if |s| > 0 {
      EscapePlain(s[1..], q);
      assert [s[0]] + s[1..] == s;
    }
  }

  /** A string without quotes, backslashes or control characters is shown
      verbatim between single quotes. */
  lemma ReprPlain(s: string)
    requires Plain(s)
    ensures Repr(s) == "'" + s + "'"
  {
    EscapePlain(s, '\'');
  }

  /** `str(list_of_str)`: `['a', 'b']`. */
  function ListRepr(xs: seq<string>): (r: string)
    ensures |r| >= 2 && r[0] == '[' && r[|r| - 1] == ']'
  {
    "[" + Join(ReprAll(xs), ", ") + "]"
  }

  function ReprAll(xs: seq<string>): (r: seq<string>)
    ensures |r| == |xs|
    ensures forall i :: 0 <= i < |xs| ==> r[i] == Repr(xs[i])
  {
    if |xs| == 0 then [] else [Repr(xs[0])] + ReprAll(xs[1..])
  }

  /** `str(tuple_of_str)`: `('a',)` for one element, `('a', 'b')` otherwise. */
  function TupleRepr(xs: seq<string>): (r: string)
    ensures |r| >= 2 && r[0] == '(' && r[|r| - 1] == ')'
  {
    if |xs| == 1 then "(" + Repr(xs[0]) + ",)" else "(" + Join(ReprAll(xs), ", ") + ")"
  }
}

=== FILE: saver.dfy ===
/** The saver (lib/parser/saver.py): the editor's serialized scene, one
    record per item, becomes the document the compiler reads. Coordinates
    are written but never read by the compiler and are left out; the XML
    text itself is not modelled, only the elements it holds. */
module Saver {
  import opened Wrappers
  import opened PyStr
  import opened Errors
  import opened Doc
  import opened Compiler

  const NullText := "null"

  /** One entry of a record's `args` dict: its name, its value and its
      type class. */
  datatype FeedArg = FeedArg(name: string, value: PyValue, dtype: string)

  /** One serialized scene item. Fields a tag does not use are ignored. */
  datatype Feed = Feed(
    tag: string,
    id: string,
    varName: string,
    cls: string,
    args: seq<FeedArg>,
    mode: string,
    input: seq<string>,
    output: seq<string>,
    unitType: string,
    content: string)

  /** `seq2str(seq, repair_req)`: the items joined with `;`, or a sentinel
      for an empty sequence: `!REQ` when repairing, `null` otherwise. */
  function Seq2Str(xs: seq<string>, repair: bool): (r: string)
    ensures |xs| == 0 && repair ==> r == RequiredMark
    ensures |xs| == 0 && !repair ==> r == NullText
    ensures |xs| > 0 ==> Split(r, ';') == xs || exists i :: 0 <= i < |xs| && ';' in xs[i]
  {
    if |xs| > 0 then
      if forall i :: 0 <= i < |xs| ==> ';' !in xs[i] then
        SplitJoin(xs, ';');
        Join(xs, ";")
      else Join(xs, ";")
    else if repair then RequiredMark
    else NullText
  }

  /** What the compiler reads back from a sequence the saver wrote: the
      same items, as long as none holds `;` and they are not all empty. */
  lemma Seq2StrRoundTrip(xs: seq<string>, repair: bool)
    requires |xs| > 0 && forall i :: 0 <= i < |xs| ==> ';' !in xs[i]
    requires |xs| > 1 || xs[0] != ""
    ensures NodeValue(Seq2Str(xs, repair), true) == List(xs)
  {
    SplitJoin(xs, ';');
    var t := Seq2Str(xs, repair);
    if |xs| == 1 {
      assert t == xs[0];
    } else {
      JoinCons(xs[0], xs[1..], ";");
      assert [xs[0]] + xs[1..] == xs;
      assert t == xs[0] + ";" + Join(xs[1..], ";");
      assert t[|xs[0]|] == ';';
    }
  }

  /** An empty sequence reads back as the one-item list of its sentinel. */
  lemma Seq2StrSentinels()
    ensures NodeValue(Seq2Str([], true), true) == List([RequiredMark])
    ensures NodeValue(Seq2Str([], false), true) == List([NullText])
  {
  }

  /** The text of one argument element. A model's `inputs` and `outputs`
      are sequences joined with the `!REQ` sentinel; any other falsy value
      is marked `!REQ`; a `str` is written as it is, and a non-empty list
      is refused by the element's text setter. */
  function ArgText(a: FeedArg, io: bool): (r: Result<string, Fault>)
    ensures io && a.name in {"inputs", "outputs"} ==> r.Ok?
    ensures !(io && a.name in {"inputs", "outputs"}) ==>
      (r.Ok? <==> !a.value.List? || a.value.items == []) &&
      (r.Ok? ==> r.value != "" && (r.value == RequiredMark <==> !Truthy(a.value) || a.value == Str(RequiredMark)))
  {
    if io && a.name in {"inputs", "outputs"} then
      if Truthy(a.value) then Ok(Seq2Str(Iterate(a.value).value, true)) else Ok(RequiredMark)
    else if !Truthy(a.value) then Ok(RequiredMark)
    else if a.value.Str? then Ok(a.value.s)
    else Err(TypeError("element text must be a string"))
  }

  /** `_args_wheel(root, args, io_convert)`: one element per argument, in
      order, carrying the argument's name and its type class. */
  function ArgsWheel(args: seq<FeedArg>, io: bool): (r: Result<seq<Arg>, Fault>)
    ensures r.Ok? <==> forall i :: 0 <= i < |args| ==> ArgText(args[i], io).Ok?
    ensures r.Ok? ==> (|r.value| == |args| &&
      forall i :: 0 <= i < |args| ==>
        r.value[i] == Arg(args[i].name, ArgText(args[i], io).value, args[i].dtype))
  {
    if |args| == 0 then Ok([])
    else
      match ArgText(args[0], io)
      case Err(e) => Err(e)
      case Ok(t) =>
        match ArgsWheel(args[1..], io)
        case Err(e) => Err(e)
        case Ok(rest) => Ok([Arg(args[0].name, t, args[0].dtype)] + rest)
  }

  /** `_for_layer`: an entrance exactly when the class is `Input`; a layer
      without inputs or outputs stores `null` for them. */
  function ForLayer(f: Feed): (r: Result<Entity, Fault>)
    ensures r.Ok? <==> ArgsWheel(f.args, false).Ok?
    ensures r.Ok? ==> r.value.Layer? && r.value.id == f.id
    ensures r.Ok? ==> (r.value.head <==> f.cls == "Input")
    ensures r.Ok? ==> r.value.input == Seq2Str(f.input, false) && r.value.output == Seq2Str(f.output, false)
    ensures r.Ok? ==> r.value.args == ArgsWheel(f.args, false).value
  {
    var args :- ArgsWheel(f.args, false);
    Ok(Layer(f.id, f.cls == "Input", f.varName, f.cls, args, f.mode,
             Seq2Str(f.input, false), Seq2Str(f.output, false)))
  }

  /** `_for_model`: the arguments with `inputs`/`outputs` converted. */
  function ForModel(f: Feed): (r: Result<Entity, Fault>)
    ensures r.Ok? <==> ArgsWheel(f.args, true).Ok?
    ensures r.Ok? ==> r.value == Model(f.id, f.varName, f.cls, ArgsWheel(f.args, true).value)
  {
    var args :- ArgsWheel(f.args, true);
    Ok(Model(f.id, f.varName, f.cls, args))
  }

  /** `_for_unit`: the unit's source module goes into `u`. */
  function ForUnit(f: Feed): (r: Result<Entity, Fault>)
    ensures r.Ok? <==> ArgsWheel(f.args, false).Ok?
    ensures r.Ok? ==> r.value == Unit(f.id, f.unitType, f.varName, f.cls, ArgsWheel(f.args, false).value)
  {
    var args :- ArgsWheel(f.args, false);
    Ok(Unit(f.id, f.unitType, f.varName, f.cls, args))
  }

  /** The tags `_save` writes. */
  predicate Saved(tag: string)
  {
    tag in {"layer", "model", "unit", "ph", "note"}
  }

  /** The element for one record of a saved tag. */
  function ForFeed(f: Feed): (r: Result<Entity, Fault>)
    requires Saved(f.tag)
    ensures r.Ok? ==> TagName(r.value) == f.tag && r.value.id == f.id
  {
    match f.tag
    case "layer" => ForLayer(f)
    case "model" => ForModel(f)
    case "unit" => ForUnit(f)
    case "ph" => Ok(Ph(f.id, f.varName))
    case _ => Ok(Note(f.id, f.content))
  }

  /** The records `_save` turns into elements, in order. */
  function SavedFeeds(feeds: seq<Feed>): (r: seq<Feed>)
    ensures forall f :: f in r <==> f in feeds && Saved(f.tag)
    ensures |r| <= |feeds|
  {
    if |feeds| == 0 then []
    else (if Saved(feeds[0].tag) then [feeds[0]] else []) + SavedFeeds(feeds[1..])
  }

  /** `_save()`: one element per record with a saved tag, in record order;
      a record with any other tag is skipped. The root has no name. */
  function Save(feeds: seq<Feed>): (r: Result<Document, Fault>)
    ensures r.Ok? ==> r.value.name.None? && |r.value.elements| == |SavedFeeds(feeds)|
    ensures r.Ok? ==> forall k :: 0 <= k < |r.value.elements| ==>
      TagName(r.value.elements[k]) == SavedFeeds(feeds)[k].tag &&
      r.value.elements[k].id == SavedFeeds(feeds)[k].id
  {
    var es :- SaveAll(SavedFeeds(feeds));
    Ok(Document(None, es))
  }

  function SaveAll(feeds: seq<Feed>): (r: Result<seq<Entity>, Fault>)
    requires forall f :: f in feeds ==> Saved(f.tag)
    ensures r.Ok? ==> (|r.value| == |feeds| &&
      forall k :: 0 <= k < |feeds| ==> ForFeed(feeds[k]).Ok? && r.value[k] == ForFeed(feeds[k]).value)
  {
    if |feeds| == 0 then Ok([])
    else
      var e :- ForFeed(feeds[0]);
      var rest :- SaveAll(feeds[1..]);
      Ok([e] + rest)
  }

  /** Every text the saver writes for an ordinary argument is non-empty, so
      the compiler's zip of names, types and texts stays aligned, and it
      stops at the required-argument check exactly when some argument was
      left empty (or holds the mark itself), whatever the errors module. */
  lemma EmptyArgumentIsRequired(declared: seq<ErrorClass>, f: Feed)
    requires ForLayer(f).Ok?
    ensures GetArgs(Current(declared), ForLayer(f).value).Err? <==>
      exists i :: 0 <= i < |f.args| && (!Truthy(f.args[i].value) || f.args[i].value == Str(RequiredMark))
  {
    var e := ForLayer(f).value;
    assert ArgsOf(e) == ArgsWheel(f.args, false).value;
    AlignedWhenAllTexts(e);
    if GetArgs(Current(declared), e).Err? {
      var j :| 0 <= j < |Aligned(e)| && Aligned(e)[j].text == RequiredMark;
      assert ArgText(f.args[j], false).value == RequiredMark;
    }
    if exists i :: 0 <= i < |f.args| && (!Truthy(f.args[i].value) || f.args[i].value == Str(RequiredMark)) {
      var i :| 0 <= i < |f.args| && (!Truthy(f.args[i].value) || f.args[i].value == Str(RequiredMark));
      assert Aligned(e)[i].text == RequiredMark;
    }
  }
}

/** The older saver (parser/saver.py): the root is named `YOUR NAME`, no
    coordinates and no notes are written, `seq2str` knows only `null`, and
    argument values are written as they are. */
module LegacySaver {
  import opened Wrappers
  import opened PyStr
  import opened Errors
  import opened Doc
  import opened Compiler
  import opened Saver

  const RootName := "YOUR NAME"

  /** The older `seq2str`: it never writes `!REQ`. */
  function LegacySeq2Str(xs: seq<string>): (r: string)
    ensures r == Seq2Str(xs, false)
  {
    if |xs| > 0 then Join(xs, ";") else NullText
  }

  /** The older argument text: `inputs`/`outputs` of a model go through
      `seq2str`, anything else is written as it is, `None` as no text. */
  function LegacyArgText(a: FeedArg, io: bool): (r: Result<string, Fault>)
    ensures io && a.name in {"inputs", "outputs"} ==> r.Ok?
    ensures !(io && a.name in {"inputs", "outputs"}) ==>
      (r.Ok? <==> !a.value.List?) && (r.Ok? ==> r.value == Show(a.value) || a.value.NoneValue?)
    ensures r.Ok? && !(io && a.name in {"inputs", "outputs"}) ==> (r.value == "" <==> !Truthy(a.value))
  {
    if io && a.name in {"inputs", "outputs"} then
      if Truthy(a.value) then Ok(LegacySeq2Str(Iterate(a.value).value)) else Ok(NullText)
    else match a.value
      case NoneValue => Ok("")
      case Str(s) => Ok(s)
      case List(_) => Err(TypeError("element text must be a string"))
  }

  /** The older `_args_wheel`. */
  function LegacyArgsWheel(args: seq<FeedArg>, io: bool): (r: Result<seq<Arg>, Fault>)
    ensures r.Ok? <==> forall i :: 0 <= i < |args| ==> LegacyArgText(args[i], io).Ok?
    ensures r.Ok? ==> (|r.value| == |args| &&
      forall i :: 0 <= i < |args| ==>
        r.value[i] == Arg(args[i].name, LegacyArgText(args[i], io).value, args[i].dtype))
  {
    if |args| == 0 then Ok([])
    else
      match LegacyArgText(args[0], io)
      case Err(e) => Err(e)
      case Ok(t) =>
        match LegacyArgsWheel(args[1..], io)
        case Err(e) => Err(e)
        case Ok(rest) => Ok([Arg(args[0].name, t, args[0].dtype)] + rest)
  }

  /** The older element for one record; notes are not written. */
  function LegacyForFeed(f: Feed): (r: Result<Entity, Fault>)
    requires f.tag in {"layer", "model", "unit", "ph"}
    ensures r.Ok? ==> TagName(r.value) == f.tag && r.value.id == f.id
    ensures r.Ok? && f.tag == "layer" ==> (r.value.head <==> f.cls == "Input")
  {
    match f.tag
    case "layer" =>
      var args :- LegacyArgsWheel(f.args, false);
      Ok(Layer(f.id, f.cls == "Input", f.varName, f.cls, args, f.mode,
               LegacySeq2Str(f.input), LegacySeq2Str(f.output)))
    case "model" =>
      var args :- LegacyArgsWheel(f.args, true);
      Ok(Model(f.id, f.varName, f.cls, args))
    case "unit" =>
      var args :- LegacyArgsWheel(f.args, false);
      Ok(Unit(f.id, f.unitType, f.varName, f.cls, args))
    case _ => Ok(Ph(f.id, f.varName))
  }

  function LegacySaveAll(feeds: seq<Feed>): (r: Result<seq<Entity>, Fault>)
    ensures r.Ok? ==> |r.value| <= |feeds|
    ensures r.Ok? ==> forall k :: 0 <= k < |r.value| ==> !r.value[k].Note?
  {
    if |feeds| == 0 then Ok([])
    else if feeds[0].tag in {"layer", "model", "unit", "ph"} then
      var e :- LegacyForFeed(feeds[0]);
      var rest :- LegacySaveAll(feeds[1..]);
      Ok([e] + rest)
    else LegacySaveAll(feeds[1..])
  }

  /** The older `_save()`: the root is named `YOUR NAME`, and a note never
      becomes an element. */
  function LegacySave(feeds: seq<Feed>): (r: Result<Document, Fault>)
    ensures r.Ok? ==> r.value.name == Some(RootName)
    ensures r.Ok? ==> forall k :: 0 <= k < |r.value.elements| ==> !r.value.elements[k].Note?
  {
    var es :- LegacySaveAll(feeds);
    Ok(Document(Some(RootName), es))
  }

  /** An argument left empty is written with no text by the older saver,
      and the zip in `get_args_by_elm` then gives the next argument's text
      to the empty one's name: `units` left empty beside `activation`
      `relu` is read as `units=relu`. The newer saver writes `!REQ`. */
  lemma EmptyArgumentShiftsAsWritten()
    ensures var args := [FeedArg("units", NoneValue, "num"), FeedArg("activation", Str("relu"), "str")];
      var e := Layer("1", false, "y", "Dense", LegacyArgsWheel(args, false).value, "IO", "0", "2");
      LegacyArgsWheel(args, false).Ok? && Aligned(e) == [Triple("units", "num", "relu")]
  {
    var args := [FeedArg("units", NoneValue, "num"), FeedArg("activation", Str("relu"), "str")];
    var written := [Arg("units", "", "num"), Arg("activation", "relu", "str")];
    assert LegacyArgText(args[0], false) == Ok("");
    assert LegacyArgText(args[1], false) == Ok("relu");
    var r := LegacyArgsWheel(args, false);
    assert r.Ok?;
    assert r.value[0] == written[0] && r.value[1] == written[1];
    assert r.value == written;
    assert Texts(written[1..]) == ["relu"];
    assert Texts(written) == ["relu"];
  }

  /** The newer saver keeps the two arguments apart and marks the empty
      one. */
  lemma EmptyArgumentMarked()
    ensures var args := [FeedArg("units", NoneValue, "num"), FeedArg("activation", Str("relu"), "str")];
      var e := Layer("1", false, "y", "Dense", ArgsWheel(args, false).value, "IO", "0", "2");
      ArgsWheel(args, false).Ok? &&
      Aligned(e) == [Triple("units", "num", RequiredMark), Triple("activation", "str", "relu")]
  {
    var args := [FeedArg("units", NoneValue, "num"), FeedArg("activation", Str("relu"), "str")];
    var written := [Arg("units", RequiredMark, "num"), Arg("activation", "relu", "str")];
    assert ArgText(args[0], false) == Ok(RequiredMark);
    assert ArgText(args[1], false) == Ok("relu");
    var r := ArgsWheel(args, false);
    assert r.Ok?;
    assert r.value[0] == written[0] && r.value[1] == written[1];
    assert r.value == written;
    assert Texts(written[1..]) == ["relu"];
    assert Texts(written) == [RequiredMark, "relu"];
  }
}

=== FILE: scene.dfy ===
/** editor/wrapper/wrap_scene.py: the editor scene's bookkeeping of nodes
    and edges. It covers the rules that decide whether a dragged edge may be
    stored (`check_edge`), the folding of direct edges into the nodes'
    input and output lists when the scene is saved (`serialize`), and
    adding and removing nodes. Node and edge objects are identified by
    their ids; the Qt items are represented by the attributes the code
    reads. */
module Scene {
  import opened Wrappers
  import opened OrderedMaps
  import opened Counter

  /** `EDGE_DIRECT` (an input/output connection) and `EDGE_CURVES` (a
      reference from an argument). */
  datatype EdgeKind = Direct | Curve

  /** A node item: `gr_name` (its class), `gr_type`, `gr_sort`, and the
      two flags `as_io` and `as_arg`. */
  datatype Node = Node(grName: string, grType: string, grSort: string, asIo: bool, asArg: bool)

  datatype Edge = Edge(kind: EdgeKind, start: string, end: string)

  /** `nodes` by id, `edges` by edge id in insertion order, and the
      per-class node counter. */
  datatype Scene = Scene(nodes: map<string, Node>, edges: OMap<Edge>, counter: Counts)

  /** Some stored edge runs from `a` to `b`. */
  predicate Joined(edges: OMap<Edge>, a: string, b: string)
  {
    exists i :: 0 <= i < |edges| && edges[i].1.start == a && edges[i].1.end == b
  }

  function ClearArg(s: Scene, id: string): (r: Scene)
    requires id in s.nodes
  {
    s.(nodes := s.nodes[id := s.nodes[id].(asArg := false)])
  }

  function ClearIo(s: Scene, id: string): (r: Scene)
    requires id in s.nodes
  {
    s.(nodes := s.nodes[id := s.nodes[id].(asIo := false)])
  }

  // ---------------------------------------------------------------------------
  // check_edge
  // ---------------------------------------------------------------------------

  /** `check_edge(edge, edge_type)` for an edge from node `start` to node
      `end` that is not stored yet: -1 (invalid), 0 (valid but a repeat,
      not displayed) or 1 (valid), with the flags it changes on the two
      nodes. */
  function CheckEdge(s: Scene, start: string, end: string, kind: EdgeKind): (r: (int, Scene))
    requires start in s.nodes && end in s.nodes
    ensures r.0 in {-1, 0, 1}
    ensures r.1.edges == s.edges && r.1.counter == s.counter && r.1.nodes.Keys == s.nodes.Keys
  {
    match kind
    case Direct =>
      if s.nodes[end].grName == "Input" then (-1, s)
      else if !s.nodes[start].asIo || !s.nodes[end].asIo then (-1, s)
      else if s.nodes[end].grName == "PlaceHolder" || s.nodes[start].grName == "PlaceHolder"
        || s.nodes[end].grType == "Units" || s.nodes[start].grType == "Units" then (-1, s)
      else if s.nodes[start].grName == "Model" then (-1, s)
      else if Joined(s.edges, start, end) || Joined(s.edges, end, start) then (-1, s)
      else (1, ClearArg(ClearArg(s, start), end))
    case Curve =>
      if s.nodes[start].grType == "Layers" && s.nodes[end].grName == "Bidirectional"
        && s.nodes[start].grSort == "Recurrent" && s.nodes[start].asArg then (1, ClearIo(s, start))
      else if s.nodes[start].grType == "Layers" && s.nodes[end].grName == "TimeDistributed"
        && s.nodes[start].asArg then (1, ClearIo(s, start))
      else if s.nodes[start].grType == "Layers" || s.nodes[end].grType != "Layers" then (-1, s)
      else if s.nodes[start].grName == "Model" || s.nodes[end].grName == "Model" then (-1, s)
      else if Joined(s.edges, start, end) then (0, s)
      else (1, s)
  }

  /** The node rules for a direct edge, one by one. */
  predicate DirectRules(a: Node, b: Node)
  {
    && b.grName != "Input"
    && a.asIo && b.asIo
    && a.grName != "PlaceHolder" && b.grName != "PlaceHolder"
    && a.grType != "Units" && b.grType != "Units"
    && a.grName != "Model"
  }

  /** A direct edge is never a repeat: it is accepted exactly when the
      node rules hold and no edge joins the two nodes either way, and then
      both nodes stop being usable as a wrapper's argument while nothing
      else changes. A rejected edge changes nothing. */
  lemma CheckDirect(s: Scene, start: string, end: string)
    requires start in s.nodes && end in s.nodes
    ensures CheckEdge(s, start, end, Direct).0 != 0
    ensures CheckEdge(s, start, end, Direct).0 == 1 <==>
      DirectRules(s.nodes[start], s.nodes[end]) && !Joined(s.edges, start, end) && !Joined(s.edges, end, start)
    ensures CheckEdge(s, start, end, Direct).0 == -1 ==> CheckEdge(s, start, end, Direct).1 == s
    ensures CheckEdge(s, start, end, Direct).0 == 1 ==>
      var t := CheckEdge(s, start, end, Direct).1;
      !t.nodes[start].asArg && !t.nodes[end].asArg
      && t.nodes[start].asIo == s.nodes[start].asIo && t.nodes[end].asIo == s.nodes[end].asIo
      && forall n :: n in s.nodes && n != start && n != end ==> t.nodes[n] == s.nodes[n]
  {
  }

  /** The two wrapper layers take a layer node as their argument: an edge
      from a `Layers` node still usable as an argument into
      `TimeDistributed`, or from a `Recurrent` one into `Bidirectional`, is
      accepted even when repeated, and the start node stops being usable
      as an input or output. */
  lemma CheckWrap(s: Scene, start: string, end: string)
    requires start in s.nodes && end in s.nodes
    requires s.nodes[start].grType == "Layers" && s.nodes[start].asArg
    requires s.nodes[end].grName == "TimeDistributed"
      || (s.nodes[end].grName == "Bidirectional" && s.nodes[start].grSort == "Recurrent")
    ensures CheckEdge(s, start, end, Curve).0 == 1
    ensures !CheckEdge(s, start, end, Curve).1.nodes[start].asIo
    ensures CheckEdge(s, start, end, Curve).1.nodes[start].asArg
  {
  }

  /** Every other curve edge needs a non-`Layers` start, a `Layers` end and
      no `Model` node; it is then valid, but only displayed the first
      time. */
  lemma CheckCurve(s: Scene, start: string, end: string)
    requires start in s.nodes && end in s.nodes
    requires s.nodes[start].grType != "Layers"
    ensures CheckEdge(s, start, end, Curve).1 == s
    ensures CheckEdge(s, start, end, Curve).0 == -1 <==>
      s.nodes[end].grType != "Layers" || s.nodes[start].grName == "Model" || s.nodes[end].grName == "Model"
    ensures CheckEdge(s, start, end, Curve).0 == 0 <==>
      s.nodes[end].grType == "Layers" && s.nodes[start].grName != "Model" && s.nodes[end].grName != "Model"
      && Joined(s.edges, start, end)
  {
  }

  /** `add_edge(edge)`. */
  function AddEdge(s: Scene, id: string, e: Edge): (r: Scene)
    ensures r.nodes == s.nodes && r.counter == s.counter
  {
    s.(edges := Put(s.edges, id, e))
  }

  /** `remove_edge(edge)`: an unknown edge is ignored. */
  function RemoveEdge(s: Scene, id: string): (r: Scene)
    ensures r.nodes == s.nodes && r.counter == s.counter
  {
    s.(edges := Remove(s.edges, id))
  }

  /** A stored edge joins its two nodes. */
  lemma AddEdgeJoins(s: Scene, id: string, e: Edge)
    requires Valid(s.edges)
    ensures Joined(AddEdge(s, id, e).edges, e.start, e.end)
  {
    PutSpec(s.edges, id, e, id);
    FindEntries(Put(s.edges, id, e));
    var i :| 0 <= i < |Keys(Put(s.edges, id, e))| && Keys(Put(s.edges, id, e))[i] == id;
    assert Put(s.edges, id, e)[i].1 == e;
  }

  /** Once a direct edge is stored, the same edge is rejected in either
      direction. */
  lemma DirectRepeatRejected(s: Scene, id: string, start: string, end: string)
    requires start in s.nodes && end in s.nodes && Valid(s.edges)
    ensures CheckEdge(AddEdge(s, id, Edge(Direct, start, end)), start, end, Direct).0 == -1
    ensures CheckEdge(AddEdge(s, id, Edge(Direct, start, end)), end, start, Direct).0 == -1
  {
    AddEdgeJoins(s, id, Edge(Direct, start, end));
  }

  /** Once a plain curve edge is stored, dragging it again gives 0. */
  lemma CurveRepeatHidden(s: Scene, id: string, start: string, end: string)
    requires start in s.nodes && end in s.nodes && Valid(s.edges)
    requires CheckEdge(s, start, end, Curve).0 == 1 && s.nodes[start].grType != "Layers"
    ensures CheckEdge(AddEdge(s, id, Edge(Curve, start, end)), start, end, Curve).0 == 0
  {
    AddEdgeJoins(s, id, Edge(Curve, start, end));
  }

  /** A layer that has become an input or output can no longer be wrapped:
      after a direct edge at a `Layers` node is accepted, every curve edge
      from it is rejected. */
  lemma IoNodeNotWrapped(s: Scene, a: string, b: string, w: string)
    requires a in s.nodes && b in s.nodes && w in s.nodes
    requires CheckEdge(s, a, b, Direct).0 == 1
    requires CheckEdge(s, a, b, Direct).1.nodes[a].grType == "Layers"
    ensures CheckEdge(CheckEdge(s, a, b, Direct).1, a, w, Curve).0 == -1
  {
  }

  /** A wrapped layer can no longer be an input or output: after it is
      accepted as a wrapper's argument, every direct edge at it is
      rejected. */
  lemma WrappedNodeNotIo(s: Scene, a: string, w: string, b: string)
    requires a in s.nodes && w in s.nodes && b in s.nodes
    requires s.nodes[a].grType == "Layers" && CheckEdge(s, a, w, Curve).0 == 1
    ensures CheckEdge(CheckEdge(s, a, w, Curve).1, a, b, Direct).0 == -1
    ensures CheckEdge(CheckEdge(s, a, w, Curve).1, b, a, Direct).0 == -1
  {
  }

  // ---------------------------------------------------------------------------
  // add_node / remove_node
  // ---------------------------------------------------------------------------

  /** `add_node(node)`: stores the node and counts its class. */
  function AddNode(s: Scene, id: string, n: Node): (r: Scene)
    ensures id in r.nodes && r.nodes[id] == n
    ensures r.edges == s.edges
    ensures Get(r.counter, n.grName) == Some(if n.grName in s.counter then s.counter[n.grName] + 1 else 1)
  {
    s.(nodes := s.nodes[id := n], counter := Update(s.counter, n.grName))
  }

  predicate Touches(e: Edge, id: string)
  {
    e.start == id || e.end == id
  }

  /** `_remove_relative_edges`: every edge at the node dropped, the rest
      kept in order. */
  function Detach(edges: OMap<Edge>, id: string): (r: OMap<Edge>)
    ensures forall i :: 0 <= i < |r| ==> !Touches(r[i].1, id)
    ensures forall i :: 0 <= i < |r| ==> r[i] in edges
  {
    if |edges| == 0 then []
    else if Touches(edges[0].1, id) then Detach(edges[1..], id)
    else [edges[0]] + Detach(edges[1..], id)
  }

  /** `remove_node(node)`: an unknown node is ignored (KeyError caught
      before any edge is touched). The counter is left as it was. */
  function RemoveNode(s: Scene, id: string): (r: Scene)
    ensures id !in r.nodes
    ensures r.counter == s.counter
    ensures id !in s.nodes ==> r == s
    ensures id in s.nodes ==> forall i :: 0 <= i < |r.edges| ==> !Touches(r.edges[i].1, id)
  {
    if id !in s.nodes then s
    else s.(nodes := s.nodes - {id}, edges := Detach(s.edges, id))
  }

  /** Detaching keeps every edge that does not touch the node. */
  lemma {:induction false} DetachKeeps(edges: OMap<Edge>, id: string, i: nat)
    requires i < |edges| && !Touches(edges[i].1, id)
    ensures edges[i] in Detach(edges, id)
    decreases |edges|
  {
    if i > 0 {
      DetachKeeps(edges[1..], id, i - 1);
      assert edges[1..][i - 1] == edges[i];
    }
  }

  /** Detaching a node no edge touches changes nothing. */
  lemma {:induction false} DetachNone(edges: OMap<Edge>, id: string)
    requires forall i :: 0 <= i < |edges| ==> !Touches(edges[i].1, id)
    ensures Detach(edges, id) == edges
    decreases |edges|
  {
    if |edges| > 0 {
      DetachNone(edges[1..], id);
      assert [edges[0]] + edges[1..] == edges;
    }
  }

  /** Removing a node keeps exactly the other nodes and the edges that do
      not touch it. */
  lemma RemoveNodeSpec(s: Scene, id: string, e: (string, Edge))
    requires id in s.nodes
    ensures RemoveNode(s, id).nodes.Keys == s.nodes.Keys - {id}
    ensures e in RemoveNode(s, id).edges <==> e in s.edges && !Touches(e.1, id)
  {
    if e in s.edges && !Touches(e.1, id) {
      var i :| 0 <= i < |s.edges| && s.edges[i] == e;
      DetachKeeps(s.edges, id, i);
    }
  }

  /** Adding a new node without edges and removing it again restores the
      nodes and edges, but its class stays counted. */
  lemma RemoveNodeAdd(s: Scene, id: string, n: Node)
    requires id !in s.nodes
    requires forall i :: 0 <= i < |s.edges| ==> !Touches(s.edges[i].1, id)
    ensures RemoveNode(AddNode(s, id, n), id) == s.(counter := Update(s.counter, n.grName))
  {
    DetachNone(s.edges, id);
    assert s.nodes[id := n] - {id} == s.nodes;
  }

  // ---------------------------------------------------------------------------
  // serialize: folding direct edges into the node records
  // ---------------------------------------------------------------------------

  /** The part of a serialized node record the folding reads and writes. */
  datatype Rec = Rec(tag: string, input: seq<string>, output: seq<string>)

  /** One edge of the folding loop. Only a direct edge counts; a
      layer-to-layer edge is appended to the start's outputs and the end's
      inputs, a layer-to-model edge to the start's outputs only. `None`
      where a direct edge names a node without a record (KeyError). */
  function FoldEdge(recs: map<string, Rec>, e: Edge): (r: Option<map<string, Rec>>)
  {
    if e.kind != Direct then Some(recs)
    else if e.start !in recs || e.end !in recs then None
    else if recs[e.start].tag != "layer" then Some(recs)
    else if recs[e.end].tag == "layer" then
      Some(recs[e.start := recs[e.start].(output := recs[e.start].output + [e.end])]
               [e.end := recs[e.start := recs[e.start].(output := recs[e.start].output + [e.end])][e.end]
                           .(input := recs[e.end].input + [e.start])])
    else if recs[e.end].tag == "model" then
      Some(recs[e.start := recs[e.start].(output := recs[e.start].output + [e.end])])
    else Some(recs)
  }

  /** The loop over the edges, in order. */
  function FoldEdges(recs: map<string, Rec>, es: seq<Edge>): Option<map<string, Rec>>
  {
    if |es| == 0 then Some(recs)
    else
      var before :- FoldEdges(recs, es[..|es| - 1]);
      FoldEdge(before, es[|es| - 1])
  }

  /** The edges of a scene, in insertion order. */
  function Values(edges: OMap<Edge>): (r: seq<Edge>)
    ensures |r| == |edges|
    ensures forall i :: 0 <= i < |r| ==> r[i] == edges[i].1
  {
    if |edges| == 0 then [] else [edges[0].1] + Values(edges[1..])
  }

  /** `serialize()`, given the node records. */
  function Serialize(recs: map<string, Rec>, edges: OMap<Edge>): Option<map<string, Rec>>
  {
    FoldEdges(recs, Values(edges))
  }

  /** The tags the folding reads, by id. */
  function Tag(recs: map<string, Rec>, id: string): string
  {
    if id in recs then recs[id].tag else ""
  }

  /** The outputs the folding gives `x`: the end of every direct edge
      from `x` that joins a layer to a layer or a model, in edge order. */
  function OutputsOf(recs: map<string, Rec>, es: seq<Edge>, x: string): seq<string>
  {
    if |es| == 0 then []
    else
      var e := es[|es| - 1];
      OutputsOf(recs, es[..|es| - 1], x)
      + (if e.kind == Direct && e.start == x && Tag(recs, x) == "layer"
           && (Tag(recs, e.end) == "layer" || Tag(recs, e.end) == "model") then [e.end] else [])
  }

  /** The inputs the folding gives `x`: the start of every direct edge
      into `x` that joins a layer to a layer, in edge order. */
  function InputsOf(recs: map<string, Rec>, es: seq<Edge>, x: string): seq<string>
  {
    if |es| == 0 then []
    else
      var e := es[|es| - 1];
      InputsOf(recs, es[..|es| - 1], x)
      + (if e.kind == Direct && e.end == x && Tag(recs, x) == "layer" && Tag(recs, e.start) == "layer"
        then [e.start] else [])
  }

  /** Every direct edge names two nodes that have records. */
  predicate Closed(recs: map<string, Rec>, es: seq<Edge>)
  {
    forall i :: 0 <= i < |es| && es[i].kind == Direct ==> es[i].start in recs && es[i].end in recs
  }

  /** Folding one edge keeps the ids and the tags, and extends the lists
      of the edge's nodes as the reference definitions say. */
  lemma FoldEdgeSpec(recs: map<string, Rec>, e: Edge, x: string)
    requires e.kind == Direct ==> e.start in recs && e.end in recs
    ensures FoldEdge(recs, e).Some?
    ensures FoldEdge(recs, e).value.Keys == recs.Keys
    ensures forall y :: y in recs ==> FoldEdge(recs, e).value[y].tag == recs[y].tag
    ensures x in recs ==>
              FoldEdge(recs, e).value[x].output == recs[x].output
                + (if e.kind == Direct && e.start == x && Tag(recs, x) == "layer"
                     && (Tag(recs, e.end) == "layer" || Tag(recs, e.end) == "model") then [e.end] else [])
    ensures x in recs ==>
              FoldEdge(recs, e).value[x].input == recs[x].input
                + (if e.kind == Direct && e.end == x && Tag(recs, x) == "layer" && Tag(recs, e.start) == "layer"
                   then [e.start] else [])
  {
  }

  /** The tags the folding reads do not change along the way. */
  lemma {:induction false} FoldEdgesTags(recs: map<string, Rec>, es: seq<Edge>)
    requires Closed(recs, es)
    ensures FoldEdges(recs, es).Some?
    ensures FoldEdges(recs, es).value.Keys == recs.Keys
    ensures forall y :: y in recs ==> FoldEdges(recs, es).value[y].tag == recs[y].tag
    decreases |es|
  {
    if |es| > 0 {
      var n := |es| - 1;
      assert Closed(recs, es[..n]);
      FoldEdgesTags(recs, es[..n]);
      FoldEdgeSpec(FoldEdges(recs, es[..n]).value, es[n], "");
    }
  }

  /** Saving a scene whose direct edges all name recorded nodes gives each
      node its recorded lists extended by its outputs and inputs from the
      reference definitions, in edge order; curve edges add nothing. */
  lemma {:induction false} FoldEdgesLists(recs: map<string, Rec>, es: seq<Edge>, x: string)
    requires Closed(recs, es) && x in recs
    ensures FoldEdges(recs, es).Some? && FoldEdges(recs, es).value.Keys == recs.Keys
    ensures FoldEdges(recs, es).value[x].output == recs[x].output + OutputsOf(recs, es, x)
    ensures FoldEdges(recs, es).value[x].input == recs[x].input + InputsOf(recs, es, x)
    decreases |es|
  {
    FoldEdgesTags(recs, es);
    if |es| > 0 {
      var n := |es| - 1;
      assert Closed(recs, es[..n]);
      FoldEdgesLists(recs, es[..n], x);
      FoldEdgesTags(recs, es[..n]);
      var before := FoldEdges(recs, es[..n]).value;
      FoldEdgeSpec(before, es[n], x);
      assert Tag(before, x) == Tag(recs, x);
      assert Tag(before, es[n].end) == Tag(recs, es[n].end);
      assert Tag(before, es[n].start) == Tag(recs, es[n].start);
    }
  }

  /** Saving fails exactly when some direct edge names a node without a
      record. */
  lemma {:induction false} FoldEdgesFails(recs: map<string, Rec>, es: seq<Edge>)
    ensures FoldEdges(recs, es).None? <==> !Closed(recs, es)
    decreases |es|
  {
    if Closed(recs, es) {
      FoldEdgesTags(recs, es);
    } else {
      var i :| 0 <= i < |es| && es[i].kind == Direct && !(es[i].start in recs && es[i].end in recs);
      FoldEdgesFailsAt(recs, es, i);
    }
  }

  /** The folding fails at the first direct edge that names a node without
      a record, and stays failed. */
  lemma {:induction false} FoldEdgesFailsAt(recs: map<string, Rec>, es: seq<Edge>, i: nat)
    requires i < |es| && es[i].kind == Direct && !(es[i].start in recs && es[i].end in recs)
    ensures FoldEdges(recs, es).None?
    decreases |es|
  {
    var n := |es| - 1;
    if i < n {
      assert es[..n][i] == es[i];
      FoldEdgesFailsAt(recs, es[..n], i);
    } else {
      FoldEdgesKeys(recs, es[..n]);
    }
  }

  /** The folding never adds or drops a record. */
  lemma {:induction false} FoldEdgesKeys(recs: map<string, Rec>, es: seq<Edge>)
    ensures FoldEdges(recs, es).Some? ==> FoldEdges(recs, es).value.Keys == recs.Keys
    decreases |es|
  {
    if |es| > 0 {
      FoldEdgesKeys(recs, es[..|es| - 1]);
    }
  }

  /** The same for a scene's stored edges. */
  lemma SerializeLists(recs: map<string, Rec>, edges: OMap<Edge>, x: string)
    requires Closed(recs, Values(edges)) && x in recs
    ensures Serialize(recs, edges).Some? && Serialize(recs, edges).value.Keys == recs.Keys
    ensures Serialize(recs, edges).value[x].output == recs[x].output + OutputsOf(recs, Values(edges), x)
    ensures Serialize(recs, edges).value[x].input == recs[x].input + InputsOf(recs, Values(edges), x)
  {
    FoldEdgesLists(recs, Values(edges), x);
  }
}

=== FILE: semaphores.dfy ===
/** editor/component/semaphores.py: the bookkeeping a node keeps about its
    neighbours. A model node keeps its inputs and outputs in two ordered
    dictionaries (`ModelIOSemaphore`); a referenced node keeps, per
    referring node, the argument items that refer to it
    (`ReferenceBySemaphore`). Qt items are represented by what the code
    reads from them: an item's identity and its value text. */
module Semaphores {
  import opened Wrappers
  import opened PyStr
  import opened OrderedMaps

  // ---------------------------------------------------------------------------
  // ModelIOSemaphore
  // ---------------------------------------------------------------------------

  /** `_inputs` and `_outputs`, each from node id to that node's var-name
      item. */
  datatype IOSemaphore<V> = IOSemaphore(inputs: OMap<V>, outputs: OMap<V>)

  predicate IOValid<V>(s: IOSemaphore<V>)
  {
    Valid(s.inputs) && Valid(s.outputs)
  }

  /** `add((node_id, sign, item))`: a sign other than `i` or `o` fails its
      assertion (`None`). */
  function IOAdd<V>(s: IOSemaphore<V>, nodeId: string, sign: string, item: V): (r: Option<IOSemaphore<V>>)
    ensures r.Some? <==> sign == "i" || sign == "o"
    ensures r.Some? && sign == "i" ==> r.value.outputs == s.outputs
    ensures r.Some? && sign == "o" ==> r.value.inputs == s.inputs
  {
    if sign != "i" && sign != "o" then None
    else if sign == "i" then Some(s.(inputs := Put(s.inputs, nodeId, item)))
    else Some(s.(outputs := Put(s.outputs, nodeId, item)))
  }

  /** `popup(node_id)`: from the inputs when there, otherwise from the
      outputs. */
  function IOPopup<V>(s: IOSemaphore<V>, nodeId: string): IOSemaphore<V>
  {
    if Find(s.inputs, nodeId).Some? then s.(inputs := Remove(s.inputs, nodeId))
    else if Find(s.outputs, nodeId).Some? then s.(outputs := Remove(s.outputs, nodeId))
    else s
  }

  /** `order(order_key, io_type)`: the chosen side becomes the entries
      under `OrderedDict.fromkeys(order_key)`, in that order. `None` for a
      type other than `i`/`o` (assertion) or a key not on that side
      (KeyError). */
  function IOOrder<V>(s: IOSemaphore<V>, orderKey: seq<string>, ioType: string): (r: Option<IOSemaphore<V>>)
    ensures r.Some? ==> ioType == "i" || ioType == "o"
    ensures r.Some? && ioType == "i" ==> r.value.outputs == s.outputs && Keys(r.value.inputs) == Dedup(orderKey)
    ensures r.Some? && ioType == "o" ==> r.value.inputs == s.inputs && Keys(r.value.outputs) == Dedup(orderKey)
  {
    if ioType != "i" && ioType != "o" then None
    else if ioType == "i" then
      var side :- Pick(s.inputs, Dedup(orderKey));
      Some(s.(inputs := side))
    else
      var side :- Pick(s.outputs, Dedup(orderKey));
      Some(s.(outputs := side))
  }

  /** Adding stores the item under the node on the chosen side, keeps the
      node's place when it was there and appends it otherwise, and leaves
      every other node's item. */
  lemma IOAddSpec<V>(s: IOSemaphore<V>, nodeId: string, item: V, x: string)
    requires IOValid(s)
    ensures IOValid(IOAdd(s, nodeId, "i", item).value) && IOValid(IOAdd(s, nodeId, "o", item).value)
    ensures Find(IOAdd(s, nodeId, "i", item).value.inputs, x) == if x == nodeId then Some(item) else Find(s.inputs, x)
    ensures Find(IOAdd(s, nodeId, "o", item).value.outputs, x) == if x == nodeId then Some(item) else Find(s.outputs, x)
    ensures Keys(IOAdd(s, nodeId, "i", item).value.inputs)
      == if nodeId in Keys(s.inputs) then Keys(s.inputs) else Keys(s.inputs) + [nodeId]
    ensures Keys(IOAdd(s, nodeId, "o", item).value.outputs)
      == if nodeId in Keys(s.outputs) then Keys(s.outputs) else Keys(s.outputs) + [nodeId]
  {
    var i, o := IOAdd(s, nodeId, "i", item).value, IOAdd(s, nodeId, "o", item).value;
    assert i.inputs == Put(s.inputs, nodeId, item) && i.outputs == s.outputs;
    assert o.outputs == Put(s.outputs, nodeId, item) && o.inputs == s.inputs;
    PutSpec(s.inputs, nodeId, item, x);
    PutSpec(s.outputs, nodeId, item, x);
  }

  /** Popping removes the node from the inputs when it is there (the
      outputs keep it), otherwise from the outputs; an unknown node changes
      nothing. */
  lemma IOPopupSpec<V>(s: IOSemaphore<V>, nodeId: string, x: string)
    requires IOValid(s)
    ensures IOValid(IOPopup(s, nodeId))
    ensures nodeId in Keys(s.inputs) ==>
      IOPopup(s, nodeId).outputs == s.outputs
      && Find(IOPopup(s, nodeId).inputs, x) == if x == nodeId then None else Find(s.inputs, x)
    ensures nodeId !in Keys(s.inputs) ==>
      IOPopup(s, nodeId).inputs == s.inputs
      && Find(IOPopup(s, nodeId).outputs, x) == if x == nodeId then None else Find(s.outputs, x)
    ensures nodeId !in Keys(s.inputs) && nodeId !in Keys(s.outputs) ==> IOPopup(s, nodeId) == s
  {
    RemoveSpec(s.inputs, nodeId, x);
    RemoveSpec(s.outputs, nodeId, x);
  }

  /** Popping a node just added on either side undoes the add, provided it
      was on neither side before. */
  lemma IOPopupAdd<V>(s: IOSemaphore<V>, nodeId: string, sign: string, item: V)
    requires sign == "i" || sign == "o"
    requires nodeId !in Keys(s.inputs) && nodeId !in Keys(s.outputs)
    ensures IOPopup(IOAdd(s, nodeId, sign, item).value, nodeId) == s
  {
    RemovePut(s.inputs, nodeId, item);
    RemovePut(s.outputs, nodeId, item);
    if sign == "i" {
      assert Keys(s.inputs + [(nodeId, item)])[|s.inputs|] == nodeId;
    } else {
      assert Keys(s.outputs + [(nodeId, item)])[|s.outputs|] == nodeId;
      assert Find(s.inputs, nodeId).None?;
    }
  }

  /** Ordering succeeds exactly for a known type and keys all on that
      side, and keeps each node's item. */
  lemma IOOrderSpec<V>(s: IOSemaphore<V>, orderKey: seq<string>, x: string)
    ensures IOOrder(s, orderKey, "i").Some? <==> forall i :: 0 <= i < |orderKey| ==> orderKey[i] in Keys(s.inputs)
    ensures IOOrder(s, orderKey, "o").Some? <==> forall i :: 0 <= i < |orderKey| ==> orderKey[i] in Keys(s.outputs)
    ensures IOOrder(s, orderKey, "i").Some? && x in orderKey ==> Find(IOOrder(s, orderKey, "i").value.inputs, x) == Find(s.inputs, x)
    ensures IOOrder(s, orderKey, "o").Some? && x in orderKey ==> Find(IOOrder(s, orderKey, "o").value.outputs, x) == Find(s.outputs, x)
  {
    PickDedup(s.inputs, orderKey, x);
    PickDedup(s.outputs, orderKey, x);
  }

  /** Ordering a side by its current keys changes nothing. */
  lemma IOOrderSame<V>(s: IOSemaphore<V>)
    requires IOValid(s)
    ensures IOOrder(s, Keys(s.inputs), "i") == Some(s)
    ensures IOOrder(s, Keys(s.outputs), "o") == Some(s)
  {
    DedupIntoDistinct([], Keys(s.inputs));
    DedupIntoDistinct([], Keys(s.outputs));
    assert [] + Keys(s.inputs) == Keys(s.inputs);
    assert [] + Keys(s.outputs) == Keys(s.outputs);
    PickAll(s.inputs);
    PickAll(s.outputs);
  }

  // ---------------------------------------------------------------------------
  // ReferenceBySemaphore
  // ---------------------------------------------------------------------------

  /** `_ref_by_dict` from a referring node to its items (item identity to
      the item's value text), `_ref_by_vn_dict` from a referring node to
      the identity of its var-name item (the live editor field, not its
      text), and `update_flag`. */
  datatype RefBy = RefBy(refBy: map<string, OMap<string>>, vnItems: map<string, string>, updateFlag: bool)

  /** What the operations keep: the two dictionaries share their nodes,
      and no node is kept with no item. */
  predicate RefValid(s: RefBy)
  {
    s.refBy.Keys == s.vnItems.Keys
    && forall n :: n in s.refBy ==> |s.refBy[n]| > 0 && Valid(s.refBy[n])
  }

  /** The items registered for a node, none for an unknown one. */
  function Items(s: RefBy, nodeId: string): OMap<string>
  {
    if nodeId in s.refBy then s.refBy[nodeId] else []
  }

  /** `add((node_id, ref_item, node_vn_item))`: the var-name item is
      recorded only for a node not seen before. */
  function RefAdd(s: RefBy, nodeId: string, refId: string, refValue: string, vnItem: string): (r: RefBy)
    ensures r.updateFlag == s.updateFlag
    ensures forall n :: n != nodeId ==> Items(r, n) == Items(s, n)
    ensures r.vnItems == if nodeId in s.vnItems then s.vnItems else s.vnItems[nodeId := vnItem]
  {
    RefBy(s.refBy[nodeId := Put(Items(s, nodeId), refId, refValue)],
          if nodeId in s.vnItems then s.vnItems else s.vnItems[nodeId := vnItem],
          s.updateFlag)
  }

  /** `get_var_name(node_id)`: the text the recorded var-name item holds
      when asked, `text` giving each item's current text; `Error` for a
      node without one. */
  function VarName(s: RefBy, text: string -> string, nodeId: string): (r: string)
    ensures nodeId !in s.vnItems ==> r == "Error"
  {
    if nodeId in s.vnItems then text(s.vnItems[nodeId]) else "Error"
  }

  /** The name follows the item: once the node's var-name item is renamed,
      `get_var_name` gives the new name, whatever it gave before. */
  lemma VarNameLive(s: RefBy, text: string -> string, nodeId: string, newName: string)
    requires nodeId in s.vnItems
    ensures VarName(s, (x: string) => if x == s.vnItems[nodeId] then newName else text(x), nodeId) == newName
  {
  }

  /** `count(node_id)`: `None` for an unknown node (`len(None)` raises
      TypeError). */
  function RefCount(s: RefBy, nodeId: string): (r: Option<nat>)
    ensures r.Some? <==> nodeId in s.refBy
  {
    if nodeId in s.refBy then Some(|s.refBy[nodeId]|) else None
  }

  /** `popup(node_id, ref_id)`: removes the item `ref_id`, or the most
      recently inserted item when `ref_id` is `None`, and drops the node
      from both dictionaries once it has no item left. `None` where Python
      raises: an unknown node (AttributeError on `None`), an unknown item
      (KeyError), `popitem` on an empty dictionary, or a node without a var
      name. */
  function RefPopup(s: RefBy, nodeId: string, refId: Option<string>): (r: Option<RefBy>)
    ensures r.Some? ==> r.value.updateFlag == s.updateFlag
  {
    if nodeId !in s.refBy then None
    else
      var items := s.refBy[nodeId];
      if refId.None? && |items| == 0 then None
      else if refId.Some? && Find(items, refId.value).None? then None
      else
        var rest := if refId.None? then items[..|items| - 1] else Remove(items, refId.value);
        if |rest| == 0 then
          if nodeId !in s.vnItems then None
          else Some(RefBy(s.refBy - {nodeId}, s.vnItems - {nodeId}, s.updateFlag))
        else Some(s.(refBy := s.refBy[nodeId := rest]))
  }

  /** `update(value)`: when the flag is set, every registered item takes
      the value `@value`, except for a value that already starts with `@`
      or is empty; the flag is cleared either way. */
  function RefUpdate(s: RefBy, value: string): (r: RefBy)
    ensures !r.updateFlag
    ensures r.vnItems == s.vnItems
    ensures r.refBy.Keys == s.refBy.Keys
  {
    if !s.updateFlag then s
    else if StartsWith(value, "@") || value == "" then s.(updateFlag := false)
    else s.(refBy := map n | n in s.refBy :: SetAll(s.refBy[n], "@" + value), updateFlag := false)
  }

  /** `destroy()`: every relation dropped. */
  function RefDestroy(s: RefBy): (r: RefBy)
    ensures RefValid(r)
    ensures forall n :: RefCount(r, n).None?
  {
    RefBy(map[], map[], s.updateFlag)
  }

  /** Adding keeps the semaphore valid; the node's count grows by one for
      a new item and stays for an item already registered. */
  lemma RefAddSpec(s: RefBy, nodeId: string, refId: string, refValue: string, vnItem: string, text: string -> string)
    requires RefValid(s)
    ensures RefValid(RefAdd(s, nodeId, refId, refValue, vnItem))
    ensures RefCount(RefAdd(s, nodeId, refId, refValue, vnItem), nodeId)
      == Some(if refId in Keys(Items(s, nodeId)) then |Items(s, nodeId)| else |Items(s, nodeId)| + 1)
    ensures Find(Items(RefAdd(s, nodeId, refId, refValue, vnItem), nodeId), refId) == Some(refValue)
    ensures VarName(RefAdd(s, nodeId, refId, refValue, vnItem), text, nodeId)
      == text(if nodeId in s.vnItems then s.vnItems[nodeId] else vnItem)
  {
    PutSpec(Items(s, nodeId), refId, refValue, refId);
  }

  /** Popping keeps the semaphore valid; it removes exactly the named item
      and drops the node once it has none left. */
  lemma RefPopupSpec(s: RefBy, nodeId: string, refId: string, x: string)
    requires RefValid(s)
    requires nodeId in s.refBy && refId in Keys(s.refBy[nodeId])
    ensures RefPopup(s, nodeId, Some(refId)).Some?
    ensures RefValid(RefPopup(s, nodeId, Some(refId)).value)
    ensures |s.refBy[nodeId]| == 1 ==> RefCount(RefPopup(s, nodeId, Some(refId)).value, nodeId).None?
    ensures |s.refBy[nodeId]| > 1 ==> RefCount(RefPopup(s, nodeId, Some(refId)).value, nodeId) == Some(|s.refBy[nodeId]| - 1)
    ensures Find(Items(RefPopup(s, nodeId, Some(refId)).value, nodeId), x)
      == if x == refId then None else Find(s.refBy[nodeId], x)
  {
    RemoveSpec(s.refBy[nodeId], refId, x);
    if |Remove(s.refBy[nodeId], refId)| == 0 {
      assert Find(s.refBy[nodeId], x).Some? ==> x == refId by {
        RemoveSpec(s.refBy[nodeId], refId, x);
      }
    }
  }

  /** Popping without an item name removes the most recently inserted item. */
  lemma RefPopupLast(s: RefBy, nodeId: string)
    requires RefValid(s) && nodeId in s.refBy
    ensures RefPopup(s, nodeId, None).Some?
    ensures RefValid(RefPopup(s, nodeId, None).value)
    ensures Items(RefPopup(s, nodeId, None).value, nodeId) == s.refBy[nodeId][..|s.refBy[nodeId]| - 1]
  {
    var items := s.refBy[nodeId];
    assert Keys(items[..|items| - 1]) == Keys(items)[..|items| - 1];
  }

  /** Registering a new item and popping it again, by name or as the most
      recent one, gives back the semaphore. */
  lemma RefPopupAdd(s: RefBy, nodeId: string, refId: string, refValue: string, vnItem: string)
    requires RefValid(s)
    requires refId !in Keys(Items(s, nodeId))
    ensures RefPopup(RefAdd(s, nodeId, refId, refValue, vnItem), nodeId, Some(refId)) == Some(s)
    ensures RefPopup(RefAdd(s, nodeId, refId, refValue, vnItem), nodeId, None) == Some(s)
  {
    RemovePut(Items(s, nodeId), refId, refValue);
    PopLastPut(Items(s, nodeId), refId, refValue);
    assert Keys(Items(s, nodeId) + [(refId, refValue)])[|Items(s, nodeId)|] == refId;
    if nodeId in s.refBy {
      RefPopupAddKnown(s, nodeId, Put(Items(s, nodeId), refId, refValue), Items(s, nodeId), vnItem);
    } else {
      RefPopupAddFresh(s, nodeId, Put(Items(s, nodeId), refId, refValue), vnItem);
    }
  }

  /** The same, for a node that already has items. */
  lemma RefPopupAddKnown(s: RefBy, nodeId: string, grown: OMap<string>, rest: OMap<string>, vnItem: string)
    requires nodeId in s.refBy && nodeId in s.vnItems && rest == s.refBy[nodeId] && |rest| > 0
    ensures RefBy(s.refBy[nodeId := grown], s.vnItems, s.updateFlag).(refBy := s.refBy[nodeId := grown][nodeId := rest]) == s
  {
    assert s.refBy[nodeId := grown][nodeId := rest] == s.refBy;
  }

  /** The same, for a node seen for the first time. */
  lemma RefPopupAddFresh(s: RefBy, nodeId: string, grown: OMap<string>, vnItem: string)
    requires RefValid(s) && nodeId !in s.refBy
    ensures RefBy(s.refBy[nodeId := grown] - {nodeId}, s.vnItems[nodeId := vnItem] - {nodeId}, s.updateFlag) == s
  {
    assert s.refBy[nodeId := grown] - {nodeId} == s.refBy;
    assert s.vnItems[nodeId := vnItem] - {nodeId} == s.vnItems;
  }

  /** An update with the flag clear changes nothing; one with a value
      starting with `@` or empty changes no item. */
  lemma RefUpdateKeeps(s: RefBy, value: string)
    ensures !s.updateFlag ==> RefUpdate(s, value) == s
    ensures StartsWith(value, "@") || value == "" ==> RefUpdate(s, value).refBy == s.refBy
  {
  }

  /** An update with the flag set gives every registered item the value
      `@value`, keeps every node's items in place, and keeps the semaphore
      valid. */
  lemma RefUpdateSets(s: RefBy, value: string, nodeId: string, i: nat)
    requires s.updateFlag && !StartsWith(value, "@") && value != ""
    requires nodeId in s.refBy && i < |s.refBy[nodeId]|
    ensures Keys(RefUpdate(s, value).refBy[nodeId]) == Keys(s.refBy[nodeId])
    ensures RefUpdate(s, value).refBy[nodeId][i] == (s.refBy[nodeId][i].0, "@" + value)
    ensures RefValid(s) ==> RefValid(RefUpdate(s, value))
  {
    assert Keys(RefUpdate(s, value).refBy[nodeId])[i] == Keys(s.refBy[nodeId])[i];
  }
}

=== FILE: utils.dfy ===
/** The two free helpers of lib/utils.py: `split_args_id`, which reads a
    list of ids written as numbers and ranges, and `type_color_map`, which
    gives the arguments menu a colour and a label per data type. */
module Utils {
  import opened Wrappers
  import opened PyStr

  // ---------------------------------------------------------------------------
  // split_args_id
  // ---------------------------------------------------------------------------

  /** `list(range(lo, hi))`. */
  function Range(lo: nat, hi: nat): (r: seq<nat>)
    ensures |r| == if lo < hi then hi - lo else 0
    ensures forall k :: 0 <= k < |r| ==> r[k] == lo + k
    decreases hi - lo
  {
    if lo < hi then [lo] + Range(lo + 1, hi) else []
  }

  /** The ids one `;`-separated segment stands for: `a-b` is every id from
      `a` to `b` inclusive, anything else a single id. `None` where Python
      raises ValueError: a segment with more than one `-`, or a piece that
      is not a decimal number. */
  function Segment(seg: string): Option<seq<nat>>
  {
    if '-' in seg then Span(Split(seg, '-'))
    else match ParseDecimal(seg)
      case Some(n) => Some([n])
      case None => None
  }

  /** `start, end = seg.split('-')` followed by `range(int(start), int(end) + 1)`. */
  function Span(parts: seq<string>): Option<seq<nat>>
  {
    if |parts| != 2 then None
    else
      var start :- ParseDecimal(parts[0]);
      var end :- ParseDecimal(parts[1]);
      Some(Range(start, end + 1))
  }

  /** The ids of the segments, one after the other. */
  function Gather(segs: seq<string>): Option<seq<nat>>
  {
    if |segs| == 0 then Some([])
    else
      var head :- Segment(segs[0]);
      var tail :- Gather(segs[1..]);
      Some(head + tail)
  }

  /** `split_args_id(id_string)`. */
  function SplitArgsId(idString: string): Option<seq<nat>>
  {
    Gather(Split(idString, ';'))
  }

  /** A plain number is read as that one id. */
  lemma SegmentSingle(n: nat)
    ensures Segment(NatToDecimal(n)) == Some([n])
  {
    DecimalRoundTrip(n);
    NoMinus(NatToDecimal(n));
  }

  /** `a-b` is read as the inclusive range from `a` to `b`, which is empty
      when `a > b`. */
  lemma SegmentRange(a: nat, b: nat)
    ensures Segment(NatToDecimal(a) + "-" + NatToDecimal(b)) == Some(Range(a, b + 1))
    ensures a > b ==> Segment(NatToDecimal(a) + "-" + NatToDecimal(b)) == Some([])
  {
    RangeText(NatToDecimal(a), NatToDecimal(b));
    DecimalRoundTrip(a);
    DecimalRoundTrip(b);
    SegmentOfPair(NatToDecimal(a) + "-" + NatToDecimal(b), NatToDecimal(a), NatToDecimal(b), a, b);
  }

  /** Two numbers joined by `-` split back into the two. */
  lemma RangeText(x: string, y: string)
    requires AllDigits(x) && AllDigits(y)
    ensures Split(x + "-" + y, '-') == [x, y]
    ensures '-' in x + "-" + y
  {
    NoMinus(x);
    NoMinus(y);
    SplitSeparated(x, y, '-');
    SplitWhole(y, '-');
    assert (x + "-" + y)[|x|] == '-';
  }

  /** A text cut by `-` into two decimal numbers reads as their range. */
  lemma SegmentOfPair(t: string, x: string, y: string, a: nat, b: nat)
    requires '-' in t && Split(t, '-') == [x, y]
    requires ParseDecimal(x) == Some(a) && ParseDecimal(y) == Some(b)
    ensures Segment(t) == Some(Range(a, b + 1))
  {
    assert Split(t, '-')[0] == x && Split(t, '-')[1] == y;
    SpanPair(Split(t, '-'), a, b);
  }

  /** Two decimal pieces read as the inclusive range between them. */
  lemma SpanPair(parts: seq<string>, a: nat, b: nat)
    requires |parts| == 2
    requires ParseDecimal(parts[0]) == Some(a) && ParseDecimal(parts[1]) == Some(b)
    ensures Span(parts) == Some(Range(a, b + 1))
  {
  }

  /** Decimal digits hold no `-`. */
  lemma NoMinus(s: string)
    requires AllDigits(s)
    ensures '-' !in s
  {
    assert forall k :: 0 <= k < |s| ==> s[k] != '-';
  }

  /** A text without `-` and `;` is not a range. */
  lemma SegmentNoMinus(seg: string)
    requires '-' !in seg
    ensures Segment(seg).Some? <==> ParseDecimal(seg).Some?
  {
  }

  /** Reading two runs of segments one after the other: the ids keep the
      segments' order. */
  lemma {:induction false} GatherAppend(xs: seq<string>, ys: seq<string>)
    requires Gather(xs).Some? && Gather(ys).Some?
    ensures Gather(xs + ys) == Some(Gather(xs).value + Gather(ys).value)
    decreases |xs|
  {
    if |xs| == 0 {
      assert xs + ys == ys;
      assert Gather(xs).value + Gather(ys).value == Gather(ys).value;
    } else {
      assert (xs + ys)[1..] == xs[1..] + ys;
      assert (xs + ys)[0] == xs[0];
      assert Gather(xs[1..]).Some?;
      GatherAppend(xs[1..], ys);
      assert Segment(xs[0]).value + (Gather(xs[1..]).value + Gather(ys).value)
        == (Segment(xs[0]).value + Gather(xs[1..]).value) + Gather(ys).value;
    }
  }

  /** Joining segments with `;` and reading them back gives the segments'
      ids in order. */
  lemma SplitArgsIdJoin(segs: seq<string>)
    requires |segs| >= 1
    requires forall k :: 0 <= k < |segs| ==> ';' !in segs[k]
    ensures SplitArgsId(Join(segs, ";")) == Gather(segs)
  {
    SplitJoin(segs, ';');
  }

  /** `'1-3;5'` gives `[1, 2, 3, 5]`. */
  lemma SplitArgsIdExample(s: string)
    requires s == "1-3;5"
    ensures SplitArgsId(s) == Some([1, 2, 3, 5])
  {
    assert s == Join([s[..3], s[4..]], ";");
    SplitArgsIdJoin([s[..3], s[4..]]);
    assert s[..3] == NatToDecimal(1) + "-" + NatToDecimal(3);
    SegmentRange(1, 3);
    assert Range(1, 4) == [1, 2, 3];
    assert s[4..] == NatToDecimal(5);
    SegmentSingle(5);
    GatherSingle(s[..3]);
    GatherSingle(s[4..]);
    GatherAppend([s[..3]], [s[4..]]);
    assert [s[..3]] + [s[4..]] == [s[..3], s[4..]];
    assert [1, 2, 3] + [5] == [1, 2, 3, 5];
  }

  /** One segment reads as its own ids. */
  lemma GatherSingle(x: string)
    requires Segment(x).Some?
    ensures Gather([x]) == Segment(x)
  {
    assert [x][1..] == [];
    assert Segment(x).value + [] == Segment(x).value;
  }

  /** An empty text is one empty segment, which `int` rejects. */
  lemma SplitArgsIdEmpty()
    ensures SplitArgsId("") == None
  {
  }

  // ---------------------------------------------------------------------------
  // type_color_map
  // ---------------------------------------------------------------------------

  /** The data types the arguments menu shows as references to other
      nodes. */
  predicate IsReference(dtype: string)
  {
    IsSubstring("unit-i", dtype) || IsSubstring("unit-a", dtype)
    || IsSubstring("unit-c", dtype) || IsSubstring("unit-r", dtype)
    || dtype == "layer" || dtype == "ph"
  }

  /** `type_color_map(datatype)`: a colour and a label. */
  function TypeColorMap(dtype: string): (r: (string, string))
  {
    if dtype == "str" then ("#00BFFF", "String")
    else if IsReference(dtype) then ("#54FF9F", "Reference")
    else if dtype == "num" then ("#FF7256", "Number")
    else if dtype == "seq" then ("#FFB6C1", "Sequence")
    else if dtype == "bool" then ("#CDC9C9", "Boolean")
    else if dtype == "num;seq" then ("#FF83FA", "Num/Seq")
    else ("#000000", "Unknown")
  }

  /** The five value types the menu knows. */
  const ValueTypes: set<string> := {"str", "num", "seq", "bool", "num;seq"}

  /** None of the value types is a reference type. */
  lemma ValueTypesAreNotReferences(dtype: string)
    requires dtype in ValueTypes
    ensures !IsReference(dtype)
  {
    if dtype == "num;seq" {
      NotSubstringShort("unit-i", dtype[2..]);
      NotSubstringShort("unit-a", dtype[2..]);
      NotSubstringShort("unit-c", dtype[2..]);
      NotSubstringShort("unit-r", dtype[2..]);
      assert dtype[1..][1..] == dtype[2..];
      assert dtype[1..][1] == 'm';
    } else if dtype == "num" {
      NotSubstringLonger("unit-i", dtype);
      NotSubstringLonger("unit-a", dtype);
      NotSubstringLonger("unit-c", dtype);
      NotSubstringLonger("unit-r", dtype);
    } else {
      NotSubstringShort("unit-i", dtype);
      NotSubstringShort("unit-a", dtype);
      NotSubstringShort("unit-c", dtype);
      NotSubstringShort("unit-r", dtype);
    }
  }

  /** A pattern whose first character the text lacks never occurs in it. */
  lemma {:induction false} NotSubstringShort(sub: string, s: string)
    requires |sub| > 0
    requires forall k :: 0 <= k < |s| ==> s[k] != sub[0]
    ensures !IsSubstring(sub, s)
    decreases |s|
  {
    if |sub| <= |s| {
      assert s[..|sub|][0] != sub[0];
    }
    if |s| > 0 {
      NotSubstringShort(sub, s[1..]);
    }
  }

  /** A pattern longer than the text never occurs in it. */
  lemma {:induction false} NotSubstringLonger(sub: string, s: string)
    requires |sub| > |s|
    ensures !IsSubstring(sub, s)
    decreases |s|
  {
    if |s| > 0 {
      NotSubstringLonger(sub, s[1..]);
    }
  }

  /** The label is `Reference` exactly for the reference types. */
  lemma ReferenceLabel(dtype: string)
    ensures TypeColorMap(dtype).1 == "Reference" <==> IsReference(dtype)
  {
    if dtype == "str" {
      ValueTypesAreNotReferences(dtype);
    }
  }

  /** The label is `Unknown` exactly for a type that is neither a value type
      nor a reference type. */
  lemma UnknownLabel(dtype: string)
    ensures TypeColorMap(dtype).1 == "Unknown" <==> dtype !in ValueTypes && !IsReference(dtype)
  {
    if dtype in ValueTypes {
      ValueTypesAreNotReferences(dtype);
    }
  }

  /** Each colour belongs to one label, so the colour alone tells the
      type's kind. */
  lemma ColorDeterminesLabel(a: string, b: string)
    requires TypeColorMap(a).0 == TypeColorMap(b).0
    ensures TypeColorMap(a).1 == TypeColorMap(b).1
  {
  }

  /** The value types map to their own labels. */
  lemma ValueTypeLabels()
    ensures TypeColorMap("str") == ("#00BFFF", "String")
    ensures TypeColorMap("num") == ("#FF7256", "Number")
    ensures TypeColorMap("seq") == ("#FFB6C1", "Sequence")
    ensures TypeColorMap("bool") == ("#CDC9C9", "Boolean")
    ensures TypeColorMap("num;seq") == ("#FF83FA", "Num/Seq")
  {
    ValueTypesAreNotReferences("num");
    ValueTypesAreNotReferences("seq");
    ValueTypesAreNotReferences("bool");
    ValueTypesAreNotReferences("num;seq");
  }

  /** A reference type written into a longer name still counts. */
  lemma UnitReference(prefix: string, suffix: string)
    ensures TypeColorMap(prefix + "unit-c" + suffix) == ("#54FF9F", "Reference")
  {
    SubstringInside(prefix, "unit-c", suffix);
    assert |prefix + "unit-c" + suffix| >= 6;
  }

  /** `mid` occurs in `pre + mid + post`. */
  lemma {:induction false} SubstringInside(pre: string, mid: string, post: string)
    ensures IsSubstring(mid, pre + mid + post)
    decreases |pre|
  {
    if |pre| == 0 {
      assert pre + mid + post == mid + post;
      PrefixOfConcat(mid, post);
    } else {
      assert (pre + mid + post)[1..] == pre[1..] + mid + post;
      SubstringInside(pre[1..], mid, post);
    }
  }
}

=== FILE: wrappers.dfy ===
/** Failure-compatible Option and Result types shared by every module. */
module Wrappers {

  datatype Option<+T> = None | Some(value: T) {
    predicate IsFailure() { None? }

    function PropagateFailure<U>(): Option<U>
      requires None?
    {
      None
    }

    function Extract(): T
      requires Some?
    {
      value
    }
  }

  datatype Result<+T, +E> = Ok(value: T) | Err(error: E) {
    predicate IsFailure() { Err? }

    function PropagateFailure<U>(): Result<U, E>
      requires Err?
    {
      Err(error)
    }

    function Extract(): T
      requires Ok?
    {
      value
    }
  }
}
